=== FILE: README.md ===
# A Dafny model of the KHOJ-AI intelligence server's decision logic

KHOJ-AI is a multi-agency intelligence workbench. Analysts upload documents, scanned images and audio. The server recognises the text, extracts named entities, links each new document into an intelligence *event*, raises *alerts* when entities recur across documents or agencies, and answers questions about shared documents through a chatbot. This project models the server-side rules that decide those outcomes, as pure functions over immutable records. It proves what the code promises about them.

Modules follow the source files:

| module | models |
|---|---|
| `Overlap`, `EventLinking` | entity overlap, the 48-hour window, severity and confidence scores, the entity merge, best-match choice and the update applied when a document joins an event (`server/services/eventLinking.js`) |
| `CrossAgency` | weighted match scores, thresholds and the top-ten ranking of other agencies' events (`server/services/crossAgencyMatching.js`) |
| `AlertTriggers` | entity cross-match, geo-fence spike and risk-profile rules, de-duplication of open alerts, and the broadcast (`server/utils/alertTriggers.js`) |
| `AlertModel`, `EventModel`, `DocumentModel` | the Alert and Event schemas' enumerations, bounds and defaults, and the stored documents as the rules read them |
| `AlertRoutes`, `EventRoutes`, `Chatbot`, `History`, `TranscriptionRoute`, `Upload` | the route handlers as `(store, request) -> (reply, store')` transitions |
| `Report` | the operational report: timeline merge and labels, totals, recent uploads, top uploaders, detail snippets |
| `OcrLayout`, `EasyOcr`, `DualOcr`, `OcrProcessor`, `OcrController` | box conversions, synthetic word grids, the handwriting service, the two OCR pipelines' entity placement, and the merge of AI-suggested names |
| `AiSummary`, `EntityExtraction`, `Migration`, `Prompt` | default filling and normalisation of language-model output, the summary schema migration, and prompt precedence |
| `Wrappers`, `Strings`, `Seqs`, `Sorting`, `Json` | shared helpers: options and results, ASCII string operations, stable sorting, parsed JSON values |

Conventions:
- The database, sockets, the clock, the language models, the OCR engines and the file system are inputs to the functions.
- Collections are sequences in the order a query returns them.
- JavaScript's stable `Array.prototype.sort` and the database's `.sort().limit()` are a stable insertion sort on a real-valued key, followed by a prefix.
- Scores are exact `real`s.
- Where JavaScript semantics matter (truthiness, `||` defaults, a property read on `null` throwing, spreading a plain object), the model states them explicitly with a `Result` or an `Option`.

## Model

| member | source | states |
|---|---|---|
| PromptResolver.FirstOfAgency | server/services/promptResolver.js:13 | the agency lookup yields a template of that agency from the store, and nothing only when the store holds none |
| PromptResolver.FirstOfAgencyIsEarliest | server/services/promptResolver.js:13 | the lookup returns the earliest template of the agency |
| PromptResolver.FirstDefault | server/services/promptResolver.js:16 | the default lookup yields a template marked default, and nothing only when none is marked |
| PromptResolver.ResolvePrompt | server/services/promptResolver.js:10-18 | a non-empty override is returned verbatim; otherwise the agency's template; otherwise a non-empty text that is the built-in prompt or some default template's text |
| PromptResolver.ResolveFallsThrough | server/services/promptResolver.js:16-17 | with no override and no agency template, the first default template's non-empty text is used, and the built-in prompt comes back exactly when that text is missing or empty |
| PromptResolver.OverrideIgnoresStore | server/services/promptResolver.js:11 | a lower tier is consulted only when the override is absent: with an override, the store and agency make no difference |
| Migration.TextsOf | server/scripts/migrateAiSummary.js:26-28 | a missing entity list gives no texts; otherwise the texts of the entries, in order |
| Migration.InsightsOf | server/scripts/migrateAiSummary.js:25-29 | the insights hold the record's person, place and organization texts, in order |
| Migration.Transform | server/scripts/migrateAiSummary.js:22-31 | the executive summary falls back to `summary` and then to empty text, findings to `key_points` and then to none, takeaways carry over, and the result is in the new shape and not the old |
| Migration.MigrateOne | server/scripts/migrateAiSummary.js:15-20 | read on the stored fields (the corrected migration): a record is rewritten exactly when its summary has an old-shape key and no new-shape key; the rewritten record keeps its entities and is no longer eligible |
| Migration.MigrateAll | server/scripts/migrateAiSummary.js:12-37 | the corrected run keeps the record count, rewrites each selected eligible record and leaves every other record unchanged |
| Migration.MigrateAllCounts | server/scripts/migrateAiSummary.js:35 | in the corrected run, the reported count equals the number of eligible records |
| Migration.MigrateIdempotent | server/scripts/migrateAiSummary.js:18-20 | in the corrected run, no record is eligible afterwards, and a second run changes nothing and counts zero |
| Migration.NoneEligibleFixed | server/scripts/migrateAiSummary.js:20 | with no eligible record, a run changes nothing |
| Migration.HydratedView | server/models/Transcription.js:65-75 | the summary as a loaded document shows it keeps its executive summary and present old-shape arrays, reads the undeclared keys as missing, and is always in the old shape and never in the new |
| Migration.StrictSaved | server/models/Transcription.js:65-75 | a saved summary keeps its executive summary and loses every key the schema does not declare, so it is never in the new shape |
| Migration.MigrateOneAsWritten | server/scripts/migrateAiSummary.js:15-34 | as written, every selected record is rewritten, keeps its entities, and is saved with neither key findings nor discussion points |
| Migration.MigrateAllAsWritten | server/scripts/migrateAiSummary.js:12-37 | as written, the run keeps the record count and which records are selected |
| Migration.AsWrittenRewritesAgain | server/scripts/migrateAiSummary.js:18-20 | as written, a run counts every selected record, and a second run over its output counts all of them again |
| Migration.AsWrittenLosesFindings | server/scripts/migrateAiSummary.js:22-34 | a record with one discussion point ends with no findings and no points as written, and with the point as a finding when the stored fields are read |
| Upload.ExtensionMatches | server/middleware/uploadMiddleware.js:16-17 | on what `path.extname` returns, the case-insensitive pattern matches exactly when the part after the leading dot is mp3, wav, m4a or mp4 |
| Upload.FileFilter | server/middleware/uploadMiddleware.js:14-37 | a file is accepted exactly when its last extension is a listed audio extension and its MIME type is one of the eight allowed; a refusal's message names the MIME type |
| Upload.DoubleExtensionRefused | server/middleware/uploadMiddleware.js:17 | `x.mp3.exe` is refused even with an audio MIME type, because only the final extension counts |
| Upload.LastExtensionOnly | server/middleware/uploadMiddleware.js:17 | the extension of `x.mp3.exe` is `.exe` |
| Upload.StoredName | server/middleware/uploadMiddleware.js:10 | the stored name is longer than the client's name and ends with it |
| Upload.StoredNameRecovers | server/middleware/uploadMiddleware.js:10 | dropping everything up to the first hyphen of a stored name gives back the client's name |
| AlertModel.ParseType | server/models/Alert.js:4-8 | exactly the ten enumerated type strings are accepted, each as its own type |
| AlertModel.ParseSeverity | server/models/Alert.js:10-14 | exactly `low`, `medium`, `high` and `critical` are accepted |
| AlertModel.ParseStatus | server/models/Alert.js:53-57 | exactly `unread`, `read`, `acknowledged`, `resolved` and `dismissed` are accepted |
| AlertModel.ParseMethod | server/models/Alert.js:67-70 | a notification method is `email`, `sms` or `internal`, and each string maps to its own method |
| AlertModel.NewAlert | server/models/Alert.js:10-85 | a new alert has severity `medium`, status `unread`, no agencies, empty action text, trigger `AI` and no read, acknowledgement or notification entries |
| AlertModel.FindById | server/routes/alerts.js:60-65 | the lookup finds an alert with that id, and finds none only when no alert has it |
| EventModel.ParseStatus | server/models/Event.js:11-15 | exactly `active`, `monitoring`, `resolved` and `archived` are accepted |
| EventModel.ParseDocType | server/models/Event.js:22-25 | exactly `Document`, `OcrDocument` and `Transcription` are accepted |
| EventModel.NewEvent | server/models/Event.js:11-99 | a fresh event carries its id and title, is active, has no documents, entities, agencies or visibility, both scores at 0, no first sighting, and metadata at its defaults: no documents, no unique entities, no cross-agency flag |
| DocumentModel.FindDoc | server/routes/events.js:88-100 | a referenced document is found by id in its collection (the first with that id), and is missing only when no document has that id |
| AlertRoutes.ListAlerts | server/routes/alerts.js:11-32 | only alerts addressed to the agency or to nobody and equal on every given filter are listed, newest first, at most the limit (50 by default); a matching alert is left out only when the limit is full of alerts at least as new |
| AlertRoutes.UnreadCount | server/routes/alerts.js:39-51 | the count of visible unread alerts never exceeds the store |
| AlertRoutes.UnreadCountUpdate | server/routes/alerts.js:43-49 | replacing one alert moves the unread count by exactly the difference that alert makes |
| AlertRoutes.MarkRead | server/routes/alerts.js:74-94 | an unknown id answers 404 and changes nothing; otherwise only that alert changes, to status `read` with one more read entry for the user |
| AlertRoutes.MarkReadCount | server/routes/alerts.js:43-88 | reading a visible unread alert lowers the agency's unread count by one and reading any other alert leaves it unchanged |
| AlertRoutes.Acknowledge | server/routes/alerts.js:101-122 | an unknown id answers 404; otherwise only that alert changes, to `acknowledged` with the user and time and the action text or "" when none is given, and every other field of it is kept but the update time |
| AlertRoutes.Dismiss | server/routes/alerts.js:129-141 | an unknown id answers 404; otherwise only that alert changes, and only in its status (`dismissed`) and update time |
| AlertRoutes.UpdatesKeepIds | server/routes/alerts.js:74-146 | the three updates keep the ids of the store unique |
| AlertRoutes.Notifications | server/routes/alerts.js:157-162 | one `sent` record per listed agency, in order, with the given method and time |
| AlertRoutes.Notify | server/routes/alerts.js:148-185 | 404 for an unknown id; a missing agency list or an unknown method fails; otherwise the records are appended to that alert only, its update time becomes the call time, every other field of it is unchanged, and the count equals the number of agencies |
| AlertRoutes.CreationChannels | server/routes/alerts.js:200-206 | a new alert with agencies is announced once per agency, in order; one with none on the broadcast channel |
| AlertRoutes.Create | server/routes/alerts.js:187-208 | the stored alert is the given data except that its trigger is the user's name, or `AI` when the user has none; it is appended to the store and announced on its channels |
| AlertRoutes.Delete | server/routes/alerts.js:215-223 | 404 for an unknown id; otherwise the store is the old one with exactly the first alert of that id cut out, the others keeping their order, and with unique ids no alert with that id remains |
| EventRoutes.ParseSortBy | server/routes/events.js:26-39 | `severity`, `confidence` and `documents` select their orders, in both directions, and anything else orders by last update |
| EventRoutes.ListEvents | server/routes/events.js:12-45 | only the agency's events of the given status are listed, in descending order of the chosen key, at most the limit; a matching event is left out only when the limit is full of events ranked at least as high |
| EventRoutes.Descending | server/routes/events.js:41-43 | the filtered elements, ordered by the key and cut to the limit, miss an element only when the cut is full of elements ranked at least as high |
| EventRoutes.ActiveEvents | server/routes/events.js:52-63 | at most 20 of the agency's active or monitored events, most severe first, leaving one out only when the 20 are at least as severe |
| EventRoutes.FindAccessible | server/routes/events.js:75-204 | an event is found only when both its id matches and the agency is on the list the route consults, and missing only when no event satisfies both |
| EventRoutes.VisibilityAloneShowsTimelineOnly | server/routes/events.js:75-140 | an agency on the visibility list but not among the participants gets the timeline but not the details |
| EventRoutes.UpdateStatus | server/routes/events.js:187-218 | an unknown status is refused before any lookup, an inaccessible event answers 404, and otherwise only the status of that one event changes |
| EventRoutes.UpdateTitle | server/routes/events.js:225-247 | a missing or blank title is refused, an inaccessible event answers 404, otherwise only that event's title changes, to the trimmed text |
| EventRoutes.StoredTitleIsClean | server/routes/events.js:231-244 | a stored title is non-blank with no surrounding whitespace, and storing it again gives the same result |
| EventRoutes.RegenerateTitle | server/routes/events.js:254-272 | 404 exactly when the agency cannot reach the event; otherwise that event is retitled from its entities and nothing else changes |
| EventRoutes.ItemOf | server/routes/events.js:162-172 | a timeline entry exists exactly when the referenced document still exists, and carries its creation time, type and relevance |
| EventRoutes.TimelineOf | server/routes/events.js:146-178 | entries are oldest first and are a permutation of the entries of the referenced documents that still exist |
| EventRoutes.Surviving | server/routes/events.js:80-115 | the entries of the referenced documents that still exist, in the event's document order: the first document's entry, if it exists, followed by those of the rest |
| EventRoutes.Timeline | server/routes/events.js:132-180 | 404 exactly when the agency is not on the visibility list; otherwise the event's timeline |
| EventRoutes.Details | server/routes/events.js:70-125 | 404 exactly when the agency does not take part; otherwise that event with the entries of its referenced documents that still exist, in the event's document order |
| EventRoutes.CountWhere | server/routes/events.js:284-299 | a count never exceeds the store |
| EventRoutes.CountWhereMonotone | server/routes/events.js:284-299 | a weaker condition counts at least as many events |
| EventRoutes.CountWhereIndices | server/routes/events.js:284-299 | the count is the number of positions whose event satisfies the condition |
| EventRoutes.Summary | server/routes/events.js:279-307 | each statistic is the number of the agency's events meeting its condition: all of them, the open ones, the open ones of severity 70 or more, and those created in the last 24 hours; hence critical ≤ open ≤ total and recent ≤ total |
| EventRoutes.DebugAll | server/routes/events.js:385-403 | the agency's own events and the rest together are a permutation of the 50 newest events, at most 50 together, each list holding only events on its side |
| Overlap.LinkedTexts | server/services/eventLinking.js:40-47 | each category keeps one text per linked entity |
| Overlap.NormSet | server/services/crossAgencyMatching.js:30-39 | the normalised set has no duplicates |
| Overlap.NormSetMember | server/services/crossAgencyMatching.js:30-39 | a text is in the normalised set exactly when some entity of the category normalises to it |
| Overlap.Common | server/services/crossAgencyMatching.js:41 | the intersection holds exactly the texts on both sides, and is no longer than the first side |
| Overlap.FilterNoDups | server/services/crossAgencyMatching.js:41 | the intersection of a duplicate-free list has no duplicates |
| Overlap.CommonCardSymmetric | server/services/crossAgencyMatching.js:41-42 | both orders of intersecting two sets have the same size |
| Overlap.Tag | server/services/crossAgencyMatching.js:45-47 | one (category, text) pair per intersected text, in order |
| Overlap.TagMember | server/services/crossAgencyMatching.js:45-47 | a pair is tagged exactly when its category is the one visited and its text is intersected |
| Overlap.Tally1 | server/services/crossAgencyMatching.js:41-47 | within one category the matches never exceed the larger set, and every pair carries that category |
| Overlap.Tally1MatchedIff | server/services/crossAgencyMatching.js:30-47 | a pair is matched in one category exactly when it is that category and both normalised sets hold the text |
| Overlap.Tally1Symmetric | server/services/crossAgencyMatching.js:41-43 | swapping sides changes neither the matches nor the total of one category |
| Overlap.TallyOver | server/services/crossAgencyMatching.js:29-48 | the running matches never exceed the running total, and every pair belongs to a visited category |
| Overlap.TallyMatchedIff | server/services/crossAgencyMatching.js:29-48 | in a visited category a pair is matched exactly when both normalised sets hold the text |
| Overlap.NotTallied | server/services/crossAgencyMatching.js:24-29 | a category that is not visited contributes no pair |
| Overlap.TallySymmetric | server/services/crossAgencyMatching.js:29-48 | swapping sides changes neither the running matches nor the running total |
| Overlap.TallyIgnoresOthers | server/services/crossAgencyMatching.js:24-48 | the tally depends only on the visited categories |
| Overlap.EmptyTally | server/services/crossAgencyMatching.js:42-43 | with nothing in the visited categories the tally is empty |
| Overlap.Ratio | server/services/crossAgencyMatching.js:51 | the ratio of matches to total lies in [0, 1] and is positive exactly when some text matched |
| Overlap.EntityOverlap | server/services/crossAgencyMatching.js:23-55 | the score lies in [0, 1], is positive exactly when something matched, the pair count equals the match count, and dates are never matched |
| Overlap.OverlapScore | server/services/eventLinking.js:33-56 | the event-linking overlap lies in [0, 1] |
| Overlap.MatchedIff | server/services/crossAgencyMatching.js:23-55 | a (category, text) pair is reported exactly when an entity on each side normalises to that text |
| Overlap.OverlapSymmetric | server/services/crossAgencyMatching.js:23-55 | swapping the two sides changes neither the score nor the number of matches |
| Overlap.DatesNotCompared | server/services/crossAgencyMatching.js:24 | replacing the dates leaves every compared category as it was |
| Overlap.OverlapOfSameCompared | server/services/crossAgencyMatching.js:24-55 | sides that agree on the four compared categories have the same overlap |
| Overlap.OverlapIgnoresDates | server/services/crossAgencyMatching.js:24 | dates take no part in the overlap, on either side |
| Overlap.NoEntitiesNoOverlap | server/services/crossAgencyMatching.js:51 | with no entity in the compared categories the score is 0 and nothing is matched |
| EventLinking.IsTemporallyClose | server/services/eventLinking.js:58-62 | two instants are close exactly when they lie at most 48 hours apart, in either order |
| EventLinking.KeywordPoints | server/services/eventLinking.js:69-73 | a keyword was found exactly when one occurs in the text, and then at least five points are scored; otherwise none |
| EventLinking.SeverityScore | server/services/eventLinking.js:64-89 | the score lies in [0, 100], is at least 40 whenever a high-severity keyword occurs, and otherwise is two per scored entity capped at 100 |
| EventLinking.SeverityLevel | server/services/eventLinking.js:365-367 | critical exactly from 70, high exactly from 40 below 70, medium exactly below 40 |
| EventLinking.FindText | server/services/eventLinking.js:104-106 | the first entry whose text equals the incoming one up to case, and none only when no entry matches |
| EventLinking.Bump | server/services/eventLinking.js:108-112 | the entry keeps its text, gains one in frequency, keeps its sources and holds the document among them, adding at most one |
| EventLinking.MergeItem | server/services/eventLinking.js:100-120 | an empty text changes nothing; otherwise either the one matching entry is bumped and nothing else changes, or no entry matches and a new entry with frequency 1 is appended |
| EventLinking.MergeEntitiesGet | server/services/eventLinking.js:91-124 | each category of the merge is that category's list with the incoming texts of the same category merged in |
| EventLinking.MergeItemWellFormed | server/services/eventLinking.js:100-120 | merging one text keeps the texts distinct up to case, each entry's sources distinct, and frequencies at least the number of sources |
| EventLinking.BumpKeepsEntry | server/services/eventLinking.js:108-112 | bumping keeps an entry's sources distinct and no more than its frequency |
| EventLinking.ReplaceKeepsWellFormed | server/services/eventLinking.js:108-112 | replacing an entry in place by a sound one with the same text keeps the list sound |
| EventLinking.AppendKeepsWellFormed | server/services/eventLinking.js:113-119 | appending a sound entry whose text no entry shares keeps the list sound |
| EventLinking.MergeListWellFormed | server/services/eventLinking.js:98-120 | merging a list of texts keeps a category sound |
| EventLinking.MergeEntitiesWellFormed | server/services/eventLinking.js:91-124 | merging keeps every category sound |
| EventLinking.FrequenciesAppend | server/services/eventLinking.js:114-118 | the total frequency of two lists joined is the sum of their totals |
| EventLinking.FrequenciesBump | server/services/eventLinking.js:109 | bumping one entry raises the total frequency by one |
| EventLinking.MergeListCounts | server/services/eventLinking.js:100-120 | merging raises a category's total frequency by exactly the number of non-empty incoming texts |
| EventLinking.Confidence | server/services/eventLinking.js:133-147 | the confidence is the sum of the three tiers, which lies in [0.2, 1] so the cap never bites |
| EventLinking.ConfidenceMonotone | server/services/eventLinking.js:133-147 | more documents, cross-source entities or unique entities never lower the confidence |
| EventLinking.CrossSourceCount | server/services/eventLinking.js:129-131 | the count is the number of entities whose sources name more than one document |
| EventLinking.EventConfidence | server/services/eventLinking.js:126-148 | an event's confidence lies in [0.2, 1] |
| EventLinking.LinkScore | server/services/eventLinking.js:180-246 | the score lies in [0, 1]; a semantic hit alone reaches the 0.3 threshold; without one the threshold needs an overlap of 0.2 when close in time and 0.6 otherwise |
| EventLinking.EventScore | server/services/eventLinking.js:219-244 | the score of a candidate event lies in [0, 1] |
| EventLinking.RecentEvents | server/services/eventLinking.js:209-214 | at most 50 events, each from the store, active or monitoring, updated within 48 hours |
| EventLinking.RecentEventsFirst | server/services/eventLinking.js:209-214 | the recent events are the first 50 qualifying events in store order: their number is the smaller of 50 and the qualifying count, and each qualifying event preceded by fewer than 50 others sits at its rank |
| EventLinking.SelectBest | server/services/eventLinking.js:216-250 | none is chosen exactly when no score reaches 0.3; otherwise the chosen score reaches it, no eligible score is higher, and no earlier score equals it |
| EventLinking.StoreIndex | server/services/eventLinking.js:252-292 | a position of the event in the store |
| EventLinking.AddOnce | server/services/eventLinking.js:271-277 | the agency is present afterwards, the list only grows and by at most one, stays unchanged when the agency was there, and stays duplicate-free |
| EventLinking.Recount | server/services/eventLinking.js:283-360 | the counts match the documents, entities and agencies, the confidence matches the contents, and nothing else changes |
| EventLinking.LinkDocument | server/services/eventLinking.js:252-292 | the document is appended with its relevance, its entities merged, its agency added once to both lists, the severity never drops, the first sighting is kept, and the counts and confidence are recomputed; id, title and status stay |
| EventLinking.RelatedScore | server/services/eventLinking.js:177-193 | a candidate document's score lies in [0, 1] |
| EventLinking.Scored | server/services/eventLinking.js:177-193 | one score per candidate, in order |
| EventLinking.FindRelated | server/services/eventLinking.js:150-204 | exactly the candidates reaching 0.3 are kept, each with its score |
| EventLinking.RecentDocuments | server/services/eventLinking.js:154-169 | at most 50 other documents of the collection, each created within 48 hours |
| EventLinking.RecentDocumentsFirst | server/services/eventLinking.js:154-169 | a collection's pool is its first 50 other documents created within 48 hours, in store order, in the same sense |
| EventLinking.CandidatePool | server/services/eventLinking.js:150-193 | the candidates are the pools of the three collections in turn, each labelled with its own collection's type, none of them the document itself, each with its semantic hit |
| EventLinking.RelatedDocuments | server/services/eventLinking.js:150-204 | every related document scores at least 0.3, and none is related exactly when every candidate scores below 0.3 |
| EventLinking.FindRelatedEmpty | server/services/eventLinking.js:177-204 | nothing is related exactly when every candidate scores below 0.3 |
| EventLinking.RelatedAgencies | server/services/eventLinking.js:348-354 | the agencies of the related documents, in order |
| EventLinking.AddEach | server/services/eventLinking.js:348-354 | the list only grows, holds every added agency and nothing else new, and stays duplicate-free |
| EventLinking.RelatedEntries | server/services/eventLinking.js:335-340 | one document entry per related document, with its score as relevance |
| EventLinking.AddAllRelated | server/services/eventLinking.js:334-355 | each related document adds its entry and, once, its agency to both lists; nothing else changes besides the entities |
| EventLinking.CreateEvent | server/services/eventLinking.js:295-300 | no event is created exactly when no related document was found |
| EventLinking.CreatedEventContents | server/services/eventLinking.js:306-341 | a created event is active, carries the id and the dated title, and lists the document first with relevance 1 and then each related document |
| EventLinking.CreatedEventAgencies | server/services/eventLinking.js:324-359 | a created event names the document's agency first among distinct agencies covering every related agency, and is cross-agency exactly when some related document comes from another agency |
| EventLinking.CreatedEventCounts | server/services/eventLinking.js:304-360 | a created event carries the document's severity and creation time, counts its documents, entities and related documents, has the confidence its contents give, and stays within the schema bounds |
| EventLinking.CreationAlert | server/services/eventLinking.js:364-384 | an unread `event_created` alert from the system, about the new event, titled with its title, addressed to its agencies, at its severity level, and with no details: none of the keys passed under `details` is in the alert schema, so the strict save drops them all |
| EventLinking.CreationAlertReachesRelated | server/services/eventLinking.js:364-384 | the creation alert reaches the document's agency first and every related document's agency and is critical exactly when the event's severity is at least 70; it carries no cross-agency flag, which only the event records, set exactly when a related document comes from another agency |
| EventLinking.Seed | server/services/eventLinking.js:306-332 | the first form of a new event has the document's agency alone, the one document entry, and the related count |
| EventLinking.CrossAgencyIffOther | server/services/eventLinking.js:348-359 | starting from one agency, the list grows past one entry exactly when some added agency differs |
| EventLinking.TopIsMostFrequent | server/services/eventLinking.js:422-426 | the frequency order is a permutation whose head has the highest frequency |
| EventLinking.SeverityLabel | server/services/eventLinking.js:430-433 | the title label agrees with the alert level of the same score |
| EventLinking.TopTexts | server/services/eventLinking.js:419-427 | at most three texts, and none exactly when all three categories are empty |
| EventLinking.UpdateTitle | server/services/eventLinking.js:415-438 | with no persons, places or organisations nothing changes; otherwise the title is the severity label followed by the top texts of the first two non-empty categories; each list is a permutation of the old one in non-increasing frequency order; nothing else changes |
| EventLinking.ByFrequencyFacts | server/services/eventLinking.js:422-423 | the frequency order is a permutation of the category in non-increasing frequency |
| EventLinking.TitleLeadsWithTopPerson | server/services/eventLinking.js:419-435 | with persons on the event, the title leads with the text of a person of the highest frequency |
| EventLinking.TitleNamesPersonAndPlace | server/services/eventLinking.js:419-435 | with persons and places, the title names exactly the top person and the top place, never an organisation |
| EventLinking.FindOrCreate | server/services/eventLinking.js:206-383 | the document is linked exactly when some recent event scores at least 0.3, and then to the first strictly best one, updated in place with the document at that score; otherwise a new event is appended exactly when some candidate document of the three collections scores at least 0.3, built from those documents, and its creation alert is stored; else nothing changes; no alert is stored unless an event is created |
| EventLinking.LinkedDocumentIsLast | server/services/eventLinking.js:252-292 | a linked document joins as the event's last document with its relevance of at least 0.3, and the event keeps its id |
| EventLinking.NoKeywordInEmpty | server/services/eventLinking.js:69-73 | the empty text holds no high-severity keyword |
| EventLinking.TranscriptionSeedIgnoresTranscript | server/services/eventLinking.js:302-304 | a new event seeded by a transcription, which has no `text`, is scored on its entities alone |
| EventLinking.TranscriptionLinkScoresUndefined | server/services/eventLinking.js:279-280 | linking a transcription scores the text `undefined` followed by its serialised entities |
| AlertTriggers.Mentioning | server/utils/alertTriggers.js:12-26 | at most ten documents of one collection, each naming the entity and other than the ingested one; fewer than ten only when no further document qualifies |
| AlertTriggers.MatchingDocs | server/utils/alertTriggers.js:12-28 | at most thirty other documents, each naming the entity in the category of its kind |
| AlertTriggers.InvolvedAgencies | server/utils/alertTriggers.js:31 | the distinct non-empty agencies of the matching documents, exactly |
| AlertTriggers.AgenciesReached | server/utils/alertTriggers.js:31 | an agency survives the mapping and filtering exactly when it is non-empty and some matching document has it |
| AlertTriggers.DocRefs | server/utils/alertTriggers.js:44-69 | one reference per matching document, carrying its id and collection |
| AlertTriggers.FindReusable | server/utils/alertTriggers.js:34-39 | the first alert the lookup accepts, and none only when no alert is accepted |
| AlertTriggers.NewCrossMatchAlert | server/utils/alertTriggers.js:54-77 | a new alert about the entity is unread; it is a cross-agency alert addressed to the involved agencies exactly when there are at least three, else an entity-match alert addressed to the document's agency |
| AlertTriggers.RefreshCrossMatch | server/utils/alertTriggers.js:41-51 | the refresh keeps the alert's id, type, status, title, recipients and entity |
| AlertTriggers.CrossMatch | server/utils/alertTriggers.js:7-88 | no alert exactly when fewer than two other documents match; otherwise the alert counts the matches plus one, lists the agencies and references, is high severity exactly with three agencies, and refreshes the found alert in place or appends a new one |
| AlertTriggers.CheckEntityCrossMatch | server/utils/alertTriggers.js:30-81 | the same rule with the lookup that also finds cross-agency alerts: no alert exactly when fewer than two matches, at most one alert added, and an existing open alert refreshed in place |
| AlertTriggers.ReplaceKeepsOneOpen | server/utils/alertTriggers.js:41-51 | replacing an alert by one equally open about the entity keeps at most one open alert per entity |
| AlertTriggers.AppendKeepsOneOpen | server/utils/alertTriggers.js:54-80 | appending an alert keeps at most one open alert per entity when none was open for its own entity |
| AlertTriggers.CrossMatchKeepsOneOpen | server/utils/alertTriggers.js:30-81 | with the corrected lookup, the rule keeps every entity down to at most one open alert |
| AlertTriggers.NewAlertKeepsOneOpen | server/utils/alertTriggers.js:54-80 | a new alert raised while none is open for its entity keeps every entity down to at most one open alert |
| AlertTriggers.RepeatedCrossMatchAddsNoAlert | server/utils/alertTriggers.js:34-52 | a second run for the same entity refreshes the alert the first run left and adds none |
| AlertTriggers.CrossMatchLeavesOpenAlert | server/utils/alertTriggers.js:41-80 | a run that raised or refreshed an alert leaves an open one for the entity |
| AlertTriggers.AsWrittenMisses | server/utils/alertTriggers.js:34-39 | as written, the lookup finds nothing where the intended lookup finds nothing |
| AlertTriggers.AsWrittenMissesCrossAgency | server/utils/alertTriggers.js:34-55 | as written, a cross-agency alert is never found by the lookup |
| AlertTriggers.AsWrittenDuplicatesCrossAgency | server/utils/alertTriggers.js:34-55 | as written, two runs over matches in three agencies each add a new open alert, so the entity ends up with two |
| AlertTriggers.IntendedAddsOneCrossAgency | server/utils/alertTriggers.js:34-39 | with the intended lookup the same two runs add exactly one alert and keep at most one open |
| AlertTriggers.RecentAt | server/utils/alertTriggers.js:95-109 | exactly the documents naming the place and created in the last 24 hours |
| AlertTriggers.GeoSeverity | server/utils/alertTriggers.js:123-131 | critical exactly from 10 incidents, high exactly from 7 below 10, medium below 7 |
| AlertTriggers.FindGeoAlert | server/utils/alertTriggers.js:114-119 | the first open spike alert for the place raised in the window, and none only when no such alert exists |
| AlertTriggers.NewGeoAlert | server/utils/alertTriggers.js:129-147 | a new spike alert is unread, stamped now, about the place and addressed to the document's agency |
| AlertTriggers.RefreshGeoAlert | server/utils/alertTriggers.js:121-125 | the refresh sets the count, its severity and the time and changes nothing else |
| AlertTriggers.CheckGeoFenceSpike | server/utils/alertTriggers.js:90-158 | an alert exactly when at least five incidents fall in the window; it carries the count and its severity and is open for the place; at most one alert is added |
| AlertTriggers.GeoSpikeStore | server/utils/alertTriggers.js:114-150 | an open spike alert is refreshed in place; without one a new alert for the document's agency is appended |
| AlertTriggers.GeoTouchesOnlyGeo | server/utils/alertTriggers.js:90-158 | every alert but spike alerts stays as it was |
| AlertTriggers.GeoSpikeReusedWithinWindow | server/utils/alertTriggers.js:114-127 | a spike alert just raised is refreshed, not duplicated, by a later run for the place within 24 hours |
| AlertTriggers.KeywordsDistinct | server/utils/alertTriggers.js:165-169 | the seventeen risk keywords are distinct |
| AlertTriggers.KeywordsFound | server/utils/alertTriggers.js:172-179 | exactly the keywords occurring in the lower-cased text, each once |
| AlertTriggers.Assess | server/utils/alertTriggers.js:162-195 | 10 per keyword found, 15 for more than five persons, 10 each for more than three phone numbers or organisations; the keyword factors come first, in keyword order |
| AlertTriggers.RiskSeverity | server/utils/alertTriggers.js:200 | critical exactly from 50, high exactly from 40 below 50, medium below 40 |
| AlertTriggers.RiskAlert | server/utils/alertTriggers.js:198-217 | the risk alert is unread, of the score's severity, carries the score, factors and document reference, and is addressed to the document's agency |
| AlertTriggers.RiskAlertFor | server/utils/alertTriggers.js:197-223 | an alert exactly when the score reaches 30, appended to the store, of the score's severity and addressed to the document's agency |
| AlertTriggers.CheckRiskProfileAsWritten | server/utils/alertTriggers.js:160-228 | as written, an alert exactly when the score of `text`, or "" for a transcription, reaches 30 |
| AlertTriggers.CheckRiskProfile | server/utils/alertTriggers.js:160-228 | an alert exactly when the score of the document's text, or a transcription's transcript, reaches 30 |
| AlertTriggers.AsWrittenIgnoresTranscript | server/utils/alertTriggers.js:171 | as written, no keyword of a transcription ever counts |
| AlertTriggers.TranscriptRiskExample | server/utils/alertTriggers.js:171 | a transcription naming "weapon", "attack" and "fraud" raises no alert as written and one as intended |
| AlertTriggers.Record | server/utils/alertTriggers.js:241-270 | the batch takes the rule's store and appends its alert, if any |
| AlertTriggers.CrossMatchEach | server/utils/alertTriggers.js:236-255 | each name adds at most one alert, the earlier alerts stay, and the store grows by at most the alerts added |
| AlertTriggers.GeoEach | server/utils/alertTriggers.js:258-265 | each place adds at most one alert, the earlier alerts stay, and the store grows by at most the alerts added |
| AlertTriggers.EntityRules | server/utils/alertTriggers.js:234-267 | at most one alert per person, organisation and place, and the store grows by at most the alerts raised |
| AlertTriggers.TriggerAlertChecks | server/utils/alertTriggers.js:230-284 | with the corrected rules, at most one alert per entity plus one; when the risk score reaches 30 the last alert is the risk alert, just appended; otherwise only the entity rules run |
| AlertTriggers.GeoKeepsOneOpen | server/utils/alertTriggers.js:90-158 | the spike rule keeps every entity down to at most one open cross-match alert |
| AlertTriggers.TriggerKeepsOneOpen | server/utils/alertTriggers.js:230-270 | with the corrected rules, all the rules for one document keep every entity down to at most one open cross-match alert |
| AlertTriggers.Channels | server/utils/alertTriggers.js:274-280 | one channel per agency of the alert, in order, or the broadcast channel when it has none |
| AlertTriggers.Broadcast | server/utils/alertTriggers.js:272-282 | nothing is emitted without a socket server |
| AlertTriggers.BroadcastReaches | server/utils/alertTriggers.js:272-282 | every agency of every alert is emitted to, and the broadcast channel when some alert has no agencies |
| AlertTriggers.BroadcastCount | server/utils/alertTriggers.js:272-282 | the number of emits is one per agency of each alert, or one for an alert without agencies |
| CrossAgency.TemporalProximity | server/services/crossAgencyMatching.js:97-106 | the temporal component lies in [0, 1], is 1 for equal times, positive strictly within seven days and 0 beyond |
| CrossAgency.TemporalProximityMonotone | server/services/crossAgencyMatching.js:97-106 | a smaller time difference never scores lower, and the component does not depend on which event comes first |
| CrossAgency.EventMatchScore | server/services/crossAgencyMatching.js:95-137 | the weighted score lies in [0, 1]; an overlap of a quarter alone reaches the 0.15 threshold, and without overlap or similarity the threshold is reached exactly when the temporal part is at least 0.75 |
| CrossAgency.DocumentMatchScore | server/services/crossAgencyMatching.js:204-228 | the score lies in [0, 1], and without an embedding a document reaches the 0.25 threshold exactly when its overlap is at least 5/12 |
| CrossAgency.Candidates | server/services/crossAgencyMatching.js:67-186 | at most 100 candidates, each from the store, not the excluded event, not listing the user's agency, and active, monitored or resolved |
| CrossAgency.CandidatesFirst | server/services/crossAgencyMatching.js:67-71 | the candidates are the first 100 qualifying events in store order: their number is the smaller of 100 and the qualifying count, and each qualifying event preceded by fewer than 100 others sits at its rank |
| CrossAgency.Rank | server/services/crossAgencyMatching.js:152-239 | at most ten matches are returned |
| CrossAgency.RankFacts | server/services/crossAgencyMatching.js:137-154 | the ranked matches all reach the threshold, come from the scored list, are in non-increasing score order, and a match that reaches the threshold is dropped only when ten matches scoring at least as high are kept |
| CrossAgency.RankedEvents | server/services/crossAgencyMatching.js:80-154 | the ranked matches are at most ten candidates' scores against the source, at or above the threshold, best first, and every candidate's match is kept unless below the threshold or beaten by ten at least as high |
| CrossAgency.RankedDocuments | server/services/crossAgencyMatching.js:190-239 | the same ranking facts for the matches against a document |
| CrossAgency.MatchEvent | server/services/crossAgencyMatching.js:80-143 | a match names its target and scores within [0, 1] |
| CrossAgency.FindSimilarCrossAgencyEvents | server/services/crossAgencyMatching.js:57-159 | fails with "Event not found" exactly when no event has the id; otherwise at most ten matches, each another agency's searchable event other than the source, scored against the source, at or above 0.15, best first, and no candidate at or above 0.15 is missing unless ten results score at least as high |
| CrossAgency.CrossAgencyComplete | server/services/crossAgencyMatching.js:57-159 | an event of another agency among the first 100 candidates that scores at least 0.15 is reported unless ten reported events score at least as high |
| CrossAgency.FindEvent | server/services/crossAgencyMatching.js:59-62 | the event with the id is found, and none is found only when no event has it |
| CrossAgency.MatchDocument | server/services/crossAgencyMatching.js:190-234 | a match names its target and scores within [0, 1] |
| CrossAgency.FindSimilarEventsForDocument | server/services/crossAgencyMatching.js:161-239 | an unknown type name fails with "Invalid document type" before any lookup; a missing document fails with "Document not found" exactly when its collection lacks the id; otherwise at most ten matches of other agencies' searchable events scored against the document, at or above 0.25, best first, and no candidate at or above 0.25 is missing unless ten results score at least as high |
| CrossAgency.DocumentSearchComplete | server/services/crossAgencyMatching.js:161-239 | an event among the first 100 candidates that scores at least 0.25 against the document is reported unless ten reported events score at least as high |
| Report.Pad | server/controller/reportController.js:14 | the result is the decimal digits of the number, preceded by just enough zeros to reach the width |
| Report.NatToStringValue | server/controller/reportController.js:14 | decimal rendering reads back as the same number |
| Report.ZerosValue | server/controller/reportController.js:14 | leading zeros do not change the value of a digit string |
| Report.PadValue | server/controller/reportController.js:14 | the padded digits read back as the number |
| Report.SplitOn | server/controller/reportController.js:70 | splitting always yields at least one part |
| Report.SplitOnJoin | server/controller/reportController.js:70 | a part free of the separator followed by the separator splits off as the first part |
| Report.LabelOfIsoDate | server/controller/reportController.js:14-72 | the label of a pipeline date is its two-digit day, a slash, and its two-digit month |
| Report.IndexOf | server/controller/reportController.js:79 | the position of a key already in the map, and none only when the key is absent |
| Report.GroupFacts | server/controller/reportController.js:75-163 | the running-total map has each key once, exactly the keys of the rows, and for each the sum of its rows |
| Report.AddExisting | server/controller/reportController.js:79-159 | adding to a present key keeps the map's three facts |
| Report.AddNew | server/controller/reportController.js:79-159 | adding a new key at the end keeps the map's three facts |
| Report.NoRowsNoSum | server/controller/reportController.js:79 | a key without rows sums to zero |
| Report.SortedGroupFacts | server/controller/reportController.js:83-165 | sorting the map keeps each key once with the sum of its rows, in order |
| Report.DatedRows | server/controller/reportController.js:76-80 | exactly the days some point names are counted; undated points are skipped |
| Report.DatedRowsSum | server/controller/reportController.js:79 | a day's counted total is the sum of the counts of its points, a missing count read as 0 |
| Report.Entries | server/controller/reportController.js:83-88 | one entry per map key, with its total |
| Report.MergeTimelinesFacts | server/controller/reportController.js:74-90 | the merged timeline has one entry per distinct day named by any pipeline, counting that day's uploads over all three, in ascending date order |
| Report.BusiestDay | server/controller/reportController.js:401-404 | no day for an empty timeline; otherwise a day whose count no day exceeds, the first such day |
| Report.Summarize | server/controller/reportController.js:138-147 | each count is its pipeline's total (0 when absent) and the total is their sum |
| Report.RecentDocumentsFacts | server/controller/reportController.js:151-153 | at most the limit, all from the three lists, newest first, and no entry left out is newer than the last one kept |
| Report.NamedRows | server/controller/reportController.js:158 | exactly the uploader names that are non-empty survive |
| Report.NamedRowsSum | server/controller/reportController.js:158-159 | dropping unnamed rows keeps every named uploader's total |
| Report.TopUploadersFacts | server/controller/reportController.js:155-166 | each named uploader at most once, with its total over all three pipelines, highest first, five at most, and none left out has a higher total than the last listed |
| Report.BuildOperationalDataset | server/controller/reportController.js:92-175 | "Invalid date range" exactly when a bound does not parse; otherwise the range as given, the totals that add up, the merged timeline, the newest documents and the top uploaders of the three collections, the lists within their limits |
| Report.GetOperationalReport | server/controller/reportController.js:242-271 | 200 exactly when both bounds parse; otherwise 500 with the error message |
| Report.ExportStatus | server/controller/reportController.js:276-295 | 400 exactly when a bound is missing, 500 exactly when both are given but one does not parse, else 200 |
| Report.Cleaned | server/controller/reportController.js:227 | the cleaned text uses only single plain spaces, none at either end, and is no longer than the text |
| Report.Words | server/controller/reportController.js:227 | the words are non-empty and hold no whitespace |
| Report.CleanedIsWords | server/controller/reportController.js:227 | the cleaned text is the text's words joined by single spaces |
| Report.SplitAtFirstRun | server/controller/reportController.js:227 | at the first whitespace run the split takes the word before it and the collapse turns the run into one space |
| Report.TrimEndAfterWord | server/controller/reportController.js:227 | trimming a word, a space and more text keeps the word, and the space only when something is left of the rest |
| Report.JoinNonEmpty | server/controller/reportController.js:227 | joining non-empty pieces gives the empty text exactly when there are none |
| Report.CleanedPlain | server/controller/reportController.js:227 | a text without whitespace is left as it is |
| Report.TidyPrefix | server/controller/reportController.js:232 | a prefix of cleaned text is still clean |
| Report.Snippet | server/controller/reportController.js:227-232 | the snippet is the first at most 400 characters of the cleaned text: all of it when shorter, exactly 400 otherwise |
| Report.EntryList | server/controller/reportController.js:213-239 | the entries of the hydrated list, in order |
| Report.HydrateDocumentDetails | server/controller/reportController.js:177-240 | at most one detail per entry, each paired with the record its collection holds for it |
| Report.HydrateInOrder | server/controller/reportController.js:213-239 | the kept entries are exactly the entries whose record exists, in the input's order |
| Report.HydrateKeepsFound | server/controller/reportController.js:213-239 | an entry is kept exactly when its record exists |
| OcrLayout.ToRect | server/utils/ocrProcessor.js:153-158 | the entity box keeps the corner it starts from |
| OcrLayout.FromRect | server/utils/ocrProcessor.js:153-158 | the corner box keeps the starting corner |
| OcrLayout.RectRoundTrip | server/utils/ocrProcessor.js:153-158 | the two box forms convert into each other without loss |
| OcrLayout.Cell | server/utils/ocrProcessor.js:570-577 | every box has the grid's width and height and lies below the top margin |
| OcrLayout.Layout | server/utils/ocrProcessor.js:567-578 | the words carry the tokens in order, each at the grid's confidence and in its cell |
| OcrLayout.ReadingOrder | server/utils/ocrProcessor.js:573-576 | on a spaced grid a later word sits on a lower row, or to the right on the same row, with a gap |
| OcrLayout.LayoutsSpaced | server/utils/ocrProcessor.js:347-576 | both synthetic layouts are spaced, so no two image boxes touch |
| OcrLayout.ApproximateWords | server/utils/ocrProcessor.js:564-579 | no words for empty text; otherwise one word per whitespace-separated piece at confidence 0.8 on the image grid |
| OcrLayout.PdfWords | server/utils/ocrProcessor.js:342-351 | at least one word, one per whitespace-separated piece at confidence 0.85 on the PDF grid |
| OcrLayout.ApproximateWordsText | server/utils/ocrProcessor.js:342-567 | joining the words with spaces gives back the text with each whitespace run collapsed to one space |
| OcrLayout.JoinSplitWs | server/utils/ocrProcessor.js:567 | rejoining the whitespace-split pieces with single spaces collapses each whitespace run |
| EasyOcr.InitializeReader | server/utils/easyocr_service.py:18-24 | the engine is built only when none exists; otherwise the existing engine is returned and the state is unchanged |
| EasyOcr.InitializeOnce | server/utils/easyocr_service.py:18-24 | a second initialisation changes nothing and yields the engine of the first, whatever languages it passes |
| EasyOcr.Trunc | server/utils/easyocr_service.py:76-79 | truncation toward zero: the integer is within one of the value, on the side of zero |
| EasyOcr.TruncMonotone | server/utils/easyocr_service.py:76-79 | truncation never reverses an order |
| EasyOcr.ToBox | server/utils/easyocr_service.py:66-79 | each edge of the box is the truncated extreme of the two corners on that side |
| EasyOcr.ToBoxOrdered | server/utils/easyocr_service.py:66-70 | a region whose left corners lie left of its right corners and top corners above its bottom ones gives a well-ordered box |
| EasyOcr.RegionWords | server/utils/easyocr_service.py:61-81 | one word per detected region, in engine order, with its text, confidence and box |
| EasyOcr.JoinTmp | server/utils/easyocr_service.py:45 | an absolute name replaces the directory; any other name is placed under `/tmp/` |
| EasyOcr.Recognize | server/utils/easyocr_service.py:31-94 | a missing field or empty name is refused with 400 before staging; a failing save is the framework's 500 page with nothing staged; otherwise the staged path is gone afterwards and the reply is 200 exactly when the engine exists or builds and recognition succeeds, else 500 with the message |
| EasyOcr.RecognizedText | server/utils/easyocr_service.py:56-59 | the recognised text is the single-space join of the region texts, in engine order, with one word per region |
| EasyOcr.StagingPath | server/utils/easyocr_service.py:45 | the corrected staging path lies directly inside `/tmp/` |
| EasyOcr.AbsoluteNameEscapesTmp | server/utils/easyocr_service.py:45-84 | as written, an upload named `/etc/hosts` is answered with 200 and that file is gone afterwards |
| EasyOcr.StagingStaysInTmp | server/utils/easyocr_service.py:45-91 | with the corrected staging path no file outside `/tmp/` is ever removed |
| DualOcr.Tesseract | server/utils/dualOcrProcessor.js:162-212 | no error is ever reported; blank or failed recognition gives empty text and no words; otherwise the cleaned text, whose words spell it up to spacing |
| DualOcr.Fallback | server/utils/dualOcrProcessor.js:276-290 | a failed run reports no words and the error message |
| DualOcr.PerformOcr | server/utils/dualOcrProcessor.js:231-292 | a PDF (by extension, any case) is parsed or ends in the fallback; a handwritten image uses the handwriting result with cleaned text unless it gave nothing; every other case uses the printed-text engine |
| DualOcr.PerformOcrFacts | server/utils/dualOcrProcessor.js:231-292 | apart from the handwriting result, only a failed PDF parse carries an error, and every self-laid-out result has words that spell its text up to spacing |
| DualOcr.WordEntity | server/utils/dualOcrProcessor.js:312-325 | a word's entity keeps its text and confidence and has the box in origin-and-size form |
| DualOcr.Pick | server/utils/dualOcrProcessor.js:310-356 | exactly the entities of the words passing the test, at most one per word |
| DualOcr.PickAppend | server/utils/dualOcrProcessor.js:311 | picking distributes over concatenation, so repeated words give repeated entities |
| DualOcr.FirstSpace | server/utils/dualOcrProcessor.js:343 | the first space, or the end when there is none |
| DualOcr.SimpleNameIff | server/utils/dualOcrProcessor.js:343 | the name test accepts exactly the texts that split at a space into two capitalised words |
| DualOcr.ExtractEntities | server/utils/dualOcrProcessor.js:299-359 | nothing without a word list; otherwise persons, phone numbers and dates from the words that pass their tests, and never a place or an organisation |
| OcrProcessor.EmptyComplete | server/utils/ocrProcessor.js:17-30 | the initial lists cover all twelve categories, each empty |
| OcrProcessor.KeysOf | server/utils/ocrProcessor.js:86 | one lower-cased key per word, in order |
| OcrProcessor.Put | server/utils/ocrProcessor.js:86-89 | assigning a key keeps the map sound and sets exactly that key's value |
| OcrProcessor.BuildWordMap | server/utils/ocrProcessor.js:84-90 | one key per distinct lower-cased word text, in order of first appearance, holding the details of the last word with that text |
| OcrProcessor.BuildStep | server/utils/ocrProcessor.js:85-90 | one more word keeps the three facts of the word map |
| OcrProcessor.LastWithExtend | server/utils/ocrProcessor.js:85-90 | a later word with another key does not change which word is last for a key |
| OcrProcessor.EnumOrder | server/utils/ocrProcessor.js:104 | the enumeration lists exactly the map's keys, with array-index keys first in ascending numeric order |
| OcrProcessor.FirstRelated | server/utils/ocrProcessor.js:105-106 | the first key containing the text or contained in it, and none only when no key relates |
| OcrProcessor.Get | server/utils/ocrProcessor.js:97 | an own key yields its value; as written, the absent key `constructor` yields the inherited member; nothing else is found |
| OcrProcessor.PlaceWord | server/utils/ocrProcessor.js:102-140 | a one-word text is always placed with a confidence and a box |
| OcrProcessor.PlaceSpan | server/utils/ocrProcessor.js:108-140 | with both end words known the box runs from the first word's left edge to the last word's right edge, covers both vertically and takes the lower confidence; otherwise the fixed placement |
| OcrProcessor.FindBestMatch | server/utils/ocrProcessor.js:93-141 | the text is trimmed; an exact lower-case hit yields that word's details; with own keys only, every text is placed with a confidence and a box |
| OcrProcessor.FindBestMatchSpan | server/utils/ocrProcessor.js:108-127 | a several-word text with known end words spans them and is no more confident than either |
| OcrProcessor.FindBestMatchUnmatchedWord | server/utils/ocrProcessor.js:102-140 | a one-word text related to no key gets confidence 0.5 and the fixed box (50, 50, 150, 80) |
| OcrProcessor.NoneRelated | server/utils/ocrProcessor.js:104-106 | when no key relates to the text, the search over the enumeration finds nothing |
| OcrProcessor.FindBestMatchUnmatchedSpan | server/utils/ocrProcessor.js:113-140 | a several-word text with an unknown end word gets the fixed placement |
| OcrProcessor.FindBestMatchRelated | server/utils/ocrProcessor.js:104-107 | a one-word text that is no known word takes the details of the first related key in enumeration order |
| OcrProcessor.DefaultConfidence | server/utils/ocrProcessor.js:152 | a missing or zero confidence becomes a non-zero default; any other is kept |
| OcrProcessor.AddEntity | server/utils/ocrProcessor.js:144-161 | a text already present up to case changes nothing; otherwise the entity is appended with its confidence and its box in origin-and-size form, and fails without a box |
| OcrProcessor.AddEntityKeeps | server/utils/ocrProcessor.js:144-161 | adding keeps every list free of case-insensitive repeats, keeps what was there as a prefix, and leaves the text present |
| OcrProcessor.AddCandidate | server/utils/ocrProcessor.js:167-322 | with own-key lookup a candidate never fails and the lists stay complete |
| OcrProcessor.AddAll | server/utils/ocrProcessor.js:167-322 | with own-key lookup adding the candidates in order never fails |
| OcrProcessor.AddCandidateKeeps | server/utils/ocrProcessor.js:144-161 | one candidate keeps the lists repeat-free and prefix-extended and leaves its text present |
| OcrProcessor.HasTextPrefix | server/utils/ocrProcessor.js:144-161 | a text present in a list stays present as the list grows |
| OcrProcessor.AddAllKeeps | server/utils/ocrProcessor.js:167-322 | after all candidates the lists stay repeat-free, earlier entities are never replaced, and every candidate's text is present in its category |
| OcrProcessor.WordHits | server/utils/ocrProcessor.js:206-243 | a word is offered once for each per-word category whose test it passes |
| OcrProcessor.WordCandidates | server/utils/ocrProcessor.js:206-243 | every per-word candidate is a word of the list that passes its category's test |
| OcrProcessor.Scans | server/utils/ocrProcessor.js:167-323 | each scan proposal is offered as it is, in order |
| OcrProcessor.Offered | server/utils/ocrProcessor.js:167-323 | the whole-text person, organisation and place proposals come first and the suspect, alias, witness and line-by-line proposals last |
| OcrProcessor.ExtractEntities | server/utils/ocrProcessor.js:16-326 | without a word array every category is empty; with own-key lookup extraction never fails |
| OcrProcessor.ExtractDistinct | server/utils/ocrProcessor.js:144-161 | the extracted lists have all twelve categories, none with two entities of the same text up to case |
| OcrProcessor.ExtractScansPresent | server/utils/ocrProcessor.js:167-323 | every text a whole-text scan proposed is present, up to case, in its category |
| OcrProcessor.ExtractWordsPresent | server/utils/ocrProcessor.js:206-243 | every word passing a per-word pattern is present, up to case, in that pattern's category |
| OcrProcessor.WordCandidatesCover | server/utils/ocrProcessor.js:206-243 | a word passing a per-word test is among the per-word candidates |
| OcrProcessor.InheritedKeyFound | server/utils/ocrProcessor.js:97-98 | as written, a text that lower-cases to `constructor` and is no word is found on the inherited members, with neither confidence nor box |
| OcrProcessor.InheritedKeyFails | server/utils/ocrProcessor.js:97-158 | as written, a scan proposing such a text ends the extraction with a failure |
| OcrProcessor.UnboxedScanFails | server/utils/ocrProcessor.js:153-158 | a new scanned text placed without a box makes the candidate fail |
| OcrController.AiEntry | server/controller/ocrController.js:126-131 | a suggested name becomes an entry with confidence 0.92, source `ai` and no box |
| OcrController.AppendAi | server/controller/ocrController.js:114-133 | the existing entries are kept as a prefix, in order |
| OcrController.AppendAiAdded | server/controller/ocrController.js:122-131 | every appended entry is the `ai` entry of a non-empty suggested name |
| OcrController.KnownInPrefix | server/controller/ocrController.js:116-132 | a text known to the set of existing texts stays known as entries are appended |
| OcrController.AppendAiDistinct | server/controller/ocrController.js:116-133 | no appended entry equals, up to letter case, a non-empty text before it, existing or appended earlier |
| OcrController.AppendAiCovers | server/controller/ocrController.js:122-133 | every non-empty suggested name is present afterwards, up to letter case |
| OcrController.MergeCategory | server/controller/ocrController.js:111-114 | an absent, non-array or empty suggestion leaves the category as it was; otherwise existing entries stay first |
| OcrController.MergeAiEntityInsights | server/controller/ocrController.js:102-137 | without insights the entities are returned unchanged; phone numbers and dates are never touched; every category keeps its existing entries as a prefix |
| OcrController.MergeFacts | server/controller/ocrController.js:107-134 | for persons, places and organizations: existing entries first, each added entry an `ai` entry of a suggested name repeating no earlier text up to case, and every non-empty suggestion present |
| OcrController.ProcessDocument | server/controller/ocrController.js:15-73 | the record is saved first as `processing` and then as `completed`, with uploader defaulting to `unknown`, agency to `N/A`, the served path `/uploads/` plus the stored file's base name, the recognised text, the merged entities and the elapsed time, and nothing else changed between the two saves |
| AiSummary.DocTexts | server/services/aiSummary.js:12-13 | one text per document, a missing text read as empty |
| AiSummary.CombinedText | server/services/aiSummary.js:12-15 | a prefix of the newline-joined texts, at most 12000 characters, all of them when they fit and exactly 12000 otherwise |
| AiSummary.Context | server/services/aiSummary.js:17 | each document's entities, in document order |
| AiSummary.KeyInjective | server/services/aiSummary.js:43-47 | distinct insight categories are stored under distinct keys |
| AiSummary.EmptyInsightsEmpty | server/services/aiSummary.js:109-163 | the default insights hold every category as an empty array |
| AiSummary.FallbackShape | server/services/aiSummary.js:106-117 | the unparsable-reply shape: the first 1000 characters of the narrative as executive summary, empty insight categories and every list empty |
| AiSummary.Structured | server/services/aiSummary.js:88-118 | the parsed reply when there is one, otherwise the fallback shape |
| AiSummary.FieldOf | server/services/aiSummary.js:158 | the spread copy has a field exactly when the reply is an object with that key, holding its value |
| AiSummary.ArrayOr | server/services/aiSummary.js:162-170 | an array is kept; anything else becomes the empty array |
| AiSummary.FirstLine | server/services/aiSummary.js:161 | the longest prefix without a newline |
| AiSummary.NextBreak | server/services/aiSummary.js:198 | the first sentence break at or after the position, with none skipped |
| AiSummary.SplitSentences | server/services/aiSummary.js:198-211 | at least one piece, and no piece contains a sentence break |
| AiSummary.FirstSentenceIsPrefix | server/services/aiSummary.js:198-211 | the first piece is the text up to the first sentence break and holds no break |
| AiSummary.SentencesReassemble | server/services/aiSummary.js:198-211 | the text is its pieces with the removed breaks put back between them |
| AiSummary.BreaksAreMaximal | server/services/aiSummary.js:198-211 | each removed break is a full stop or newline with its whole whitespace run, so no later piece starts with whitespace |
| AiSummary.TrimmedNonEmpty | server/services/aiSummary.js:198-211 | every kept piece is non-empty and trimmed |
| AiSummary.TrimmedNonEmptyMembers | server/services/aiSummary.js:198-211 | a piece is kept, trimmed, exactly when it does not trim to nothing |
| AiSummary.Sentences | server/services/aiSummary.js:198-211 | the narrative's sentences are non-empty and trimmed |
| AiSummary.SynthesizeFindings | server/services/aiSummary.js:199-206 | at most six findings, each a sentence that names an entity, uses a keyword or is longer than 40 characters; when fewer than six, every such sentence is among them |
| AiSummary.FindingsFirst | server/services/aiSummary.js:199-206 | the findings are the first six finding sentences in order: their number is the smaller of six and the finding count, and each finding preceded by fewer than six others sits at its rank |
| AiSummary.SynthesizeTakeaways | server/services/aiSummary.js:211-218 | at most five sentences; all advising when any sentence advises, otherwise all longer than 40 characters |
| AiSummary.TakeawaysFirstAdvice | server/services/aiSummary.js:211-214 | when some sentence advises, the takeaways are the first five advising sentences in order |
| AiSummary.TakeawaysLastLong | server/services/aiSummary.js:211-218 | when no sentence advises, the takeaways are the last five sentences longer than 40 characters, in order |
| AiSummary.CategoryValues | server/services/aiSummary.js:177-181 | a value is collected exactly when some document's list of that category offers it |
| AiSummary.Flat | server/services/aiSummary.js:173-183 | the distinct values of the category across the documents, with nothing else, in order of first appearance |
| AiSummary.FillCategory | server/services/aiSummary.js:186-194 | only an empty category with names to offer changes; on an object it takes the names and other categories stay; on a truthy primitive the assignment fails |
| AiSummary.FillInsightsObject | server/services/aiSummary.js:185-194 | on an insights object an empty category receives the context's distinct names when there are any, and otherwise stays as the model gave it |
| AiSummary.Synthesize | server/services/aiSummary.js:157-222 | a truthy executive summary is kept, else the narrative's first line cut to 1000 characters; non-array lists become empty; non-empty findings and takeaways are kept, empty ones become the findings and takeaways drawn from the narrative's sentences; the insights are the reply's, or the defaults, filled from the documents; fails only when filling the insights fails |
| AiSummary.GenerateAiSummary | server/services/aiSummary.js:9-31 | absent or empty documents give null; otherwise the synthesis of the structured narrative over the combined text and the entity context |
| AiSummary.FallbackInsights | server/services/aiSummary.js:109-194 | the fallback's insights fill without error, each category holding the context's names for it or staying empty |
| AiSummary.FallbackFields | server/services/aiSummary.js:106-170 | the fallback keeps the cut narrative as executive summary when the narrative is not empty, and its old lists are empty |
| AiSummary.FallbackSynthesis | server/services/aiSummary.js:104-222 | an unparsable reply yields a summary whose old lists are empty, whose executive summary is the cut narrative and whose insights are the context's names |
| EntityExtraction.Defaults | server/utils/extractEntities.js:8-14 | exactly the five default categories, each empty |
| EntityExtraction.PreferredModel | server/utils/extractEntities.js:19 | the entity model setting, else the general model setting, else the fallback model, and never empty |
| EntityExtraction.Respond | server/utils/extractEntities.js:40-52 | a missing preferred model other than the fallback gives the fallback's reply; any other outcome of the first call stands |
| EntityExtraction.Attempts | server/utils/extractEntities.js:40-52 | one or two models are called, the preferred one first and the fallback only second |
| EntityExtraction.RespondRetriesOnce | server/utils/extractEntities.js:40-52 | the reply is the last call's, the fallback is called at most once, and a second call happens exactly when a preferred model other than the fallback was reported missing |
| EntityExtraction.NormalizeItem | server/utils/extractEntities.js:73-77 | fails exactly on null; otherwise source `nlp`, a numeric confidence kept and any other replaced by 0.85, and the truthy `text` or else the entity itself |
| EntityExtraction.NormalizeItems | server/utils/extractEntities.js:73-77 | succeeds exactly when no item is null, giving one normalised entry per item in order |
| EntityExtraction.NormalizeList | server/utils/extractEntities.js:72-77 | a non-array value becomes the empty list; an array is normalised item by item |
| EntityExtraction.Merged | server/utils/extractEntities.js:70 | the default keys plus the reply's own keys, each reply field overriding the default |
| EntityExtraction.Normalize | server/utils/extractEntities.js:70-78 | succeeds exactly when every list normalises; the result has every default key and the merged keys, each normalised |
| EntityExtraction.ExtractEntities | server/utils/extractEntities.js:7-85 | always has the five default keys and every entity has source `nlp`; empty text, a failed call, a reply without content, a reply that does not parse and a normalisation that throws give the defaults; otherwise the normalised reply |
| EntityExtraction.EmptyTextSkipsModel | server/utils/extractEntities.js:16 | with empty text the result does not depend on the model or the parser |
| EntityExtraction.ReplyNormalized | server/utils/extractEntities.js:61-80 | a parsed reply object without null items gives the default keys plus its own, one entry per array item, and empty lists for non-arrays |
| EntityExtraction.NullItemGivesDefaults | server/utils/extractEntities.js:73-84 | a null item anywhere in the reply makes the result the defaults |
| TranscriptionRoute.Prop | server/routes/transcription.js:52 | a property exists only on an object that has that key |
| TranscriptionRoute.NormalizeEntity | server/routes/transcription.js:52-56 | fails exactly on null; a string becomes text with confidence 0.85 and source `groq`; an object keeps its truthy text, confidence and source, defaulting each; the confidence is always truthy |
| TranscriptionRoute.NormalizeCategory | server/routes/transcription.js:51-56 | a missing or non-array value gives the empty list; an array gives one normalised entry per item and fails exactly when an item is null |
| TranscriptionRoute.NormalizeAll | server/routes/transcription.js:52-56 | succeeds exactly when no item is null, one entry per item in order |
| TranscriptionRoute.EntityField | server/routes/transcription.js:45-48 | without an extractor result the persons, places and organizations are empty and the others missing |
| TranscriptionRoute.NormalizeEntities | server/routes/transcription.js:45-56 | no extractor result gives five empty categories; the whole succeeds exactly when each of the five categories does |
| TranscriptionRoute.SavedSummary | server/routes/transcription.js:60-79 | a truthy summary is saved as it is; null, a failure or a falsy value give the fixed empty summary, so the saved summary is always truthy |
| TranscriptionRoute.Process | server/routes/transcription.js:18-204 | no file gives 400; a failed transcription, a thrown or unusable extractor reply, or a null entity item gives 500 with the error's message or a generic one; a saved record is `completed`, visible to the uploading agency only, with the body's user and agency preferred over the token's; it is saved exactly when the extractor's reply is usable and its entities normalise |
| TranscriptionRoute.ViewStatus | server/routes/transcription.js:212-296 | 404 for an unknown id; otherwise 200 exactly when the reader's agency is in the record's visibility, else 403 |
| TranscriptionRoute.SavedReadableByOwnAgency | server/routes/transcription.js:90-293 | a saved record can be read by the agency that saved it and by no other |
| TranscriptionRoute.NoEntitiesEmpty | server/routes/transcription.js:45-56 | with a null or falsy extractor reply the record is saved with five empty categories |
| TranscriptionRoute.EntitiesObject | server/routes/transcription.js:45-56 | a thrown extractor error stands; a falsy reply gives the default lists; an object is used as it is; setting a field on any other truthy value other than an array fails |
| TranscriptionRoute.ServerError | server/routes/transcription.js:190-204 | an error becomes a 500 with a non-empty message |
| TranscriptionRoute.ExtractorErrorFails | server/routes/transcription.js:45-204 | a thrown extractor error fails the upload with its message and nothing is saved |
| Chatbot.SelectedShares | server/routes/chatbot.js:20-37 | at most 15 approved shares matching the scope rule, newest first, and no matching share left out that is newer than the last one kept |
| Chatbot.ContextDoc | server/routes/chatbot.js:40-42 | a share contributes its document exactly when the document still exists and has text |
| Chatbot.ContextText | server/routes/chatbot.js:44-47 | a prefix of the blank-line-joined document blocks, at most 12000 characters, and all of it when it fits |
| Chatbot.Messages | server/routes/chatbot.js:49-50 | the user's message first, then the context note only when a non-empty context is given |
| Chatbot.Converse | server/routes/chatbot.js:11-54 | a missing or blank message is refused; otherwise the reply is the model's answer over the selected documents with text, and the count reported is their number, at most 15 |
| Chatbot.InitialStatus | server/routes/chatbot.js:85 | a share is approved at once exactly when its scope is `agency`, and never starts rejected |
| Chatbot.FindKey | server/routes/chatbot.js:77-78 | the position of an entry with the same document, scope and uploader, or none exactly when no entry has that key |
| Chatbot.ShareDoc | server/routes/chatbot.js:63-98 | 400 without a document id, 404 for an unknown document, 403 for anyone but its uploader; otherwise the entry for the key is overwritten in place keeping its id, or appended, with the initial status, the user's agency, the visible agencies and the time |
| Chatbot.ShareKeepsKeysUnique | server/routes/chatbot.js:77-89 | sharing never creates a second entry for the same document, scope and uploader |
| Chatbot.ReshareNeedsApprovalAgain | server/routes/chatbot.js:77-89 | sharing an approved document again with a scope other than `agency` puts it back to pending and out of cross-agency conversations |
| Chatbot.PendingApproval | server/routes/chatbot.js:107-120 | non-administrators are refused; otherwise exactly the pending cross-agency shares, newest first |
| Chatbot.FindShare | server/routes/chatbot.js:137 | the position of the share with that id, or none exactly when there is none |
| Chatbot.Decide | server/routes/chatbot.js:129-152 | non-administrators are refused, a missing id is 400 and an unknown share 404; otherwise only that share changes, to approved or rejected, with the administrator and time recorded |
| Chatbot.ApprovalOpensCrossAgency | server/routes/chatbot.js:22-150 | a decided cross-agency share is selected for cross-agency conversations exactly when it was approved |
| History.ParseKind | server/routes/history.js:106-130 | a type names a collection exactly when it is that collection's tag |
| History.Fetch | server/routes/history.js:24-38 | at most 50 of the user's records of one collection, each tagged with that collection's type, and no owned record left out that is newer than the last one kept |
| History.GatheredFacts | server/routes/history.js:21-75 | the gathered items are the user's records of the requested collections, each collection's fetch is included, and there are at most 150 |
| History.List | server/routes/history.js:15-87 | only the user's records of requested collections, newest first; cut to 50 unless `all` was asked for, in which case it is a permutation of everything gathered; nothing fetched is left out that is newer than the last item kept |
| History.UnknownTypeListsNothing | server/routes/history.js:23-59 | a type that is neither `all` nor a collection's tag lists nothing |
| History.OneTypeListsOneCollection | server/routes/history.js:23-59 | a collection's own tag lists only that collection's records |
| History.FindOwned | server/routes/history.js:107-113 | a record with that id the user owns, or none exactly when there is none |
| History.Lookup | server/routes/history.js:98-137 | nothing for a type naming no collection; otherwise the user's record of that id in the named collection, and nothing exactly when there is none |
| History.OriginalPath | server/routes/history.js:174-200 | a file is served exactly when the record names one; the path ends in that name, lying under `uploads/` for a document and being the stored path for the other two |
| History.DownloadFile | server/routes/history.js:156-217 | 404 for an unknown item, 404 when it names no stored file or the file is gone; otherwise that existing file under the record's own name |
| History.ExtensionAtUnique | server/routes/history.js:271 | the final-extension pattern can match at one position only |
| History.StripExtension | server/routes/history.js:271 | the text before the final extension when there is one, otherwise the whole name |
| History.AnalysisFilename | server/routes/history.js:271 | ends in `_analysis.pdf`, preceded by the name without its final extension |
| History.DownloadAnalysis | server/routes/history.js:228-275 | 404 for an unknown item, a failure for a record without a file name, otherwise the report named after the record |
| History.AnalysisFilenameExamples | server/routes/transcription.js:312 | only the last extension is removed, and a name without one is kept whole |
| Upload.ExeNotListed | server/middleware/uploadMiddleware.js:16 | `exe` is not among the accepted audio extensions in any letter case |
| Upload.ExtensionFromLastDot | server/middleware/uploadMiddleware.js:17 | a name's extension, when it has one, runs from its last dot |
| Strings.ExtName | server/middleware/uploadMiddleware.js:17 | the extension is empty or a single dot followed by no dot or slash, and it ends the path |
| Strings.BaseName | server/controller/ocrController.js:24 | the last path component: a suffix of the path with no slash, preceded by a slash when shorter |
| Sorting.SortByFacts | server/routes/history.js:77 | the stable sort orders by key, is a permutation of its input and keeps its length |
| Sorting.Top | server/routes/history.js:31-32 | the first entries in key order, at most the limit, drawn from the input, with nothing left out whose key is smaller than the last kept |
| AlertTriggers.ThreeKeywords | server/utils/alertTriggers.js:172-179 | a text naming `weapon`, `attack` and `fraud` in any letter case finds at least three keywords |
| AlertTriggers.TranscriptScores | server/utils/alertTriggers.js:171-195 | such a transcript without entities scores zero as written and reaches the alert threshold as intended |
| AlertTriggers.CrossMatchStep | server/utils/alertTriggers.js:241-255 | one name adds at most one alert to the batch, keeps the earlier ones, and grows the store by no more alerts than it reports |
| AlertTriggers.GeoStep | server/utils/alertTriggers.js:258-265 | one place adds at most one alert to the batch, keeps the earlier ones, and grows the store by no more alerts than it reports |
| AlertTriggers.GeoChangesKeepOneOpen | server/utils/alertTriggers.js:114-150 | changes that keep every earlier alert and add or alter only spike alerts leave each entity with at most one open cross-match alert |
| AlertTriggers.CrossMatchEachKeepsOneOpen | server/utils/alertTriggers.js:236-255 | running the cross-match rule over a list of names leaves each entity with at most one open cross-match alert |
| AlertTriggers.GeoEachKeepsOneOpen | server/utils/alertTriggers.js:258-265 | running the spike rule over a list of places leaves each entity with at most one open cross-match alert |
| Report.EntriesFacts | server/controller/reportController.js:74-90 | the timeline entries have distinct dates, exactly the days some point names, each counted with that day's total, in date order |
| Report.TopComplete | server/controller/reportController.js:155-166 | no named uploader is left out of the top list unless the list is full and its last entry has at least that uploader's total |
| OcrProcessor.ExtractBase | server/utils/ocrProcessor.js:16-326 | with own-key lookup extraction succeeds, its lists are complete and free of case-insensitive repeats, and every offered text is present in its category |

## Left out

- Database queries, aggregation pipelines, socket.io emits and the activity log are not modelled as such. Stores are in-memory sequences, and emits are returned as lists of channel names. A failing query (a rule returning nothing, a handler answering 500) is not modelled.
- Language-model and speech calls are not modelled: narrative generation, JSON structuring, entity extraction, the chatbot reply and transcription. Their results are parameters, and only the post-processing is modelled. The JSON-fence extraction and quote sanitising before `JSON.parse` is a parameter returning the parsed value or nothing.
- The OCR and PDF engines are parameters, and so are the handwriting detector's verdict and the `cleanOcrText` correction tables (including their quote substitutions). Both are regular-expression rewriting over Unicode text.
- The regular-expression entity scans of `ocrProcessor.js` are parameters. This covers the whole-text scans and the per-word pattern tests, which carry `lastIndex` state between calls. The model receives their proposals and models what is done with them.
- Cosine similarity of embeddings is floating point with a square root, so it is an input. Event linking is told whether the best similarity reached the threshold. Cross-agency matching is given the similarity in [0, 1].
- PDF drawing (pdfkit and the analysis-report generator) is layout only. The download routes model only the reply status, the file served and the report's name.
- Case mapping and whitespace classes are the ASCII subset plus the no-break space. Unicode case folding is not modelled.
- Dates are millisecond integers. Parsing a date string is a parameter that may fail.
- Concurrent `Promise.all` fan-outs are modelled in sequence.
- `getOcrDocumentById`, `getOcrDocuments` and `deleteOcrDocument` in `server/controller/ocrController.js`, and the `GET /` listing of `server/routes/transcription.js`, are plain database reads and deletes without decision logic.
- Event linking and alert checks after an OCR document or a transcription is saved are caught and do not change the reply. They are modelled in `EventLinking` and `AlertTriggers`, not inside `OcrController.ProcessDocument` or `TranscriptionRoute.Process`.
- Mongoose strict mode silently drops fields the schema does not declare, such as `source` on OCR entities and `aiSummary` on OCR documents. The model keeps them as the controller assigns them.
- `GET /alerts/:id` is a plain lookup and is not modelled.
- The payload of socket emits and of notification records is not modelled: the alert body, `message` and `notifiedBy`.
- Inherited object keys other than `constructor` (such as `__proto__`, `toString` or `hasOwnProperty`) behave in `OcrProcessor.Get` like absent keys. Only `constructor` is modelled, as the one that shows the defect.
- Extracted entity texts that are not strings (a number or an object the model returned) are not modelled in the AI merge of `OcrController`. Items are strings or null.
- EntityExtraction.Merged: a reply that parses to a JSON array or string spreads its indices as extra keys, each normalised to an empty list. The model adds no keys for such a reply.
- AiSummary.Synthesize: the fields of a summary reply beyond the ten schema keys are not modelled.
- AlertRoutes.ListAlerts: `parseInt` of a malformed or negative `limit` (NaN, or a negative number the database treats as its absolute value) is not modelled. The limit is a natural number.
- EventRoutes.ListEvents: the same `parseInt` caveat on `limit`.
- EventRoutes.ActiveEvents: the secondary order by last update among equally severe events is not stated. The stable sort keeps them in store order.
- EventRoutes.UpdateTitle: a title that is not a string makes `trim` throw (a 500). The model takes the title as an optional string.
- History.OriginalPath: `path.join` normalisation of `..` and duplicate slashes is not modelled. The served path is the plain concatenation.
- Chatbot.ContextText: a document whose file name or agency is missing renders as `undefined` in its block. The model takes both as strings.
- Strings.ExtName: Node's handling of a trailing slash in the path is not modelled.
- AlertRoutes.UnreadCount: its own contract only bounds the count. The count's behaviour under each update is stated by `AlertRoutes.UnreadCountUpdate`.
- Schema casting of a request body is not modelled. For example, Mongoose turns an `agencies` value that is not an array into a one-element array before `POST /alerts/create` announces the alert. The model takes the agencies as a list.
- CrossAgency.Rank: its own contract only bounds the length. Threshold, order and completeness are stated by `CrossAgency.RankFacts`.
- CrossAgency.MatchEvent: its own contract states the target and the score's range. The weights are stated by `CrossAgency.EventMatchScore`.
- EventLinking.EventScore: its own contract states the range. The weighting is stated by `EventLinking.LinkScore`.
- AlertTriggers.Broadcast: its own contract only covers the case without a socket server. Reach and count are stated by `AlertTriggers.BroadcastReaches` and `AlertTriggers.BroadcastCount`.
- TranscriptionRoute.EntitiesObject: an extractor reply that parses to an array gets the normalised lists as extra properties, and how the schema then casts that array is not modelled. The model reads the array as an object without those fields.
- TranscriptionRoute.ServerError: the exact wording of the strict-mode error for a primitive reply is not modelled. A fixed non-empty message stands in for it.
- EasyOcr.Recognize: a save that fails part-way may leave a partial file behind. The model leaves the file system unchanged, and the framework's error page is a single value.
- EventLinking.CreationAlert: the `details` passed to the alert (event id, document count, scores, cross-agency flag, related document id, document type) are keys the alert schema does not declare, so the strict save drops every one and the model stores the alert with no details. A failing save, which `createRealTimeAlert` catches and logs, is not modelled: the alert is always stored. The socket emits of the alert and of `event:created` are not modelled either.
- Strings.Prefix: JavaScript's `length` and `slice` count UTF-16 code units, while a Dafny string counts Unicode scalar values. Outside the Basic Multilingual Plane the model therefore counts a surrogate pair as one character, and a cut never splits a pair. This affects the 12000-character cuts of AiSummary.CombinedText and Chatbot.ContextText, the 1000-character executive summary, the 400-character Report.Snippet, and the 40-character test of AiSummary.Long and AiSummary.SynthesizeFindings.
- EventRoutes.DebugAll: the two lists are stated to split the 50 newest events between them. That each list keeps the newest-first order is not restated.

## Findings

| source | as written | input that shows it | evidently intended | confidence | as-written member | corrected member |
|---|---|---|---|---|---|---|
| server/utils/alertTriggers.js:34-39 | the lookup for an open alert on the same entity asks only for type `entity_match`, so an open `cross_agency` alert is never found again | a name already carrying an open `cross_agency` alert, matched again by three agencies' documents | the lookup finds the open alert of the type the run would raise and refreshes it, so each entity keeps one open cross-agency alert | not executed | AlertTriggers.AsWrittenDuplicatesCrossAgency | AlertTriggers.IntendedAddsOneCrossAgency |
| server/utils/alertTriggers.js:171 | the risk text is `text` or `transcriptionText`, and a transcription has neither, so a transcription is always scored on the empty text | a transcription whose transcript names `weapon`, `attack` and `fraud` and that has no entities scores 0 and raises no alert | a transcription is scored on its `transcript`, reaching 30 and raising a risk alert | not executed | AlertTriggers.TranscriptRiskExample | AlertTriggers.CheckRiskProfile |
| server/utils/easyocr_service.py:45-46 | the upload is staged at `os.path.join("/tmp", filename)`, and an absolute client file name replaces the directory | an upload named `/etc/x` is written, and later removed, at `/etc/x` | the staged file always lies inside the temporary directory | not executed | EasyOcr.AbsoluteNameEscapesTmp | EasyOcr.StagingStaysInTmp |
| server/utils/ocrProcessor.js:97-98 | the word map is a plain object, so looking up the text `constructor` finds the inherited member, which has no box, and adding the entity throws | a whole-text scan that proposes `Constructor` when no recognised word is `constructor` | only words actually recognised are found, so every proposal is placed and extraction completes | not executed | OcrProcessor.InheritedKeyFails | OcrProcessor.ExtractScansPresent |
| server/scripts/migrateAiSummary.js:15-34 | the script reads `doc.aiSummary` through the Transcription schema: the declared old-shape arrays default to `[]` (truthy), and the new-shape keys, `summary` and `key_points` are undeclared and read as undefined; the assigned new summary is then saved in strict mode, which drops the undeclared keys | a record stored with `aiSummary: {keyDiscussionPoints: ["p"]}`: the run saves it as `{executiveSummary: ""}`, losing the point, and every later run rewrites it again | each old-shape record is rewritten once into the new shape with its points as findings, and a second run finds nothing to do | not executed; depends on Mongoose defaults for absent arrays and strict mode | Migration.AsWrittenLosesFindings | Migration.MigrateIdempotent |

=== FILE: ai_summary.dfy ===
/** The intelligence summary over a set of documents: the input the model is
    given, the shape that stands in when the model's JSON cannot be parsed, and
    the filling of every field the model left out or left empty.

    The two model calls (the free-form narrative and its conversion to JSON)
    are parameters. `structure` yields None when neither the raw reply nor its
    sanitised form parses. */
module AiSummary {
  import opened Wrappers
  import opened Strings
  import opened Seqs
  import opened Json
  import opened EventModel

  const TEXT_LIMIT: nat := 12000
  const SUMMARY_LIMIT: nat := 1000
  const FINDINGS_LIMIT: nat := 6
  const TAKEAWAYS_LIMIT: nat := 5
  /** A sentence longer than this counts as meaningful on its own. */
  const LONG_SENTENCE: nat := 40

  // ---------------------------------------------------------------------------
  // Input

  /** An entity as stored on a document: a bare string or an object whose
      `text` may be missing. */
  datatype EntityItem = Plain(s: string) | Object(text: Option<string>)

  /** The value an entity contributes to the name sets: the string itself or
      its `text`, None standing for `undefined`. */
  function ItemValue(p: EntityItem): Option<string> {
    match p
    case Plain(s) => Some(s)
    case Object(t) => t
  }

  /** A document's entity lists; a missing list reads as absent. */
  datatype EntityLists = EntityLists(persons: Option<seq<EntityItem>>, places: Option<seq<EntityItem>>,
                                     organizations: Option<seq<EntityItem>>)
  {
    function Get(c: Category): Option<seq<EntityItem>> {
      match c
      case Persons => persons
      case Places => places
      case Organizations => organizations
      case _ => None
    }
  }

  /** A document handed to the summary: its text and entities, each possibly missing. */
  datatype SourceDoc = SourceDoc(text: Option<string>, entities: Option<EntityLists>)

  /** `Array.join` renders a missing text as empty text. */
  function DocTexts(docs: seq<SourceDoc>): (r: seq<string>)
    ensures |r| == |docs|
    ensures forall i :: 0 <= i < |docs| ==> r[i] == docs[i].text.GetOr("")
  {
    seq(|docs|, i requires 0 <= i < |docs| => docs[i].text.GetOr(""))
  }

  /** The text the model reads: the documents' texts joined by newlines, cut
      to the first 12000 characters. */
  function CombinedText(docs: seq<SourceDoc>): (r: string)
    ensures |r| <= TEXT_LIMIT
    ensures StartsWith(Join(DocTexts(docs), "\n"), r)
    ensures |Join(DocTexts(docs), "\n")| <= TEXT_LIMIT ==> r == Join(DocTexts(docs), "\n")
    ensures |Join(DocTexts(docs), "\n")| > TEXT_LIMIT ==> |r| == TEXT_LIMIT
  {
    Prefix(Join(DocTexts(docs), "\n"), TEXT_LIMIT)
  }

  /** The entity context: each document's entities, in document order. */
  function Context(docs: seq<SourceDoc>): (r: seq<Option<EntityLists>>)
    ensures |r| == |docs| && forall i :: 0 <= i < |docs| ==> r[i] == docs[i].entities
  {
    seq(|docs|, i requires 0 <= i < |docs| => docs[i].entities)
  }

  // ---------------------------------------------------------------------------
  // The summary record

  /** The synthesised summary. The executive summary and the entity insights
      keep whatever value the model gave when it is truthy; the lists are
      arrays. Keys beyond these ten are not modelled. */
  datatype Summary = Summary(
    executiveSummary: Json,
    keyFindings: seq<Json>,
    entityInsights: Json,
    analystTakeaways: seq<Json>,
    keyDiscussionPoints: seq<Json>,
    decisionsMade: seq<Json>,
    actionItems: seq<Json>,
    nextSteps: seq<Json>,
    importantDeadlines: seq<Json>,
    takeaways: seq<Json>)

  /** The JSON key of an insight category. */
  function Key(c: Category): string {
    match c
    case Persons => "persons"
    case Places => "places"
    case Organizations => "organizations"
    case PhoneNumbers => "phoneNumbers"
    case Dates => "dates"
  }

  /** Distinct categories have distinct keys (their lengths differ). */
  lemma KeyInjective(c: Category, d: Category)
    requires c != d
    ensures Key(c) != Key(d)
  {
    assert |Key(c)| != |Key(d)|;
  }

  lemma KeyOthers(c: Category)
    ensures forall d :: d != c ==> Key(d) != Key(c)
  {
    forall d | d != c ensures Key(d) != Key(c) {
      KeyInjective(d, c);
    }
  }

  predicate IsInsightCategory(c: Category) {
    c == Persons || c == Places || c == Organizations
  }

  const EMPTY_INSIGHTS: Json :=
    JObj(map["persons" := JArr([]), "places" := JArr([]), "organizations" := JArr([])])

  /** The default insights have every category present and empty. */
  lemma EmptyInsightsEmpty(c: Category)
    requires IsInsightCategory(c)
    ensures Empty(EMPTY_INSIGHTS, c) && FieldOf(EMPTY_INSIGHTS, Key(c)) == Some(JArr([]))
  {
  }

  const LIST_KEYS: seq<string> :=
    ["keyFindings", "analystTakeaways", "keyDiscussionPoints", "decisionsMade", "actionItems",
     "nextSteps", "importantDeadlines", "takeaways"]

  /** The shape used when the model's JSON cannot be parsed: the first 1000
      characters of the narrative as the executive summary, empty insight
      categories and every list empty. */
  function FallbackShape(narrative: string): (j: Json)
    ensures j.JObj?
    ensures "executiveSummary" in j.fields && j.fields["executiveSummary"] == JStr(Prefix(narrative, SUMMARY_LIMIT))
    ensures "entityInsights" in j.fields && j.fields["entityInsights"] == EMPTY_INSIGHTS
    ensures forall i :: 0 <= i < |LIST_KEYS| ==> LIST_KEYS[i] in j.fields && j.fields[LIST_KEYS[i]] == JArr([])
  {
    JObj(map[
      "executiveSummary" := JStr(Prefix(narrative, SUMMARY_LIMIT)),
      "keyFindings" := JArr([]),
      "entityInsights" := EMPTY_INSIGHTS,
      "analystTakeaways" := JArr([]),
      "keyDiscussionPoints" := JArr([]),
      "decisionsMade" := JArr([]),
      "actionItems" := JArr([]),
      "nextSteps" := JArr([]),
      "importantDeadlines" := JArr([]),
      "takeaways" := JArr([])])
  }

  /** `structureNarrativeToJson`: the parsed reply, or the fallback shape. */
  function Structured(parsed: Option<Json>, narrative: string): (j: Json)
    ensures parsed.Some? ==> j == parsed.value
    ensures parsed.None? ==> j == FallbackShape(narrative)
  {
    match parsed
    case Some(v) => v
    case None => FallbackShape(narrative)
  }

  /** A field of the spread copy `{ ...structured }`: only an object
      contributes named fields. */
  function FieldOf(j: Json, key: string): (r: Option<Json>)
    ensures r.Some? <==> j.JObj? && key in j.fields
    ensures r.Some? ==> r.value == j.fields[key]
  {
    if j.JObj? && key in j.fields then Some(j.fields[key]) else None
  }

  /** `Array.isArray(v) ? v : []`. */
  function ArrayOr(v: Option<Json>): (r: seq<Json>)
    ensures v.Some? && v.value.JArr? ==> r == v.value.items
    ensures !(v.Some? && v.value.JArr?) ==> r == []
  {
    if v.Some? && v.value.JArr? then v.value.items else []
  }

  /** `s.split('\n')[0]`: the text before the first newline. */
  function FirstLine(s: string): (r: string)
    ensures StartsWith(s, r) && forall k :: 0 <= k < |r| ==> r[k] != '\n'
    ensures |r| < |s| ==> s[|r|] == '\n'
  {
    if |s| == 0 || s[0] == '\n' then "" else [s[0]] + FirstLine(s[1..])
  }

  // ---------------------------------------------------------------------------
  // Sentences of the narrative

  /** A sentence break of `/[\.\n]\s+/` starts at `i`. */
  predicate BreakAt(s: string, i: int) {
    0 <= i && i + 1 < |s| && (s[i] == '.' || s[i] == '\n') && IsWs(s[i + 1])
  }

  /** The text holds no sentence break. */
  predicate NoBreak(s: string) {
    forall k :: 0 <= k < |s| ==> !BreakAt(s, k)
  }

  /** The first break at or after `i`, or `|s|`. */
  function NextBreak(s: string, i: nat): (j: nat)
    requires i <= |s|
    ensures i <= j <= |s|
    ensures j < |s| ==> BreakAt(s, j)
    ensures forall k :: i <= k < j ==> !BreakAt(s, k)
    decreases |s| - i
  {
    if i == |s| || BreakAt(s, i) then i else NextBreak(s, i + 1)
  }

  /** `s.split(/[\.\n]\s+/)`: the pieces between breaks; a break is a full stop
      or newline followed by a run of whitespace, all of which is dropped. */
  function SplitSentences(s: string): (r: seq<string>)
    ensures |r| >= 1
    ensures forall i :: 0 <= i < |r| ==> NoBreak(r[i])
    decreases |s|
  {
    var j := NextBreak(s, 0);
    if j == |s| then [s]
    else
      var e := WsRunEnd(s, j + 1);
      var rest := SplitSentences(s[e..]);
      assert NoBreak(s[..j]) by {
        forall k | BreakAt(s[..j], k) ensures false {
          assert BreakAt(s, k);
        }
      }
      [s[..j]] + rest
  }

  /** The text of the breaks the split removes, in order. */
  function Breaks(s: string): seq<string>
    decreases |s|
  {
    var j := NextBreak(s, 0);
    if j == |s| then [] else [s[j..WsRunEnd(s, j + 1)]] + Breaks(s[WsRunEnd(s, j + 1)..])
  }

  /** A removed break: a full stop or newline, then whitespace only. */
  predicate IsBreak(b: string) {
    |b| >= 2 && (b[0] == '.' || b[0] == '\n') && forall k :: 1 <= k < |b| ==> IsWs(b[k])
  }

  /** The pieces with the breaks put back between them. */
  function Interleave(pieces: seq<string>, seps: seq<string>): string
    requires |pieces| == |seps| + 1
  {
    if |seps| == 0 then pieces[0] else pieces[0] + seps[0] + Interleave(pieces[1..], seps[1..])
  }

  /** The first piece is the text up to the first break. */
  lemma FirstSentenceIsPrefix(s: string)
    ensures var first := SplitSentences(s)[0];
      first == s[..NextBreak(s, 0)] && NoBreak(first)
  {
  }

  /** The split loses nothing: the text is its pieces with the breaks put
      back between them. */
  lemma {:induction false} SentencesReassemble(s: string)
    ensures |Breaks(s)| + 1 == |SplitSentences(s)|
    ensures Interleave(SplitSentences(s), Breaks(s)) == s
    decreases |s|
  {
    if NextBreak(s, 0) < |s| {
      var j := NextBreak(s, 0);
      var e := WsRunEnd(s, j + 1);
      SentencesReassemble(s[e..]);
      SplitStep(s);
      ReassembleStep(SplitSentences(s), Breaks(s), s[e..]);
      ThreeParts(s, j, e);
    }
  }

  lemma ReassembleStep(r: seq<string>, b: seq<string>, tail: string)
    requires |r| == |b| + 1 && |b| > 0
    requires Interleave(r[1..], b[1..]) == tail
    ensures Interleave(r, b) == r[0] + b[0] + tail
  {
  }

  lemma ThreeParts(s: string, j: nat, e: nat)
    requires j <= e <= |s|
    ensures s[..j] + s[j..e] + s[e..] == s
  {
  }

  /** One step of the split: the text before the first break, the break, and
      the split of what follows it. */
  lemma SplitStep(s: string)
    requires NextBreak(s, 0) < |s|
    ensures var j := NextBreak(s, 0);
      var e := WsRunEnd(s, j + 1);
      && j < e <= |s|
      && SplitSentences(s)[0] == s[..j] && SplitSentences(s)[1..] == SplitSentences(s[e..])
      && |Breaks(s)| > 0 && Breaks(s)[0] == s[j..e] && Breaks(s)[1..] == Breaks(s[e..])
  {
    var j := NextBreak(s, 0);
    var e := WsRunEnd(s, j + 1);
    assert SplitSentences(s) == [s[..j]] + SplitSentences(s[e..]);
    assert Breaks(s) == [s[j..e]] + Breaks(s[e..]);
  }

  /** Each break removed is a full stop or newline with its whole whitespace
      run: no piece after a break starts with whitespace. */
  lemma {:induction false} BreaksAreMaximal(s: string)
    ensures forall k :: 0 <= k < |Breaks(s)| ==> IsBreak(Breaks(s)[k])
    ensures forall k :: 0 < k < |SplitSentences(s)| ==> SplitSentences(s)[k] == "" || !IsWs(SplitSentences(s)[k][0])
    decreases |s|
  {
    var j := NextBreak(s, 0);
    if j < |s| {
      var e := WsRunEnd(s, j + 1);
      BreaksAreMaximal(s[e..]);
      SplitStep(s);
      RunIsBreak(s, j, e);
      PieceAfterBreak(s);
      var r := SplitSentences(s);
      var b := Breaks(s);
      forall k | 0 < k < |r| ensures r[k] == "" || !IsWs(r[k][0]) {
        assert r[k] == SplitSentences(s[e..])[k - 1];
      }
      forall k | 0 <= k < |b| ensures IsBreak(b[k]) {
        if k > 0 {
          assert b[k] == Breaks(s[e..])[k - 1];
        }
      }
    }
  }

  /** A full stop or newline followed by a run of whitespace is a break. */
  lemma RunIsBreak(s: string, j: nat, e: nat)
    requires j + 1 < e <= |s| && (s[j] == '.' || s[j] == '\n')
    requires forall k :: j + 1 <= k < e ==> IsWs(s[k])
    ensures IsBreak(s[j..e])
  {
    var b := s[j..e];
    forall k | 1 <= k < |b| ensures IsWs(b[k]) {
      assert b[k] == s[j + k];
    }
  }

  /** The piece after the first break does not start with whitespace. */
  lemma PieceAfterBreak(s: string)
    requires NextBreak(s, 0) < |s|
    ensures var rest := s[WsRunEnd(s, NextBreak(s, 0) + 1)..];
      SplitSentences(rest)[0] == "" || !IsWs(SplitSentences(rest)[0][0])
  {
    var rest := s[WsRunEnd(s, NextBreak(s, 0) + 1)..];
    FirstSentenceIsPrefix(rest);
  }

  /** Each piece trimmed, the pieces that trim to nothing dropped. */
  function TrimmedNonEmpty(pieces: seq<string>): (r: seq<string>)
    ensures |r| <= |pieces|
    ensures forall x :: x in r ==> x != "" && x == Trim(x)
  {
    if |pieces| == 0 then []
    else
      var rest := TrimmedNonEmpty(pieces[1..]);
      var t := Trim(pieces[0]);
      if t == "" then rest
      else
        TrimIdempotent(pieces[0]);
        [t] + rest
  }

  /** Every piece that does not trim to nothing is kept trimmed, and nothing
      else is kept. */
  lemma {:induction false} TrimmedNonEmptyMembers(pieces: seq<string>)
    ensures forall p :: p in pieces && Trim(p) != "" ==> Trim(p) in TrimmedNonEmpty(pieces)
    ensures forall x :: x in TrimmedNonEmpty(pieces) ==> exists p :: p in pieces && x == Trim(p)
  {
    if |pieces| > 0 {
      var tail := pieces[1..];
      TrimmedNonEmptyMembers(tail);
      var rest := TrimmedNonEmpty(tail);
      var r := TrimmedNonEmpty(pieces);
      assert r == rest || r == [Trim(pieces[0])] + rest;
      forall p | p in pieces && Trim(p) != "" ensures Trim(p) in r {
        if p != pieces[0] {
          assert p in tail;
        }
      }
      forall x | x in r ensures exists p :: p in pieces && x == Trim(p) {
        if x in rest {
          var p :| p in tail && x == Trim(p);
          assert p in pieces;
        } else {
          assert x == Trim(pieces[0]);
        }
      }
    }
  }

  /** The narrative's sentences: split, trimmed, empty ones dropped. */
  function Sentences(narrative: string): (r: seq<string>)
    ensures forall x :: x in r ==> x != "" && x == Trim(x)
  {
    TrimmedNonEmpty(SplitSentences(narrative))
  }

  const FINDING_KEYWORDS: seq<string> :=
    ["important", "noted", "observed", "indicates", "shows", "reveals", "recommend", "suggest"]

  /** A sentence mentions a known name (a non-empty one). */
  predicate MentionsName(s: string, names: seq<Option<string>>) {
    exists i :: 0 <= i < |names| && names[i].Some? && names[i].value != "" && Contains(s, names[i].value)
  }

  /** A sentence uses a finding keyword, in any letter case. */
  predicate HasFindingKeyword(s: string) {
    exists i :: 0 <= i < |FINDING_KEYWORDS| && Contains(Lower(s), FINDING_KEYWORDS[i])
  }

  /** A sentence that reads as a finding: it names an entity, uses a keyword,
      or is longer than 40 characters. */
  predicate Finding(s: string, names: seq<Option<string>>) {
    MentionsName(s, names) || HasFindingKeyword(s) || |s| > LONG_SENTENCE
  }

  /** Up to six findings, the earliest ones. */
  function SynthesizeFindings(sentences: seq<string>, names: seq<Option<string>>): (r: seq<string>)
    ensures |r| <= FINDINGS_LIMIT
    ensures forall i :: 0 <= i < |r| ==> r[i] in sentences && Finding(r[i], names)
    ensures |r| < FINDINGS_LIMIT ==> forall s :: s in sentences && Finding(s, names) ==> s in r
  {
    Take(Filter(sentences, IsFinding(names)), FINDINGS_LIMIT)
  }

  function IsFinding(names: seq<Option<string>>): string -> bool {
    (s: string) => Finding(s, names)
  }

  /** The findings are the first six finding sentences in order: their number
      is the smaller of six and the number of finding sentences, and a finding
      preceded by fewer than six others sits at its rank. */
  lemma {:induction false} FindingsFirst(sentences: seq<string>, names: seq<Option<string>>)
    ensures var q := |set i | 0 <= i < |sentences| && Finding(sentences[i], names)|;
      |SynthesizeFindings(sentences, names)| == (if FINDINGS_LIMIT < q then FINDINGS_LIMIT else q)
    ensures forall j :: 0 <= j < |sentences| && Finding(sentences[j], names) &&
                        |Filter(sentences[..j], IsFinding(names))| < FINDINGS_LIMIT ==>
      |Filter(sentences[..j], IsFinding(names))| < |SynthesizeFindings(sentences, names)| &&
      SynthesizeFindings(sentences, names)[|Filter(sentences[..j], IsFinding(names))|] == sentences[j]
  {
    TakeFilterRanks(sentences, IsFinding(names), FINDINGS_LIMIT);
    FilterIndices(sentences, IsFinding(names));
    assert Positions(sentences, IsFinding(names)) == set i | 0 <= i < |sentences| && Finding(sentences[i], names);
  }

  /** A sentence that recommends: it says `should`, `recommend` or `consider`. */
  predicate Advises(s: string) {
    var l := Lower(s);
    Contains(l, "should") || Contains(l, "recommend") || Contains(l, "consider")
  }

  /** A sentence longer than 40 characters. */
  predicate Long(s: string) {
    |s| > LONG_SENTENCE
  }

  /** Up to five takeaways: the first advising sentences when there are any,
      otherwise the last sentences longer than 40 characters. */
  function SynthesizeTakeaways(sentences: seq<string>): (r: seq<string>)
    ensures |r| <= TAKEAWAYS_LIMIT
    ensures forall i :: 0 <= i < |r| ==> r[i] in sentences
    ensures (exists s :: s in sentences && Advises(s)) ==> |r| > 0 && forall i :: 0 <= i < |r| ==> Advises(r[i])
    ensures (forall s :: s in sentences ==> !Advises(s)) ==> forall i :: 0 <= i < |r| ==> Long(r[i])
  {
    var advice := Filter(sentences, Advises);
    if |advice| > 0 then Take(advice, TAKEAWAYS_LIMIT)
    else
      assert forall s :: s in sentences ==> !Advises(s);
      TakeLast(Filter(sentences, Long), TAKEAWAYS_LIMIT)
  }

  /** With advice in the narrative, the takeaways are its first five advising
      sentences in order: as many as there are, up to five, and an advising
      sentence preceded by fewer than five others sits at its rank. */
  lemma {:induction false} TakeawaysFirstAdvice(sentences: seq<string>)
    requires exists i :: 0 <= i < |sentences| && Advises(sentences[i])
    ensures var r := SynthesizeTakeaways(sentences);
            var qa := |set i | 0 <= i < |sentences| && Advises(sentences[i])|;
      |r| == (if TAKEAWAYS_LIMIT < qa then TAKEAWAYS_LIMIT else qa)
    ensures var r := SynthesizeTakeaways(sentences);
      forall j :: 0 <= j < |sentences| && Advises(sentences[j]) &&
                  |Filter(sentences[..j], Advises)| < TAKEAWAYS_LIMIT ==>
        |Filter(sentences[..j], Advises)| < |r| && r[|Filter(sentences[..j], Advises)|] == sentences[j]
  {
    var i :| 0 <= i < |sentences| && Advises(sentences[i]);
    assert sentences[i] in Filter(sentences, Advises);
    assert SynthesizeTakeaways(sentences) == Take(Filter(sentences, Advises), TAKEAWAYS_LIMIT);
    TakeFilterRanks(sentences, Advises, TAKEAWAYS_LIMIT);
    FilterIndices(sentences, Advises);
    assert Positions(sentences, Advises) == set i | 0 <= i < |sentences| && Advises(sentences[i]);
  }

  /** Without advice in the narrative, the takeaways are its last five long
      sentences in order: as many as there are, up to five, and a long sentence
      followed by fewer than five others sits that many places from the end. */
  lemma {:induction false} TakeawaysLastLong(sentences: seq<string>)
    requires forall i :: 0 <= i < |sentences| ==> !Advises(sentences[i])
    ensures var r := SynthesizeTakeaways(sentences);
            var ql := |set i | 0 <= i < |sentences| && Long(sentences[i])|;
      |r| == (if TAKEAWAYS_LIMIT < ql then TAKEAWAYS_LIMIT else ql)
    ensures var r := SynthesizeTakeaways(sentences);
      forall j :: 0 <= j < |sentences| && Long(sentences[j]) &&
                  |Filter(sentences[j + 1..], Long)| < TAKEAWAYS_LIMIT ==>
        |Filter(sentences[j + 1..], Long)| < |r| && r[|r| - 1 - |Filter(sentences[j + 1..], Long)|] == sentences[j]
  {
    NoAdvice(sentences);
    LongCount(sentences);
    var r := SynthesizeTakeaways(sentences);
    forall j | 0 <= j < |sentences| && Long(sentences[j]) && |Filter(sentences[j + 1..], Long)| < TAKEAWAYS_LIMIT
      ensures |Filter(sentences[j + 1..], Long)| < |r| && r[|r| - 1 - |Filter(sentences[j + 1..], Long)|] == sentences[j]
    {
      TakeLastFilterRank(sentences, Long, TAKEAWAYS_LIMIT, j);
    }
  }

  /** Without an advising sentence the takeaways fall back to long ones. */
  lemma NoAdvice(sentences: seq<string>)
    requires forall i :: 0 <= i < |sentences| ==> !Advises(sentences[i])
    ensures SynthesizeTakeaways(sentences) == TakeLast(Filter(sentences, Long), TAKEAWAYS_LIMIT)
  {
  }

  /** The long sentences are counted by their positions. */
  lemma LongCount(sentences: seq<string>)
    ensures |Filter(sentences, Long)| == |set i | 0 <= i < |sentences| && Long(sentences[i])|
  {
    FilterIndices(sentences, Long);
    assert Positions(sentences, Long) == set i | 0 <= i < |sentences| && Long(sentences[i]);
  }

  // ---------------------------------------------------------------------------
  // Entity insights

  /** Document `i` lists an entity of category `c` whose value is `v`. */
  predicate Offers(ctx: seq<Option<EntityLists>>, i: int, c: Category, v: Option<string>) {
    0 <= i < |ctx| && ctx[i].Some? && ctx[i].value.Get(c).Some? &&
    exists p :: p in ctx[i].value.Get(c).value && ItemValue(p) == v
  }

  /** Every value the documents contribute to one category, in document order:
      exactly the values some document offers. */
  function CategoryValues(ctx: seq<Option<EntityLists>>, c: Category): (r: seq<Option<string>>)
    ensures forall v :: v in r ==> exists i :: Offers(ctx, i, c, v)
    ensures forall i, v :: Offers(ctx, i, c, v) ==> v in r
    decreases |ctx|
  {
    if |ctx| == 0 then []
    else
      var here := if ctx[0].Some? && ctx[0].value.Get(c).Some? then Map(ctx[0].value.Get(c).value, ItemValue) else [];
      var rest := CategoryValues(ctx[1..], c);
      assert forall v :: v in rest ==> exists i :: Offers(ctx, i, c, v) by {
        forall v | v in rest
          ensures exists i :: Offers(ctx, i, c, v)
        {
          var i :| Offers(ctx[1..], i, c, v);
          assert ctx[i + 1] == ctx[1..][i];
          assert Offers(ctx, i + 1, c, v);
        }
      }
      assert forall v :: v in here ==> Offers(ctx, 0, c, v);
      assert forall i, v :: Offers(ctx, i, c, v) ==> v in here + rest by {
        forall i, v | Offers(ctx, i, c, v)
          ensures v in here + rest
        {
          if i == 0 {
            var items := ctx[0].value.Get(c).value;
            var p :| p in items && ItemValue(p) == v;
            var k :| 0 <= k < |items| && items[k] == p;
            assert here[k] == v;
          } else {
            assert ctx[1..][i - 1] == ctx[i];
            assert Offers(ctx[1..], i - 1, c, v);
          }
        }
      }
      here + rest
  }

  /** `flattenEntities` for one category: the distinct values, first seen first. */
  function Flat(ctx: seq<Option<EntityLists>>, c: Category): (r: seq<Option<string>>)
    ensures NoDups(r)
    ensures forall v :: v in r <==> v in CategoryValues(ctx, c)
    ensures forall v :: v in r <==> exists i :: Offers(ctx, i, c, v)
    ensures FirstSeenOrder(r, CategoryValues(ctx, c))
  {
    DedupFirstSeen(CategoryValues(ctx, c));
    Dedup(CategoryValues(ctx, c))
  }

  /** A value as it lands in a JSON array: `undefined` becomes null. */
  function ToJson(v: Option<string>): Json {
    match v
    case Some(s) => JStr(s)
    case None => JNull
  }

  /** A category counts as empty when it is missing, falsy, or an array or
      string of length zero. */
  predicate Empty(ins: Json, c: Category) {
    var cur := FieldOf(ins, Key(c));
    cur.None? || !Truthy(cur.value) || (cur.value.JArr? && |cur.value.items| == 0)
  }

  /** Filling one category: an empty category receives the context's names
      when there are any. Assigning a property to a truthy primitive throws in
      a module; an array takes the property without it showing in its items. */
  function FillCategory(ins: Json, c: Category, flat: seq<Option<string>>): (r: Result<Json>)
    ensures !(Empty(ins, c) && |flat| > 0) ==> r == Ok(ins)
    ensures Empty(ins, c) && |flat| > 0 && ins.JObj? ==>
      r == Ok(JObj(ins.fields[Key(c) := JArr(Map(flat, ToJson))]))
    ensures r.Err? <==> Empty(ins, c) && |flat| > 0 && !ins.JObj? && !ins.JArr?
    ensures ins.JObj? ==> r.Ok? && r.value.JObj? && forall d :: d != c ==> FieldOf(r.value, Key(d)) == FieldOf(ins, Key(d))
  {
    KeyOthers(c);
    if Empty(ins, c) && |flat| > 0 then
      match ins
      case JObj(m) => Ok(JObj(m[Key(c) := JArr(Map(flat, ToJson))]))
      case JArr(_) => Ok(ins)
      case _ => Err("Cannot create property '" + Key(c) + "' on a primitive value")
    else Ok(ins)
  }

  /** The three categories filled in turn. */
  function FillInsights(ins: Json, ctx: seq<Option<EntityLists>>): (r: Result<Json>)
  {
    match FillCategory(ins, Persons, Flat(ctx, Persons))
    case Err(m) => Err(m)
    case Ok(a) =>
      match FillCategory(a, Places, Flat(ctx, Places))
      case Err(m) => Err(m)
      case Ok(b) => FillCategory(b, Organizations, Flat(ctx, Organizations))
  }

  /** On an insights object, an empty category ends up holding the context's
      distinct names when there are any, and every other category is left as
      the model gave it. */
  lemma FillInsightsObject(m: map<string, Json>, ctx: seq<Option<EntityLists>>, c: Category)
    requires IsInsightCategory(c)
    ensures FillInsights(JObj(m), ctx).Ok? && FillInsights(JObj(m), ctx).value.JObj?
    ensures var out := FillInsights(JObj(m), ctx).value.fields;
      (Empty(JObj(m), c) && |Flat(ctx, c)| > 0 ==> Key(c) in out && out[Key(c)] == JArr(Map(Flat(ctx, c), ToJson))) &&
      (!(Empty(JObj(m), c) && |Flat(ctx, c)| > 0) ==> FieldOf(JObj(out), Key(c)) == FieldOf(JObj(m), Key(c)))
  {
    var a := FillCategory(JObj(m), Persons, Flat(ctx, Persons)).value;
    var b := FillCategory(a, Places, Flat(ctx, Places)).value;
    var o := FillCategory(b, Organizations, Flat(ctx, Organizations)).value;
    assert FillInsights(JObj(m), ctx) == Ok(o);
    if c == Places {
      assert Empty(a, c) == Empty(JObj(m), c);
    } else if c == Organizations {
      assert Empty(b, c) == Empty(JObj(m), c);
    }
  }

  /** All names the context offers, across the three categories. */
  function AllNames(ctx: seq<Option<EntityLists>>): seq<Option<string>> {
    Flat(ctx, Persons) + Flat(ctx, Places) + Flat(ctx, Organizations)
  }

  // ---------------------------------------------------------------------------
  // Synthesis

  /** A sentence as a JSON string. */
  function JsonString(s: string): Json {
    JStr(s)
  }

  /** `synthesizeMissingFields`. A truthy executive summary is kept, otherwise
      the narrative's first line cut to 1000 characters; a list that is not an
      array becomes empty; the insights default to three empty categories and
      empty categories are filled from the context; empty findings and
      takeaways are drawn from the narrative's sentences. Fails only when a
      fill would assign to a truthy primitive. */
  function Synthesize(structured: Json, narrative: string, ctx: seq<Option<EntityLists>>): (r: Result<Summary>)
    ensures r.Ok? <==> FillInsights(OrElse(FieldOf(structured, "entityInsights"), EMPTY_INSIGHTS), ctx).Ok?
    ensures r.Ok? ==>
      var s := r.value;
      s.executiveSummary == OrElse(FieldOf(structured, "executiveSummary"), JStr(Prefix(FirstLine(narrative), SUMMARY_LIMIT))) &&
      s.keyDiscussionPoints == ArrayOr(FieldOf(structured, "keyDiscussionPoints")) &&
      s.decisionsMade == ArrayOr(FieldOf(structured, "decisionsMade")) &&
      s.actionItems == ArrayOr(FieldOf(structured, "actionItems")) &&
      s.nextSteps == ArrayOr(FieldOf(structured, "nextSteps")) &&
      s.importantDeadlines == ArrayOr(FieldOf(structured, "importantDeadlines")) &&
      s.takeaways == ArrayOr(FieldOf(structured, "takeaways"))
    ensures r.Ok? ==>
      r.value.entityInsights == FillInsights(OrElse(FieldOf(structured, "entityInsights"), EMPTY_INSIGHTS), ctx).value
    ensures r.Ok? && |ArrayOr(FieldOf(structured, "keyFindings"))| == 0 ==>
      r.value.keyFindings == Map(SynthesizeFindings(Sentences(narrative), AllNames(ctx)), JsonString)
    ensures r.Ok? && |ArrayOr(FieldOf(structured, "analystTakeaways"))| == 0 ==>
      r.value.analystTakeaways == Map(SynthesizeTakeaways(Sentences(narrative)), JsonString)
    ensures r.Ok? && |ArrayOr(FieldOf(structured, "keyFindings"))| > 0 ==>
      r.value.keyFindings == ArrayOr(FieldOf(structured, "keyFindings"))
    ensures r.Ok? && |ArrayOr(FieldOf(structured, "keyFindings"))| == 0 ==>
      |r.value.keyFindings| <= FINDINGS_LIMIT &&
      forall i :: 0 <= i < |r.value.keyFindings| ==>
        r.value.keyFindings[i].JStr? && r.value.keyFindings[i].s in Sentences(narrative) &&
        Finding(r.value.keyFindings[i].s, AllNames(ctx))
    ensures r.Ok? && |ArrayOr(FieldOf(structured, "analystTakeaways"))| > 0 ==>
      r.value.analystTakeaways == ArrayOr(FieldOf(structured, "analystTakeaways"))
    ensures r.Ok? && |ArrayOr(FieldOf(structured, "analystTakeaways"))| == 0 ==>
      |r.value.analystTakeaways| <= TAKEAWAYS_LIMIT &&
      forall i :: 0 <= i < |r.value.analystTakeaways| ==>
        r.value.analystTakeaways[i].JStr? && r.value.analystTakeaways[i].s in Sentences(narrative)
  {
    var exec := OrElse(FieldOf(structured, "executiveSummary"), JStr(Prefix(FirstLine(narrative), SUMMARY_LIMIT)));
    var findings := ArrayOr(FieldOf(structured, "keyFindings"));
    var takeaways := ArrayOr(FieldOf(structured, "analystTakeaways"));
    match FillInsights(OrElse(FieldOf(structured, "entityInsights"), EMPTY_INSIGHTS), ctx)
    case Err(m) => Err(m)
    case Ok(ins) =>
      var sentences := Sentences(narrative);
      Ok(Summary(
        exec,
        if |findings| > 0 then findings else Map(SynthesizeFindings(sentences, AllNames(ctx)), JsonString),
        ins,
        if |takeaways| > 0 then takeaways else Map(SynthesizeTakeaways(sentences), JsonString),
        ArrayOr(FieldOf(structured, "keyDiscussionPoints")),
        ArrayOr(FieldOf(structured, "decisionsMade")),
        ArrayOr(FieldOf(structured, "actionItems")),
        ArrayOr(FieldOf(structured, "nextSteps")),
        ArrayOr(FieldOf(structured, "importantDeadlines")),
        ArrayOr(FieldOf(structured, "takeaways"))))
  }

  /** `generateAISummary`. No documents, or an empty list, gives null without
      calling the model. Otherwise the narrative is asked for over the combined
      text and the entity context, structured, and synthesised. */
  function GenerateAiSummary(documents: Option<seq<SourceDoc>>,
                             narrate: (string, seq<Option<EntityLists>>) -> string,
                             structure: string -> Option<Json>): (r: Option<Result<Summary>>)
    ensures r.None? <==> documents.None? || |documents.value| == 0
    ensures r.Some? ==>
      var narrative := narrate(CombinedText(documents.value), Context(documents.value));
      r.value == Synthesize(Structured(structure(narrative), narrative), narrative, Context(documents.value))
  {
    if documents.None? || |documents.value| == 0 then None
    else
      var docs := documents.value;
      var narrative := narrate(CombinedText(docs), Context(docs));
      Some(Synthesize(Structured(structure(narrative), narrative), narrative, Context(docs)))
  }

  /** The fallback's insights object fills without error, and each insight
      category holds the context's names for it. */
  lemma FallbackInsights(narrative: string, ctx: seq<Option<EntityLists>>, c: Category)
    requires IsInsightCategory(c)
    ensures var ins := FillInsights(OrElse(FieldOf(FallbackShape(narrative), "entityInsights"), EMPTY_INSIGHTS), ctx);
      ins.Ok? && ins.value.JObj? &&
      FieldOf(ins.value, Key(c)) == Some(if |Flat(ctx, c)| > 0 then JArr(Map(Flat(ctx, c), ToJson)) else JArr([]))
  {
    var fb := FallbackShape(narrative);
    assert FieldOf(fb, "entityInsights") == Some(EMPTY_INSIGHTS);
    EmptyInsightsEmpty(c);
    FillInsightsObject(EMPTY_INSIGHTS.fields, ctx, c);
  }

  /** The fallback's own fields: its executive summary is the cut narrative,
      truthy when the narrative is not empty, and every old list is empty. */
  lemma FallbackFields(narrative: string)
    ensures narrative != "" ==>
      OrElse(FieldOf(FallbackShape(narrative), "executiveSummary"), JStr(Prefix(FirstLine(narrative), SUMMARY_LIMIT)))
        == JStr(Prefix(narrative, SUMMARY_LIMIT))
    ensures var fb := FallbackShape(narrative);
      ArrayOr(FieldOf(fb, "keyDiscussionPoints")) == [] && ArrayOr(FieldOf(fb, "decisionsMade")) == [] &&
      ArrayOr(FieldOf(fb, "actionItems")) == [] && ArrayOr(FieldOf(fb, "nextSteps")) == [] &&
      ArrayOr(FieldOf(fb, "importantDeadlines")) == [] && ArrayOr(FieldOf(fb, "takeaways")) == []
  {
    var fb := FallbackShape(narrative);
    if narrative != "" {
      assert |Prefix(narrative, SUMMARY_LIMIT)| > 0;
    }
    assert LIST_KEYS[2] == "keyDiscussionPoints" && LIST_KEYS[3] == "decisionsMade" && LIST_KEYS[4] == "actionItems";
    assert LIST_KEYS[5] == "nextSteps" && LIST_KEYS[6] == "importantDeadlines" && LIST_KEYS[7] == "takeaways";
  }

  /** When the model's JSON cannot be parsed, the synthesised summary keeps the
      fallback's executive summary when the narrative is not empty; the old
      meeting-style lists are all empty; and the insights are the context's
      names, category by category. */
  lemma FallbackSynthesis(narrative: string, ctx: seq<Option<EntityLists>>, c: Category)
    requires IsInsightCategory(c)
    ensures var r := Synthesize(FallbackShape(narrative), narrative, ctx);
      r.Ok? &&
      (narrative != "" ==> r.value.executiveSummary == JStr(Prefix(narrative, SUMMARY_LIMIT))) &&
      r.value.keyDiscussionPoints == [] && r.value.decisionsMade == [] && r.value.actionItems == [] &&
      r.value.nextSteps == [] && r.value.importantDeadlines == [] && r.value.takeaways == [] &&
      r.value.entityInsights.JObj? &&
      FieldOf(r.value.entityInsights, Key(c)) ==
        Some(if |Flat(ctx, c)| > 0 then JArr(Map(Flat(ctx, c), ToJson)) else JArr([]))
  {
    FallbackInsights(narrative, ctx, c);
    FallbackFields(narrative);
  }
}

=== FILE: alert_model.dfy ===
/** The Alert record: enumerations, defaults, and the in-memory alert store. */
module AlertModel {
  import opened Wrappers
  import Strings
  import EventModel

  datatype AlertType =
    | EntityMatch | GeoSpike | RiskProfile | CrossAgency | Custom
    | EventCreated | DocumentCreated | NewDocument | NewOcrDocument | NewTranscription

  function TypeName(t: AlertType): string {
    match t
    case EntityMatch => "entity_match"
    case GeoSpike => "geo_spike"
    case RiskProfile => "risk_profile"
    case CrossAgency => "cross_agency"
    case Custom => "custom"
    case EventCreated => "event_created"
    case DocumentCreated => "document_created"
    case NewDocument => "new_document"
    case NewOcrDocument => "new_ocr_document"
    case NewTranscription => "new_transcription"
  }

  const ALL_TYPES: seq<AlertType> :=
    [EntityMatch, GeoSpike, RiskProfile, CrossAgency, Custom, EventCreated, DocumentCreated, NewDocument, NewOcrDocument, NewTranscription]

  /** Accepts exactly the ten enumerated type strings. */
  function ParseType(s: string): (r: Option<AlertType>)
    ensures r.Some? ==> TypeName(r.value) == s
    ensures forall t :: s == TypeName(t) ==> r == Some(t)
  {
    if s == "entity_match" then Some(EntityMatch)
    else if s == "geo_spike" then Some(GeoSpike)
    else if s == "risk_profile" then Some(RiskProfile)
    else if s == "cross_agency" then Some(CrossAgency)
    else if s == "custom" then Some(Custom)
    else if s == "event_created" then Some(EventCreated)
    else if s == "document_created" then Some(DocumentCreated)
    else if s == "new_document" then Some(NewDocument)
    else if s == "new_ocr_document" then Some(NewOcrDocument)
    else if s == "new_transcription" then Some(NewTranscription)
    else None
  }

  datatype Severity = Low | Medium | High | Critical

  function SeverityName(s: Severity): string {
    match s
    case Low => "low"
    case Medium => "medium"
    case High => "high"
    case Critical => "critical"
  }

  function ParseSeverity(s: string): (r: Option<Severity>)
    ensures r.Some? ==> SeverityName(r.value) == s
    ensures forall v :: s == SeverityName(v) ==> r == Some(v)
  {
    if s == "low" then Some(Low)
    else if s == "medium" then Some(Medium)
    else if s == "high" then Some(High)
    else if s == "critical" then Some(Critical)
    else None
  }

  datatype AlertStatus = Unread | Read | Acknowledged | Resolved | Dismissed

  function StatusName(s: AlertStatus): string {
    match s
    case Unread => "unread"
    case Read => "read"
    case Acknowledged => "acknowledged"
    case Resolved => "resolved"
    case Dismissed => "dismissed"
  }

  function ParseStatus(s: string): (r: Option<AlertStatus>)
    ensures r.Some? ==> StatusName(r.value) == s
    ensures forall v :: s == StatusName(v) ==> r == Some(v)
  {
    if s == "unread" then Some(Unread)
    else if s == "read" then Some(Read)
    else if s == "acknowledged" then Some(Acknowledged)
    else if s == "resolved" then Some(Resolved)
    else if s == "dismissed" then Some(Dismissed)
    else None
  }

  /** The statuses in which an automatically raised alert is still open for updates. */
  predicate IsOpen(s: AlertStatus) {
    s == Unread || s == Read || s == Acknowledged
  }

  datatype NotifyMethod = Email | Sms | Internal

  function ParseMethod(s: string): (r: Option<NotifyMethod>)
    ensures r == Some(Email) <==> s == "email"
    ensures r == Some(Sms) <==> s == "sms"
    ensures r == Some(Internal) <==> s == "internal"
  {
    if s == "email" then Some(Email)
    else if s == "sms" then Some(Sms)
    else if s == "internal" then Some(Internal)
    else None
  }

  datatype NotifyStatus = Pending | Sent | Failed

  datatype Notification = Notification(agency: string, notifiedAt: int, via: NotifyMethod, status: NotifyStatus)

  datatype ReadEntry = ReadEntry(userId: string, readAt: int)

  datatype Acknowledgement = Acknowledgement(userId: string, acknowledgedAt: int)

  datatype DocRef = DocRef(id: string, docType: EventModel.DocType)

  datatype Details = Details(
    entityName: Option<string>,
    entityType: Option<string>,
    matchCount: Option<nat>,
    agencies: seq<string>,
    locations: seq<string>,
    documentIds: seq<DocRef>,
    riskScore: Option<nat>,
    geoLocation: Option<string>,
    incidentCount: Option<nat>,
    riskFactors: seq<string>,
    crossAgency: Option<bool>)

  const NO_DETAILS: Details := Details(None, None, None, [], [], [], None, None, None, [], None)

  datatype Alert = Alert(
    id: string,
    alertType: AlertType,
    severity: Severity,
    title: string,
    description: string,
    details: Details,
    relatedEvent: Option<string>,
    status: AlertStatus,
    agencies: seq<string>,
    notified: seq<Notification>,
    triggeredBy: string,
    actionTaken: string,
    readBy: seq<ReadEntry>,
    acknowledgedBy: Option<Acknowledgement>,
    createdAt: int,
    updatedAt: int)

  /** A new alert with every field the caller does not give at its schema default. */
  function NewAlert(id: string, t: AlertType, title: string, description: string, now: int): (a: Alert)
    ensures a.alertType == t && a.id == id
    ensures a.severity == Medium && a.status == Unread
    ensures a.agencies == [] && a.actionTaken == "" && a.triggeredBy == "AI"
    ensures a.notified == [] && a.readBy == [] && a.acknowledgedBy == None
  {
    Alert(id, t, Medium, title, description, NO_DETAILS, None, Unread, [], [], "AI", "", [], None, now, now)
  }

  /** The alert collection, in natural (insertion) order. */
  type Store = seq<Alert>

  predicate UniqueIds(s: Store) {
    forall i, j :: 0 <= i < j < |s| ==> s[i].id != s[j].id
  }

  /** The identifier the database gives a newly saved alert, modelled as its
      position in the store. */
  function NextId(s: Store): string {
    "alert-" + Strings.NatToString(|s|)
  }

  /** `findById`: the position of the alert with the given id. */
  function FindById(s: Store, id: string): (r: Option<nat>)
    ensures r.Some? ==> r.value < |s| && s[r.value].id == id
    ensures r.None? <==> forall i :: 0 <= i < |s| ==> s[i].id != id
  {
    if |s| == 0 then None
    else if s[0].id == id then Some(0)
    else match FindById(s[1..], id)
      case None => None
      case Some(k) => Some(k + 1)
  }
}

=== FILE: alert_routes.dfy ===
/** The alert routes: which alerts an agency sees, the unread count, and the
    read / acknowledge / dismiss / notify / delete updates on the alert store.
    Each handler takes the store and the request and gives the reply with the
    store afterwards. Socket emits are returned as the list of channel names. */
module AlertRoutes {
  import opened Wrappers
  import opened Seqs
  import opened Sorting
  import opened AlertModel

  /** An alert addressed to the agency, or to nobody in particular. */
  predicate Visible(a: Alert, agency: string) {
    agency in a.agencies || |a.agencies| == 0
  }

  /** The optional query filters; an empty value counts as absent. A missing
      limit is 50, and a limit of 0 means no limit. */
  datatype Query = Query(status: Option<string>, severity: Option<string>, alertType: Option<string>, limit: Option<nat>)

  const DEFAULT_LIMIT: nat := 50

  function Limit(q: Query): nat { q.limit.GetOr(DEFAULT_LIMIT) }

  predicate Given(v: Option<string>) { v.Some? && v.value != "" }

  /** The filter of `GET /`: visible, and equal on every filter that is given. */
  predicate Matches(a: Alert, agency: string, q: Query) {
    Visible(a, agency) &&
    (Given(q.status) ==> StatusName(a.status) == q.status.value) &&
    (Given(q.severity) ==> SeverityName(a.severity) == q.severity.value) &&
    (Given(q.alertType) ==> TypeName(a.alertType) == q.alertType.value)
  }

  function NewestFirst(a: Alert): real { -(a.createdAt as real) }

  /** `GET /`: the matching alerts, newest first, at most `Limit(q)` of them.
      A matching alert is left out only when the limit is full of alerts at
      least as new. */
  function ListAlerts(store: Store, agency: string, q: Query): (r: seq<Alert>)
    ensures forall i :: 0 <= i < |r| ==> r[i] in store && Matches(r[i], agency, q)
    ensures forall i, j :: 0 <= i < j < |r| ==> r[i].createdAt >= r[j].createdAt
    ensures Limit(q) > 0 ==> |r| <= Limit(q)
    ensures forall a :: a in store && Matches(a, agency, q) ==>
      a in r || (Limit(q) > 0 && |r| == Limit(q) && r[Limit(q) - 1].createdAt >= a.createdAt)
  {
    var matching := Filter(store, (a: Alert) => Matches(a, agency, q));
    assert forall x :: x in matching ==> x in store && Matches(x, agency, q) by {
      forall x | x in matching ensures x in store && Matches(x, agency, q) {
        var i :| 0 <= i < |matching| && matching[i] == x;
      }
    }
    Top(matching, NewestFirst, Limit(q))
  }

  /** Visible unread alerts. */
  function UnreadCount(store: Store, agency: string): (n: nat)
    ensures n <= |store|
  {
    if |store| == 0 then 0
    else (if Visible(store[0], agency) && store[0].status == Unread then 1 else 0) + UnreadCount(store[1..], agency)
  }

  function Counted(a: Alert, agency: string): nat {
    if Visible(a, agency) && a.status == Unread then 1 else 0
  }

  /** Replacing one alert changes the unread count by the difference that
      alert makes. */
  lemma {:induction false} UnreadCountUpdate(store: Store, k: nat, a: Alert, agency: string)
    requires k < |store|
    ensures UnreadCount(store[k := a], agency) + Counted(store[k], agency) == UnreadCount(store, agency) + Counted(a, agency)
    decreases k
  {
    if k > 0 {
      assert store[k := a][1..] == store[1..][k - 1 := a];
      UnreadCountUpdate(store[1..], k - 1, a, agency);
    } else {
      assert store[k := a][1..] == store[1..];
    }
  }

  /** The reply of an update: 404 when the id is unknown, else the alert. */
  datatype Reply = NotFound | ServerError(message: string) | Done(alert: Alert)

  /** `PATCH /:id/read`: status `read` whatever it was, and exactly one more
      read entry. */
  function MarkRead(store: Store, id: string, userId: string, now: int): (r: (Reply, Store))
    ensures FindById(store, id).None? ==> r == (NotFound, store)
    ensures FindById(store, id).Some? ==>
      var k := FindById(store, id).value;
      |r.1| == |store| && r.0 == Done(r.1[k]) &&
      r.1[k] == store[k].(status := Read, readBy := store[k].readBy + [ReadEntry(userId, now)], updatedAt := now) &&
      forall i :: 0 <= i < |store| && i != k ==> r.1[i] == store[i]
  {
    match FindById(store, id)
    case None => (NotFound, store)
    case Some(k) =>
      var a := store[k].(status := Read, readBy := store[k].readBy + [ReadEntry(userId, now)], updatedAt := now);
      (Done(a), store[k := a])
  }

  /** Reading a visible unread alert lowers the agency's unread count by one;
      reading any other alert leaves it unchanged. */
  lemma MarkReadCount(store: Store, id: string, userId: string, now: int, agency: string)
    requires FindById(store, id).Some?
    ensures var k := FindById(store, id).value;
      UnreadCount(MarkRead(store, id, userId, now).1, agency) ==
        UnreadCount(store, agency) - Counted(store[k], agency)
  {
    var k := FindById(store, id).value;
    var a := MarkRead(store, id, userId, now).1[k];
    UnreadCountUpdate(store, k, a, agency);
  }

  /** `PATCH /:id/acknowledge`: status `acknowledged`, who acknowledged and
      when, and the action text (empty when not given). */
  function Acknowledge(store: Store, id: string, userId: string, actionTaken: Option<string>, now: int): (r: (Reply, Store))
    ensures FindById(store, id).None? ==> r == (NotFound, store)
    ensures FindById(store, id).Some? ==>
      var k := FindById(store, id).value;
      |r.1| == |store| && r.0 == Done(r.1[k]) &&
      r.1[k].status == Acknowledged && r.1[k].acknowledgedBy == Some(Acknowledgement(userId, now)) &&
      r.1[k].actionTaken == (if actionTaken.Some? && actionTaken.value != "" then actionTaken.value else "") &&
      r.1[k].(status := store[k].status, acknowledgedBy := store[k].acknowledgedBy,
              actionTaken := store[k].actionTaken, updatedAt := store[k].updatedAt) == store[k] &&
      forall i :: 0 <= i < |store| && i != k ==> r.1[i] == store[i]
  {
    match FindById(store, id)
    case None => (NotFound, store)
    case Some(k) =>
      var text := if actionTaken.Some? && actionTaken.value != "" then actionTaken.value else "";
      var a := store[k].(status := Acknowledged, acknowledgedBy := Some(Acknowledgement(userId, now)),
                         actionTaken := text, updatedAt := now);
      (Done(a), store[k := a])
  }

  /** `PATCH /:id/dismiss`: status `dismissed` and nothing else but the
      update time. */
  function Dismiss(store: Store, id: string, now: int): (r: (Reply, Store))
    ensures FindById(store, id).None? ==> r == (NotFound, store)
    ensures FindById(store, id).Some? ==>
      var k := FindById(store, id).value;
      |r.1| == |store| && r.0 == Done(r.1[k]) &&
      r.1[k].status == Dismissed && r.1[k].(status := store[k].status, updatedAt := store[k].updatedAt) == store[k] &&
      forall i :: 0 <= i < |store| && i != k ==> r.1[i] == store[i]
  {
    match FindById(store, id)
    case None => (NotFound, store)
    case Some(k) =>
      var a := store[k].(status := Dismissed, updatedAt := now);
      (Done(a), store[k := a])
  }

  /** The updates keep every id in place, so ids stay unique. */
  lemma UpdatesKeepIds(store: Store, id: string, userId: string, text: Option<string>, now: int)
    requires UniqueIds(store)
    ensures UniqueIds(MarkRead(store, id, userId, now).1)
    ensures UniqueIds(Acknowledge(store, id, userId, text, now).1)
    ensures UniqueIds(Dismiss(store, id, now).1)
  {
  }

  /** The notification records for the listed agencies, in order. */
  function Notifications(agencies: seq<string>, via: NotifyMethod, now: int): (r: seq<Notification>)
    ensures |r| == |agencies|
    ensures forall i :: 0 <= i < |r| ==> r[i] == Notification(agencies[i], now, via, Sent)
  {
    seq(|agencies|, i requires 0 <= i < |agencies| => Notification(agencies[i], now, via, Sent))
  }

  /** What `POST /:id/notify-agencies` answers with. */
  datatype NotifyReply = NotifyNotFound | NotifyFailed | Notified(alert: Alert, notifiedCount: nat, channels: seq<string>)

  /** `POST /:id/notify-agencies`: one `sent` notification per listed agency,
      in order, by the given method (`internal` when none is given), and one
      emit per agency. A missing agency list or a method outside the schema's
      enumeration fails with 500. */
  function Notify(store: Store, id: string, agencies: Option<seq<string>>, via: Option<string>, now: int): (r: (NotifyReply, Store))
    ensures FindById(store, id).None? ==> r == (NotifyNotFound, store)
    ensures FindById(store, id).Some? && (agencies.None? || ParseMethod(via.GetOr("internal")).None?) ==>
      r == (NotifyFailed, store)
    ensures r.0.Notified? ==>
      var k := FindById(store, id).value;
      FindById(store, id).Some? && agencies.Some? && |r.1| == |store| &&
      r.0.notifiedCount == |agencies.value| &&
      r.0.alert == r.1[k] &&
      r.1[k].notified == store[k].notified + Notifications(agencies.value, ParseMethod(via.GetOr("internal")).value, now) &&
      r.1 == store[k := r.1[k]] &&
      r.1[k].(notified := store[k].notified, updatedAt := store[k].updatedAt) == store[k] &&
      r.1[k].updatedAt == now &&
      |r.0.channels| == |agencies.value| &&
      forall i :: 0 <= i < |agencies.value| ==> r.0.channels[i] == "alert:agency:" + agencies.value[i]
  {
    match FindById(store, id)
    case None => (NotifyNotFound, store)
    case Some(k) =>
      if agencies.None? then (NotifyFailed, store)
      else match ParseMethod(via.GetOr("internal"))
        case None => (NotifyFailed, store)
        case Some(m) =>
          var a := store[k].(notified := store[k].notified + Notifications(agencies.value, m, now), updatedAt := now);
          var channels := seq(|agencies.value|, i requires 0 <= i < |agencies.value| => "alert:agency:" + agencies.value[i]);
          (Notified(a, |agencies.value|, channels), store[k := a])
  }

  /** The channels a newly created alert is announced on: one per agency, or
      the broadcast channel when it has none. */
  function CreationChannels(a: Alert): (r: seq<string>)
    ensures |a.agencies| == 0 ==> r == ["alert:all"]
    ensures |a.agencies| > 0 ==>
      |r| == |a.agencies| && forall i :: 0 <= i < |r| ==> r[i] == "alert:" + a.agencies[i]
  {
    if |a.agencies| == 0 then ["alert:all"]
    else
      seq(|a.agencies|, i requires 0 <= i < |a.agencies| => "alert:" + a.agencies[i])
  }

  /** `POST /create`: the alert as given, with the requesting user's name as
      its trigger (`AI` when the user has none), added to the store and
      announced on its channels. */
  function Create(store: Store, data: Alert, username: Option<string>): (r: (Alert, Store, seq<string>))
    ensures r.0.triggeredBy == (if username.Some? && username.value != "" then username.value else "AI")
    ensures r.0.(triggeredBy := data.triggeredBy) == data
    ensures r.1 == store + [r.0]
    ensures r.2 == CreationChannels(r.0)
  {
    var a := data.(triggeredBy := if username.Some? && username.value != "" then username.value else "AI");
    (a, store + [a], CreationChannels(a))
  }

  /** `DELETE /:id`: 404 when unknown, otherwise the alert is removed and the
      others keep their order. */
  function Delete(store: Store, id: string): (r: (bool, Store))
    ensures FindById(store, id).None? ==> r == (false, store)
    ensures FindById(store, id).Some? ==>
      r.0 && |r.1| == |store| - 1 && forall a :: a in r.1 ==> a in store
    ensures FindById(store, id).Some? ==>
      var k := FindById(store, id).value;
      r.1 == store[..k] + store[k + 1..] && multiset(r.1) + multiset{store[k]} == multiset(store)
    ensures UniqueIds(store) ==> forall a :: a in r.1 ==> a.id != id
  {
    match FindById(store, id)
    case None => (false, store)
    case Some(k) =>
      RemoveAt(store, k);
      (true, store[..k] + store[k + 1..])
  }
}

=== FILE: alert_triggers.dfy ===
/** The automatic alert rules run after a document is stored: entity cross-match,
    geo-fence spike and risk profile, and the broadcast of the raised alerts.

    Each rule reads the document collections and the alert store and returns the
    alert it raised or refreshed, if any, with the alert store afterwards. The
    clock is a parameter; a database failure (which makes a rule return nothing)
    is not modelled. */
module AlertTriggers {
  import opened Wrappers
  import opened Strings
  import opened Seqs
  import opened EventModel
  import opened DocumentModel
  import opened AlertModel

  /** Each collection query for matching documents returns at most this many. */
  const QUERY_LIMIT: nat := 10
  const MIN_OTHER_MATCHES: nat := 2
  const MIN_CROSS_AGENCIES: nat := 3
  const GEO_WINDOW_MS: nat := 86400000
  const MIN_INCIDENTS: nat := 5
  const RISK_THRESHOLD: nat := 30

  /** The outcome of one rule. */
  datatype Outcome = Outcome(alert: Option<Alert>, store: Store)

  // ---------------------------------------------------------------------------
  // Entity cross-match
  // ---------------------------------------------------------------------------

  /** The two entity kinds the cross-match rule is run for. */
  datatype EntityKind = Person | Organization

  function KindName(k: EntityKind): string {
    match k
    case Person => "person"
    case Organization => "organization"
  }

  /** `entities.<kind>s`: the category the query looks in. */
  function KindCategory(k: EntityKind): Category {
    match k
    case Person => Persons
    case Organization => Organizations
  }

  /** One collection's query: documents other than `excludeId` whose category
      holds exactly `name`, the first ten in natural order. */
  function Mentioning(docs: seq<StoredDoc>, name: string, c: Category, excludeId: string): (r: seq<StoredDoc>)
    ensures |r| <= QUERY_LIMIT
    ensures forall i :: 0 <= i < |r| ==> r[i] in docs && name in r[i].entities.Get(c) && r[i].id != excludeId
    ensures |r| < QUERY_LIMIT ==>
      forall d :: d in docs && name in d.entities.Get(c) && d.id != excludeId ==> d in r
  {
    Take(Filter(docs, (d: StoredDoc) => name in d.entities.Get(c) && d.id != excludeId), QUERY_LIMIT)
  }

  /** The other documents mentioning the entity: uploaded documents, then OCR
      documents, then transcriptions. */
  function MatchingDocs(lib: Library, name: string, kind: EntityKind, documentId: string): (r: seq<StoredDoc>)
    ensures |r| <= 3 * QUERY_LIMIT
    ensures forall d :: d in r ==> name in d.entities.Get(KindCategory(kind)) && d.id != documentId
  {
    var c := KindCategory(kind);
    Mentioning(lib.documents, name, c, documentId)
      + Mentioning(lib.ocrDocuments, name, c, documentId)
      + Mentioning(lib.transcriptions, name, c, documentId)
  }

  /** `[...new Set(docs.map(d => d.agency).filter(Boolean))]`. */
  function InvolvedAgencies(docs: seq<StoredDoc>): (r: seq<string>)
    ensures NoDups(r)
    ensures forall a :: a in r <==> a != "" && exists d :: d in docs && d.agency == a
  {
    var named := Filter(Map(docs, (d: StoredDoc) => d.agency), (a: string) => a != "");
    AgenciesReached(docs, named);
    Dedup(named)
  }

  lemma AgenciesReached(docs: seq<StoredDoc>, named: seq<string>)
    requires named == Filter(Map(docs, (d: StoredDoc) => d.agency), (a: string) => a != "")
    ensures forall a :: a in named <==> a != "" && exists d :: d in docs && d.agency == a
  {
    forall a | a != "" && (exists d :: d in docs && d.agency == a)
      ensures a in named
    {
      var d :| d in docs && d.agency == a;
      var i :| 0 <= i < |docs| && docs[i] == d;
      assert Map(docs, (d: StoredDoc) => d.agency)[i] == a;
    }
  }

  /** The `{id, type}` references of the matching documents. */
  function DocRefs(docs: seq<StoredDoc>): (r: seq<DocRef>)
    ensures |r| == |docs|
    ensures forall i :: 0 <= i < |docs| ==> r[i] == DocRef(docs[i].id, docs[i].docType)
  {
    if |docs| == 0 then [] else [DocRef(docs[0].id, docs[0].docType)] + DocRefs(docs[1..])
  }

  /** An open alert about this entity name and kind. */
  predicate AboutEntity(a: Alert, name: string, kind: EntityKind) {
    a.details.entityName == Some(name) && a.details.entityType == Some(KindName(kind)) && IsOpen(a.status)
  }

  /** Which alerts the rule looks for before raising a new one: as written it
      only looks at `entity_match` alerts; as intended, at both types the rule
      itself raises. */
  datatype Lookup = AsWritten | Intended

  predicate Reusable(l: Lookup, a: Alert, name: string, kind: EntityKind) {
    AboutEntity(a, name, kind) &&
    match l
    case AsWritten => a.alertType == EntityMatch
    case Intended => a.alertType == EntityMatch || a.alertType == CrossAgency
  }

  /** `Alert.findOne`: the first reusable alert in natural order. */
  function FindReusable(l: Lookup, s: Store, name: string, kind: EntityKind): (r: Option<nat>)
    ensures r.Some? ==> r.value < |s| && Reusable(l, s[r.value], name, kind)
    ensures r.None? <==> forall i :: 0 <= i < |s| ==> !Reusable(l, s[i], name, kind)
  {
    if |s| == 0 then None
    else if Reusable(l, s[0], name, kind) then Some(0)
    else match FindReusable(l, s[1..], name, kind)
      case None => None
      case Some(k) => Some(k + 1)
  }

  function CrossMatchSeverity(crossAgency: bool): Severity {
    if crossAgency then High else Medium
  }

  function CrossMatchTitle(name: string, crossAgency: bool, agencyCount: nat, docCount: nat): string {
    if crossAgency then "Cross-Agency Alert: " + name + " appears in " + NatToString(agencyCount) + " agencies"
    else "Entity Match: " + name + " found in " + NatToString(docCount) + " documents"
  }

  function CrossMatchDescription(name: string, kind: EntityKind, crossAgency: bool): string {
    "The " + KindName(kind) + " \"" + name + "\" has been detected across multiple documents"
      + (if crossAgency then " from different agencies" else "")
      + ". This may indicate a pattern requiring investigation."
  }

  /** The alert raised when no reusable one exists. */
  function NewCrossMatchAlert(id: string, name: string, kind: EntityKind, m: seq<StoredDoc>, agency: string, now: int): (a: Alert)
    ensures AboutEntity(a, name, kind) && a.status == Unread && a.id == id
    ensures var ags := InvolvedAgencies(m);
      (a.alertType == CrossAgency <==> |ags| >= MIN_CROSS_AGENCIES) &&
      (a.alertType == EntityMatch <==> |ags| < MIN_CROSS_AGENCIES) &&
      a.agencies == (if |ags| >= MIN_CROSS_AGENCIES then ags else [agency])
  {
    var ags := InvolvedAgencies(m);
    var cross := |ags| >= MIN_CROSS_AGENCIES;
    var base := NewAlert(id, if cross then CrossAgency else EntityMatch,
                         CrossMatchTitle(name, cross, |ags|, |m| + 1), CrossMatchDescription(name, kind, cross), now);
    base.(severity := CrossMatchSeverity(cross),
          details := NO_DETAILS.(entityName := Some(name), entityType := Some(KindName(kind)), matchCount := Some(|m| + 1),
                                 agencies := ags, documentIds := DocRefs(m), crossAgency := Some(cross)),
          agencies := if cross then ags else [agency])
  }

  /** The update applied to a reusable alert: counts, agencies, references,
      severity and time; its type, title, status and recipients stay. */
  function RefreshCrossMatch(a: Alert, m: seq<StoredDoc>, now: int): (b: Alert)
    ensures b.id == a.id && b.alertType == a.alertType && b.status == a.status && b.title == a.title
    ensures b.agencies == a.agencies && b.details.entityName == a.details.entityName
    ensures b.details.entityType == a.details.entityType
  {
    var ags := InvolvedAgencies(m);
    a.(details := a.details.(matchCount := Some(|m| + 1), agencies := ags, documentIds := DocRefs(m)),
       severity := CrossMatchSeverity(|ags| >= MIN_CROSS_AGENCIES),
       updatedAt := now)
  }

  /** `checkEntityCrossMatch` with the given lookup. */
  function CrossMatch(l: Lookup, store: Store, lib: Library, name: string, kind: EntityKind,
                      documentId: string, agency: string, now: int): (r: Outcome)
    ensures |MatchingDocs(lib, name, kind, documentId)| < MIN_OTHER_MATCHES <==> r.alert.None?
    ensures r.alert.None? ==> r.store == store
    ensures r.alert.Some? ==>
      var m := MatchingDocs(lib, name, kind, documentId);
      var ags := InvolvedAgencies(m);
      var a := r.alert.value;
      a.details.matchCount == Some(|m| + 1) && a.details.agencies == ags && a.details.documentIds == DocRefs(m) &&
      a.severity == (if |ags| >= MIN_CROSS_AGENCIES then High else Medium) && AboutEntity(a, name, kind)
    ensures r.alert.Some? && FindReusable(l, store, name, kind).Some? ==>
      var k := FindReusable(l, store, name, kind).value;
      r.store == store[k := r.alert.value] && r.alert.value.id == store[k].id &&
      r.alert.value.alertType == store[k].alertType
    ensures r.alert.Some? && FindReusable(l, store, name, kind).None? ==>
      r.store == store + [r.alert.value] && r.alert.value.status == Unread &&
      Reusable(Intended, r.alert.value, name, kind) &&
      (r.alert.value.alertType == CrossAgency <==>
        |InvolvedAgencies(MatchingDocs(lib, name, kind, documentId))| >= MIN_CROSS_AGENCIES)
  {
    var m := MatchingDocs(lib, name, kind, documentId);
    if |m| < MIN_OTHER_MATCHES then Outcome(None, store)
    else
      match FindReusable(l, store, name, kind)
      case Some(k) =>
        var a := RefreshCrossMatch(store[k], m, now);
        Outcome(Some(a), store[k := a])
      case None =>
        var a := NewCrossMatchAlert(NextId(store), name, kind, m, agency, now);
        Outcome(Some(a), store + [a])
  }

  /** The rule as the model uses it: an open alert of either type the rule
      raises is refreshed in place. */
  function CheckEntityCrossMatch(store: Store, lib: Library, name: string, kind: EntityKind,
                                 documentId: string, agency: string, now: int): (r: Outcome)
    ensures |MatchingDocs(lib, name, kind, documentId)| < MIN_OTHER_MATCHES <==> r.alert.None?
    ensures r.alert.None? ==> r.store == store
    ensures |store| <= |r.store| <= |store| + 1
    ensures r.alert.Some? ==>
      var m := MatchingDocs(lib, name, kind, documentId);
      var ags := InvolvedAgencies(m);
      r.alert.value.details.matchCount == Some(|m| + 1) &&
      r.alert.value.severity == (if |ags| >= MIN_CROSS_AGENCIES then High else Medium)
    ensures r.alert.Some? && (exists i :: 0 <= i < |store| && Reusable(Intended, store[i], name, kind)) ==>
      |r.store| == |store|
    ensures r.alert.Some? && (forall i :: 0 <= i < |store| ==> !Reusable(Intended, store[i], name, kind)) ==>
      var ags := InvolvedAgencies(MatchingDocs(lib, name, kind, documentId));
      r.store == store + [r.alert.value] &&
      (r.alert.value.alertType == CrossAgency <==> |ags| >= MIN_CROSS_AGENCIES) &&
      r.alert.value.agencies == (if |ags| >= MIN_CROSS_AGENCIES then ags else [agency])
  {
    CrossMatch(Intended, store, lib, name, kind, documentId, agency, now)
  }

  /** At most one open alert about the entity, of the types the rule raises. */
  ghost predicate AtMostOneOpen(s: Store, name: string, kind: EntityKind) {
    forall i, j :: 0 <= i < j < |s| && Reusable(Intended, s[i], name, kind) ==> !Reusable(Intended, s[j], name, kind)
  }

  lemma ReplaceKeepsOneOpen(s: Store, k: nat, b: Alert, name: string, kind: EntityKind)
    requires k < |s| && AtMostOneOpen(s, name, kind)
    requires Reusable(Intended, b, name, kind) == Reusable(Intended, s[k], name, kind)
    ensures AtMostOneOpen(s[k := b], name, kind)
  {
    var t := s[k := b];
    forall i, j | 0 <= i < j < |t| && Reusable(Intended, t[i], name, kind)
      ensures !Reusable(Intended, t[j], name, kind)
    {
      assert Reusable(Intended, s[i], name, kind);
    }
  }

  lemma AppendKeepsOneOpen(s: Store, b: Alert, name: string, kind: EntityKind)
    requires AtMostOneOpen(s, name, kind)
    requires Reusable(Intended, b, name, kind) ==> forall i :: 0 <= i < |s| ==> !Reusable(Intended, s[i], name, kind)
    ensures AtMostOneOpen(s + [b], name, kind)
  {
    var t := s + [b];
    forall i, j | 0 <= i < j < |t| && Reusable(Intended, t[i], name, kind)
      ensures !Reusable(Intended, t[j], name, kind)
    {
      assert t[i] == s[i];
    }
  }

  /** The rule keeps every entity down to at most one open alert: refreshing
      keeps an alert's type, status and entity, and a new alert is added only
      when none is open for its own entity. */
  lemma CrossMatchKeepsOneOpen(store: Store, lib: Library, name: string, kind: EntityKind,
                               documentId: string, agency: string, now: int, name2: string, kind2: EntityKind)
    requires AtMostOneOpen(store, name2, kind2)
    ensures AtMostOneOpen(CheckEntityCrossMatch(store, lib, name, kind, documentId, agency, now).store, name2, kind2)
  {
    var m := MatchingDocs(lib, name, kind, documentId);
    if |m| >= MIN_OTHER_MATCHES {
      match FindReusable(Intended, store, name, kind)
      case Some(k) =>
        ReplaceKeepsOneOpen(store, k, RefreshCrossMatch(store[k], m, now), name2, kind2);
      case None =>
        NewAlertKeepsOneOpen(store, name, kind, m, agency, now, name2, kind2);
    }
  }

  lemma NewAlertKeepsOneOpen(store: Store, name: string, kind: EntityKind, m: seq<StoredDoc>, agency: string, now: int,
                             name2: string, kind2: EntityKind)
    requires AtMostOneOpen(store, name2, kind2)
    requires FindReusable(Intended, store, name, kind).None?
    ensures AtMostOneOpen(store + [NewCrossMatchAlert(NextId(store), name, kind, m, agency, now)], name2, kind2)
  {
    var a := NewCrossMatchAlert(NextId(store), name, kind, m, agency, now);
    assert Reusable(Intended, a, name2, kind2) ==> name2 == name && kind2 == kind by {
      if Reusable(Intended, a, name2, kind2) {
        assert Some(name2) == Some(name);
        assert KindName(kind2) == KindName(kind);
      }
    }
    AppendKeepsOneOpen(store, a, name2, kind2);
  }

  /** Running the rule a second time for the same entity refreshes the alert the
      first run raised or refreshed; it never adds a second one. */
  lemma RepeatedCrossMatchAddsNoAlert(store: Store, lib: Library, name: string, kind: EntityKind,
                                      documentId: string, agency: string, now: int,
                                      lib2: Library, documentId2: string, agency2: string, now2: int)
    requires CheckEntityCrossMatch(store, lib, name, kind, documentId, agency, now).alert.Some?
    ensures var s1 := CheckEntityCrossMatch(store, lib, name, kind, documentId, agency, now).store;
      |CheckEntityCrossMatch(s1, lib2, name, kind, documentId2, agency2, now2).store| == |s1|
  {
    CrossMatchLeavesOpenAlert(store, lib, name, kind, documentId, agency, now);
  }

  /** A run that raised or refreshed an alert leaves an open one for the entity. */
  lemma CrossMatchLeavesOpenAlert(store: Store, lib: Library, name: string, kind: EntityKind,
                                  documentId: string, agency: string, now: int)
    requires CheckEntityCrossMatch(store, lib, name, kind, documentId, agency, now).alert.Some?
    ensures var s1 := CheckEntityCrossMatch(store, lib, name, kind, documentId, agency, now).store;
      exists i :: 0 <= i < |s1| && Reusable(Intended, s1[i], name, kind)
  {
    var r1 := CrossMatch(Intended, store, lib, name, kind, documentId, agency, now);
    var s1 := r1.store;
    match FindReusable(Intended, store, name, kind)
    case Some(k) =>
      assert Reusable(Intended, s1[k], name, kind);
    case None =>
      assert Reusable(Intended, s1[|store|], name, kind);
  }

  lemma AsWrittenMisses(s: Store, name: string, kind: EntityKind)
    requires forall i :: 0 <= i < |s| ==> !Reusable(Intended, s[i], name, kind)
    ensures FindReusable(AsWritten, s, name, kind).None?
  {
    forall i | 0 <= i < |s|
      ensures !Reusable(AsWritten, s[i], name, kind)
    {
      assert !Reusable(Intended, s[i], name, kind);
    }
  }

  lemma AsWrittenMissesCrossAgency(s: Store, a: Alert, name: string, kind: EntityKind)
    requires forall i :: 0 <= i < |s| ==> !Reusable(Intended, s[i], name, kind)
    requires a.alertType == CrossAgency
    ensures FindReusable(AsWritten, s + [a], name, kind).None?
  {
    var t := s + [a];
    forall i | 0 <= i < |t|
      ensures !Reusable(AsWritten, t[i], name, kind)
    {
      if i < |s| {
        assert t[i] == s[i];
        assert !Reusable(Intended, s[i], name, kind);
      }
    }
  }

  /** As written, a cross-agency alert is never found again: two runs that both
      see matches in at least three agencies each add a new open alert, so the
      entity ends up with two open alerts. */
  lemma AsWrittenDuplicatesCrossAgency(store: Store, lib: Library, name: string, kind: EntityKind,
                                       documentId: string, agency: string, now: int,
                                       documentId2: string, agency2: string, now2: int)
    requires forall i :: 0 <= i < |store| ==> !Reusable(Intended, store[i], name, kind)
    requires |MatchingDocs(lib, name, kind, documentId)| >= MIN_OTHER_MATCHES
    requires |InvolvedAgencies(MatchingDocs(lib, name, kind, documentId))| >= MIN_CROSS_AGENCIES
    requires |MatchingDocs(lib, name, kind, documentId2)| >= MIN_OTHER_MATCHES
    ensures var s1 := CrossMatch(AsWritten, store, lib, name, kind, documentId, agency, now).store;
      var s2 := CrossMatch(AsWritten, s1, lib, name, kind, documentId2, agency2, now2).store;
      |s2| == |store| + 2 && !AtMostOneOpen(s2, name, kind)
  {
    AsWrittenMisses(store, name, kind);
    var r1 := CrossMatch(AsWritten, store, lib, name, kind, documentId, agency, now);
    var a1 := r1.alert.value;
    AsWrittenMissesCrossAgency(store, a1, name, kind);
    var r2 := CrossMatch(AsWritten, r1.store, lib, name, kind, documentId2, agency2, now2);
    var s2 := r2.store;
    assert s2[|store|] == a1;
    assert Reusable(Intended, s2[|store| + 1], name, kind);
  }

  /** The intended lookup in the same situation adds exactly one alert. */
  lemma IntendedAddsOneCrossAgency(store: Store, lib: Library, name: string, kind: EntityKind,
                                   documentId: string, agency: string, now: int,
                                   documentId2: string, agency2: string, now2: int)
    requires AtMostOneOpen(store, name, kind)
    requires forall i :: 0 <= i < |store| ==> !Reusable(Intended, store[i], name, kind)
    requires |MatchingDocs(lib, name, kind, documentId)| >= MIN_OTHER_MATCHES
    ensures var s1 := CheckEntityCrossMatch(store, lib, name, kind, documentId, agency, now).store;
      var s2 := CheckEntityCrossMatch(s1, lib, name, kind, documentId2, agency2, now2).store;
      |s2| == |store| + 1 && AtMostOneOpen(s2, name, kind)
  {
    var s1 := CheckEntityCrossMatch(store, lib, name, kind, documentId, agency, now).store;
    RepeatedCrossMatchAddsNoAlert(store, lib, name, kind, documentId, agency, now, lib, documentId2, agency2, now2);
    CrossMatchKeepsOneOpen(store, lib, name, kind, documentId, agency, now, name, kind);
    CrossMatchKeepsOneOpen(s1, lib, name, kind, documentId2, agency2, now2, name, kind);
  }

  // ---------------------------------------------------------------------------
  // Geo-fence spike
  // ---------------------------------------------------------------------------

  /** One collection's count of documents naming the place and created in the
      last 24 hours. */
  function RecentAt(docs: seq<StoredDoc>, location: string, now: int): (r: seq<StoredDoc>)
    ensures forall d :: d in r <==> d in docs && location in d.entities.places && d.createdAt >= now - GEO_WINDOW_MS
  {
    Filter(docs, (d: StoredDoc) => location in d.entities.places && d.createdAt >= now - GEO_WINDOW_MS)
  }

  function IncidentCount(lib: Library, location: string, now: int): nat {
    |RecentAt(lib.documents, location, now)| + |RecentAt(lib.ocrDocuments, location, now)|
      + |RecentAt(lib.transcriptions, location, now)|
  }

  function GeoSeverity(n: nat): (s: Severity)
    ensures s == Critical <==> n >= 10
    ensures s == High <==> 7 <= n < 10
    ensures s == Medium <==> n < 7
  {
    if n >= 10 then Critical else if n >= 7 then High else Medium
  }

  /** An open geo-spike alert for the place raised within the window. */
  predicate OpenGeoAlert(a: Alert, location: string, now: int) {
    a.alertType == GeoSpike && a.details.geoLocation == Some(location) &&
    a.createdAt >= now - GEO_WINDOW_MS && IsOpen(a.status)
  }

  function FindGeoAlert(s: Store, location: string, now: int): (r: Option<nat>)
    ensures r.Some? ==> r.value < |s| && OpenGeoAlert(s[r.value], location, now)
    ensures r.None? <==> forall i :: 0 <= i < |s| ==> !OpenGeoAlert(s[i], location, now)
  {
    if |s| == 0 then None
    else if OpenGeoAlert(s[0], location, now) then Some(0)
    else match FindGeoAlert(s[1..], location, now)
      case None => None
      case Some(k) => Some(k + 1)
  }

  function NewGeoAlert(id: string, location: string, n: nat, agency: string, now: int): (a: Alert)
    ensures a.alertType == GeoSpike && a.status == Unread && a.createdAt == now
    ensures a.details.geoLocation == Some(location) && a.agencies == [agency]
  {
    var base := NewAlert(id, GeoSpike, "Geo-Fence Alert: Spike in " + location,
                         NatToString(n) + " incidents detected in " + location
                           + " within the last 24 hours. This represents an unusual concentration of activity.", now);
    base.(severity := GeoSeverity(n),
          details := NO_DETAILS.(locations := [location], geoLocation := Some(location), incidentCount := Some(n)),
          agencies := [agency])
  }

  /** The update applied to an open spike alert: the new count and severity,
      and the time. */
  function RefreshGeoAlert(a: Alert, n: nat, now: int): (b: Alert)
    ensures b.details.incidentCount == Some(n) && b.severity == GeoSeverity(n) && b.updatedAt == now
    ensures b.(details := a.details, severity := a.severity, updatedAt := a.updatedAt) == a
    ensures b.details.(incidentCount := a.details.incidentCount) == a.details
  {
    a.(details := a.details.(incidentCount := Some(n)), severity := GeoSeverity(n), updatedAt := now)
  }

  /** `checkGeoFenceSpike`. */
  function CheckGeoFenceSpike(store: Store, lib: Library, location: string, agency: string, now: int): (r: Outcome)
    ensures r.alert.Some? <==> IncidentCount(lib, location, now) >= MIN_INCIDENTS
    ensures r.alert.None? ==> r.store == store
    ensures |store| <= |r.store| <= |store| + 1
    ensures r.alert.Some? ==>
      r.alert.value.details.incidentCount == Some(IncidentCount(lib, location, now)) &&
      r.alert.value.severity == GeoSeverity(IncidentCount(lib, location, now)) &&
      OpenGeoAlert(r.alert.value, location, now)
  {
    var n := IncidentCount(lib, location, now);
    if n < MIN_INCIDENTS then Outcome(None, store)
    else
      match FindGeoAlert(store, location, now)
      case Some(k) =>
        var a := RefreshGeoAlert(store[k], n, now);
        Outcome(Some(a), store[k := a])
      case None =>
        var a := NewGeoAlert(NextId(store), location, n, agency, now);
        Outcome(Some(a), store + [a])
  }

  /** An open spike alert for the place is refreshed in place; without one, a
      new alert addressed to the document's agency is appended. */
  lemma GeoSpikeStore(store: Store, lib: Library, location: string, agency: string, now: int)
    ensures var r := CheckGeoFenceSpike(store, lib, location, agency, now);
      (r.alert.Some? && (exists i :: 0 <= i < |store| && OpenGeoAlert(store[i], location, now)) ==>
        |r.store| == |store|) &&
      (r.alert.Some? && (forall i :: 0 <= i < |store| ==> !OpenGeoAlert(store[i], location, now)) ==>
        r.store == store + [r.alert.value] && r.alert.value.agencies == [agency])
  {
  }

  /** The spike rule keeps every alert but the spike alert it raises or
      refreshes. */
  lemma GeoTouchesOnlyGeo(store: Store, lib: Library, location: string, agency: string, now: int)
    ensures var t := CheckGeoFenceSpike(store, lib, location, agency, now).store;
      forall i :: 0 <= i < |t| ==> (i < |store| && t[i] == store[i]) || t[i].alertType == GeoSpike
  {
    var n := IncidentCount(lib, location, now);
    if n >= MIN_INCIDENTS {
      match FindGeoAlert(store, location, now)
      case Some(k) =>
        assert RefreshGeoAlert(store[k], n, now).alertType == GeoSpike;
      case None =>
    }
  }

  /** A spike alert just raised is refreshed, not duplicated, by any later run
      for the same place within 24 hours. */
  lemma GeoSpikeReusedWithinWindow(store: Store, lib: Library, location: string, agency: string, now: int,
                                   lib2: Library, agency2: string, now2: int)
    requires forall i :: 0 <= i < |store| ==> !OpenGeoAlert(store[i], location, now)
    requires CheckGeoFenceSpike(store, lib, location, agency, now).alert.Some?
    requires now <= now2 <= now + GEO_WINDOW_MS
    ensures var s1 := CheckGeoFenceSpike(store, lib, location, agency, now).store;
      |CheckGeoFenceSpike(s1, lib2, location, agency2, now2).store| == |s1|
  {
    var s1 := CheckGeoFenceSpike(store, lib, location, agency, now).store;
    GeoSpikeStore(store, lib, location, agency, now);
    GeoSpikeStore(s1, lib2, location, agency2, now2);
    assert OpenGeoAlert(s1[|store|], location, now2);
  }

  // ---------------------------------------------------------------------------
  // Risk profile
  // ---------------------------------------------------------------------------

  /** The seventeen high-risk keywords. */
  datatype Keyword =
    | Weapon | Explosive | Threat | Attack | Terrorism | Smuggling
    | Trafficking | Cartel | Gang | Violence | Murder | Kidnapping
    | Ransom | Extortion | MoneyLaundering | Fraud | Corruption

  /** The keywords in the order the rule checks them. */
  const KEYWORDS: seq<Keyword> := [
    Weapon, Explosive, Threat, Attack, Terrorism, Smuggling,
    Trafficking, Cartel, Gang, Violence, Murder, Kidnapping,
    Ransom, Extortion, MoneyLaundering, Fraud, Corruption]

  function KeywordText(k: Keyword): (t: string)
    ensures |t| > 0
  {
    match k
    case Weapon => "weapon"
    case Explosive => "explosive"
    case Threat => "threat"
    case Attack => "attack"
    case Terrorism => "terrorism"
    case Smuggling => "smuggling"
    case Trafficking => "trafficking"
    case Cartel => "cartel"
    case Gang => "gang"
    case Violence => "violence"
    case Murder => "murder"
    case Kidnapping => "kidnapping"
    case Ransom => "ransom"
    case Extortion => "extortion"
    case MoneyLaundering => "money laundering"
    case Fraud => "fraud"
    case Corruption => "corruption"
  }

  lemma KeywordsDistinct()
    ensures NoDups(KEYWORDS)
  {
  }

  lemma KeywordsListed(k: Keyword)
    ensures k in KEYWORDS
  {
  }

  /** The text as written: `text || transcriptionText || ""`. No stored record
      has a `transcriptionText` field and a transcription has no `text`, so a
      transcription is scored on "". */
  function RiskTextAsWritten(d: StoredDoc): string {
    if d.docType == Transcription then "" else d.text
  }

  /** The text as intended: a transcription's transcript. */
  function RiskText(d: StoredDoc): string {
    if d.docType == Transcription then d.transcript else d.text
  }

  /** The keywords found in the lower-cased text, each once, in keyword order. */
  function KeywordsFound(text: string): (r: seq<Keyword>)
    ensures forall k :: k in r <==> Contains(Lower(text), KeywordText(k))
    ensures NoDups(r)
  {
    var low := Lower(text);
    var r := Filter(KEYWORDS, (k: Keyword) => Contains(low, KeywordText(k)));
    FoundFacts(low, r);
    r
  }

  lemma FoundFacts(low: string, r: seq<Keyword>)
    requires r == Filter(KEYWORDS, (k: Keyword) => Contains(low, KeywordText(k)))
    ensures forall k :: k in r <==> Contains(low, KeywordText(k))
    ensures NoDups(r)
  {
    forall k | Contains(low, KeywordText(k))
      ensures k in r
    {
      KeywordsListed(k);
    }
    KeywordsDistinct();
    FilterKeepsNoDups(KEYWORDS, (k: Keyword) => Contains(low, KeywordText(k)));
  }

  lemma {:induction false} FilterKeepsNoDups<T>(xs: seq<T>, p: T -> bool)
    requires NoDups(xs)
    ensures NoDups(Filter(xs, p))
  {
    if |xs| > 0 {
      assert NoDups(xs[1..]);
      FilterKeepsNoDups(xs[1..], p);
    }
  }

  function KeywordTexts(ks: seq<Keyword>): (r: seq<string>)
    ensures |r| == |ks|
    ensures forall i :: 0 <= i < |ks| ==> r[i] == KeywordText(ks[i])
  {
    if |ks| == 0 then [] else [KeywordText(ks[0])] + KeywordTexts(ks[1..])
  }

  datatype Risk = Risk(score: nat, factors: seq<string>)

  /** The risk score and factors of a text and its entity lists: 10 per
      distinct keyword found, 15 for more than five persons, 10 each for more
      than three phone numbers or organizations. The keyword factors come
      first. */
  function Assess(text: string, e: EntityTexts): (r: Risk)
    ensures r.score == 10 * |KeywordsFound(text)|
      + (if |e.persons| > 5 then 15 else 0)
      + (if |e.phoneNumbers| > 3 then 10 else 0)
      + (if |e.organizations| > 3 then 10 else 0)
    ensures |KeywordsFound(text)| <= |r.factors| <= |KeywordsFound(text)| + 3
    ensures forall i :: 0 <= i < |KeywordsFound(text)| ==> r.factors[i] == KeywordText(KeywordsFound(text)[i])
  {
    var kw := KeywordsFound(text);
    var extra :=
      (if |e.persons| > 5 then ["Multiple persons mentioned"] else [])
      + (if |e.phoneNumbers| > 3 then ["Multiple phone numbers"] else [])
      + (if |e.organizations| > 3 then ["Multiple organizations"] else []);
    Risk(10 * |kw| + (if |e.persons| > 5 then 15 else 0) + (if |e.phoneNumbers| > 3 then 10 else 0)
           + (if |e.organizations| > 3 then 10 else 0),
         KeywordTexts(kw) + extra)
  }

  function RiskSeverity(score: nat): (s: Severity)
    ensures s == Critical <==> score >= 50
    ensures s == High <==> 40 <= score < 50
    ensures s == Medium <==> score < 40
  {
    if score >= 50 then Critical else if score >= 40 then High else Medium
  }

  /** The description names the score and at most the first three factors. */
  function RiskDescription(r: Risk): string {
    "A document has been flagged with a risk score of " + NatToString(r.score)
      + ". Risk factors include: " + Join(Take(r.factors, 3), ", ") + "."
  }

  /** `checkRiskProfile` on an already chosen text. */
  function RiskAlertFor(store: Store, d: StoredDoc, text: string, now: int): (r: Outcome)
    ensures r.alert.Some? <==> Assess(text, d.entities).score >= RISK_THRESHOLD
    ensures r.alert.None? ==> r.store == store
    ensures r.alert.Some? ==> r.store == store + [r.alert.value]
    ensures r.alert.Some? ==> r.alert.value.alertType == RiskProfile && r.alert.value.severity == RiskSeverity(Assess(text, d.entities).score)
    ensures r.alert.Some? ==> r.alert.value.status == Unread && r.alert.value.details.riskScore == Some(Assess(text, d.entities).score)
    ensures r.alert.Some? ==> r.alert.value.details.documentIds == [DocRef(d.id, d.docType)] && r.alert.value.agencies == [d.agency]
  {
    var risk := Assess(text, d.entities);
    if risk.score < RISK_THRESHOLD then Outcome(None, store)
    else
      var a := RiskAlert(NextId(store), d, risk, now);
      Outcome(Some(a), store + [a])
  }

  /** The risk alert for a document and its assessment. */
  function RiskAlert(id: string, d: StoredDoc, risk: Risk, now: int): (a: Alert)
    ensures a.alertType == RiskProfile && a.status == Unread
    ensures a.severity == RiskSeverity(risk.score)
    ensures a.details.riskScore == Some(risk.score) && a.details.riskFactors == risk.factors
    ensures a.details.documentIds == [DocRef(d.id, d.docType)] && a.agencies == [d.agency]
  {
    NewAlert(id, RiskProfile, "High-Risk Document Detected", RiskDescription(risk), now)
      .(severity := RiskSeverity(risk.score),
        details := NO_DETAILS.(riskScore := Some(risk.score), documentIds := [DocRef(d.id, d.docType)],
                               riskFactors := risk.factors),
        agencies := [d.agency])
  }

  function CheckRiskProfileAsWritten(store: Store, d: StoredDoc, now: int): (r: Outcome)
    ensures r.alert.Some? <==> Assess(RiskTextAsWritten(d), d.entities).score >= RISK_THRESHOLD
  {
    RiskAlertFor(store, d, RiskTextAsWritten(d), now)
  }

  /** `checkRiskProfile` as the model uses it: a transcription is scored on its
      transcript. */
  function CheckRiskProfile(store: Store, d: StoredDoc, now: int): (r: Outcome)
    ensures r.alert.Some? <==> Assess(RiskText(d), d.entities).score >= RISK_THRESHOLD
    ensures r.alert.Some? ==> r.store == store + [r.alert.value] && r.alert.value.agencies == [d.agency]
    ensures r.alert.Some? ==> r.alert.value.alertType == RiskProfile
    ensures r.alert.None? ==> r.store == store
  {
    RiskAlertFor(store, d, RiskText(d), now)
  }

  /** As written, no keyword of a transcription ever counts. */
  lemma AsWrittenIgnoresTranscript(d: StoredDoc)
    requires d.docType == Transcription
    ensures KeywordsFound(RiskTextAsWritten(d)) == []
  {
    var r := KeywordsFound("");
    if |r| > 0 {
      NothingInEmpty(r[0]);
    }
  }

  lemma NothingInEmpty(k: Keyword)
    ensures !Contains(Lower(""), KeywordText(k))
  {
  }

  lemma ThreeFound(r: seq<Keyword>)
    requires NoDups(r) && Weapon in r && Attack in r && Fraud in r
    ensures |r| >= 3
  {
    DistinctCard(r);
    CardMono({Weapon, Attack, Fraud}, set x | x in r);
  }

  lemma KeywordHit(t: string, k: Keyword)
    requires Contains(Lower(t), KeywordText(k))
    ensures k in KeywordsFound(t)
  {
  }

  lemma ThreeKeywords(t: string)
    requires Contains(Lower(t), "weapon") && Contains(Lower(t), "attack") && Contains(Lower(t), "fraud")
    ensures |KeywordsFound(t)| >= 3
  {
    assert KeywordText(Weapon) == "weapon" && KeywordText(Attack) == "attack" && KeywordText(Fraud) == "fraud";
    KeywordHit(t, Weapon);
    KeywordHit(t, Attack);
    KeywordHit(t, Fraud);
    ThreeFound(KeywordsFound(t));
  }

  lemma TranscriptScores(d: StoredDoc)
    requires d.docType == Transcription
    requires Contains(Lower(d.transcript), "weapon") && Contains(Lower(d.transcript), "attack")
    requires Contains(Lower(d.transcript), "fraud")
    requires d.entities == NO_TEXTS
    ensures Assess(RiskTextAsWritten(d), d.entities).score == 0
    ensures Assess(RiskText(d), d.entities).score >= RISK_THRESHOLD
  {
    AsWrittenIgnoresTranscript(d);
    ThreeKeywords(d.transcript);
  }

  /** A transcription whose transcript names "weapon", "attack" and "fraud" and
      which has no entities raises no alert as written, and one as intended. */
  lemma TranscriptRiskExample(store: Store, d: StoredDoc, now: int)
    requires d.docType == Transcription
    requires Contains(Lower(d.transcript), "weapon") && Contains(Lower(d.transcript), "attack")
    requires Contains(Lower(d.transcript), "fraud")
    requires d.entities == NO_TEXTS
    ensures CheckRiskProfileAsWritten(store, d, now).alert.None?
    ensures CheckRiskProfile(store, d, now).alert.Some?
  {
    TranscriptScores(d);
  }

  lemma CardMono<T>(a: set<T>, b: set<T>)
    requires a <= b
    ensures |a| <= |b|
  {
    assert b == a + (b - a);
  }

  // ---------------------------------------------------------------------------
  // All rules for one document, and the broadcast
  // ---------------------------------------------------------------------------

  datatype Batch = Batch(alerts: seq<Alert>, store: Store)

  /** Adds a rule's outcome to the batch. */
  function Record(b: Batch, o: Outcome): (r: Batch)
    ensures r.store == o.store
    ensures r.alerts == b.alerts + (if o.alert.Some? then [o.alert.value] else [])
  {
    Batch(b.alerts + (if o.alert.Some? then [o.alert.value] else []), o.store)
  }

  /** The cross-match rule for one name, recorded in the batch. */
  function CrossMatchStep(b: Batch, lib: Library, name: string, kind: EntityKind, d: StoredDoc, now: int): (r: Batch)
    ensures |b.alerts| <= |r.alerts| <= |b.alerts| + 1 && r.alerts[..|b.alerts|] == b.alerts
    ensures |b.store| <= |r.store| && |r.store| - |b.store| <= |r.alerts| - |b.alerts|
  {
    Record(b, CheckEntityCrossMatch(b.store, lib, name, kind, d.id, d.agency, now))
  }

  /** The cross-match rule for each non-empty name, in order. */
  function CrossMatchEach(b: Batch, lib: Library, names: seq<string>, kind: EntityKind, d: StoredDoc, now: int): (r: Batch)
    ensures |b.alerts| <= |r.alerts| <= |b.alerts| + |names| && r.alerts[..|b.alerts|] == b.alerts
    ensures |b.store| <= |r.store| && |r.store| - |b.store| <= |r.alerts| - |b.alerts|
    decreases |names|
  {
    if |names| == 0 then b
    else if names[0] == "" then CrossMatchEach(b, lib, names[1..], kind, d, now)
    else
      CrossMatchEach(CrossMatchStep(b, lib, names[0], kind, d, now), lib, names[1..], kind, d, now)
  }

  /** The geo-spike rule for one place, recorded in the batch. */
  function GeoStep(b: Batch, lib: Library, place: string, d: StoredDoc, now: int): (r: Batch)
    ensures |b.alerts| <= |r.alerts| <= |b.alerts| + 1 && r.alerts[..|b.alerts|] == b.alerts
    ensures |b.store| <= |r.store| && |r.store| - |b.store| <= |r.alerts| - |b.alerts|
  {
    Record(b, CheckGeoFenceSpike(b.store, lib, place, d.agency, now))
  }

  /** The geo-spike rule for each non-empty place, in order. */
  function GeoEach(b: Batch, lib: Library, places: seq<string>, d: StoredDoc, now: int): (r: Batch)
    ensures |b.alerts| <= |r.alerts| <= |b.alerts| + |places| && r.alerts[..|b.alerts|] == b.alerts
    ensures |b.store| <= |r.store| && |r.store| - |b.store| <= |r.alerts| - |b.alerts|
    decreases |places|
  {
    if |places| == 0 then b
    else if places[0] == "" then GeoEach(b, lib, places[1..], d, now)
    else
      GeoEach(GeoStep(b, lib, places[0], d, now), lib, places[1..], d, now)
  }

  /** The entity rules: persons, then organizations, then places. */
  function EntityRules(store: Store, lib: Library, d: StoredDoc, now: int): (r: Batch)
    ensures |r.alerts| <= |d.entities.persons| + |d.entities.organizations| + |d.entities.places|
    ensures |store| <= |r.store| && |r.store| - |store| <= |r.alerts|
  {
    var b1 := CrossMatchEach(Batch([], store), lib, d.entities.persons, Person, d, now);
    var b2 := CrossMatchEach(b1, lib, d.entities.organizations, Organization, d, now);
    GeoEach(b2, lib, d.entities.places, d, now)
  }

  /** `triggerAlertChecks`: the entity rules, then the risk profile; the alerts
      raised or refreshed, in that order. A risk alert, when raised, is the
      last one. */
  function TriggerAlertChecks(store: Store, lib: Library, d: StoredDoc, now: int): (r: Batch)
    ensures |store| <= |r.store| && |r.store| - |store| <= |r.alerts|
    ensures |r.alerts| <= |d.entities.persons| + |d.entities.organizations| + |d.entities.places| + 1
    ensures Assess(RiskText(d), d.entities).score >= RISK_THRESHOLD ==>
      |r.alerts| > 0 && |r.store| > 0 && r.alerts[|r.alerts| - 1].alertType == RiskProfile &&
      r.alerts[|r.alerts| - 1] == r.store[|r.store| - 1]
    ensures Assess(RiskText(d), d.entities).score < RISK_THRESHOLD ==> r == EntityRules(store, lib, d, now)
  {
    var b := EntityRules(store, lib, d, now);
    Record(b, CheckRiskProfile(b.store, d, now))
  }

  lemma GeoKeepsOneOpen(store: Store, lib: Library, location: string, agency: string, now: int,
                        name: string, kind: EntityKind)
    requires AtMostOneOpen(store, name, kind)
    ensures AtMostOneOpen(CheckGeoFenceSpike(store, lib, location, agency, now).store, name, kind)
  {
    GeoTouchesOnlyGeo(store, lib, location, agency, now);
    GeoChangesKeepOneOpen(store, CheckGeoFenceSpike(store, lib, location, agency, now).store, name, kind);
  }

  lemma GeoChangesKeepOneOpen(s: Store, t: Store, name: string, kind: EntityKind)
    requires AtMostOneOpen(s, name, kind)
    requires |s| <= |t|
    requires forall i :: 0 <= i < |t| ==> (i < |s| && t[i] == s[i]) || t[i].alertType == GeoSpike
    ensures AtMostOneOpen(t, name, kind)
  {
    forall i, j | 0 <= i < j < |t| && Reusable(Intended, t[i], name, kind)
      ensures !Reusable(Intended, t[j], name, kind)
    {
      assert t[i] == s[i];
    }
  }

  lemma {:induction false} CrossMatchEachKeepsOneOpen(b: Batch, lib: Library, names: seq<string>, kind: EntityKind,
                                                      d: StoredDoc, now: int, name2: string, kind2: EntityKind)
    requires AtMostOneOpen(b.store, name2, kind2)
    ensures AtMostOneOpen(CrossMatchEach(b, lib, names, kind, d, now).store, name2, kind2)
    decreases |names|
  {
    if |names| > 0 {
      if names[0] == "" {
        CrossMatchEachKeepsOneOpen(b, lib, names[1..], kind, d, now, name2, kind2);
      } else {
        CrossMatchKeepsOneOpen(b.store, lib, names[0], kind, d.id, d.agency, now, name2, kind2);
        CrossMatchEachKeepsOneOpen(CrossMatchStep(b, lib, names[0], kind, d, now), lib, names[1..], kind, d, now, name2, kind2);
      }
    }
  }

  lemma {:induction false} GeoEachKeepsOneOpen(b: Batch, lib: Library, places: seq<string>, d: StoredDoc, now: int,
                                               name: string, kind: EntityKind)
    requires AtMostOneOpen(b.store, name, kind)
    ensures AtMostOneOpen(GeoEach(b, lib, places, d, now).store, name, kind)
    decreases |places|
  {
    if |places| > 0 {
      if places[0] == "" {
        GeoEachKeepsOneOpen(b, lib, places[1..], d, now, name, kind);
      } else {
        GeoKeepsOneOpen(b.store, lib, places[0], d.agency, now, name, kind);
        GeoEachKeepsOneOpen(GeoStep(b, lib, places[0], d, now), lib, places[1..], d, now, name, kind);
      }
    }
  }

  /** All the rules run for one document leave every entity with at most one
      open cross-match alert. */
  lemma TriggerKeepsOneOpen(store: Store, lib: Library, d: StoredDoc, now: int, name: string, kind: EntityKind)
    requires AtMostOneOpen(store, name, kind)
    ensures AtMostOneOpen(TriggerAlertChecks(store, lib, d, now).store, name, kind)
  {
    var b1 := CrossMatchEach(Batch([], store), lib, d.entities.persons, Person, d, now);
    CrossMatchEachKeepsOneOpen(Batch([], store), lib, d.entities.persons, Person, d, now, name, kind);
    var b2 := CrossMatchEach(b1, lib, d.entities.organizations, Organization, d, now);
    CrossMatchEachKeepsOneOpen(b1, lib, d.entities.organizations, Organization, d, now, name, kind);
    var b3 := GeoEach(b2, lib, d.entities.places, d, now);
    GeoEachKeepsOneOpen(b2, lib, d.entities.places, d, now, name, kind);
    var o := CheckRiskProfile(b3.store, d, now);
    if o.alert.Some? {
      AppendKeepsOneOpen(b3.store, o.alert.value, name, kind);
    }
  }

  /** The channels one alert is emitted on. */
  function Channels(a: Alert): (r: seq<string>)
    ensures |a.agencies| == 0 ==> r == ["alert:all"]
    ensures |a.agencies| > 0 ==> |r| == |a.agencies| && forall i :: 0 <= i < |r| ==> r[i] == "alert:" + a.agencies[i]
  {
    if |a.agencies| == 0 then ["alert:all"] else Map(a.agencies, (ag: string) => "alert:" + ag)
  }

  /** The emits, in order, when a socket server is present. */
  function Broadcast(alerts: seq<Alert>, hasSocket: bool): (r: seq<string>)
    ensures !hasSocket ==> r == []
  {
    if !hasSocket || |alerts| == 0 then [] else Channels(alerts[0]) + Broadcast(alerts[1..], hasSocket)
  }

  /** Every agency of every alert is emitted to, and "alert:all" is emitted when
      some alert has no agencies. */
  lemma {:induction false} BroadcastReaches(alerts: seq<Alert>)
    ensures forall i, j :: 0 <= i < |alerts| && 0 <= j < |alerts[i].agencies| ==>
      "alert:" + alerts[i].agencies[j] in Broadcast(alerts, true)
    ensures (exists i :: 0 <= i < |alerts| && |alerts[i].agencies| == 0) ==> "alert:all" in Broadcast(alerts, true)
  {
    if |alerts| > 0 {
      BroadcastReaches(alerts[1..]);
      var r := Broadcast(alerts, true);
      assert r == Channels(alerts[0]) + Broadcast(alerts[1..], true);
      forall i, j | 0 <= i < |alerts| && 0 <= j < |alerts[i].agencies|
        ensures "alert:" + alerts[i].agencies[j] in r
      {
        if i == 0 {
          assert Channels(alerts[0])[j] == "alert:" + alerts[0].agencies[j];
        } else {
          assert alerts[i] == alerts[1..][i - 1];
        }
      }
      if exists i :: 0 <= i < |alerts| && |alerts[i].agencies| == 0 {
        var i :| 0 <= i < |alerts| && |alerts[i].agencies| == 0;
        if i > 0 {
          assert alerts[i] == alerts[1..][i - 1];
        }
      }
    }
  }

  /** One emit per agency of each alert, and one for an alert without agencies. */
  function Fanout(a: Alert): nat {
    if |a.agencies| == 0 then 1 else |a.agencies|
  }

  function TotalFanout(alerts: seq<Alert>): nat {
    if |alerts| == 0 then 0 else Fanout(alerts[0]) + TotalFanout(alerts[1..])
  }

  lemma {:induction false} BroadcastCount(alerts: seq<Alert>)
    ensures |Broadcast(alerts, true)| == TotalFanout(alerts)
  {
    if |alerts| > 0 {
      BroadcastCount(alerts[1..]);
    }
  }
}

=== FILE: chatbot.dfy ===
/** The chatbot routes: which shared documents feed a conversation's context,
    the share upsert with its approval rule, and the administrator's pending
    list and approval decision. The language-model call is a parameter. */
module Chatbot {
  import opened Wrappers
  import opened Strings
  import opened Seqs
  import opened Sorting

  datatype User = User(username: string, agency: string, role: string)

  predicate IsAdmin(u: User) { u.role == "admin" }

  /** A stored document, as far as the chatbot reads it. */
  datatype Doc = Doc(id: string, filename: string, agency: string, uploadedBy: string, text: Option<string>)

  datatype Approval = Pending | Approved | Rejected

  function ApprovalName(a: Approval): string {
    match a
    case Pending => "pending"
    case Approved => "approved"
    case Rejected => "rejected"
  }

  /** A share entry. `scope` is kept as given: the upsert does not run the
      schema's validators. */
  datatype Share = Share(id: string, documentId: string, uploadedBy: string, uploadedByAgency: string, scope: string,
                         visibleToAgencies: seq<string>, approvalStatus: Approval, approvedBy: Option<string>,
                         approvedAt: Option<int>, sharedAt: int, createdAt: int)

  // ---------------------------------------------------------------- converse

  const DEFAULT_SCOPE: string := "agency"
  const SHARE_LIMIT: nat := 15
  const CONTEXT_LIMIT: nat := 12000

  /** The share query of `POST /converse`: always approved, and then by scope:
      cross-agency shares, the user's own shares, or (for any other scope) the
      shares of the user's agency. */
  predicate Selected(s: Share, scope: string, u: User) {
    s.approvalStatus == Approved &&
    (if scope == "cross-agency" then s.scope == "cross-agency"
     else if scope == "mine" then s.uploadedBy == u.username
     else s.uploadedByAgency == u.agency)
  }

  function Newest(s: Share): real { -(s.createdAt as real) }

  /** The 15 newest selected shares. */
  function SelectedShares(shares: seq<Share>, scope: string, u: User): (r: seq<Share>)
    ensures |r| <= SHARE_LIMIT
    ensures forall s :: s in r ==> s in shares && Selected(s, scope, u)
    ensures forall i, j :: 0 <= i < j < |r| ==> r[i].createdAt >= r[j].createdAt
    ensures forall s :: s in shares && Selected(s, scope, u) ==>
      s in r || (|r| == SHARE_LIMIT && r[SHARE_LIMIT - 1].createdAt >= s.createdAt)
  {
    var matching := Filter(shares, (s: Share) => Selected(s, scope, u));
    assert forall x :: x in matching ==> x in shares && Selected(x, scope, u) by {
      forall x | x in matching ensures x in shares && Selected(x, scope, u) {
        var i :| 0 <= i < |matching| && matching[i] == x;
      }
    }
    Top(matching, Newest, SHARE_LIMIT)
  }

  predicate HasText(d: Doc) { d.text.Some? && d.text.value != "" }

  /** The shared document when it still exists and has text. */
  function ContextDoc(s: Share, lookup: string -> Option<Doc>): (r: Option<Doc>)
    ensures r.Some? <==> lookup(s.documentId).Some? && HasText(lookup(s.documentId).value)
    ensures r.Some? ==> r == lookup(s.documentId)
  {
    match lookup(s.documentId)
    case None => None
    case Some(d) => if HasText(d) then Some(d) else None
  }

  /** One document's block of the context. */
  function Block(d: Doc): string {
    "--- " + d.filename + " (" + d.agency + ") ---\n" + d.text.GetOr("")
  }

  /** The context text: the blocks joined by blank lines, cut to 12000
      characters. */
  function ContextText(docs: seq<Doc>): (r: string)
    ensures |r| <= CONTEXT_LIMIT
    ensures |r| <= |Join(Map(docs, Block), "\n\n")| && r == Join(Map(docs, Block), "\n\n")[..|r|]
    ensures |Join(Map(docs, Block), "\n\n")| <= CONTEXT_LIMIT ==> r == Join(Map(docs, Block), "\n\n")
  {
    Prefix(Join(Map(docs, Block), "\n\n"), CONTEXT_LIMIT)
  }

  datatype Message = Message(role: string, content: string)

  /** The conversation sent to the model: the user's message, then the
      context note when one is given. */
  function Messages(message: string, context: Option<string>): (r: seq<Message>)
    ensures |r| == (if context.Some? && context.value != "" then 2 else 1)
    ensures r[0] == Message("user", "User: " + message)
    ensures |r| == 2 ==> r[1] == Message("user", "Context: " + context.value)
  {
    [Message("user", "User: " + message)] +
    (if context.Some? && context.value != "" then [Message("user", "Context: " + context.value)] else [])
  }

  datatype ConverseReply = MessageRequired | Conversed(reply: string, docsCount: nat)

  /** `POST /converse`. A missing or blank message is refused; otherwise the
      model answers over the selected documents that have text. */
  function Converse(message: Option<string>, context: Option<string>, scope: Option<string>, u: User,
                    shares: seq<Share>, lookup: string -> Option<Doc>,
                    model: (seq<Message>, string) -> string): (r: ConverseReply)
    ensures r.MessageRequired? <==> message.None? || AllWs(message.value)
    ensures r.Conversed? ==>
      var docs := FilterMap(SelectedShares(shares, scope.GetOr(DEFAULT_SCOPE), u), (s: Share) => ContextDoc(s, lookup));
      r.docsCount == |docs| && r.docsCount <= SHARE_LIMIT &&
      (forall d :: d in docs ==> HasText(d)) &&
      r.reply == model(Messages(message.value, context), ContextText(docs))
  {
    TrimEmptyIffAllWs(message.GetOr(""));
    if message.None? || Trim(message.value) == "" then MessageRequired
    else
      var selected := SelectedShares(shares, scope.GetOr(DEFAULT_SCOPE), u);
      var docs := FilterMap(selected, (s: Share) => ContextDoc(s, lookup));
      assert forall d :: d in docs ==> HasText(d);
      Conversed(model(Messages(message.value, context), ContextText(docs)), |docs|)
  }

  // ---------------------------------------------------------------- share

  /** The status a fresh share takes: approved only within the agency. */
  function InitialStatus(scope: string): (a: Approval)
    ensures a == Approved <==> scope == DEFAULT_SCOPE
    ensures a != Rejected
  {
    if scope == DEFAULT_SCOPE then Approved else Pending
  }

  /** The upsert key: document, scope and uploader. */
  predicate SameKey(s: Share, documentId: string, scope: string, uploadedBy: string) {
    s.documentId == documentId && s.scope == scope && s.uploadedBy == uploadedBy
  }

  predicate UniqueKeys(shares: seq<Share>) {
    forall i, j :: 0 <= i < j < |shares| ==>
      !SameKey(shares[j], shares[i].documentId, shares[i].scope, shares[i].uploadedBy)
  }

  function FindKey(shares: seq<Share>, documentId: string, scope: string, uploadedBy: string): (r: Option<nat>)
    ensures r.Some? ==> r.value < |shares| && SameKey(shares[r.value], documentId, scope, uploadedBy)
    ensures r.None? <==> forall i :: 0 <= i < |shares| ==> !SameKey(shares[i], documentId, scope, uploadedBy)
  {
    if |shares| == 0 then None
    else if SameKey(shares[0], documentId, scope, uploadedBy) then Some(0)
    else match FindKey(shares[1..], documentId, scope, uploadedBy)
      case None =>
        assert forall i :: 1 <= i < |shares| ==> shares[i] == shares[1..][i - 1];
        None
      case Some(k) => Some(k + 1)
  }

  datatype ShareReply = DocIdRequired | DocNotFound | NotUploader | Shared(share: Share, shares: seq<Share>, message: string)

  /** `POST /share`. Refused without a document id (400), for an unknown
      document (404) and for anyone but its uploader (403). Otherwise the
      entry for (document, scope, user) is created or overwritten: agency
      shares are approved at once, other scopes wait for an administrator. */
  function ShareDoc(shares: seq<Share>, docs: string -> Option<Doc>, docId: Option<string>, scope: Option<string>,
                    visibleTo: Option<seq<string>>, u: User, now: int, newId: string): (r: ShareReply)
    ensures r == DocIdRequired <==> docId.None? || docId.value == ""
    ensures r == DocNotFound <==> docId.Some? && docId.value != "" && docs(docId.value).None?
    ensures r == NotUploader <==>
      docId.Some? && docId.value != "" && docs(docId.value).Some? && docs(docId.value).value.uploadedBy != u.username
    ensures r.Shared? ==>
      var sc := scope.GetOr(DEFAULT_SCOPE);
      SameKey(r.share, docId.value, sc, u.username) &&
      r.share.approvalStatus == InitialStatus(sc) &&
      r.share.uploadedByAgency == u.agency && r.share.visibleToAgencies == visibleTo.GetOr([]) &&
      r.share.sharedAt == now && r.share in r.shares &&
      (r.message == "Shared with your agency" <==> sc == DEFAULT_SCOPE)
    ensures r.Shared? ==>
      var sc := scope.GetOr(DEFAULT_SCOPE);
      match FindKey(shares, docId.value, sc, u.username)
      case Some(k) => r.shares == shares[k := r.share] && r.share.id == shares[k].id
      case None => r.shares == shares + [r.share] && r.share.id == newId
  {
    if docId.None? || docId.value == "" then DocIdRequired
    else match docs(docId.value)
      case None => DocNotFound
      case Some(d) =>
        if d.uploadedBy != u.username then NotUploader
        else
          var sc := scope.GetOr(DEFAULT_SCOPE);
          var message := if sc == DEFAULT_SCOPE then "Shared with your agency" else "Pending admin approval for " + sc;
          assert sc != DEFAULT_SCOPE ==> message != "Shared with your agency" by {
            if sc != DEFAULT_SCOPE {
              assert message[0] == 'P';
            }
          }
          match FindKey(shares, docId.value, sc, u.username)
          case Some(k) =>
            var s := shares[k].(uploadedByAgency := u.agency, visibleToAgencies := visibleTo.GetOr([]),
                                approvalStatus := InitialStatus(sc), sharedAt := now);
            assert shares[k := s][k] == s;
            Shared(s, shares[k := s], message)
          case None =>
            var s := Share(newId, docId.value, u.username, u.agency, sc, visibleTo.GetOr([]), InitialStatus(sc),
                           None, None, now, now);
            Shared(s, shares + [s], message)
  }

  /** Sharing never creates a second entry for the same key. */
  lemma ShareKeepsKeysUnique(shares: seq<Share>, docs: string -> Option<Doc>, docId: Option<string>,
                             scope: Option<string>, visibleTo: Option<seq<string>>, u: User, now: int, newId: string)
    requires UniqueKeys(shares)
    requires ShareDoc(shares, docs, docId, scope, visibleTo, u, now, newId).Shared?
    ensures UniqueKeys(ShareDoc(shares, docs, docId, scope, visibleTo, u, now, newId).shares)
  {
  }

  /** Sharing a document again with a scope other than the agency puts it
      back to pending, even when it had been approved. */
  lemma ReshareNeedsApprovalAgain(shares: seq<Share>, docs: string -> Option<Doc>, docId: string, scope: string,
                                  u: User, now: int, newId: string, k: nat)
    requires docId != "" && docs(docId).Some? && docs(docId).value.uploadedBy == u.username
    requires k < |shares| && SameKey(shares[k], docId, scope, u.username) && shares[k].approvalStatus == Approved
    requires scope != DEFAULT_SCOPE
    ensures var r := ShareDoc(shares, docs, Some(docId), Some(scope), None, u, now, newId);
      r.Shared? && r.share.approvalStatus == Pending && !Selected(r.share, "cross-agency", u)
  {
  }

  // ---------------------------------------------------------------- approval

  datatype AdminReply<T> = AdminOnly | ShareIdRequired | ShareNotFound | AdminOk(value: T)

  /** `GET /pending-approval`: administrators only; the cross-agency shares
      still pending, newest first. */
  function PendingApproval(shares: seq<Share>, u: User): (r: AdminReply<seq<Share>>)
    ensures r.AdminOnly? <==> !IsAdmin(u)
    ensures r.AdminOk? ==>
      (forall s :: s in r.value <==> s in shares && s.approvalStatus == Pending && s.scope == "cross-agency") &&
      forall i, j :: 0 <= i < j < |r.value| ==> r.value[i].createdAt >= r.value[j].createdAt
  {
    if !IsAdmin(u) then AdminOnly
    else
      var p := (s: Share) => s.approvalStatus == Pending && s.scope == "cross-agency";
      var matching := Filter(shares, p);
      assert forall x :: x in matching ==> x in shares && p(x) by {
        forall x | x in matching ensures x in shares && p(x) {
          var i :| 0 <= i < |matching| && matching[i] == x;
        }
      }
      assert forall x :: x in shares && p(x) ==> x in matching by {
        forall x | x in shares && p(x) ensures x in matching {
          var i :| 0 <= i < |shares| && shares[i] == x;
        }
      }
      AdminOk(Top(matching, Newest, 0))
  }

  function FindShare(shares: seq<Share>, id: string): (r: Option<nat>)
    ensures r.Some? ==> r.value < |shares| && shares[r.value].id == id
    ensures r.None? <==> forall i :: 0 <= i < |shares| ==> shares[i].id != id
  {
    if |shares| == 0 then None
    else if shares[0].id == id then Some(0)
    else match FindShare(shares[1..], id)
      case None =>
        assert forall i :: 1 <= i < |shares| ==> shares[i] == shares[1..][i - 1];
        None
      case Some(k) => Some(k + 1)
  }

  /** `POST /approve`: administrators only, with a share id (400) of an
      existing share (404). A truthy `approve` approves, anything else
      rejects; either way the administrator and the time are recorded. */
  function Decide(shares: seq<Share>, u: User, shareId: Option<string>, approve: bool, now: int)
    : (r: AdminReply<seq<Share>>)
    ensures r.AdminOnly? <==> !IsAdmin(u)
    ensures r.ShareIdRequired? <==> IsAdmin(u) && (shareId.None? || shareId.value == "")
    ensures r.ShareNotFound? <==>
      IsAdmin(u) && shareId.Some? && shareId.value != "" && FindShare(shares, shareId.value).None?
    ensures r.AdminOk? ==>
      var k := FindShare(shares, shareId.value).value;
      |r.value| == |shares| &&
      r.value[k].approvalStatus == (if approve then Approved else Rejected) &&
      r.value[k].approvedBy == Some(u.username) && r.value[k].approvedAt == Some(now) &&
      r.value[k].(approvalStatus := shares[k].approvalStatus, approvedBy := shares[k].approvedBy,
                  approvedAt := shares[k].approvedAt) == shares[k] &&
      forall i :: 0 <= i < |shares| && i != k ==> r.value[i] == shares[i]
  {
    if !IsAdmin(u) then AdminOnly
    else if shareId.None? || shareId.value == "" then ShareIdRequired
    else match FindShare(shares, shareId.value)
      case None => ShareNotFound
      case Some(k) =>
        var s := shares[k].(approvalStatus := if approve then Approved else Rejected,
                            approvedBy := Some(u.username), approvedAt := Some(now));
        AdminOk(shares[k := s])
  }

  /** A cross-agency share reaches every user's cross-agency conversation
      exactly when an administrator has approved it. */
  lemma ApprovalOpensCrossAgency(shares: seq<Share>, admin: User, shareId: string, approve: bool, now: int, u: User)
    requires IsAdmin(admin) && shareId != ""
    requires FindShare(shares, shareId).Some?
    requires shares[FindShare(shares, shareId).value].scope == "cross-agency"
    ensures var r := Decide(shares, admin, Some(shareId), approve, now);
      r.AdminOk? && (Selected(r.value[FindShare(shares, shareId).value], "cross-agency", u) <==> approve)
  {
  }
}

=== FILE: common.dfy ===
/** Options, string helpers and sequence helpers shared by every module of the model.

    JavaScript and Python strings are modelled as `seq<char>`. Case mapping and
    whitespace classes are the ASCII subset of what the runtimes implement. */
module Wrappers {

  datatype Option<+T> = None | Some(value: T) {
    function GetOr(default: T): T {
      match this
      case Some(v) => v
      case None => default
    }
  }

  /** The outcome of an operation that may throw, with the thrown message. */
  datatype Result<+T> = Ok(value: T) | Err(message: string)
}

module Strings {
  import opened Wrappers


  /** The characters matched by the regular-expression class `\s` (ASCII part plus NBSP). */
  predicate IsWs(c: char) {
    c == ' ' || c == '\t' || c == '\n' || c == '\r' || c as int == 11 || c as int == 12 || c as int == 0xA0
  }

  predicate IsUpper(c: char) { 'A' <= c <= 'Z' }

  predicate IsLowerLetter(c: char) { 'a' <= c <= 'z' }

  function LowerChar(c: char): char {
    if IsUpper(c) then (c as int + 32) as char else c
  }

  /** `toLowerCase()`. */
  function Lower(s: string): (r: string)
    ensures |r| == |s|
  {
    if |s| == 0 then "" else [LowerChar(s[0])] + Lower(s[1..])
  }

  lemma LowerAt(s: string, i: int)
    requires 0 <= i < |s|
    ensures Lower(s)[i] == LowerChar(s[i])
  {
    if i > 0 {
      LowerAt(s[1..], i - 1);
    }
  }

  lemma LowerAppend(a: string, b: string)
    ensures Lower(a + b) == Lower(a) + Lower(b)
  {
    if |a| == 0 {
      assert a + b == b;
    } else {
      assert (a + b)[1..] == a[1..] + b;
      LowerAppend(a[1..], b);
    }
  }

  /** Text without upper-case letters is its own lower-case form. */
  lemma {:induction false} LowerUnchanged(s: string)
    requires forall i :: 0 <= i < |s| ==> !IsUpper(s[i])
    ensures Lower(s) == s
  {
    if |s| > 0 {
      LowerUnchanged(s[1..]);
      assert s == [s[0]] + s[1..];
    }
  }

  lemma LowerIdempotent(s: string)
    ensures Lower(Lower(s)) == Lower(s)
  {
    if |s| > 0 {
      LowerIdempotent(s[1..]);
    }
  }

  function TrimStart(s: string): (r: string)
    ensures |r| <= |s|
    ensures r == s[|s| - |r|..]
    ensures |r| > 0 ==> !IsWs(r[0])
    ensures forall i :: 0 <= i < |s| - |r| ==> IsWs(s[i])
  {
    if |s| > 0 && IsWs(s[0]) then TrimStart(s[1..]) else s
  }

  function TrimEnd(s: string): (r: string)
    ensures |r| <= |s|
    ensures r == s[..|r|]
    ensures |r| > 0 ==> !IsWs(r[|r| - 1])
    ensures forall i :: |r| <= i < |s| ==> IsWs(s[i])
  {
    if |s| > 0 && IsWs(s[|s| - 1]) then TrimEnd(s[..|s| - 1]) else s
  }

  /** `trim()` / `strip()`: drops leading and trailing whitespace. */
  function Trim(s: string): (r: string)
    ensures |r| <= |s|
    ensures |r| > 0 ==> !IsWs(r[0]) && !IsWs(r[|r| - 1])
  {
    TrimEnd(TrimStart(s))
  }

  /** Text that neither starts nor ends with whitespace is already trimmed. */
  lemma TrimUnchanged(s: string)
    requires |s| > 0 && !IsWs(s[0]) && !IsWs(s[|s| - 1])
    ensures Trim(s) == s
  {
    assert TrimStart(s) == s;
  }

  predicate AllWs(s: string) {
    forall i :: 0 <= i < |s| ==> IsWs(s[i])
  }

  /** Trimming twice trims no further. */
  lemma TrimIdempotent(s: string)
    ensures Trim(Trim(s)) == Trim(s)
  {
    var t := Trim(s);
    if |t| > 0 {
      TrimUnchanged(t);
    }
  }

  lemma TrimEmptyIffAllWs(s: string)
    ensures Trim(s) == "" <==> AllWs(s)
  {
    var t := TrimStart(s);
    if !AllWs(s) {
      var i :| 0 <= i < |s| && !IsWs(s[i]);
      assert |t| > 0 && !IsWs(t[0]);
    }
  }

  /** `sub` occurs in `s` starting at index `i`. */
  predicate OccursAt(s: string, sub: string, i: int) {
    0 <= i && i + |sub| <= |s| && s[i..i + |sub|] == sub
  }

  /** `s.includes(sub)` / `sub in s`. */
  predicate Contains(s: string, sub: string) {
    exists i :: 0 <= i <= |s| - |sub| && OccursAt(s, sub, i)
  }

  /** `s.startsWith(p)`. */
  predicate StartsWith(s: string, p: string) {
    |p| <= |s| && s[..|p|] == p
  }

  /** Number of non-overlapping occurrences of `k` in `s`, scanning left to right
      (what `s.match(new RegExp(k, "g")).length` yields for a literal pattern). */
  function CountOcc(s: string, k: string): nat
    requires |k| > 0
    decreases |s|
  {
    if |s| < |k| then 0
    else if StartsWith(s, k) then 1 + CountOcc(s[|k|..], k)
    else CountOcc(s[1..], k)
  }

  /** A keyword is counted at least once exactly when it occurs somewhere. */
  lemma {:induction false} CountOccPositiveIffContains(s: string, k: string)
    requires |k| > 0
    ensures CountOcc(s, k) > 0 <==> Contains(s, k)
    decreases |s|
  {
    if |s| < |k| {
    } else if StartsWith(s, k) {
      assert OccursAt(s, k, 0);
    } else {
      CountOccPositiveIffContains(s[1..], k);
      ContainsInTail(s, k);
    }
  }

  /** When `s` does not start with `k`, `k` occurs in `s` exactly when it
      occurs in `s` without its first character. */
  lemma ContainsInTail(s: string, k: string)
    requires |s| > 0 && !StartsWith(s, k)
    ensures Contains(s, k) <==> Contains(s[1..], k)
  {
    if Contains(s[1..], k) {
      var i :| 0 <= i <= |s[1..]| - |k| && OccursAt(s[1..], k, i);
      assert s[1..][i..i + |k|] == s[i + 1..i + 1 + |k|];
      assert OccursAt(s, k, i + 1);
    }
    if Contains(s, k) {
      var i :| 0 <= i <= |s| - |k| && OccursAt(s, k, i);
      assert i != 0 by { assert s[..|k|] == s[0..0 + |k|]; }
      assert s[1..][i - 1..i - 1 + |k|] == s[i..i + |k|];
      assert OccursAt(s[1..], k, i - 1);
    }
  }

  /** `parts.join(sep)`. */
  function Join(parts: seq<string>, sep: string): string {
    if |parts| == 0 then ""
    else if |parts| == 1 then parts[0]
    else parts[0] + sep + Join(parts[1..], sep)
  }

  function DigitChar(d: nat): char
    requires d < 10
  {
    ('0' as int + d) as char
  }

  /** Decimal rendering of a natural number, as in a template literal. */
  function NatToString(n: nat): (r: string)
    ensures |r| > 0
    ensures forall i :: 0 <= i < |r| ==> '0' <= r[i] <= '9'
  {
    if n < 10 then [DigitChar(n)] else NatToString(n / 10) + [DigitChar(n % 10)]
  }

  function IntToString(n: int): string {
    if n < 0 then "-" + NatToString(-n) else NatToString(n)
  }

  /** `s.slice(0, n)` for a non-negative `n`. */
  function Prefix(s: string, n: nat): (r: string)
    ensures |r| == if n < |s| then n else |s|
    ensures r == s[..|r|]
  {
    if n < |s| then s[..n] else s
  }

  /** Index just past the run of whitespace starting at `i`. */
  function WsRunEnd(s: string, i: nat): (j: nat)
    requires i <= |s|
    ensures i <= j <= |s|
    ensures forall k :: i <= k < j ==> IsWs(s[k])
    ensures j < |s| ==> !IsWs(s[j])
    decreases |s| - i
  {
    if i < |s| && IsWs(s[i]) then WsRunEnd(s, i + 1) else i
  }

  /** Index of the first whitespace character at or after `i`, or `|s|`. */
  function NextWs(s: string, i: nat): (j: nat)
    requires i <= |s|
    ensures i <= j <= |s|
    ensures forall k :: i <= k < j ==> !IsWs(s[k])
    ensures j < |s| ==> IsWs(s[j])
    decreases |s| - i
  {
    if i < |s| && !IsWs(s[i]) then NextWs(s, i + 1) else i
  }

  /** `s.split(/\s+/)`: the pieces between maximal whitespace runs, with an empty
      first (last) piece when `s` starts (ends) with whitespace. */
  function SplitWs(s: string): (r: seq<string>)
    ensures |r| >= 1
    ensures forall p :: p in r ==> forall k :: 0 <= k < |p| ==> !IsWs(p[k])
    decreases |s|
  {
    var i := NextWs(s, 0);
    if i == |s| then [s]
    else
      var j := WsRunEnd(s, i);
      [s[..i]] + SplitWs(s[j..])
  }

  /** `path.basename` / the last path component: everything after the final `/`. */
  function BaseName(name: string): (r: string)
    ensures forall k :: 0 <= k < |r| ==> r[k] != '/'
    ensures |r| <= |name| && r == name[|name| - |r|..]
    ensures |r| < |name| ==> name[|name| - |r| - 1] == '/'
    decreases |name|
  {
    if |name| == 0 then ""
    else if name[|name| - 1] == '/' then ""
    else BaseName(name[..|name| - 1]) + [name[|name| - 1]]
  }

  /** The position of the last `.` in `s`, if any. */
  function LastDot(s: string): (r: Option<nat>)
    ensures r.Some? ==> r.value < |s| && s[r.value] == '.' && forall k :: r.value < k < |s| ==> s[k] != '.'
    ensures r.None? ==> forall k :: 0 <= k < |s| ==> s[k] != '.'
    decreases |s|
  {
    if |s| == 0 then None
    else if s[|s| - 1] == '.' then Some(|s| - 1)
    else LastDot(s[..|s| - 1])
  }

  /** `path.extname`: the last component from its last `.` on; empty when there
      is no dot, when the dot starts the component, or for `..`. */
  function ExtName(path: string): (r: string)
    ensures r == "" || (r[0] == '.' && forall k :: 1 <= k < |r| ==> r[k] != '.' && r[k] != '/')
    ensures r != "" ==> EndsWith(path, r)
  {
    var b := BaseName(path);
    match LastDot(b)
    case None => ""
    case Some(i) => if i == 0 || b == ".." then "" else b[i..]
  }

  predicate EndsWith(s: string, t: string) {
    |t| <= |s| && s[|s| - |t|..] == t
  }

  /** No two spaces in a row. */
  predicate NoDoubleSpace(s: string) {
    forall k :: 0 <= k < |s| - 1 ==> !(s[k] == ' ' && s[k + 1] == ' ')
  }

  /** `s.replace(/\s+/g, " ")`. */
  function CollapseWs(s: string): (r: string)
    ensures forall k :: 0 <= k < |r| ==> (IsWs(r[k]) ==> r[k] == ' ')
    ensures NoDoubleSpace(r)
    ensures |s| > 0 && IsWs(s[0]) ==> |r| > 0 && r[0] == ' '
    ensures |s| > 0 && !IsWs(s[0]) ==> |r| > 0 && r[0] == s[0]
    ensures |r| <= |s|
    decreases |s|
  {
    if |s| == 0 then ""
    else if IsWs(s[0]) then
      var j := WsRunEnd(s, 0);
      var rest := CollapseWs(s[j..]);
      " " + rest
    else [s[0]] + CollapseWs(s[1..])
  }
}

module Seqs {
  import opened Wrappers

  /** `xs.slice(0, n)`. */
  function Take<T>(xs: seq<T>, n: nat): (r: seq<T>)
    ensures |r| == if n < |xs| then n else |xs|
    ensures r == xs[..|r|]
  {
    if n < |xs| then xs[..n] else xs
  }

  /** `xs.slice(-n)`: the last `n` elements (all of them when there are fewer). */
  function TakeLast<T>(xs: seq<T>, n: nat): (r: seq<T>)
    ensures |r| == if n < |xs| then n else |xs|
    ensures r == xs[|xs| - |r|..]
  {
    if n < |xs| then xs[|xs| - n..] else xs
  }

  predicate NoDups<T(==)>(xs: seq<T>) {
    forall i, j :: 0 <= i < j < |xs| ==> xs[i] != xs[j]
  }

  /** `[...new Set(xs)]`: the distinct elements in first-seen order. */
  function Dedup<T(==)>(xs: seq<T>): (r: seq<T>)
    ensures NoDups(r)
    ensures forall i :: 0 <= i < |r| ==> r[i] in xs
    ensures forall i :: 0 <= i < |xs| ==> xs[i] in r
    ensures |r| <= |xs|
  {
    if |xs| == 0 then []
    else
      var d := Dedup(xs[..|xs| - 1]);
      assert forall i :: 0 <= i < |xs| - 1 ==> xs[..|xs| - 1][i] == xs[i];
      if xs[|xs| - 1] in d then d else d + [xs[|xs| - 1]]
  }

  /** `r` lists its elements in the order of their first occurrence in `xs`:
      an earlier element of `r` already occurs before any occurrence of a
      later one. */
  predicate FirstSeenOrder<T(==)>(r: seq<T>, xs: seq<T>) {
    forall i, j, k :: 0 <= i < j < |r| && 0 <= k < |xs| && xs[k] == r[j] ==> r[i] in xs[..k]
  }

  /** Deduplication keeps the first-seen order. */
  lemma {:induction false} DedupFirstSeen<T>(xs: seq<T>)
    ensures FirstSeenOrder(Dedup(xs), xs)
    decreases |xs|
  {
    if |xs| > 0 {
      var front := xs[..|xs| - 1];
      var x := xs[|xs| - 1];
      var d := Dedup(front);
      DedupFirstSeen(front);
      assert forall k :: 0 <= k < |xs| - 1 ==> xs[k] == front[k] && xs[..k] == front[..k];
      var r := Dedup(xs);
      forall i, j, k | 0 <= i < j < |r| && 0 <= k < |xs| && xs[k] == r[j]
        ensures r[i] in xs[..k]
      {
        if k < |xs| - 1 {
          assert j < |d|;
          assert r[j] == d[j] && r[i] == d[i];
        } else if j < |d| {
          assert r[i] == d[i] && d[i] in front;
          assert xs[..k] == front;
        } else {
          assert r[i] == d[i] && d[i] in front && xs[..k] == front;
        }
      }
    }
  }

  lemma DedupCard<T>(xs: seq<T>)
    ensures |Dedup(xs)| == |set x | x in xs|
  {
    var d := Dedup(xs);
    DistinctCard(d);
    assert (set x | x in d) == (set x | x in xs);
  }

  lemma DistinctCard<T>(d: seq<T>)
    requires NoDups(d)
    ensures |set x | x in d| == |d|
  {
    if |d| > 0 {
      var init := d[..|d| - 1];
      assert NoDups(init);
      DistinctCard(init);
      assert (set x | x in d) == (set x | x in init) + {d[|d| - 1]};
      assert d[|d| - 1] !in init;
    }
  }

  function Filter<T>(xs: seq<T>, p: T -> bool): (r: seq<T>)
    ensures |r| <= |xs|
    ensures forall i :: 0 <= i < |r| ==> r[i] in xs && p(r[i])
    ensures forall i :: 0 <= i < |xs| && p(xs[i]) ==> xs[i] in r
  {
    if |xs| == 0 then []
    else if p(xs[0]) then [xs[0]] + Filter(xs[1..], p)
    else Filter(xs[1..], p)
  }

  /** Filtering distributes over concatenation. */
  lemma {:induction false} FilterAppend<T>(xs: seq<T>, ys: seq<T>, p: T -> bool)
    ensures Filter(xs + ys, p) == Filter(xs, p) + Filter(ys, p)
    decreases |xs|
  {
    if |xs| == 0 {
      assert xs + ys == ys;
    } else {
      assert (xs + ys)[0] == xs[0];
      assert (xs + ys)[1..] == xs[1..] + ys;
      FilterAppend(xs[1..], ys, p);
    }
  }

  /** The positions whose element is accepted. */
  function Positions<T>(xs: seq<T>, p: T -> bool): (r: set<nat>)
    ensures forall i :: i in r <==> 0 <= i < |xs| && p(xs[i])
  {
    set i: nat | i < |xs| && p(xs[i])
  }

  /** The length of a filter is the number of positions whose element is
      accepted. */
  lemma {:induction false} FilterIndices<T>(xs: seq<T>, p: T -> bool)
    ensures |Filter(xs, p)| == |Positions(xs, p)|
    decreases |xs|
  {
    if |xs| > 0 {
      var front := xs[..|xs| - 1];
      var x := xs[|xs| - 1];
      assert xs == front + [x];
      FilterAppend(front, [x], p);
      assert Filter([x], p) == (if p(x) then [x] else []) by {
        assert [x][1..] == [];
      }
      FilterIndices(front, p);
      assert Positions(xs, p) == Positions(front, p) + (if p(x) then {|front|} else {});
    }
  }

  /** `xs.filter(p).slice(0, n)` keeps the accepted elements in order: the
      accepted element at position `j` is kept at its rank, the number of
      accepted elements before it, whenever that rank is below `n`; and the
      result is cut at `n` only when more than `n` are accepted. */
  lemma {:induction false} TakeFilterRanks<T>(xs: seq<T>, p: T -> bool, n: nat)
    ensures |Take(Filter(xs, p), n)| == if n < |Filter(xs, p)| then n else |Filter(xs, p)|
    ensures forall j :: 0 <= j < |xs| && p(xs[j]) && |Filter(xs[..j], p)| < n ==>
      |Filter(xs[..j], p)| < |Take(Filter(xs, p), n)| && Take(Filter(xs, p), n)[|Filter(xs[..j], p)|] == xs[j]
  {
    forall j | 0 <= j < |xs| && p(xs[j]) && |Filter(xs[..j], p)| < n
      ensures |Filter(xs[..j], p)| < |Take(Filter(xs, p), n)| && Take(Filter(xs, p), n)[|Filter(xs[..j], p)|] == xs[j]
    {
      assert xs == xs[..j] + xs[j..];
      FilterAppend(xs[..j], xs[j..], p);
      assert xs[j..] == [xs[j]] + xs[j..][1..];
      assert Filter(xs[j..], p) == [xs[j]] + Filter(xs[j..][1..], p);
    }
  }

  /** The last `n` accepted elements: an accepted element followed by fewer
      than `n` accepted ones sits that many places from the end. */
  lemma TakeLastFilterRank<T>(xs: seq<T>, p: T -> bool, n: nat, j: nat)
    requires j < |xs| && p(xs[j]) && |Filter(xs[j + 1..], p)| < n
    ensures var r := TakeLast(Filter(xs, p), n);
      |Filter(xs[j + 1..], p)| < |r| && r[|r| - 1 - |Filter(xs[j + 1..], p)|] == xs[j]
  {
    assert xs == xs[..j] + xs[j..];
    FilterAppend(xs[..j], xs[j..], p);
    assert xs[j..] == [xs[j]] + xs[j + 1..];
    assert Filter(xs[j..], p) == [xs[j]] + Filter(xs[j + 1..], p);
  }

  /** Cutting out one element leaves the others, and nothing else. */
  lemma RemoveAt<T>(xs: seq<T>, k: nat)
    requires k < |xs|
    ensures multiset(xs[..k] + xs[k + 1..]) + multiset{xs[k]} == multiset(xs)
    ensures forall a :: a in xs[..k] + xs[k + 1..] ==> a in xs
  {
    assert xs == xs[..k] + [xs[k]] + xs[k + 1..];
    forall a | a in xs[..k] + xs[k + 1..] ensures a in xs {
      assert a in multiset(xs[..k] + xs[k + 1..]);
    }
  }

  /** Filtering by a predicate and by its negation splits the sequence:
      the two parts together hold every element exactly as often as the
      whole does. */
  lemma {:induction false} FilterPartition<T>(xs: seq<T>, p: T -> bool, q: T -> bool)
    requires forall x :: q(x) == !p(x)
    ensures |Filter(xs, p)| + |Filter(xs, q)| == |xs|
    ensures multiset(Filter(xs, p)) + multiset(Filter(xs, q)) == multiset(xs)
  {
    if |xs| > 0 {
      FilterPartition(xs[1..], p, q);
      assert xs == [xs[0]] + xs[1..];
    }
  }

  /** `xs.map(f).filter(v => v !== null)`: the present results, in order. */
  function FilterMap<T, U>(xs: seq<T>, f: T -> Option<U>): (r: seq<U>)
    ensures |r| <= |xs|
    ensures forall v :: v in r ==> exists j :: 0 <= j < |xs| && f(xs[j]) == Some(v)
    ensures forall j :: 0 <= j < |xs| && f(xs[j]).Some? ==> f(xs[j]).value in r
  {
    if |xs| == 0 then []
    else
      var rest := FilterMap(xs[1..], f);
      assert forall v :: v in rest ==> exists j :: 0 <= j < |xs| && f(xs[j]) == Some(v) by {
        forall v | v in rest ensures exists j :: 0 <= j < |xs| && f(xs[j]) == Some(v) {
          var j :| 0 <= j < |xs[1..]| && f(xs[1..][j]) == Some(v);
          assert xs[j + 1] == xs[1..][j];
        }
      }
      assert forall j :: 1 <= j < |xs| && f(xs[j]).Some? ==> f(xs[j]).value in rest by {
        forall j | 1 <= j < |xs| && f(xs[j]).Some? ensures f(xs[j]).value in rest {
          assert xs[1..][j - 1] == xs[j];
        }
      }
      match f(xs[0])
      case None => rest
      case Some(v) => [v] + rest
  }

  function Map<T, U>(xs: seq<T>, f: T -> U): (r: seq<U>)
    ensures |r| == |xs|
    ensures forall i :: 0 <= i < |xs| ==> r[i] == f(xs[i])
  {
    seq(|xs|, i requires 0 <= i < |xs| => f(xs[i]))
  }

  function Sum(xs: seq<nat>): nat {
    if |xs| == 0 then 0 else xs[0] + Sum(xs[1..])
  }
}

/** `Array.prototype.sort` with a numeric comparator `(a, b) => key(a) - key(b)`.
    The sort is stable (ECMAScript 2019), so it is modelled by insertion sort
    that places a new element after every element with an equal key. A
    descending sort is the same sort on the negated key. */
module Sorting {
  import opened Seqs

  ghost predicate SortedBy<T>(xs: seq<T>, key: T -> real) {
    forall i, j :: 0 <= i < j < |xs| ==> key(xs[i]) <= key(xs[j])
  }

  function Insert<T>(x: T, xs: seq<T>, key: T -> real): seq<T> {
    if |xs| == 0 then [x]
    else if key(x) < key(xs[0]) then [x] + xs
    else [xs[0]] + Insert(x, xs[1..], key)
  }

  function SortBy<T>(xs: seq<T>, key: T -> real): seq<T> {
    if |xs| == 0 then [] else Insert(xs[|xs| - 1], SortBy(xs[..|xs| - 1], key), key)
  }

  lemma {:induction false} InsertFacts<T>(x: T, xs: seq<T>, key: T -> real)
    requires SortedBy(xs, key)
    ensures SortedBy(Insert(x, xs, key), key)
    ensures multiset(Insert(x, xs, key)) == multiset(xs) + multiset{x}
  {
    InsertMultiset(x, xs, key);
    InsertSorted(x, xs, key);
  }

  lemma {:induction false} InsertMultiset<T>(x: T, xs: seq<T>, key: T -> real)
    ensures multiset(Insert(x, xs, key)) == multiset(xs) + multiset{x}
  {
    if |xs| > 0 && !(key(x) < key(xs[0])) {
      InsertMultiset(x, xs[1..], key);
      assert xs == [xs[0]] + xs[1..];
    }
  }

  lemma {:induction false} InsertSorted<T>(x: T, xs: seq<T>, key: T -> real)
    requires SortedBy(xs, key)
    ensures SortedBy(Insert(x, xs, key), key)
  {
    if |xs| > 0 && !(key(x) < key(xs[0])) {
      var tail := xs[1..];
      InsertSorted(x, tail, key);
      InsertMultiset(x, tail, key);
      var r := Insert(x, tail, key);
      forall i | 0 <= i < |r|
        ensures key(xs[0]) <= key(r[i])
      {
        assert r[i] in multiset(r);
        if r[i] != x {
          assert r[i] in multiset(tail);
          var j :| 0 <= j < |tail| && tail[j] == r[i];
          assert xs[j + 1] == tail[j];
        }
      }
      assert Insert(x, xs, key) == [xs[0]] + r;
    }
  }

  lemma {:induction false} SortByFacts<T>(xs: seq<T>, key: T -> real)
    ensures SortedBy(SortBy(xs, key), key)
    ensures multiset(SortBy(xs, key)) == multiset(xs)
    ensures |SortBy(xs, key)| == |xs|
  {
    if |xs| > 0 {
      var init := xs[..|xs| - 1];
      SortByFacts(init, key);
      InsertFacts(xs[|xs| - 1], SortBy(init, key), key);
      assert xs == init + [xs[|xs| - 1]];
    }
    assert |SortBy(xs, key)| == |multiset(SortBy(xs, key))|;
  }

  /** The first `n` of a sort: drawn from the input, in key order, and every
      input element left out has a key no smaller than the last one kept. */
  lemma TopFacts<T>(xs: seq<T>, key: T -> real, n: nat)
    requires n > 0
    ensures |Take(SortBy(xs, key), n)| == (if n < |xs| then n else |xs|)
    ensures forall i :: 0 <= i < |Take(SortBy(xs, key), n)| ==> Take(SortBy(xs, key), n)[i] in xs
    ensures forall i, j :: 0 <= i < j < |Take(SortBy(xs, key), n)| ==>
      key(Take(SortBy(xs, key), n)[i]) <= key(Take(SortBy(xs, key), n)[j])
    ensures forall x :: x in xs ==>
      x in Take(SortBy(xs, key), n) || (n < |xs| && key(Take(SortBy(xs, key), n)[n - 1]) <= key(x))
  {
    var sorted := SortBy(xs, key);
    SortByFacts(xs, key);
    var r := Take(sorted, n);
    forall i | 0 <= i < |r|
      ensures r[i] in xs
    {
      assert r[i] == sorted[i];
      assert sorted[i] in multiset(xs);
    }
    forall x | x in xs
      ensures x in r || (n < |xs| && key(r[n - 1]) <= key(x))
    {
      assert x in multiset(sorted);
      var j :| 0 <= j < |sorted| && sorted[j] == x;
      if j >= n {
        assert key(sorted[n - 1]) <= key(sorted[j]);
      } else {
        assert r[j] == x;
      }
    }
  }

  /** `.sort(...).limit(n)` as a database applies it: the first `n` in key
      order, or all of them when `n` is 0. */
  function Top<T>(xs: seq<T>, key: T -> real, n: nat): (r: seq<T>)
    ensures forall i :: 0 <= i < |r| ==> r[i] in xs
    ensures forall i, j :: 0 <= i < j < |r| ==> key(r[i]) <= key(r[j])
    ensures n > 0 ==> |r| <= n
    ensures forall x :: x in xs ==> x in r || (n > 0 && |r| == n && key(r[n - 1]) <= key(x))
    ensures n == 0 ==> multiset(r) == multiset(xs)
  {
    if n == 0 then
      var sorted := SortBy(xs, key);
      SortByFacts(xs, key);
      PermutationMembers(sorted, xs);
      assert forall i :: 0 <= i < |sorted| ==> sorted[i] in multiset(xs) by {
        forall i | 0 <= i < |sorted| ensures sorted[i] in multiset(xs) {
          assert sorted[i] in multiset(sorted);
        }
      }
      sorted
    else
      TopFacts(xs, key, n);
      Take(SortBy(xs, key), n)
  }

  lemma {:induction false} NoDupsCount<T>(xs: seq<T>, x: T)
    requires NoDups(xs)
    ensures multiset(xs)[x] <= 1
  {
    if |xs| > 0 {
      assert xs == [xs[0]] + xs[1..];
      assert NoDups(xs[1..]);
      NoDupsCount(xs[1..], x);
      if xs[0] == x {
        assert x !in xs[1..];
      }
    }
  }

  lemma DupCount<T>(ys: seq<T>, i: nat, j: nat)
    requires i < j < |ys| && ys[i] == ys[j]
    ensures multiset(ys)[ys[i]] >= 2
  {
    assert ys == ys[..i] + [ys[i]] + ys[i + 1..j] + [ys[j]] + ys[j + 1..];
  }

  /** Two permutations of each other have the same elements. */
  lemma PermutationMembers<T>(xs: seq<T>, ys: seq<T>)
    requires multiset(xs) == multiset(ys)
    ensures forall x :: x in xs <==> x in ys
  {
    forall x
      ensures x in xs <==> x in ys
    {
      assert x in xs <==> x in multiset(xs);
      assert x in ys <==> x in multiset(ys);
    }
  }

  /** A permutation of a duplicate-free sequence is duplicate-free. */
  lemma PermutationNoDups<T>(xs: seq<T>, ys: seq<T>)
    requires NoDups(xs) && multiset(xs) == multiset(ys)
    ensures NoDups(ys)
  {
    forall i, j | 0 <= i < j < |ys|
      ensures ys[i] != ys[j]
    {
      if ys[i] == ys[j] {
        NoDupsCount(xs, ys[i]);
        DupCount(ys, i, j);
        assert false;
      }
    }
  }
}

=== FILE: cross_agency.dfy ===
/** Cross-agency matching: events of other agencies that resemble a given event
    or document, ranked by a weighted score.

    The maximal cosine similarity between embeddings (at least 0, since the
    search starts from 0) is supplied per candidate event. */
module CrossAgency {
  import opened Wrappers
  import opened Seqs
  import opened Sorting
  import opened EventModel
  import opened Overlap
  import opened DocumentModel
  import EventLinking

  const MS_PER_DAY: nat := 86400000
  const TEMPORAL_DAYS: nat := 7
  const EVENT_MATCH_THRESHOLD: real := 0.15
  const DOCUMENT_MATCH_THRESHOLD: real := 0.25
  const CANDIDATE_LIMIT: nat := 100
  const RESULT_LIMIT: nat := 10

  /** A score component in [0, 1]. */
  type Unit = r: real | 0.0 <= r <= 1.0

  /** The temporal component: `1 - days/7` within a week, 0 beyond. */
  function TemporalProximity(t1: int, t2: int): (r: real)
    ensures 0.0 <= r <= 1.0
    ensures EventLinking.Abs(t1 - t2) > TEMPORAL_DAYS * MS_PER_DAY ==> r == 0.0
    ensures t1 == t2 ==> r == 1.0
    ensures EventLinking.Abs(t1 - t2) < TEMPORAL_DAYS * MS_PER_DAY ==> r > 0.0
  {
    var days := EventLinking.Abs(t1 - t2) as real / MS_PER_DAY as real;
    if days <= TEMPORAL_DAYS as real then 1.0 - days / TEMPORAL_DAYS as real else 0.0
  }

  /** The closer two events are in time, the higher the temporal component; it
      does not depend on the order of the two events. */
  lemma TemporalProximityMonotone(a1: int, a2: int, b1: int, b2: int)
    requires EventLinking.Abs(a1 - a2) <= EventLinking.Abs(b1 - b2)
    ensures TemporalProximity(a1, a2) >= TemporalProximity(b1, b2)
    ensures TemporalProximity(a1, a2) == TemporalProximity(a2, a1)
  {
    var da := EventLinking.Abs(a1 - a2) as real / MS_PER_DAY as real;
    var db := EventLinking.Abs(b1 - b2) as real / MS_PER_DAY as real;
    assert da <= db by {
      assert EventLinking.Abs(a1 - a2) as real <= EventLinking.Abs(b1 - b2) as real;
    }
  }

  /** The event-to-event score: 0.6 overlap, 0.2 temporal, 0.2 semantic. */
  function EventMatchScore(overlap: Unit, temporal: Unit, semantic: Unit): (s: real)
    ensures 0.0 <= s <= 1.0
    ensures overlap >= 0.25 ==> s >= EVENT_MATCH_THRESHOLD
    ensures overlap == 0.0 && semantic == 0.0 ==> (s >= EVENT_MATCH_THRESHOLD <==> temporal >= 0.75)
  {
    overlap * 0.6 + temporal * 0.2 + semantic * 0.2
  }

  /** The document-to-event score: 0.6 overlap, plus 0.4 semantic when the
      document carries an embedding. */
  function DocumentMatchScore(overlap: Unit, hasEmbedding: bool, semantic: Unit): (s: real)
    ensures 0.0 <= s <= 1.0
    ensures !hasEmbedding ==> (s >= DOCUMENT_MATCH_THRESHOLD <==> overlap * 12.0 >= 5.0)
  {
    overlap * 0.6 + (if hasEmbedding then semantic * 0.4 else 0.0)
  }

  datatype EventMatch = EventMatch(event: Event, matchScore: real, entityOverlap: real, matched: seq<Match>)

  /** Statuses a candidate may have. */
  predicate Searchable(s: EventStatus) {
    s == Active || s == Monitoring || s == Resolved
  }

  /** Candidates: not excluded by id, not visible to the user's agency through
      its agency list, and in a searchable status; at most 100 in store order. */
  function Candidates(store: seq<Event>, excludeId: Option<string>, userAgency: string): (r: seq<Event>)
    ensures |r| <= CANDIDATE_LIMIT
    ensures forall i :: 0 <= i < |r| ==>
      r[i] in store && userAgency !in r[i].agencies && Searchable(r[i].status) &&
      (excludeId.Some? ==> r[i].id != excludeId.value)
  {
    Take(Filter(store, IsCandidate(excludeId, userAgency)), CANDIDATE_LIMIT)
  }

  /** The query's condition on a candidate event. */
  function IsCandidate(excludeId: Option<string>, userAgency: string): Event -> bool {
    (e: Event) => (excludeId.None? || e.id != excludeId.value) && userAgency !in e.agencies && Searchable(e.status)
  }

  /** The candidates are the first 100 qualifying events in store order: their
      number is the smaller of 100 and the number of qualifying events, and a
      qualifying event preceded by fewer than 100 others sits at its rank. */
  lemma {:induction false} CandidatesFirst(store: seq<Event>, excludeId: Option<string>, userAgency: string)
    ensures var r := Candidates(store, excludeId, userAgency);
      var q := |set i | 0 <= i < |store| && IsCandidate(excludeId, userAgency)(store[i])|;
      |r| == (if CANDIDATE_LIMIT < q then CANDIDATE_LIMIT else q)
    ensures forall j :: 0 <= j < |store| && IsCandidate(excludeId, userAgency)(store[j]) &&
                        |Filter(store[..j], IsCandidate(excludeId, userAgency))| < CANDIDATE_LIMIT ==>
      |Filter(store[..j], IsCandidate(excludeId, userAgency))| < |Candidates(store, excludeId, userAgency)| &&
      Candidates(store, excludeId, userAgency)[|Filter(store[..j], IsCandidate(excludeId, userAgency))|] == store[j]
  {
    TakeFilterRanks(store, IsCandidate(excludeId, userAgency), CANDIDATE_LIMIT);
    FilterIndices(store, IsCandidate(excludeId, userAgency));
    assert Positions(store, IsCandidate(excludeId, userAgency)) ==
      set i | 0 <= i < |store| && IsCandidate(excludeId, userAgency)(store[i]);
  }

  function ScoreKey(m: EventMatch): real { -m.matchScore }

  predicate Kept(m: EventMatch, threshold: real) {
    m.matchScore >= threshold
  }

  /** Threshold, sort by non-increasing score, keep the first ten. */
  function Rank(all: seq<EventMatch>, threshold: real): (r: seq<EventMatch>)
    ensures |r| <= RESULT_LIMIT
  {
    Take(SortBy(Filter(all, (m: EventMatch) => Kept(m, threshold)), ScoreKey), RESULT_LIMIT)
  }

  /** The ranking keeps only matches at or above the threshold, orders them by
      non-increasing score, and drops only matches scoring no higher than the
      tenth one kept. */
  lemma RankFacts(all: seq<EventMatch>, threshold: real)
    ensures forall i :: 0 <= i < |Rank(all, threshold)| ==>
      Rank(all, threshold)[i] in all && Rank(all, threshold)[i].matchScore >= threshold
    ensures forall i, j :: 0 <= i < j < |Rank(all, threshold)| ==>
      Rank(all, threshold)[i].matchScore >= Rank(all, threshold)[j].matchScore
    ensures forall m :: m in all && m.matchScore >= threshold ==>
      m in Rank(all, threshold) ||
      (|Rank(all, threshold)| == RESULT_LIMIT && m.matchScore <= Rank(all, threshold)[RESULT_LIMIT - 1].matchScore)
  {
    var kept := Filter(all, (m: EventMatch) => Kept(m, threshold));
    TopFacts(kept, ScoreKey, RESULT_LIMIT);
    var r := Take(SortBy(kept, ScoreKey), RESULT_LIMIT);
    assert r == Rank(all, threshold);
    forall i, j | 0 <= i < j < |r|
      ensures r[i].matchScore >= r[j].matchScore
    {
      assert ScoreKey(r[i]) <= ScoreKey(r[j]);
    }
    forall m | m in all && m.matchScore >= threshold
      ensures m in r || (|r| == RESULT_LIMIT && m.matchScore <= r[RESULT_LIMIT - 1].matchScore)
    {
      assert m in kept;
    }
  }

  /** Score and details of one candidate against the source event. */
  function MatchEvent(source: Event, target: Event, semantic: Unit): (m: EventMatch)
    ensures m.event == target && 0.0 <= m.matchScore <= 1.0
  {
    var ov := EntityOverlap(LinkedTexts(source.linked), LinkedTexts(target.linked));
    var temporal := TemporalProximity(source.timeline.lastUpdated, target.timeline.lastUpdated);
    EventMatch(target, EventMatchScore(ov.score, temporal, semantic), ov.score, ov.matched)
  }

  /** Every candidate scored against the source event. */
  function MatchEvents(source: Event, cands: seq<Event>, semantic: Event -> Unit): (r: seq<EventMatch>)
    ensures |r| == |cands|
    ensures forall k :: 0 <= k < |cands| ==> r[k] == MatchEvent(source, cands[k], semantic(cands[k]))
  {
    seq(|cands|, k requires 0 <= k < |cands| => MatchEvent(source, cands[k], semantic(cands[k])))
  }

  /** `findSimilarCrossAgencyEvents`: the ranked matches of the source event
      among other agencies' events, or "Event not found". */
  function FindSimilarCrossAgencyEvents(store: seq<Event>, eventId: string, userAgency: string,
                                        semantic: Event -> Unit): (r: Result<seq<EventMatch>>)
    ensures r.Err? <==> forall i :: 0 <= i < |store| ==> store[i].id != eventId
    ensures r.Err? ==> r.message == "Event not found"
    ensures r.Ok? ==> |r.value| <= RESULT_LIMIT
    ensures r.Ok? ==> forall i :: 0 <= i < |r.value| ==>
      var e := r.value[i].event;
      e in store && e.id != eventId && userAgency !in e.agencies && Searchable(e.status) &&
      r.value[i].matchScore >= EVENT_MATCH_THRESHOLD
    ensures r.Ok? ==> forall i, j :: 0 <= i < j < |r.value| ==> r.value[i].matchScore >= r.value[j].matchScore
    ensures r.Ok? ==>
      && FindEvent(store, eventId).Some?
      && AllScoredAgainst(r.value, FindEvent(store, eventId).value, semantic)
      && NoneMissed(MatchEvents(FindEvent(store, eventId).value, Candidates(store, Some(eventId), userAgency), semantic),
                    r.value, EVENT_MATCH_THRESHOLD)
  {
    match FindEvent(store, eventId)
    case None => Err("Event not found")
    case Some(source) =>
      var cands := Candidates(store, Some(eventId), userAgency);
      var all := MatchEvents(source, cands, semantic);
      RankedEvents(source, cands, semantic, EVENT_MATCH_THRESHOLD);
      Ok(Rank(all, EVENT_MATCH_THRESHOLD))
  }

  /** Each ranked match is its event's score against the source, and every
      candidate is missed by the ranking only as `Missed` allows. */
  lemma RankedEvents(source: Event, cands: seq<Event>, semantic: Event -> Unit, threshold: real)
    ensures RankedFrom(Rank(MatchEvents(source, cands, semantic), threshold), cands, threshold)
    ensures AllScoredAgainst(Rank(MatchEvents(source, cands, semantic), threshold), source, semantic)
    ensures NoneMissed(MatchEvents(source, cands, semantic), Rank(MatchEvents(source, cands, semantic), threshold), threshold)
  {
    var all := MatchEvents(source, cands, semantic);
    RankedBy(all, cands, (e: Event) => MatchEvent(source, e, semantic(e)), threshold);
  }

  /** The ranking of candidates each scored by `score`: every result is its
      event's score, and only `Missed` matches are left out. */
  lemma RankedBy(all: seq<EventMatch>, cands: seq<Event>, score: Event -> EventMatch, threshold: real)
    requires |all| == |cands|
    requires forall k :: 0 <= k < |cands| ==> all[k] == score(cands[k]) && all[k].event == cands[k]
    ensures RankedFrom(Rank(all, threshold), cands, threshold)
    ensures forall i :: 0 <= i < |Rank(all, threshold)| ==>
      Rank(all, threshold)[i] == score(Rank(all, threshold)[i].event)
    ensures NoneMissed(all, Rank(all, threshold), threshold)
  {
    var r := Rank(all, threshold);
    RankFacts(all, threshold);
    forall i | 0 <= i < |r| ensures r[i] == score(r[i].event) && r[i].event in cands {
      var k :| 0 <= k < |all| && all[k] == r[i];
    }
    forall k | 0 <= k < |all| ensures Missed(all[k], r, threshold) {
      assert all[k] in all;
    }
  }

  /** At most ten matches, all of candidates, all reaching the threshold, in
      non-increasing score order. */
  predicate RankedFrom(result: seq<EventMatch>, cands: seq<Event>, threshold: real) {
    && |result| <= RESULT_LIMIT
    && (forall i :: 0 <= i < |result| ==> result[i].event in cands && result[i].matchScore >= threshold)
    && (forall i, j :: 0 <= i < j < |result| ==> result[i].matchScore >= result[j].matchScore)
  }

  /** Every match is the score of its event against `source`. */
  predicate AllScoredAgainst(ms: seq<EventMatch>, source: Event, semantic: Event -> Unit) {
    forall i :: 0 <= i < |ms| ==> ms[i] == MatchEvent(source, ms[i].event, semantic(ms[i].event))
  }

  /** The result misses no scored candidate except as `Missed` allows. */
  predicate NoneMissed(all: seq<EventMatch>, result: seq<EventMatch>, threshold: real) {
    forall k :: 0 <= k < |all| ==> Missed(all[k], result, threshold)
  }

  /** `RankedEvents` for the document search. */
  lemma RankedDocuments(doc: StoredDoc, cands: seq<Event>, semantic: Event -> Unit, threshold: real)
    ensures RankedFrom(Rank(MatchDocuments(doc, cands, semantic), threshold), cands, threshold)
    ensures AllDocScoredAgainst(Rank(MatchDocuments(doc, cands, semantic), threshold), doc, semantic)
    ensures NoneMissed(MatchDocuments(doc, cands, semantic), Rank(MatchDocuments(doc, cands, semantic), threshold), threshold)
  {
    var all := MatchDocuments(doc, cands, semantic);
    RankedBy(all, cands, (e: Event) => MatchDocument(doc, e, semantic(e)), threshold);
  }

  /** Every match is the score of its event against the document. */
  predicate AllDocScoredAgainst(ms: seq<EventMatch>, doc: StoredDoc, semantic: Event -> Unit) {
    forall i :: 0 <= i < |ms| ==> ms[i] == MatchDocument(doc, ms[i].event, semantic(ms[i].event))
  }

  /** A match below the threshold, one in the result, or one beaten by ten
      results scoring at least as high: the result misses no other. */
  predicate Missed(m: EventMatch, result: seq<EventMatch>, threshold: real) {
    m.matchScore < threshold || m in result ||
    (|result| == RESULT_LIMIT && m.matchScore <= result[RESULT_LIMIT - 1].matchScore)
  }

  /** Every qualifying event of another agency within the first 100 candidates
      that scores at least 0.15 is reported, unless ten reported events score
      at least as high. */
  lemma CrossAgencyComplete(store: seq<Event>, eventId: string, userAgency: string, semantic: Event -> Unit, j: nat)
    requires FindEvent(store, eventId).Some?
    requires j < |store| && IsCandidate(Some(eventId), userAgency)(store[j])
    requires |Filter(store[..j], IsCandidate(Some(eventId), userAgency))| < CANDIDATE_LIMIT
    ensures Missed(MatchEvent(FindEvent(store, eventId).value, store[j], semantic(store[j])),
                   FindSimilarCrossAgencyEvents(store, eventId, userAgency, semantic).value, EVENT_MATCH_THRESHOLD)
  {
    CandidatesFirst(store, Some(eventId), userAgency);
    var k := |Filter(store[..j], IsCandidate(Some(eventId), userAgency))|;
    assert Candidates(store, Some(eventId), userAgency)[k] == store[j];
  }

  /** `Event.findById` over the store. */
  function FindEvent(store: seq<Event>, id: string): (r: Option<Event>)
    ensures r.Some? ==> r.value in store && r.value.id == id
    ensures r.None? <==> forall i :: 0 <= i < |store| ==> store[i].id != id
  {
    if |store| == 0 then None
    else if store[0].id == id then Some(store[0])
    else FindEvent(store[1..], id)
  }

  function MatchDocument(doc: StoredDoc, target: Event, semantic: Unit): (m: EventMatch)
    ensures m.event == target && 0.0 <= m.matchScore <= 1.0
  {
    var ov := EntityOverlap(doc.entities, LinkedTexts(target.linked));
    EventMatch(target, DocumentMatchScore(ov.score, doc.hasEmbedding, semantic), ov.score, ov.matched)
  }

  /** Every candidate scored against the document. */
  function MatchDocuments(doc: StoredDoc, cands: seq<Event>, semantic: Event -> Unit): (r: seq<EventMatch>)
    ensures |r| == |cands|
    ensures forall k :: 0 <= k < |cands| ==> r[k] == MatchDocument(doc, cands[k], semantic(cands[k]))
  {
    seq(|cands|, k requires 0 <= k < |cands| => MatchDocument(doc, cands[k], semantic(cands[k])))
  }

  /** `findSimilarEventsForDocument`: an unknown type name is rejected before
      any lookup, then a missing document; otherwise the ranked matches. */
  function FindSimilarEventsForDocument(lib: Library, store: seq<Event>, documentId: string, documentType: string,
                                        userAgency: string, semantic: Event -> Unit): (r: Result<seq<EventMatch>>)
    ensures ParseDocType(documentType).None? ==> r == Err("Invalid document type")
    ensures ParseDocType(documentType).Some? ==>
      (r.Err? <==> forall i :: 0 <= i < |lib.Get(ParseDocType(documentType).value)| ==>
                     lib.Get(ParseDocType(documentType).value)[i].id != documentId)
    ensures ParseDocType(documentType).Some? && r.Err? ==> r.message == "Document not found"
    ensures r.Ok? ==> |r.value| <= RESULT_LIMIT
    ensures r.Ok? ==> forall i :: 0 <= i < |r.value| ==>
      var e := r.value[i].event;
      e in store && userAgency !in e.agencies && Searchable(e.status) &&
      r.value[i].matchScore >= DOCUMENT_MATCH_THRESHOLD
    ensures r.Ok? ==> forall i, j :: 0 <= i < j < |r.value| ==> r.value[i].matchScore >= r.value[j].matchScore
    ensures r.Ok? ==>
      && ParseDocType(documentType).Some?
      && FindDoc(lib.Get(ParseDocType(documentType).value), documentId).Some?
      && AllDocScoredAgainst(r.value, FindDoc(lib.Get(ParseDocType(documentType).value), documentId).value, semantic)
      && NoneMissed(MatchDocuments(FindDoc(lib.Get(ParseDocType(documentType).value), documentId).value,
                                   Candidates(store, None, userAgency), semantic),
                    r.value, DOCUMENT_MATCH_THRESHOLD)
  {
    match ParseDocType(documentType)
    case None => Err("Invalid document type")
    case Some(t) =>
      match FindDoc(lib.Get(t), documentId)
      case None => Err("Document not found")
      case Some(doc) =>
        var cands := Candidates(store, None, userAgency);
        var all := MatchDocuments(doc, cands, semantic);
        RankedDocuments(doc, cands, semantic, DOCUMENT_MATCH_THRESHOLD);
        Ok(Rank(all, DOCUMENT_MATCH_THRESHOLD))
  }

  /** Every qualifying event within the first 100 candidates that scores at
      least 0.25 against the document is reported, unless ten reported events
      score at least as high. */
  lemma DocumentSearchComplete(lib: Library, store: seq<Event>, documentId: string, documentType: string,
                               userAgency: string, semantic: Event -> Unit, j: nat)
    requires FindSimilarEventsForDocument(lib, store, documentId, documentType, userAgency, semantic).Ok?
    requires j < |store| && IsCandidate(None, userAgency)(store[j])
    requires |Filter(store[..j], IsCandidate(None, userAgency))| < CANDIDATE_LIMIT
    ensures Missed(MatchDocument(FindDoc(lib.Get(ParseDocType(documentType).value), documentId).value,
                                 store[j], semantic(store[j])),
                   FindSimilarEventsForDocument(lib, store, documentId, documentType, userAgency, semantic).value,
                   DOCUMENT_MATCH_THRESHOLD)
  {
    CandidatesFirst(store, None, userAgency);
    var k := |Filter(store[..j], IsCandidate(None, userAgency))|;
    assert Candidates(store, None, userAgency)[k] == store[j];
  }
}

=== FILE: document_model.dfy ===
/** The stored documents (uploaded files, OCR results, transcriptions) as the
    server-side rules read them. */
module DocumentModel {
  import opened Wrappers
  import opened EventModel

  /** The entity texts of a document or event, per category. Both the plain
      string form and the `{ text, … }` object form of an entity reduce to its text. */
  datatype EntityTexts = EntityTexts(
    persons: seq<string>,
    places: seq<string>,
    organizations: seq<string>,
    phoneNumbers: seq<string>,
    dates: seq<string>)
  {
    function Get(c: Category): seq<string> {
      match c
      case Persons => persons
      case Places => places
      case Organizations => organizations
      case PhoneNumbers => phoneNumbers
      case Dates => dates
    }
  }

  const NO_TEXTS: EntityTexts := EntityTexts([], [], [], [], [])

  /** A stored document of any of the three collections. Uploaded and OCR
    documents keep their text in `text`; a transcription has no `text` field
    (it reads as "") and keeps its text in `transcript`. */
  datatype StoredDoc = StoredDoc(
    id: string,
    docType: DocType,
    agency: string,
    text: string,
    transcript: string,
    entities: EntityTexts,
    createdAt: int,
    hasEmbedding: bool,
    filename: string,
    uploadedBy: string)

  /** The three document collections, each in natural order. */
  datatype Library = Library(documents: seq<StoredDoc>, ocrDocuments: seq<StoredDoc>, transcriptions: seq<StoredDoc>) {
    function Get(t: DocType): seq<StoredDoc> {
      match t
      case Document => documents
      case OcrDocument => ocrDocuments
      case Transcription => transcriptions
    }
  }

  /** `Model.findById` over one collection: the first document with the id. */
  function FindDoc(docs: seq<StoredDoc>, id: string): (r: Option<StoredDoc>)
    ensures r.Some? ==> r.value in docs && r.value.id == id
    ensures r.None? <==> forall i :: 0 <= i < |docs| ==> docs[i].id != id
    ensures r.Some? ==>
              exists i :: 0 <= i < |docs| && docs[i] == r.value && forall j :: 0 <= j < i ==> docs[j].id != id
  {
    if |docs| == 0 then None
    else if docs[0].id == id then Some(docs[0])
    else FindDoc(docs[1..], id)
  }
}

=== FILE: dual_ocr.dfy ===
/** The two-engine OCR pipeline: choosing the engine by file type and content,
    falling back to the printed-text engine when handwriting recognition gives
    nothing, and pulling entities with their boxes out of the recognised words.

    The engines are parameters: what the PDF parser, the handwriting service
    and the printed-text engine return (or that they raise) is given, as are the
    text clean-up, the handwriting detector's verdict and the phone-number and
    date patterns. */
module DualOcr {
  import opened Wrappers
  import opened Strings
  import opened EventModel
  import opened OcrLayout

  /** What the pipeline hands back: text, positioned words, and the error of a
      failed run. */
  datatype OcrResult = OcrResult(text: string, words: seq<Word>, error: Option<string>)

  /** The PDF branch is taken on a `.pdf` extension in any letter case. */
  predicate IsPdfPath(path: string) {
    Lower(ExtName(path)) == ".pdf"
  }

  datatype PdfOutcome = PdfParsed(text: string) | PdfFailed(message: string)

  /** The handwriting service raised (or could not be started), or returned a
      result, possibly none. */
  datatype EasyOutcome = EasyRaised | EasyReturned(result: Option<OcrResult>)

  datatype TessOutcome = TessRecognized(text: string) | TessRaised

  /** The printed-text engine: blank or failed recognition gives empty text and
      no words; otherwise the cleaned text on the synthetic image grid. */
  function Tesseract(t: TessOutcome, clean: string -> string): (r: OcrResult)
    ensures r.error.None?
    ensures t.TessRaised? || Trim(t.text) == "" ==> r.text == "" && r.words == []
    ensures t.TessRecognized? && Trim(t.text) != "" ==> r.text == clean(t.text)
    ensures Join(Texts(r.words), " ") == CollapseWs(r.text)
  {
    match t
    case TessRaised => OcrResult("", [], None)
    case TessRecognized(text) =>
      if Trim(text) == "" then OcrResult("", [], None)
      else
        var cleaned := clean(text);
        ApproximateWordsText(cleaned);
        OcrResult(cleaned, ApproximateWords(cleaned), None)
  }

  /** The result of a run that raised: a notice naming the file and its size
      (in megabytes, already formatted), no words, and the error message. */
  function Fallback(path: string, sizeMb: string, message: string): (r: OcrResult)
    ensures r.words == [] && r.error == Some(message)
  {
    OcrResult("Failed to perform full OCR on " + BaseName(path) + ". File size: " + sizeMb +
              " MB.\n\nPlease try again with a clearer image or use a different document.", [], Some(message))
  }

  /** The handwriting engine gave nothing usable. */
  predicate EasyGaveNothing(e: EasyOutcome) {
    e.EasyRaised? || e.result.None? || e.result.value.text == ""
  }

  /** `performOCR`. A PDF goes to the parser (a parser failure ends in the
      fallback notice); an image judged handwritten goes to the handwriting
      engine, whose text is cleaned and whose words are kept, falling back to
      the printed-text engine when it gives nothing; any other image goes to
      the printed-text engine. */
  function PerformOcr(path: string, sizeMb: string, handwritten: bool, pdf: PdfOutcome, easy: EasyOutcome,
                      tess: TessOutcome, clean: string -> string): (r: OcrResult)
    ensures IsPdfPath(path) && pdf.PdfParsed? ==> r == OcrResult(pdf.text, PdfWords(pdf.text), None)
    ensures IsPdfPath(path) && pdf.PdfFailed? ==> r == Fallback(path, sizeMb, "Failed to process PDF: " + pdf.message)
    ensures !IsPdfPath(path) && (!handwritten || EasyGaveNothing(easy)) ==> r == Tesseract(tess, clean)
    ensures !IsPdfPath(path) && handwritten && !EasyGaveNothing(easy) ==>
      r == easy.result.value.(text := clean(easy.result.value.text))
  {
    if IsPdfPath(path) then
      match pdf
      case PdfParsed(text) => OcrResult(text, PdfWords(text), None)
      case PdfFailed(msg) => Fallback(path, sizeMb, "Failed to process PDF: " + msg)
    else if !handwritten then Tesseract(tess, clean)
    else
      match easy
      case EasyRaised => Tesseract(tess, clean)
      case EasyReturned(res) =>
        if res.None? || res.value.text == "" then Tesseract(tess, clean)
        else res.value.(text := clean(res.value.text))
  }

  /** Only a failed PDF parse carries an error (the handwriting result passes its
      own fields through), and every result the pipeline lays out itself has
      words that spell its text up to spacing. */
  lemma PerformOcrFacts(path: string, sizeMb: string, handwritten: bool, pdf: PdfOutcome, easy: EasyOutcome,
                        tess: TessOutcome, clean: string -> string)
    ensures var r := PerformOcr(path, sizeMb, handwritten, pdf, easy, tess, clean);
      (IsPdfPath(path) || !handwritten || EasyGaveNothing(easy)) ==>
        (r.error.Some? <==> IsPdfPath(path) && pdf.PdfFailed?)
    ensures var r := PerformOcr(path, sizeMb, handwritten, pdf, easy, tess, clean);
      (IsPdfPath(path) && pdf.PdfParsed?) || (!IsPdfPath(path) && (!handwritten || EasyGaveNothing(easy))) ==>
        Join(Texts(r.words), " ") == CollapseWs(r.text)
  {
    if IsPdfPath(path) && pdf.PdfParsed? {
      ApproximateWordsText(pdf.text);
    }
  }

  /** An extracted entity: its text, confidence, box (none for entities that
      come without one) and, for entities added from the AI summary, a source tag. */
  datatype Found = Found(text: string, confidence: real, box: Option<Rect>, source: Option<string>)

  /** Found entities per category. */
  datatype Found5 = Found5(persons: seq<Found>, places: seq<Found>, organizations: seq<Found>,
                           phoneNumbers: seq<Found>, dates: seq<Found>)
  {
    function Get(c: Category): seq<Found> {
      match c
      case Persons => persons
      case Places => places
      case Organizations => organizations
      case PhoneNumbers => phoneNumbers
      case Dates => dates
    }

    function With(c: Category, v: seq<Found>): (r: Found5)
      ensures r.Get(c) == v
      ensures forall d :: d != c ==> r.Get(d) == Get(d)
    {
      match c
      case Persons => this.(persons := v)
      case Places => this.(places := v)
      case Organizations => this.(organizations := v)
      case PhoneNumbers => this.(phoneNumbers := v)
      case Dates => this.(dates := v)
    }
  }

  const NO_FOUND: Found5 := Found5([], [], [], [], [])

  /** The entity a word yields: its text and confidence, and its box in
      `{x, y, width, height}` form. */
  function WordEntity(w: Word): (f: Found)
    ensures f.text == w.text && f.confidence == w.confidence && f.source.None?
    ensures f.box == Some(Rect(w.bbox.x0, w.bbox.y0, w.bbox.x1 - w.bbox.x0, w.bbox.y1 - w.bbox.y0))
  {
    Found(w.text, w.confidence, Some(ToRect(w.bbox)), None)
  }

  /** `f` is the entity of some word whose text passes the test. */
  predicate FromPassingWord(words: seq<Word>, test: string -> bool, f: Found) {
    exists i :: 0 <= i < |words| && test(words[i].text) && f == WordEntity(words[i])
  }

  /** The entities of the words whose text passes a test, in word order,
      repeats included. */
  function Pick(words: seq<Word>, test: string -> bool): (r: seq<Found>)
    ensures |r| <= |words|
    ensures forall f :: f in r ==> FromPassingWord(words, test, f)
    ensures forall w :: w in words && test(w.text) ==> WordEntity(w) in r
  {
    if |words| == 0 then []
    else if test(words[0].text) then [WordEntity(words[0])] + Pick(words[1..], test)
    else Pick(words[1..], test)
  }

  /** Picking distributes over concatenation: entities keep word order and
      nothing is merged, so a repeated word yields a repeated entity. */
  lemma {:induction false} PickAppend(a: seq<Word>, b: seq<Word>, test: string -> bool)
    ensures Pick(a + b, test) == Pick(a, test) + Pick(b, test)
    decreases |a|
  {
    if |a| == 0 {
      assert a + b == b;
    } else {
      assert (a + b)[0] == a[0] && (a + b)[1..] == a[1..] + b;
      PickAppend(a[1..], b, test);
    }
  }

  /** A capitalised word: an upper-case letter followed by one or more
      lower-case letters. */
  predicate CapWord(w: string) {
    |w| >= 2 && IsUpper(w[0]) && forall k :: 1 <= k < |w| ==> IsLowerLetter(w[k])
  }

  /** The index of the first space, or `|s|`. */
  function FirstSpace(s: string): (k: nat)
    ensures k <= |s| && forall j :: 0 <= j < k ==> s[j] != ' '
    ensures k < |s| ==> s[k] == ' '
  {
    if |s| == 0 || s[0] == ' ' then 0 else 1 + FirstSpace(s[1..])
  }

  /** The person test on a word: two capitalised words joined by one space and
      nothing else. */
  predicate SimpleName(s: string) {
    var k := FirstSpace(s);
    k < |s| && CapWord(s[..k]) && CapWord(s[k + 1..])
  }

  /** The test accepts exactly the texts that split at some space into two
      capitalised words. */
  lemma SimpleNameIff(s: string)
    ensures SimpleName(s) <==> exists k :: 0 <= k < |s| && s[k] == ' ' && CapWord(s[..k]) && CapWord(s[k + 1..])
  {
    if k :| 0 <= k < |s| && s[k] == ' ' && CapWord(s[..k]) && CapWord(s[k + 1..]) {
      assert FirstSpace(s) == k;
    }
  }

  /** `extractEntities`: nothing without a word list; otherwise persons, phone
      numbers and dates from the words that pass their tests, and never a place
      or an organisation. */
  function ExtractEntities(words: Option<seq<Word>>, isPhone: string -> bool, isDate: string -> bool): (r: Found5)
    ensures words.None? ==> r == NO_FOUND
    ensures r.places == [] && r.organizations == []
    ensures words.Some? ==>
      r.persons == Pick(words.value, SimpleName) &&
      r.phoneNumbers == Pick(words.value, isPhone) &&
      r.dates == Pick(words.value, isDate)
    ensures forall f :: f in r.persons ==> SimpleName(f.text)
  {
    match words
    case None => NO_FOUND
    case Some(ws) => Found5(Pick(ws, SimpleName), [], [], Pick(ws, isPhone), Pick(ws, isDate))
  }
}

=== FILE: easyocr_service.dfy ===
/** The handwriting-recognition service: a single shared engine built on first
    use, and the `/recognize` handler that stages the upload as a temporary
    file, converts the engine's four-corner regions to corner boxes, and
    removes the temporary file again.

    The engine itself is a parameter: what it detects (or the exception it
    raises) is given to the handler. The file system is the set of paths that
    exist. */
module EasyOcr {
  import opened Wrappers
  import opened Strings
  import opened OcrLayout

  /** The engine, remembered with the languages it was built for. */
  datatype Engine = Engine(languages: seq<string>)

  /** The process-wide state: the engine slot and the paths present on disk. */
  datatype Service = Service(reader: Option<Engine>, files: set<string>)

  const DEFAULT_LANGUAGES: seq<string> := ["en"]

  /** `initialize_reader`: builds the engine only when the slot is empty; later
      calls return the existing engine whatever languages they pass. */
  function InitializeReader(s: Service, languages: seq<string>): (r: (Engine, Service))
    ensures s.reader.Some? ==> r.0 == s.reader.value && r.1 == s
    ensures s.reader.None? ==> r.0 == Engine(languages)
    ensures r.1 == s.(reader := Some(r.0))
  {
    match s.reader
    case Some(e) => (e, s)
    case None => (Engine(languages), s.(reader := Some(Engine(languages))))
  }

  /** A second initialisation changes nothing and yields the engine of the first. */
  lemma InitializeOnce(s: Service, first: seq<string>, second: seq<string>)
    ensures var (e1, s1) := InitializeReader(s, first);
            InitializeReader(s1, second) == (e1, s1)
  {
  }

  /** A corner point as the engine reports it. */
  datatype Point = Point(x: real, y: real)

  /** A detected region: corners top-left, top-right, bottom-right, bottom-left. */
  datatype Quad = Quad(tl: Point, tr: Point, br: Point, bl: Point)

  datatype Detection = Detection(quad: Quad, text: string, confidence: real)

  /** Python's `int()` on a float: truncation toward zero. */
  function Trunc(r: real): (i: int)
    ensures r >= 0.0 ==> i as real <= r < i as real + 1.0
    ensures r < 0.0 ==> i as real - 1.0 < r <= i as real
  {
    if r >= 0.0 then r.Floor else -((-r).Floor)
  }

  /** Truncation never reverses an order. */
  lemma TruncMonotone(a: real, b: real)
    requires a <= b
    ensures Trunc(a) <= Trunc(b)
  {
  }

  function MinR(a: real, b: real): real { if a <= b then a else b }

  function MaxR(a: real, b: real): real { if a >= b then a else b }

  /** The corner box of a region: left edge from the two left corners, top
      from the two top corners, right from the two right corners, bottom from
      the two bottom corners, each truncated. Truncating after taking the
      extreme is the same as taking the extreme of the truncated corners. */
  function ToBox(q: Quad): (b: Box)
    ensures b.x0 <= Trunc(q.tl.x) && b.x0 <= Trunc(q.bl.x) && (b.x0 == Trunc(q.tl.x) || b.x0 == Trunc(q.bl.x))
    ensures b.y0 <= Trunc(q.tl.y) && b.y0 <= Trunc(q.tr.y) && (b.y0 == Trunc(q.tl.y) || b.y0 == Trunc(q.tr.y))
    ensures b.x1 >= Trunc(q.tr.x) && b.x1 >= Trunc(q.br.x) && (b.x1 == Trunc(q.tr.x) || b.x1 == Trunc(q.br.x))
    ensures b.y1 >= Trunc(q.bl.y) && b.y1 >= Trunc(q.br.y) && (b.y1 == Trunc(q.bl.y) || b.y1 == Trunc(q.br.y))
  {
    TruncMonotone(MinR(q.tl.x, q.bl.x), q.tl.x);
    TruncMonotone(MinR(q.tl.x, q.bl.x), q.bl.x);
    TruncMonotone(MinR(q.tl.y, q.tr.y), q.tl.y);
    TruncMonotone(MinR(q.tl.y, q.tr.y), q.tr.y);
    TruncMonotone(q.tr.x, MaxR(q.tr.x, q.br.x));
    TruncMonotone(q.br.x, MaxR(q.tr.x, q.br.x));
    TruncMonotone(q.bl.y, MaxR(q.bl.y, q.br.y));
    TruncMonotone(q.br.y, MaxR(q.bl.y, q.br.y));
    Box(Trunc(MinR(q.tl.x, q.bl.x)), Trunc(MinR(q.tl.y, q.tr.y)),
        Trunc(MaxR(q.tr.x, q.br.x)), Trunc(MaxR(q.bl.y, q.br.y)))
  }

  /** When both left corners lie left of both right corners and both top
      corners above both bottom ones, the box is well ordered. */
  lemma ToBoxOrdered(q: Quad)
    requires q.tl.x <= q.tr.x && q.tl.x <= q.br.x && q.bl.x <= q.tr.x && q.bl.x <= q.br.x
    requires q.tl.y <= q.bl.y && q.tl.y <= q.br.y && q.tr.y <= q.bl.y && q.tr.y <= q.br.y
    ensures ToBox(q).x0 <= ToBox(q).x1 && ToBox(q).y0 <= ToBox(q).y1
  {
    TruncMonotone(q.tl.x, q.tr.x);
    TruncMonotone(q.bl.x, q.br.x);
    TruncMonotone(q.tl.y, q.bl.y);
    TruncMonotone(q.tr.y, q.br.y);
  }

  /** One word per region, in engine order. */
  function RegionWords(items: seq<Detection>): (r: seq<Word>)
    ensures |r| == |items|
    ensures forall i :: 0 <= i < |items| ==>
      r[i] == Word(items[i].text, items[i].confidence, ToBox(items[i].quad))
  {
    seq(|items|, i requires 0 <= i < |items| => Word(items[i].text, items[i].confidence, ToBox(items[i].quad)))
  }

  /** The uploaded form field `image`, by its client-side file name. */
  datatype Upload = Upload(filename: string)

  /** What happens inside the guarded block: building the engine may raise
      (only when none exists yet), and reading the staged file either detects
      regions or raises. */
  datatype ReadOutcome = Detected(items: seq<Detection>) | Raised(message: string)

  /** A JSON error, the recognised text and words, or the framework's own
      error page for an exception the handler does not catch. */
  datatype Body = ErrorBody(error: string) | Recognized(text: string, words: seq<Word>) | ServerErrorPage

  datatype Reply = Reply(status: nat, body: Body)

  /** `os.path.join('/tmp', name)`: an absolute name replaces the directory. */
  function JoinTmp(name: string): (p: string)
    ensures |name| > 0 && name[0] == '/' ==> p == name
    ensures (|name| == 0 || name[0] != '/') ==> p == "/tmp/" + name
  {
    if |name| > 0 && name[0] == '/' then name else "/tmp/" + name
  }

  /** How the staging path is formed: as the handler writes it, or kept inside
      the temporary directory. */
  datatype Staging = AsWritten | Intended

  function StagedAt(staging: Staging, name: string): string {
    match staging
    case AsWritten => JoinTmp(name)
    case Intended => StagingPath(name)
  }

  /** `recognize_text`. A missing field or an empty file name is refused with
      400 before anything is staged. Saving the upload happens before the
      guarded block, so a failing save is an uncaught exception: the
      framework's 500 page, with nothing staged and the engine untouched.
      Otherwise the upload is staged, and the staged path is removed again
      whether recognition succeeds (200 with the text and words) or raises
      (500 with the message). An engine construction failure leaves the slot
      empty. */
  function Recognize(s: Service, image: Option<Upload>, saveError: Option<string>, buildError: Option<string>,
                     read: ReadOutcome, staging: Staging): (r: (Reply, Service))
    ensures image.None? ==> r == (Reply(400, ErrorBody("No image provided")), s)
    ensures image.Some? && image.value.filename == "" ==> r == (Reply(400, ErrorBody("Empty filename")), s)
    ensures image.Some? && image.value.filename != "" && saveError.Some? ==> r == (Reply(500, ServerErrorPage), s)
    ensures image.Some? && image.value.filename != "" && saveError.None? ==>
      r.1.files == s.files - {StagedAt(staging, image.value.filename)} &&
      (r.0.status == 200 || r.0.status == 500) && !r.0.body.ServerErrorPage?
    ensures r.0.status == 200 <==>
      image.Some? && image.value.filename != "" && saveError.None? && (s.reader.Some? || buildError.None?) &&
      read.Detected?
    ensures r.0.status == 500 && saveError.None? && (s.reader.Some? || buildError.None?) ==>
      r.0.body == ErrorBody(read.message)
    ensures r.0.status == 200 ==>
      r.0.body.Recognized? &&
      r.0.body.words == RegionWords(read.items) &&
      r.0.body.text == Join(Texts(r.0.body.words), " ")
    ensures r.1.reader == (if r.0.status == 400 || r.0.body.ServerErrorPage? || (s.reader.None? && buildError.Some?)
                           then s.reader else Some(s.reader.GetOr(Engine(DEFAULT_LANGUAGES))))
  {
    match image
    case None => (Reply(400, ErrorBody("No image provided")), s)
    case Some(file) =>
      if file.filename == "" then (Reply(400, ErrorBody("Empty filename")), s)
      else if saveError.Some? then (Reply(500, ServerErrorPage), s)
      else
        var path := StagedAt(staging, file.filename);
        var staged := s.(files := s.files + {path});
        if staged.reader.None? && buildError.Some? then
          (Reply(500, ErrorBody(buildError.value)), staged.(files := staged.files - {path}))
        else
          var (_, ready) := InitializeReader(staged, DEFAULT_LANGUAGES);
          match read
          case Raised(msg) => (Reply(500, ErrorBody(msg)), ready.(files := ready.files - {path}))
          case Detected(items) =>
            var words := RegionWords(items);
            (Reply(200, Recognized(Join(Texts(words), " "), words)), ready.(files := ready.files - {path}))
  }

  /** The recognised text is the single-space join of the region texts, in
      engine order. */
  lemma RecognizedText(s: Service, file: Upload, read: ReadOutcome)
    requires file.filename != "" && s.reader.Some? && read.Detected?
    ensures var text := Join(seq(|read.items|, i requires 0 <= i < |read.items| => read.items[i].text), " ");
            Recognize(s, Some(file), None, None, read, Intended).0 == Reply(200, Recognized(text, RegionWords(read.items)))
  {
    var words := RegionWords(read.items);
    assert Texts(words) == seq(|read.items|, i requires 0 <= i < |read.items| => read.items[i].text);
  }

  /** The staging path kept inside the temporary directory. */
  function StagingPath(name: string): (p: string)
    ensures StartsWith(p, "/tmp/")
    ensures forall k :: 5 <= k < |p| ==> p[k] != '/'
  {
    "/tmp/" + BaseName(name)
  }

  /** As written, an absolute upload name escapes the temporary directory: the
      handler writes to that path and then deletes it, so a file that existed
      there is gone afterwards. */
  lemma AbsoluteNameEscapesTmp()
    ensures var s := Service(Some(Engine(["en"])), {"/etc/hosts"});
            var (reply, after) := Recognize(s, Some(Upload("/etc/hosts")), None, None, Detected([]), AsWritten);
            reply.status == 200 && "/etc/hosts" !in after.files
  {
    assert JoinTmp("/etc/hosts") == "/etc/hosts";
  }

  /** With the staging path kept inside the temporary directory, handling an
      upload never removes a path outside it. */
  lemma StagingStaysInTmp(s: Service, image: Option<Upload>, saveError: Option<string>, buildError: Option<string>,
                           read: ReadOutcome, f: string)
    requires f in s.files && !StartsWith(f, "/tmp/")
    ensures f in Recognize(s, image, saveError, buildError, read, Intended).1.files
  {
    if image.Some? && image.value.filename != "" {
      assert f != StagingPath(image.value.filename);
    }
  }
}

=== FILE: event_linking.dfy ===
/** Event linking: the scores that decide whether an ingested document joins an
    existing intelligence event or seeds a new one, and the bookkeeping applied
    to the event when it does.

    Cosine similarity of embeddings is not computed here: the linker is told, per
    candidate, whether the best similarity reached the semantic threshold. */
module EventLinking {
  import opened Wrappers
  import opened Strings
  import opened Seqs
  import opened Sorting
  import opened EventModel
  import opened Overlap
  import opened DocumentModel
  import AlertModel

  const ENTITY_MATCH_THRESHOLD: real := 0.3
  const TEMPORAL_WINDOW_HOURS: nat := 48
  const SEMANTIC_SIMILARITY_THRESHOLD: real := 0.7
  const MS_PER_HOUR: nat := 3600000
  /** The linking window in milliseconds: 48 hours. */
  const WINDOW_MS: nat := 172800000
  const RECENT_EVENT_LIMIT: nat := 50

  const HIGH_SEVERITY_KEYWORDS: seq<string> := [
    "murder", "assault", "robbery", "theft", "kidnapping", "fraud", "terrorism",
    "violence", "weapon", "drug", "trafficking", "crime", "suspect", "victim",
    "emergency", "critical", "urgent", "threat", "danger", "attack"]

  function Abs(x: int): nat { if x < 0 then -x else x }

  function MaxInt(a: int, b: int): int { if a < b then b else a }

  function MinInt(a: int, b: int): int { if a < b then a else b }

  // ---------------------------------------------------------------- time

  /** `isTemporallyClose`: the hour distance of two instants is at most 48. */
  function IsTemporallyClose(d1: int, d2: int): (r: bool)
    ensures r <==> Abs(d1 - d2) <= WINDOW_MS
    ensures r <==> -(WINDOW_MS as int) <= d2 - d1 <= WINDOW_MS
  {
    Abs(d1 - d2) as real / MS_PER_HOUR as real <= TEMPORAL_WINDOW_HOURS as real
  }

  // ---------------------------------------------------------------- severity

  /** Some high-severity keyword occurs in the lower-cased text. */
  predicate HasKeyword(text: string) {
    exists i :: 0 <= i < |HIGH_SEVERITY_KEYWORDS| && Contains(Lower(text), HIGH_SEVERITY_KEYWORDS[i])
  }

  datatype KeywordTally = KeywordTally(points: nat, found: bool)

  /** Five points per occurrence of each keyword, and whether any occurred. */
  function KeywordPoints(lt: string, ks: seq<string>): (t: KeywordTally)
    requires forall i :: 0 <= i < |ks| ==> |ks[i]| > 0
    ensures t.found <==> exists i :: 0 <= i < |ks| && Contains(lt, ks[i])
    ensures t.found ==> t.points >= 5
    ensures !t.found ==> t.points == 0
  {
    if |ks| == 0 then KeywordTally(0, false)
    else
      var rest := KeywordPoints(lt, ks[1..]);
      var n := CountOcc(lt, ks[0]);
      CountOccPositiveIffContains(lt, ks[0]);
      assert forall i :: 1 <= i < |ks| ==> ks[i] == ks[1..][i - 1];
      KeywordTally(5 * n + rest.points, n > 0 || rest.found)
  }

  /** The number of entities in the four scored categories. */
  function ScoredEntityCount(e: EntityTexts): nat {
    |e.persons| + |e.places| + |e.organizations| + |e.phoneNumbers|
  }

  /** `calculateSeverityScore`: keyword points plus two per entity, raised to 40
      when any keyword occurs and capped at 100. */
  function SeverityScore(text: string, e: EntityTexts): (r: int)
    ensures 0 <= r <= 100
    ensures HasKeyword(text) ==> r >= 40
    ensures !HasKeyword(text) ==> r == MinInt(2 * ScoredEntityCount(e), 100)
  {
    var t := KeywordPoints(Lower(text), HIGH_SEVERITY_KEYWORDS);
    var score := t.points + 2 * ScoredEntityCount(e);
    var boosted := if t.found && score < 40 then 40 else score;
    MinInt(boosted, 100)
  }

  /** The event-created alert's level for a severity score. */
  function SeverityLevel(score: int): (s: AlertModel.Severity)
    ensures s == AlertModel.Critical <==> score >= 70
    ensures s == AlertModel.High <==> 40 <= score < 70
    ensures s == AlertModel.Medium <==> score < 40
  {
    if score >= 70 then AlertModel.Critical
    else if score >= 40 then AlertModel.High
    else AlertModel.Medium
  }

  // ---------------------------------------------------------------- merge

  /** The merge compares texts case-insensitively (without trimming). */
  predicate SameText(a: string, b: string) {
    Lower(a) == Lower(b)
  }

  /** The first entry whose text matches, as `Array.prototype.find` returns it. */
  function FindText(list: seq<LinkedEntity>, text: string): (r: Option<nat>)
    ensures r.Some? ==> r.value < |list| && SameText(list[r.value].text, text)
    ensures r.Some? ==> forall j :: 0 <= j < r.value ==> !SameText(list[j].text, text)
    ensures r.None? <==> forall j :: 0 <= j < |list| ==> !SameText(list[j].text, text)
  {
    if |list| == 0 then None
    else if SameText(list[0].text, text) then Some(0)
    else match FindText(list[1..], text)
      case None => None
      case Some(k) => Some(k + 1)
  }

  /** An entry seen once more, in document `docId`. */
  function Bump(e: LinkedEntity, docId: string): (r: LinkedEntity)
    ensures r.text == e.text && r.frequency == e.frequency + 1
    ensures docId in r.sources && multiset(e.sources) <= multiset(r.sources)
    ensures |r.sources| <= |e.sources| + 1
  {
    LinkedEntity(e.text, e.frequency + 1, if docId in e.sources then e.sources else e.sources + [docId])
  }

  /** One incoming entity text merged into a category list. */
  function MergeItem(list: seq<LinkedEntity>, text: string, docId: string): (r: seq<LinkedEntity>)
    ensures text == "" ==> r == list
    ensures text != "" ==>
      (|r| == |list| &&
       exists i :: 0 <= i < |list| && SameText(list[i].text, text) &&
         r[i] == Bump(list[i], docId) && forall j :: 0 <= j < |list| && j != i ==> r[j] == list[j])
      || ((forall j :: 0 <= j < |list| ==> !SameText(list[j].text, text)) &&
          r == list + [LinkedEntity(text, 1, [docId])])
  {
    if text == "" then list
    else match FindText(list, text)
      case Some(i) => list[i := Bump(list[i], docId)]
      case None => list + [LinkedEntity(text, 1, [docId])]
  }

  function MergeList(list: seq<LinkedEntity>, items: seq<string>, docId: string): seq<LinkedEntity>
    decreases |items|
  {
    if |items| == 0 then list else MergeList(MergeItem(list, items[0], docId), items[1..], docId)
  }

  /** `mergeEntities`: every category of the incoming entities merged into the
      event's linked entities, in the order persons, places, organizations, phone
      numbers, dates. */
  function MergeEntities(existing: LinkedEntities, incoming: EntityTexts, docId: string): LinkedEntities
  {
    LinkedEntities(
      MergeList(existing.persons, incoming.persons, docId),
      MergeList(existing.places, incoming.places, docId),
      MergeList(existing.organizations, incoming.organizations, docId),
      MergeList(existing.phoneNumbers, incoming.phoneNumbers, docId),
      MergeList(existing.dates, incoming.dates, docId))
  }

  /** Each category of the merge is that category's list merged with the
      incoming texts of the same category. */
  lemma MergeEntitiesGet(existing: LinkedEntities, incoming: EntityTexts, docId: string, c: Category)
    ensures MergeEntities(existing, incoming, docId).Get(c) == MergeList(existing.Get(c), incoming.Get(c), docId)
  {
  }

  /** The invariant the merge keeps in each category: texts are distinct up to
      case, every entry's sources are distinct, and an entry has been seen at
      least as often as it has distinct sources. */
  predicate WellFormed(list: seq<LinkedEntity>) {
    (forall i, j :: 0 <= i < j < |list| ==> !SameText(list[i].text, list[j].text)) &&
    (forall i :: 0 <= i < |list| ==> NoDups(list[i].sources) && |list[i].sources| <= list[i].frequency)
  }

  predicate AllWellFormed(l: LinkedEntities) {
    forall c :: WellFormed(l.Get(c))
  }

  lemma MergeItemWellFormed(list: seq<LinkedEntity>, text: string, docId: string)
    requires WellFormed(list)
    ensures WellFormed(MergeItem(list, text, docId))
  {
    if text != "" {
      match FindText(list, text)
      case Some(i) =>
        BumpKeepsEntry(list[i], docId);
        ReplaceKeepsWellFormed(list, i, Bump(list[i], docId));
      case None =>
        AppendKeepsWellFormed(list, LinkedEntity(text, 1, [docId]));
    }
  }

  lemma BumpKeepsEntry(e: LinkedEntity, docId: string)
    requires NoDups(e.sources) && |e.sources| <= e.frequency
    ensures var b := Bump(e, docId); NoDups(b.sources) && |b.sources| <= b.frequency
  {
    var b := Bump(e, docId);
    if docId !in e.sources {
      assert b.sources == e.sources + [docId];
      forall i, j | 0 <= i < j < |b.sources| ensures b.sources[i] != b.sources[j] {
        if j == |e.sources| {
          assert b.sources[i] == e.sources[i];
        }
      }
    }
  }

  /** Replacing an entry by one with the same text and a well-formed own part
      keeps the list well-formed. */
  lemma ReplaceKeepsWellFormed(list: seq<LinkedEntity>, i: nat, e: LinkedEntity)
    requires WellFormed(list) && i < |list| && e.text == list[i].text
    requires NoDups(e.sources) && |e.sources| <= e.frequency
    ensures WellFormed(list[i := e])
  {
    var r := list[i := e];
    forall a, b | 0 <= a < b < |r|
      ensures !SameText(r[a].text, r[b].text)
    {
      assert r[a].text == list[a].text && r[b].text == list[b].text;
    }
  }

  /** Appending a well-formed entry whose text no entry shares keeps the list
      well-formed. */
  lemma AppendKeepsWellFormed(list: seq<LinkedEntity>, e: LinkedEntity)
    requires WellFormed(list)
    requires forall j :: 0 <= j < |list| ==> !SameText(list[j].text, e.text)
    requires NoDups(e.sources) && |e.sources| <= e.frequency
    ensures WellFormed(list + [e])
  {
    var r := list + [e];
    forall a, b | 0 <= a < b < |r|
      ensures !SameText(r[a].text, r[b].text)
    {
      assert r[a] == list[a];
    }
  }

  lemma {:induction false} MergeListWellFormed(list: seq<LinkedEntity>, items: seq<string>, docId: string)
    requires WellFormed(list)
    ensures WellFormed(MergeList(list, items, docId))
    decreases |items|
  {
    if |items| > 0 {
      MergeItemWellFormed(list, items[0], docId);
      MergeListWellFormed(MergeItem(list, items[0], docId), items[1..], docId);
    }
  }

  /** Merging keeps the per-category invariant. */
  lemma MergeEntitiesWellFormed(existing: LinkedEntities, incoming: EntityTexts, docId: string)
    requires AllWellFormed(existing)
    ensures AllWellFormed(MergeEntities(existing, incoming, docId))
  {
    forall c
      ensures WellFormed(MergeEntities(existing, incoming, docId).Get(c))
    {
      MergeEntitiesGet(existing, incoming, docId, c);
      MergeListWellFormed(existing.Get(c), incoming.Get(c), docId);
    }
  }

  /** Total of the frequencies in a category. */
  function Frequencies(list: seq<LinkedEntity>): nat {
    if |list| == 0 then 0 else list[0].frequency + Frequencies(list[1..])
  }

  lemma {:induction false} FrequenciesAppend(a: seq<LinkedEntity>, b: seq<LinkedEntity>)
    ensures Frequencies(a + b) == Frequencies(a) + Frequencies(b)
  {
    if |a| > 0 {
      assert (a + b)[0] == a[0];
      assert (a + b)[1..] == a[1..] + b;
      FrequenciesAppend(a[1..], b);
      assert Frequencies(a + b) == (a + b)[0].frequency + Frequencies((a + b)[1..]);
    } else {
      assert a + b == b;
    }
  }

  lemma {:induction false} FrequenciesBump(list: seq<LinkedEntity>, i: nat, e: LinkedEntity)
    requires i < |list| && e.frequency == list[i].frequency + 1
    ensures Frequencies(list[i := e]) == Frequencies(list) + 1
  {
    if i > 0 {
      assert list[i := e][1..] == list[1..][i - 1 := e];
      FrequenciesBump(list[1..], i - 1, e);
    }
  }

  /** Non-empty incoming texts. */
  function NonEmptyCount(items: seq<string>): nat {
    if |items| == 0 then 0 else (if items[0] == "" then 0 else 1) + NonEmptyCount(items[1..])
  }

  /** Every non-empty incoming text is counted exactly once: the frequencies of
      a category grow by the number of non-empty texts merged into it. */
  lemma {:induction false} MergeListCounts(list: seq<LinkedEntity>, items: seq<string>, docId: string)
    ensures Frequencies(MergeList(list, items, docId)) == Frequencies(list) + NonEmptyCount(items)
    decreases |items|
  {
    if |items| > 0 {
      var text := items[0];
      if text != "" {
        match FindText(list, text)
        case Some(i) => FrequenciesBump(list, i, Bump(list[i], docId));
        case None => FrequenciesAppend(list, [LinkedEntity(text, 1, [docId])]);
      }
      MergeListCounts(MergeItem(list, text, docId), items[1..], docId);
    }
  }

  // ---------------------------------------------------------------- confidence

  function DocumentTier(n: nat): real {
    if n >= 3 then 0.3 else if n == 2 then 0.2 else 0.1
  }

  function CrossSourceTier(n: nat): real {
    if n >= 3 then 0.4 else if n >= 2 then 0.3 else if n >= 1 then 0.2 else 0.0
  }

  function UniqueEntityTier(n: nat): real {
    if n >= 5 then 0.3 else if n >= 3 then 0.2 else 0.1
  }

  /** `calculateConfidenceScore` on its three counts: the tier values summed and
      capped at 1. The cap never bites, since the tiers sum to at most 1. */
  function Confidence(docCount: nat, crossSource: nat, uniqueEntities: nat): (r: real)
    ensures 0.2 <= r <= 1.0
    ensures r == DocumentTier(docCount) + CrossSourceTier(crossSource) + UniqueEntityTier(uniqueEntities)
  {
    var sum := DocumentTier(docCount) + CrossSourceTier(crossSource) + UniqueEntityTier(uniqueEntities);
    if sum < 1.0 then sum else 1.0
  }

  /** More documents, more cross-source entities or more unique entities never
      lower the confidence. */
  lemma ConfidenceMonotone(d1: nat, c1: nat, u1: nat, d2: nat, c2: nat, u2: nat)
    requires d1 <= d2 && c1 <= c2 && u1 <= u2
    ensures Confidence(d1, c1, u1) <= Confidence(d2, c2, u2)
  {
  }

  /** Entities seen in more than one document, over all categories. */
  function CrossSourceCount(l: LinkedEntities): (n: nat)
    ensures n == |set i | 0 <= i < |l.All()| && |l.All()[i].sources| > 1|
    ensures n <= |l.All()|
  {
    var all := l.All();
    var multi := (e: LinkedEntity) => |e.sources| > 1;
    FilterIndices(all, multi);
    assert Positions(all, multi) == (set i | 0 <= i < |l.All()| && |l.All()[i].sources| > 1);
    |Filter(all, multi)|
  }

  function EventConfidence(e: Event): (r: real)
    ensures 0.2 <= r <= 1.0
  {
    Confidence(|e.documents|, CrossSourceCount(e.linked), e.metadata.uniqueEntities)
  }

  // ---------------------------------------------------------------- matching

  /** The weighted match score: half the entity overlap, 0.2 for temporal
      closeness, 0.3 for a semantic hit. */
  function LinkScore(overlap: real, temporal: bool, semantic: bool): (s: real)
    requires 0.0 <= overlap <= 1.0
    ensures 0.0 <= s <= 1.0
    ensures semantic ==> s >= ENTITY_MATCH_THRESHOLD
    ensures !semantic && !temporal ==> (s >= ENTITY_MATCH_THRESHOLD <==> overlap >= 0.6)
    ensures !semantic && temporal ==> (s >= ENTITY_MATCH_THRESHOLD <==> overlap >= 0.2)
  {
    overlap * 0.5 + (if temporal then 0.2 else 0.0) + (if semantic then 0.3 else 0.0)
  }

  /** An ingested document, as the linker reads it. `text` is None when the
      record has no `text` field, as for every transcription, whose text is
      stored as `transcript`. `entitiesJson` is the serialised entity object the
      update appends to the text it scores. */
  datatype IncomingDoc = IncomingDoc(
    id: string,
    docType: DocType,
    text: Option<string>,
    entities: EntityTexts,
    entitiesJson: string,
    createdAt: int,
    agency: string)

  /** A transcription as the linker receives it: it carries no `text`. */
  function TranscriptionDoc(id: string, entities: EntityTexts, entitiesJson: string, createdAt: int, agency: string)
    : (d: IncomingDoc)
    ensures d.docType == Transcription && d.text.None?
    ensures d.id == id && d.entities == entities && d.entitiesJson == entitiesJson
    ensures d.createdAt == createdAt && d.agency == agency
  {
    IncomingDoc(id, Transcription, None, entities, entitiesJson, createdAt, agency)
  }

  /** `text || ""`: what a new event's severity is computed on. */
  function TextOrEmpty(doc: IncomingDoc): (t: string)
    ensures doc.text.None? ==> t == ""
    ensures doc.text.Some? ==> t == doc.text.value
  {
    doc.text.GetOr("")
  }

  /** `text + " " + JSON.stringify(entities)`: what a link scores; a missing
      text renders as `undefined`. */
  function LinkText(doc: IncomingDoc): (t: string)
    ensures doc.text.None? ==> t == "undefined " + doc.entitiesJson
    ensures doc.text.Some? ==> t == doc.text.value + " " + doc.entitiesJson
  {
    doc.text.GetOr("undefined") + " " + doc.entitiesJson
  }

  /** The score of a candidate event for a document. */
  function EventScore(doc: IncomingDoc, ev: Event, semantic: bool): (s: real)
    ensures 0.0 <= s <= 1.0
  {
    LinkScore(OverlapScore(doc.entities, LinkedTexts(ev.linked)),
      IsTemporallyClose(doc.createdAt, ev.timeline.lastUpdated), semantic)
  }

  /** The events the linker considers: active or monitoring, updated within the
      window, at most 50 of them in store order. */
  function RecentEvents(store: seq<Event>, now: int): (r: seq<Event>)
    ensures |r| <= RECENT_EVENT_LIMIT
    ensures forall i :: 0 <= i < |r| ==>
      r[i] in store && (r[i].status == Active || r[i].status == Monitoring) &&
      r[i].timeline.lastUpdated >= now - WINDOW_MS
  {
    Take(Filter(store, IsRecentEvent(now)), RECENT_EVENT_LIMIT)
  }

  /** The query's condition: active or monitoring, updated within the window. */
  function IsRecentEvent(now: int): Event -> bool {
    (e: Event) => (e.status == Active || e.status == Monitoring) && e.timeline.lastUpdated >= now - WINDOW_MS
  }

  /** The recent events are the first 50 qualifying events in store order: a
      qualifying event is kept at its rank among the qualifying events before
      it whenever that rank is below 50, and fewer than 50 are kept only when
      fewer qualify. */
  lemma {:induction false} RecentEventsFirst(store: seq<Event>, now: int)
    ensures var r := RecentEvents(store, now);
      var q := |set i | 0 <= i < |store| && IsRecentEvent(now)(store[i])|;
      |r| == (if RECENT_EVENT_LIMIT < q then RECENT_EVENT_LIMIT else q)
    ensures forall j :: 0 <= j < |store| && IsRecentEvent(now)(store[j]) &&
                        |Filter(store[..j], IsRecentEvent(now))| < RECENT_EVENT_LIMIT ==>
      |Filter(store[..j], IsRecentEvent(now))| < |RecentEvents(store, now)| &&
      RecentEvents(store, now)[|Filter(store[..j], IsRecentEvent(now))|] == store[j]
  {
    TakeFilterRanks(store, IsRecentEvent(now), RECENT_EVENT_LIMIT);
    FilterIndices(store, IsRecentEvent(now));
    assert Positions(store, IsRecentEvent(now)) == set i | 0 <= i < |store| && IsRecentEvent(now)(store[i]);
  }

  /** The best-match loop: the first candidate with the strictly highest score,
      among those reaching the threshold. */
  method SelectBest(scores: seq<real>) returns (best: Option<nat>, bestScore: real)
    ensures best.None? <==> forall i :: 0 <= i < |scores| ==> scores[i] < ENTITY_MATCH_THRESHOLD
    ensures best.None? ==> bestScore == 0.0
    ensures best.Some? ==> best.value < |scores| && scores[best.value] == bestScore && bestScore >= ENTITY_MATCH_THRESHOLD
    ensures best.Some? ==> forall i :: 0 <= i < |scores| && scores[i] >= ENTITY_MATCH_THRESHOLD ==> scores[i] <= bestScore
    ensures best.Some? ==> forall i :: 0 <= i < best.value ==> scores[i] < bestScore
    ensures best.None? <==> !AnyReaches(scores)
    ensures best.Some? ==> FirstBest(scores, best.value)
  {
    best := None;
    bestScore := 0.0;
    var k := 0;
    while k < |scores|
      invariant 0 <= k <= |scores|
      invariant best.None? <==> forall i :: 0 <= i < k ==> scores[i] < ENTITY_MATCH_THRESHOLD
      invariant best.None? ==> bestScore == 0.0
      invariant best.Some? ==> best.value < k && scores[best.value] == bestScore && bestScore >= ENTITY_MATCH_THRESHOLD
      invariant best.Some? ==> forall i :: 0 <= i < k && scores[i] >= ENTITY_MATCH_THRESHOLD ==> scores[i] <= bestScore
      invariant best.Some? ==> forall i :: 0 <= i < best.value ==> scores[i] < bestScore
    {
      if scores[k] > bestScore && scores[k] >= ENTITY_MATCH_THRESHOLD {
        best := Some(k);
        bestScore := scores[k];
      }
      k := k + 1;
    }
  }

  // ---------------------------------------------------------------- update

  /** Appends `a` unless it is already present. */
  function AddOnce(xs: seq<string>, a: string): (r: seq<string>)
    ensures a in r && xs <= r && |r| <= |xs| + 1
    ensures a in xs ==> r == xs
    ensures NoDups(xs) ==> NoDups(r)
  {
    if a in xs then xs else xs + [a]
  }

  /** The metadata and confidence recomputed from an event's documents,
      entities and agencies. */
  function Recount(e: Event): (r: Event)
    ensures r.metadata.totalDocuments == |r.documents|
    ensures r.metadata.uniqueEntities == |r.linked.All()|
    ensures r.metadata.crossAgencyFlag <==> |r.agencies| > 1
    ensures r.confidenceScore == EventConfidence(r)
    ensures r.metadata.relatedDocumentsFound == e.metadata.relatedDocumentsFound
    ensures r.(metadata := e.metadata, confidenceScore := e.confidenceScore) == e
  {
    var m := e.metadata.(totalDocuments := |e.documents|, uniqueEntities := |e.linked.All()|,
      crossAgencyFlag := |e.agencies| > 1);
    var e1 := e.(metadata := m);
    e1.(confidenceScore := EventConfidence(e1))
  }

  /** A document joins an existing event with the given relevance. */
  function LinkDocument(ev: Event, doc: IncomingDoc, relevance: real, now: int): (r: Event)
    ensures r.documents == ev.documents + [EventDocument(doc.id, doc.docType, now, relevance)]
    ensures r.linked == MergeEntities(ev.linked, doc.entities, doc.id)
    ensures doc.agency in r.agencies && ev.agencies <= r.agencies && |r.agencies| <= |ev.agencies| + 1
    ensures doc.agency in ev.agencies ==> r.agencies == ev.agencies
    ensures doc.agency in r.visibility && ev.visibility <= r.visibility && |r.visibility| <= |ev.visibility| + 1
    ensures doc.agency in ev.visibility ==> r.visibility == ev.visibility
    ensures NoDups(ev.agencies) ==> NoDups(r.agencies)
    ensures r.severityScore == MaxInt(ev.severityScore, SeverityScore(LinkText(doc), doc.entities))
    ensures r.severityScore >= ev.severityScore
    ensures r.timeline.lastUpdated == now
    ensures r.timeline.firstSeen == if ev.timeline.firstSeen.Some? then ev.timeline.firstSeen else Some(doc.createdAt)
    ensures r.metadata.totalDocuments == |r.documents|
    ensures r.metadata.crossAgencyFlag <==> |r.agencies| > 1
    ensures r.metadata.uniqueEntities == |r.linked.All()|
    ensures r.confidenceScore == EventConfidence(r)
    ensures r.id == ev.id && r.title == ev.title && r.status == ev.status
    ensures InBounds(ev) ==> InBounds(r)
  {
    var firstSeen := if ev.timeline.firstSeen.Some? then ev.timeline.firstSeen else Some(doc.createdAt);
    var severity := SeverityScore(LinkText(doc), doc.entities);
    Recount(ev.(
      documents := ev.documents + [EventDocument(doc.id, doc.docType, now, relevance)],
      linked := MergeEntities(ev.linked, doc.entities, doc.id),
      timeline := Timeline(firstSeen, now),
      agencies := AddOnce(ev.agencies, doc.agency),
      visibility := AddOnce(ev.visibility, doc.agency),
      severityScore := MaxInt(ev.severityScore, severity)))
  }

  // ---------------------------------------------------------------- creation

  /** A candidate document for seeding a new event, with its semantic hit. */
  datatype Candidate = Candidate(doc: IncomingDoc, semantic: bool)

  datatype Related = Related(doc: IncomingDoc, score: real)

  /** The score of a candidate document against the ingested one. */
  function RelatedScore(doc: IncomingDoc, c: Candidate): (s: real)
    ensures 0.0 <= s <= 1.0
  {
    LinkScore(OverlapScore(doc.entities, c.doc.entities), IsTemporallyClose(doc.createdAt, c.doc.createdAt), c.semantic)
  }

  /** Every candidate paired with its score. */
  function Scored(doc: IncomingDoc, pool: seq<Candidate>): (r: seq<Related>)
    ensures |r| == |pool|
    ensures forall j :: 0 <= j < |pool| ==> r[j] == Related(pool[j].doc, RelatedScore(doc, pool[j]))
  {
    Map(pool, (c: Candidate) => Related(c.doc, RelatedScore(doc, c)))
  }

  /** `findRelatedDocuments` over the candidate pool: those reaching the
      threshold, in pool order, each with its score. */
  function FindRelated(doc: IncomingDoc, pool: seq<Candidate>): (r: seq<Related>)
    ensures |r| <= |pool|
    ensures forall i :: 0 <= i < |r| ==> r[i].score >= ENTITY_MATCH_THRESHOLD && r[i] in Scored(doc, pool)
    ensures forall j :: 0 <= j < |pool| && RelatedScore(doc, pool[j]) >= ENTITY_MATCH_THRESHOLD ==>
      Related(pool[j].doc, RelatedScore(doc, pool[j])) in r
  {
    var all := Scored(doc, pool);
    var r := Filter(all, (x: Related) => x.score >= ENTITY_MATCH_THRESHOLD);
    assert forall j :: 0 <= j < |pool| ==> all[j] == Related(pool[j].doc, RelatedScore(doc, pool[j]));
    r
  }

  /** The candidate pool of one collection: other documents created within the
      window, at most 50 in store order. */
  function RecentDocuments(store: seq<IncomingDoc>, doc: IncomingDoc, now: int): (r: seq<IncomingDoc>)
    ensures |r| <= RECENT_DOCUMENT_LIMIT
    ensures forall i :: 0 <= i < |r| ==> r[i] in store && r[i].id != doc.id && r[i].createdAt >= now - WINDOW_MS
  {
    Take(Filter(store, IsRecentOther(doc, now)), RECENT_DOCUMENT_LIMIT)
  }

  const RECENT_DOCUMENT_LIMIT: nat := 50

  /** The query's condition: another document, created within the window. */
  function IsRecentOther(doc: IncomingDoc, now: int): IncomingDoc -> bool {
    (d: IncomingDoc) => d.id != doc.id && d.createdAt >= now - WINDOW_MS
  }

  /** The pool of one collection is its first 50 qualifying documents in store
      order, in the sense of `RecentEventsFirst`. */
  lemma {:induction false} RecentDocumentsFirst(store: seq<IncomingDoc>, doc: IncomingDoc, now: int)
    ensures var r := RecentDocuments(store, doc, now);
      var q := |set i | 0 <= i < |store| && IsRecentOther(doc, now)(store[i])|;
      |r| == (if RECENT_DOCUMENT_LIMIT < q then RECENT_DOCUMENT_LIMIT else q)
    ensures forall j :: 0 <= j < |store| && IsRecentOther(doc, now)(store[j]) &&
                        |Filter(store[..j], IsRecentOther(doc, now))| < RECENT_DOCUMENT_LIMIT ==>
      |Filter(store[..j], IsRecentOther(doc, now))| < |RecentDocuments(store, doc, now)| &&
      RecentDocuments(store, doc, now)[|Filter(store[..j], IsRecentOther(doc, now))|] == store[j]
  {
    TakeFilterRanks(store, IsRecentOther(doc, now), RECENT_DOCUMENT_LIMIT);
    FilterIndices(store, IsRecentOther(doc, now));
    assert Positions(store, IsRecentOther(doc, now)) == set i | 0 <= i < |store| && IsRecentOther(doc, now)(store[i]);
  }

  /** The agencies of the related documents, in order. */
  function RelatedAgencies(related: seq<Related>): (r: seq<string>)
    ensures |r| == |related|
    ensures forall k :: 0 <= k < |related| ==> r[k] == related[k].doc.agency
  {
    if |related| == 0 then [] else [related[0].doc.agency] + RelatedAgencies(related[1..])
  }

  /** `AddOnce` applied to each agency in turn. */
  function AddEach(xs: seq<string>, add: seq<string>): (r: seq<string>)
    ensures xs <= r
    ensures NoDups(xs) ==> NoDups(r)
    ensures forall k :: 0 <= k < |add| ==> add[k] in r
    ensures forall i :: 0 <= i < |r| ==> r[i] in xs || r[i] in add
    decreases |add|
  {
    if |add| == 0 then xs
    else
      var r := AddEach(AddOnce(xs, add[0]), add[1..]);
      assert forall k :: 1 <= k < |add| ==> add[k] == add[1..][k - 1];
      r
  }

  /** The document entries the related documents contribute. */
  function RelatedEntries(related: seq<Related>, now: int): (r: seq<EventDocument>)
    ensures |r| == |related|
    ensures forall k :: 0 <= k < |related| ==>
      r[k] == EventDocument(related[k].doc.id, related[k].doc.docType, now, related[k].score)
  {
    if |related| == 0 then []
    else [EventDocument(related[0].doc.id, related[0].doc.docType, now, related[0].score)] + RelatedEntries(related[1..], now)
  }

  /** The entities of each related document merged in turn. */
  function MergeRelated(l: LinkedEntities, related: seq<Related>): LinkedEntities
    decreases |related|
  {
    if |related| == 0 then l
    else MergeRelated(MergeEntities(l, related[0].doc.entities, related[0].doc.id), related[1..])
  }

  /** The related documents folded into the new event: each adds its document
      entry, its entities and (once) its agency. The loop of the source touches
      the four fields independently, so it is written here field by field. */
  function AddAllRelated(ev: Event, related: seq<Related>, now: int): (r: Event)
    ensures r.documents == ev.documents + RelatedEntries(related, now)
    ensures r.agencies == AddEach(ev.agencies, RelatedAgencies(related))
    ensures r.visibility == AddEach(ev.visibility, RelatedAgencies(related))
    ensures r.(documents := ev.documents, linked := ev.linked, agencies := ev.agencies, visibility := ev.visibility) == ev
  {
    var ags := RelatedAgencies(related);
    ev.(documents := ev.documents + RelatedEntries(related, now),
      linked := MergeRelated(ev.linked, related),
      agencies := AddEach(ev.agencies, ags),
      visibility := AddEach(ev.visibility, ags))
  }

  /** The event seeded by a document and its related documents, or nothing when
      no related document was found. */
  function CreateEvent(doc: IncomingDoc, related: seq<Related>, id: string, today: string, now: int): (r: Option<Event>)
    ensures r.None? <==> |related| == 0
  {
    if |related| == 0 then None
    else
      var seed := Seed(doc, |related|, id, today, now);
      var grown := AddAllRelated(seed, related, now);
      Some(Recount(grown))
  }

  /** A created event is active, carries the given id and the dated title, and
      lists the document first and then every related document. */
  lemma CreatedEventContents(doc: IncomingDoc, related: seq<Related>, id: string, today: string, now: int)
    requires |related| > 0
    ensures var e := CreateEvent(doc, related, id, today, now).value;
      && e.id == id && e.status == Active
      && e.title == "Event " + today + " - " + doc.agency
      && e.documents == [EventDocument(doc.id, doc.docType, now, 1.0)] + RelatedEntries(related, now)
  {
    var seed := Seed(doc, |related|, id, today, now);
    var grown := AddAllRelated(seed, related, now);
    assert CreateEvent(doc, related, id, today, now).value == Recount(grown);
  }

  /** A created event names the document's agency first among distinct
      agencies that include every related document's agency, and is flagged
      cross-agency exactly when some related document comes from another
      agency. */
  lemma CreatedEventAgencies(doc: IncomingDoc, related: seq<Related>, id: string, today: string, now: int)
    requires |related| > 0
    ensures var e := CreateEvent(doc, related, id, today, now).value;
      && |e.agencies| >= 1 && e.agencies[0] == doc.agency && NoDups(e.agencies)
      && (forall k :: 0 <= k < |related| ==> related[k].doc.agency in e.agencies)
      && (e.metadata.crossAgencyFlag <==> exists k :: 0 <= k < |related| && related[k].doc.agency != doc.agency)
  {
    var seed := Seed(doc, |related|, id, today, now);
    var grown := AddAllRelated(seed, related, now);
    var e := Recount(grown);
    assert CreateEvent(doc, related, id, today, now).value == e;
    assert e.agencies == AddEach([doc.agency], RelatedAgencies(related));
    CrossAgencyIffOther(doc.agency, RelatedAgencies(related));
  }

  /** A created event carries the document's severity and creation time, counts
      its documents, entities and related documents, has the confidence its
      contents give, and keeps every score in bounds. */
  lemma CreatedEventCounts(doc: IncomingDoc, related: seq<Related>, id: string, today: string, now: int)
    requires |related| > 0
    ensures var e := CreateEvent(doc, related, id, today, now).value;
      && e.severityScore == SeverityScore(TextOrEmpty(doc), doc.entities)
      && e.timeline == Timeline(Some(doc.createdAt), doc.createdAt)
      && e.metadata.totalDocuments == |e.documents|
      && e.metadata.uniqueEntities == |e.linked.All()|
      && e.metadata.relatedDocumentsFound == |related|
      && e.confidenceScore == EventConfidence(e)
      && InBounds(e)
  {
    var seed := Seed(doc, |related|, id, today, now);
    var grown := AddAllRelated(seed, related, now);
    assert CreateEvent(doc, related, id, today, now).value == Recount(grown);
  }

  /** The event as first created, before the related documents are folded in. */
  function Seed(doc: IncomingDoc, relatedCount: nat, id: string, today: string, now: int): (e: Event)
    ensures e.agencies == [doc.agency] && e.visibility == [doc.agency]
    ensures e.documents == [EventDocument(doc.id, doc.docType, now, 1.0)]
    ensures e.metadata.relatedDocumentsFound == relatedCount
    ensures InBounds(e)
  {
    var linked := MergeEntities(NO_LINKED_ENTITIES, doc.entities, doc.id);
    var flat := doc.entities.persons + doc.entities.places + doc.entities.organizations + doc.entities.phoneNumbers + doc.entities.dates;
    Event(id, "Event " + today + " - " + doc.agency, "Auto-generated event from document ingestion",
      Active, [EventDocument(doc.id, doc.docType, now, 1.0)], linked, SeverityScore(TextOrEmpty(doc), doc.entities), 0.1,
      Timeline(Some(doc.createdAt), doc.createdAt), [doc.agency], [doc.agency],
      Metadata(1, |flat|, false, relatedCount), now)
  }

  /** Starting from one agency, the list grows beyond one entry exactly when
      some added agency differs from it. */
  lemma CrossAgencyIffOther(a0: string, add: seq<string>)
    ensures |AddEach([a0], add)| >= 1 && AddEach([a0], add)[0] == a0
    ensures |AddEach([a0], add)| > 1 <==> exists k :: 0 <= k < |add| && add[k] != a0
  {
    var g := AddEach([a0], add);
    assert [a0] <= g;
    if exists k :: 0 <= k < |add| && add[k] != a0 {
      var k :| 0 <= k < |add| && add[k] != a0;
      assert add[k] in g;
      assert g[0] == a0;
    } else {
      forall i | 0 <= i < |g|
        ensures g[i] == a0
      {
      }
    }
  }

  // ---------------------------------------------------------------- title

  /** A category ordered by non-increasing frequency (stable). */
  function ByFrequency(list: seq<LinkedEntity>): seq<LinkedEntity> {
    SortBy(list, (e: LinkedEntity) => -(e.frequency as real))
  }

  /** The head of the frequency order is an entry of the list with the highest
      frequency, and the order is a permutation of the list. */
  lemma TopIsMostFrequent(list: seq<LinkedEntity>)
    requires |list| > 0
    ensures multiset(ByFrequency(list)) == multiset(list)
    ensures |ByFrequency(list)| == |list|
    ensures ByFrequency(list)[0] in list
    ensures forall x :: x in list ==> x.frequency <= ByFrequency(list)[0].frequency
  {
    var key := (e: LinkedEntity) => -(e.frequency as real);
    var s := ByFrequency(list);
    SortByFacts(list, key);
    assert s[0] in multiset(s);
    forall x | x in list
      ensures x.frequency <= s[0].frequency
    {
      assert x in multiset(s);
      var j :| 0 <= j < |s| && s[j] == x;
      if j > 0 {
        assert key(s[0]) <= key(s[j]);
      }
    }
  }

  function SeverityLabel(score: int): (l: string)
    ensures l == "Critical" <==> SeverityLevel(score) == AlertModel.Critical
    ensures l == "High Priority" <==> SeverityLevel(score) == AlertModel.High
    ensures l == "Active" <==> SeverityLevel(score) == AlertModel.Medium
  {
    if score >= 70 then "Critical" else if score >= 40 then "High Priority" else "Active"
  }

  /** The most frequent text of each named category that has one. */
  function TopTexts(p: seq<LinkedEntity>, pl: seq<LinkedEntity>, o: seq<LinkedEntity>): (r: seq<string>)
    ensures |r| <= 3
    ensures |r| == 0 <==> |p| == 0 && |pl| == 0 && |o| == 0
  {
    (if |p| > 0 then [p[0].text] else []) +
    (if |pl| > 0 then [pl[0].text] else []) +
    (if |o| > 0 then [o[0].text] else [])
  }

  /** A category in non-increasing frequency order. */
  predicate FrequencyOrdered(list: seq<LinkedEntity>) {
    forall i, j :: 0 <= i < j < |list| ==> list[i].frequency >= list[j].frequency
  }

  /** The frequency order is a permutation of the list, most frequent first. */
  lemma ByFrequencyFacts(list: seq<LinkedEntity>)
    ensures multiset(ByFrequency(list)) == multiset(list)
    ensures FrequencyOrdered(ByFrequency(list))
  {
    var key := (e: LinkedEntity) => -(e.frequency as real);
    var s := ByFrequency(list);
    SortByFacts(list, key);
    forall i, j | 0 <= i < j < |s| ensures s[i].frequency >= s[j].frequency {
      assert key(s[i]) <= key(s[j]);
    }
  }

  /** `updateEventTitle`: persons, places and organizations are sorted by
      frequency in place and the title names the top entries of the first two
      non-empty ones after the severity label. Nothing is saved when all three
      are empty. */
  function UpdateTitle(ev: Event): (r: Event)
    ensures ev.linked.persons == [] && ev.linked.places == [] && ev.linked.organizations == [] ==> r == ev
    ensures ev.linked.persons != [] || ev.linked.places != [] || ev.linked.organizations != [] ==>
      r.title == SeverityLabel(ev.severityScore) + ": " +
                 Join(Take(TopTexts(r.linked.persons, r.linked.places, r.linked.organizations), 2), ", ")
    ensures multiset(r.linked.persons) == multiset(ev.linked.persons)
    ensures multiset(r.linked.places) == multiset(ev.linked.places)
    ensures multiset(r.linked.organizations) == multiset(ev.linked.organizations)
    ensures FrequencyOrdered(r.linked.persons) && FrequencyOrdered(r.linked.places)
    ensures FrequencyOrdered(r.linked.organizations)
    ensures r.linked.phoneNumbers == ev.linked.phoneNumbers && r.linked.dates == ev.linked.dates
    ensures r.(title := ev.title, linked := ev.linked) == ev
  {
    var l := ev.linked;
    if l.persons == [] && l.places == [] && l.organizations == [] then ev
    else
      var p := ByFrequency(l.persons);
      var pl := ByFrequency(l.places);
      var o := ByFrequency(l.organizations);
      ByFrequencyFacts(l.persons);
      ByFrequencyFacts(l.places);
      ByFrequencyFacts(l.organizations);
      var title := SeverityLabel(ev.severityScore) + ": " + Join(Take(TopTexts(p, pl, o), 2), ", ");
      ev.(title := title, linked := l.(persons := p, places := pl, organizations := o))
  }

  /** With persons on the event, the title leads with the text of a person of
      the highest frequency, and the event keeps its persons. */
  lemma TitleLeadsWithTopPerson(ev: Event)
    requires ev.linked.persons != []
    ensures var r := UpdateTitle(ev);
      && |r.linked.persons| > 0
      && StartsWith(r.title, SeverityLabel(ev.severityScore) + ": " + r.linked.persons[0].text)
      && r.linked.persons[0] in ev.linked.persons
      && forall x :: x in ev.linked.persons ==> x.frequency <= r.linked.persons[0].frequency
  {
    var r := UpdateTitle(ev);
    var ps := r.linked.persons;
    OrderedHeadIsMost(ps, ev.linked.persons);
    var shown := Take(TopTexts(ps, r.linked.places, r.linked.organizations), 2);
    assert shown[0] == ps[0].text;
    JoinStartsWithFirst(shown, ", ");
    StartsWithAfter(SeverityLabel(ev.severityScore) + ": ", Join(shown, ", "), ps[0].text);
  }

  /** The head of a frequency-ordered permutation is one of the most frequent. */
  lemma OrderedHeadIsMost(ordered: seq<LinkedEntity>, list: seq<LinkedEntity>)
    requires list != [] && FrequencyOrdered(ordered) && multiset(ordered) == multiset(list)
    ensures |ordered| > 0 && ordered[0] in list
    ensures forall x :: x in list ==> x.frequency <= ordered[0].frequency
  {
    assert |multiset(ordered)| == |multiset(list)|;
    assert ordered[0] in multiset(list);
    forall x | x in list ensures x.frequency <= ordered[0].frequency {
      assert x in multiset(ordered);
      var j :| 0 <= j < |ordered| && ordered[j] == x;
    }
  }

  lemma JoinStartsWithFirst(parts: seq<string>, sep: string)
    requires |parts| > 0
    ensures StartsWith(Join(parts, sep), parts[0])
  {
    if |parts| > 1 {
      assert Join(parts, sep) == parts[0] + (sep + Join(parts[1..], sep));
    }
  }

  lemma StartsWithAfter(a: string, b: string, p: string)
    requires StartsWith(b, p)
    ensures StartsWith(a + b, a + p)
  {
    assert (a + b)[..|a + p|] == a + b[..|p|];
  }

  /** With persons and places on the event, the title names exactly the top
      person and the top place: organizations are not shown. */
  lemma TitleNamesPersonAndPlace(ev: Event)
    requires ev.linked.persons != [] && ev.linked.places != []
    ensures var r := UpdateTitle(ev);
      |r.linked.persons| > 0 && |r.linked.places| > 0 &&
      r.title == SeverityLabel(ev.severityScore) + ": " + r.linked.persons[0].text + ", " + r.linked.places[0].text
  {
    var r := UpdateTitle(ev);
    assert |multiset(r.linked.persons)| == |multiset(ev.linked.persons)|;
    assert |multiset(r.linked.places)| == |multiset(ev.linked.places)|;
    TwoTops(r.linked.persons, r.linked.places, r.linked.organizations);
    JoinTwo(r.linked.persons[0].text, r.linked.places[0].text, ", ");
  }

  /** With a person and a place, the two texts shown are the first of each. */
  lemma TwoTops(p: seq<LinkedEntity>, pl: seq<LinkedEntity>, o: seq<LinkedEntity>)
    requires |p| > 0 && |pl| > 0
    ensures Take(TopTexts(p, pl, o), 2) == [p[0].text, pl[0].text]
  {
  }

  lemma JoinTwo(a: string, b: string, sep: string)
    ensures Join([a, b], sep) == a + sep + b
  {
    assert [a, b][1..] == [b];
  }

  // ---------------------------------------------------------------- find or create

  datatype LinkOutcome = Linked(event: Event) | Created(event: Event) | NoEvent

  /** The three collections the related-document search reads. */
  datatype DocStores = DocStores(documents: seq<IncomingDoc>, ocrDocuments: seq<IncomingDoc>,
                                 transcriptions: seq<IncomingDoc>)

  /** The candidates of one collection: each document labelled with that
      collection's type, as the query's spread copies are, with its semantic
      hit. */
  function Labelled(ds: seq<IncomingDoc>, t: DocType, semanticDoc: string -> bool): (r: seq<Candidate>)
    ensures |r| == |ds|
    ensures forall k :: 0 <= k < |ds| ==> r[k] == Candidate(ds[k].(docType := t), semanticDoc(ds[k].id))
  {
    Map(ds, (d: IncomingDoc) => Candidate(d.(docType := t), semanticDoc(d.id)))
  }

  /** The candidates of the three collections in turn. */
  function Pooled(ds: seq<IncomingDoc>, os: seq<IncomingDoc>, ts: seq<IncomingDoc>, semanticDoc: string -> bool)
    : (r: seq<Candidate>)
    ensures |r| == |ds| + |os| + |ts|
    ensures forall k :: 0 <= k < |ds| ==> r[k] == Candidate(ds[k].(docType := Document), semanticDoc(ds[k].id))
    ensures forall k :: |ds| <= k < |ds| + |os| ==>
      r[k] == Candidate(os[k - |ds|].(docType := OcrDocument), semanticDoc(os[k - |ds|].id))
    ensures forall k :: |ds| + |os| <= k < |r| ==>
      r[k] == Candidate(ts[k - |ds| - |os|].(docType := Transcription), semanticDoc(ts[k - |ds| - |os|].id))
  {
    Labelled(ds, Document, semanticDoc) + Labelled(os, OcrDocument, semanticDoc) + Labelled(ts, Transcription, semanticDoc)
  }

  /** `findRelatedDocuments`' candidates: the recent documents of each
      collection in turn, labelled with the collection they came from, each
      with its semantic hit. `semanticDoc` says, per document id, whether both
      embeddings exist and their similarity reached 0.7. */
  function CandidatePool(stores: DocStores, doc: IncomingDoc, semanticDoc: string -> bool, now: int)
    : (r: seq<Candidate>)
    ensures var n1 := |RecentDocuments(stores.documents, doc, now)|;
            var n2 := |RecentDocuments(stores.ocrDocuments, doc, now)|;
      && |r| == n1 + n2 + |RecentDocuments(stores.transcriptions, doc, now)|
      && (forall k :: 0 <= k < n1 ==>
            r[k].doc == RecentDocuments(stores.documents, doc, now)[k].(docType := Document))
      && (forall k :: n1 <= k < n1 + n2 ==>
            r[k].doc == RecentDocuments(stores.ocrDocuments, doc, now)[k - n1].(docType := OcrDocument))
      && (forall k :: n1 + n2 <= k < |r| ==>
            r[k].doc == RecentDocuments(stores.transcriptions, doc, now)[k - n1 - n2].(docType := Transcription))
    ensures forall k :: 0 <= k < |r| ==> r[k].semantic == semanticDoc(r[k].doc.id) && r[k].doc.id != doc.id
  {
    Pooled(RecentDocuments(stores.documents, doc, now), RecentDocuments(stores.ocrDocuments, doc, now),
           RecentDocuments(stores.transcriptions, doc, now), semanticDoc)
  }

  /** `findRelatedDocuments`: the candidates reaching the threshold. */
  function RelatedDocuments(stores: DocStores, doc: IncomingDoc, semanticDoc: string -> bool, now: int)
    : (r: seq<Related>)
    ensures forall i :: 0 <= i < |r| ==> r[i].score >= ENTITY_MATCH_THRESHOLD
    ensures |r| == 0 <==> forall k :: 0 <= k < |CandidatePool(stores, doc, semanticDoc, now)| ==>
      RelatedScore(doc, CandidatePool(stores, doc, semanticDoc, now)[k]) < ENTITY_MATCH_THRESHOLD
  {
    var pool := CandidatePool(stores, doc, semanticDoc, now);
    FindRelatedEmpty(doc, pool);
    FindRelated(doc, pool)
  }

  /** Nothing is related exactly when every candidate scores below 0.3. */
  lemma FindRelatedEmpty(doc: IncomingDoc, pool: seq<Candidate>)
    ensures |FindRelated(doc, pool)| == 0 <==>
      forall k :: 0 <= k < |pool| ==> RelatedScore(doc, pool[k]) < ENTITY_MATCH_THRESHOLD
  {
    var r := FindRelated(doc, pool);
    var sc := Scored(doc, pool);
    if |r| > 0 {
      assert r[0] in sc;
      var j :| 0 <= j < |sc| && sc[j] == r[0];
      assert sc[j].score == RelatedScore(doc, pool[j]);
    }
  }

  /** Each recent event's score for the document, in the order of the query.
      `semantic` says, per event id, whether the best similarity between the
      document and the event's documents reached 0.7. */
  function RecentScores(store: seq<Event>, doc: IncomingDoc, semantic: string -> bool, now: int): (r: seq<real>)
    ensures |r| == |RecentEvents(store, now)|
    ensures forall k :: 0 <= k < |r| ==>
      r[k] == EventScore(doc, RecentEvents(store, now)[k], semantic(RecentEvents(store, now)[k].id))
  {
    var recent := RecentEvents(store, now);
    seq(|recent|, i requires 0 <= i < |recent| => EventScore(doc, recent[i], semantic(recent[i].id)))
  }

  /** Position `k` holds the first strictly highest score among those reaching
      the threshold. */
  predicate FirstBest(scores: seq<real>, k: nat) {
    && k < |scores| && scores[k] >= ENTITY_MATCH_THRESHOLD
    && (forall j :: 0 <= j < |scores| && scores[j] >= ENTITY_MATCH_THRESHOLD ==> scores[j] <= scores[k])
    && (forall j :: 0 <= j < k ==> scores[j] < scores[k])
  }

  /** A position of `e` in `store`. */
  function StoreIndex(store: seq<Event>, e: Event): (i: nat)
    requires e in store
    ensures i < |store| && store[i] == e
  {
    if store[0] == e then 0 else 1 + StoreIndex(store[1..], e)
  }

  /** The recent event at position `k`, stored at `i`, is the first best one,
      and `e` is it with the document linked at the best score, written back in
      place. */
  predicate LinksAt(store: seq<Event>, scores: seq<real>, recent: seq<Event>, doc: IncomingDoc, now: int,
                    e: Event, store': seq<Event>, k: nat, i: nat)
  {
    && FirstBest(scores, k) && i < |store| && k < |recent| && store[i] == recent[k]
    && e == LinkDocument(store[i], doc, scores[k], now) && store' == store[i := e]
  }

  /** Linking went to the first best recent event. */
  ghost predicate LinksBest(store: seq<Event>, scores: seq<real>, recent: seq<Event>, doc: IncomingDoc, now: int,
                            e: Event, store': seq<Event>)
  {
    exists k: nat, i: nat :: LinksAt(store, scores, recent, doc, now, e, store', k, i)
  }

  /** Some recent event scores at least 0.3. */
  predicate AnyReaches(scores: seq<real>) {
    exists k :: 0 <= k < |scores| && scores[k] >= ENTITY_MATCH_THRESHOLD
  }

  /** The `event_created` alert raised once a new event is saved: of the
      event's severity level, addressed to the event's agencies, about the
      event, raised by the system. None of the detail keys it is given is in
      the alert schema, so the strict save drops them all. */
  function CreationAlert(e: Event, id: string, now: int): (a: AlertModel.Alert)
    ensures a.id == id && a.alertType == AlertModel.EventCreated && a.status == AlertModel.Unread
    ensures a.severity == SeverityLevel(e.severityScore) && a.agencies == e.agencies
    ensures a.relatedEvent == Some(e.id) && a.triggeredBy == "System"
    ensures a.details == AlertModel.NO_DETAILS
    ensures a.title == "New Event Created: " + e.title
  {
    var description := "A new intelligence event has been created with " + NatToString(|e.documents|) +
                       " related documents. Severity score: " + IntToString(e.severityScore) + ".";
    AlertModel.NewAlert(id, AlertModel.EventCreated, "New Event Created: " + e.title, description, now)
      .(severity := SeverityLevel(e.severityScore), agencies := e.agencies, relatedEvent := Some(e.id),
        triggeredBy := "System", details := AlertModel.NO_DETAILS)
  }

  /** The creation alert reaches the ingesting agency first and every agency
      of a related document, it is critical exactly when the new event's
      severity is at least 70, and it carries no cross-agency flag: only the
      event records one, set exactly when a related document comes from
      another agency. */
  lemma CreationAlertReachesRelated(doc: IncomingDoc, related: seq<Related>, eventId: string, today: string,
                                    alertId: string, now: int)
    requires |related| > 0
    ensures var e := CreateEvent(doc, related, eventId, today, now).value;
            var a := CreationAlert(e, alertId, now);
      && |a.agencies| >= 1 && a.agencies[0] == doc.agency
      && (forall k :: 0 <= k < |related| ==> related[k].doc.agency in a.agencies)
      && (a.severity == AlertModel.Critical <==> e.severityScore >= 70)
      && a.details.crossAgency.None?
      && (e.metadata.crossAgencyFlag <==> exists k :: 0 <= k < |related| && related[k].doc.agency != doc.agency)
  {
    CreatedEventAgencies(doc, related, eventId, today, now);
  }

  /** `findOrCreateEvent` over an in-memory event store. The recent event with
      the first strictly highest score of at least 0.3 takes the document, with
      that score as its relevance. Otherwise a new event is created from the
      related documents, and its creation alert is stored, or nothing happens
      when there are none. */
  method FindOrCreate(store: seq<Event>, stores: DocStores, doc: IncomingDoc, semantic: string -> bool,
                      semanticDoc: string -> bool, newId: string, today: string, now: int,
                      alerts: AlertModel.Store)
    returns (outcome: LinkOutcome, store': seq<Event>, alerts': AlertModel.Store)
    ensures outcome.Linked? <==> AnyReaches(RecentScores(store, doc, semantic, now))
    ensures outcome.Linked? ==>
      LinksBest(store, RecentScores(store, doc, semantic, now), RecentEvents(store, now), doc, now, outcome.event, store')
    ensures outcome.Created? <==>
      !AnyReaches(RecentScores(store, doc, semantic, now)) && |RelatedDocuments(stores, doc, semanticDoc, now)| > 0
    ensures outcome.Created? ==>
      outcome.event == CreateEvent(doc, RelatedDocuments(stores, doc, semanticDoc, now), newId, today, now).value &&
      store' == store + [outcome.event]
    ensures outcome.Created? ==> alerts' == alerts + [CreationAlert(outcome.event, AlertModel.NextId(alerts), now)]
    ensures !outcome.Created? ==> alerts' == alerts
    ensures outcome.NoEvent? ==> store' == store
  {
    alerts' := alerts;
    var scores := RecentScores(store, doc, semantic, now);
    var best, _ := SelectBest(scores);
    match best {
      case Some(k) =>
        var i := StoreIndex(store, RecentEvents(store, now)[k]);
        outcome := Linked(LinkDocument(store[i], doc, scores[k], now));
        store' := store[i := outcome.event];
        assert LinksAt(store, scores, RecentEvents(store, now), doc, now, outcome.event, store', k, i);
      case None =>
        var related := RelatedDocuments(stores, doc, semanticDoc, now);
        match CreateEvent(doc, related, newId, today, now) {
          case Some(e) =>
            outcome := Created(e);
            store' := store + [e];
            alerts' := alerts + [CreationAlert(e, AlertModel.NextId(alerts), now)];
          case None =>
            outcome := NoEvent;
            store' := store;
        }
    }
  }

  /** A linked document joins as the event's last document, with a relevance
      of at least 0.3, and the event keeps its id. */
  lemma LinkedDocumentIsLast(ev: Event, doc: IncomingDoc, score: real, now: int)
    requires score >= ENTITY_MATCH_THRESHOLD
    ensures var e := LinkDocument(ev, doc, score, now);
      e.id == ev.id && |e.documents| == |ev.documents| + 1 &&
      e.documents[|ev.documents|] == EventDocument(doc.id, doc.docType, now, score) &&
      e.documents[|ev.documents|].relevanceScore >= ENTITY_MATCH_THRESHOLD
  {
  }

  // ---------------------------------------------------------------- transcriptions

  /** The empty text holds no high-severity keyword. */
  lemma NoKeywordInEmpty()
    ensures !HasKeyword("")
  {
    assert Lower("") == "";
    forall i | 0 <= i < |HIGH_SEVERITY_KEYWORDS|
      ensures !Contains("", HIGH_SEVERITY_KEYWORDS[i])
    {
      assert |HIGH_SEVERITY_KEYWORDS[i]| > 0;
    }
  }

  /** A transcription has no `text`, so a new event it seeds is scored on the
      empty text: its transcript never counts, only its entities. */
  lemma TranscriptionSeedIgnoresTranscript(id: string, entities: EntityTexts, json: string, createdAt: int,
                                           agency: string, related: seq<Related>, eventId: string, today: string, now: int)
    requires |related| > 0
    ensures var d := TranscriptionDoc(id, entities, json, createdAt, agency);
      CreateEvent(d, related, eventId, today, now).value.severityScore == MinInt(2 * ScoredEntityCount(entities), 100)
  {
    var d := TranscriptionDoc(id, entities, json, createdAt, agency);
    CreatedEventCounts(d, related, eventId, today, now);
    NoKeywordInEmpty();
  }

  /** A link of a transcription scores `undefined` followed by its serialised
      entities. */
  lemma TranscriptionLinkScoresUndefined(id: string, entities: EntityTexts, json: string, createdAt: int,
                                         agency: string, ev: Event, relevance: real, now: int)
    ensures var d := TranscriptionDoc(id, entities, json, createdAt, agency);
      LinkDocument(ev, d, relevance, now).severityScore == MaxInt(ev.severityScore, SeverityScore("undefined " + json, entities))
  {
  }
}

=== FILE: event_model.dfy ===
/** The Event record: enumerations, bounds and defaults of the schema. */
module EventModel {
  import opened Wrappers

  datatype EventStatus = Active | Monitoring | Resolved | Archived

  function StatusName(s: EventStatus): string {
    match s
    case Active => "active"
    case Monitoring => "monitoring"
    case Resolved => "resolved"
    case Archived => "archived"
  }

  /** Accepts exactly the four enumerated status strings. */
  function ParseStatus(s: string): (r: Option<EventStatus>)
    ensures r.Some? ==> StatusName(r.value) == s
    ensures forall st :: s == StatusName(st) ==> r == Some(st)
  {
    if s == "active" then Some(Active)
    else if s == "monitoring" then Some(Monitoring)
    else if s == "resolved" then Some(Resolved)
    else if s == "archived" then Some(Archived)
    else None
  }

  /** The three document collections an event can reference. */
  datatype DocType = Document | OcrDocument | Transcription

  function DocTypeName(t: DocType): string {
    match t
    case Document => "Document"
    case OcrDocument => "OcrDocument"
    case Transcription => "Transcription"
  }

  function ParseDocType(s: string): (r: Option<DocType>)
    ensures r.Some? ==> DocTypeName(r.value) == s
    ensures forall t :: s == DocTypeName(t) ==> r == Some(t)
  {
    if s == "Document" then Some(Document)
    else if s == "OcrDocument" then Some(OcrDocument)
    else if s == "Transcription" then Some(Transcription)
    else None
  }

  const DEFAULT_RELEVANCE: real := 0.5

  datatype EventDocument = EventDocument(documentId: string, documentType: DocType, addedAt: int, relevanceScore: real)

  /** One linked entity with how often it was seen and by which documents. */
  datatype LinkedEntity = LinkedEntity(text: string, frequency: nat, sources: seq<string>)

  datatype Category = Persons | Places | Organizations | PhoneNumbers | Dates

  const ALL_CATEGORIES: seq<Category> := [Persons, Places, Organizations, PhoneNumbers, Dates]

  datatype LinkedEntities = LinkedEntities(
    persons: seq<LinkedEntity>,
    places: seq<LinkedEntity>,
    organizations: seq<LinkedEntity>,
    phoneNumbers: seq<LinkedEntity>,
    dates: seq<LinkedEntity>)
  {
    function Get(c: Category): seq<LinkedEntity> {
      match c
      case Persons => persons
      case Places => places
      case Organizations => organizations
      case PhoneNumbers => phoneNumbers
      case Dates => dates
    }

    function With(c: Category, v: seq<LinkedEntity>): (r: LinkedEntities)
      ensures r.Get(c) == v
      ensures forall d :: d != c ==> r.Get(d) == Get(d)
    {
      match c
      case Persons => this.(persons := v)
      case Places => this.(places := v)
      case Organizations => this.(organizations := v)
      case PhoneNumbers => this.(phoneNumbers := v)
      case Dates => this.(dates := v)
    }

    /** `Object.values(linkedEntities).flat()`. */
    function All(): seq<LinkedEntity> {
      persons + places + organizations + phoneNumbers + dates
    }
  }

  const NO_LINKED_ENTITIES: LinkedEntities := LinkedEntities([], [], [], [], [])

  datatype Timeline = Timeline(firstSeen: Option<int>, lastUpdated: int)

  datatype Metadata = Metadata(totalDocuments: nat, uniqueEntities: nat, crossAgencyFlag: bool, relatedDocumentsFound: nat)

  const DEFAULT_METADATA: Metadata := Metadata(0, 0, false, 0)

  datatype Event = Event(
    id: string,
    title: string,
    description: string,
    status: EventStatus,
    documents: seq<EventDocument>,
    linked: LinkedEntities,
    severityScore: int,
    confidenceScore: real,
    timeline: Timeline,
    agencies: seq<string>,
    visibility: seq<string>,
    metadata: Metadata,
    createdAt: int)

  /** The bounds the schema puts on the two scores. */
  predicate InBounds(e: Event) {
    0 <= e.severityScore <= 100 && 0.0 <= e.confidenceScore <= 1.0
  }

  /** A freshly constructed event before any field is assigned. */
  function NewEvent(id: string, title: string, now: int): (e: Event)
    ensures InBounds(e)
    ensures e.status == Active && e.documents == [] && e.agencies == [] && e.visibility == []
    ensures e.metadata.totalDocuments == |e.documents| && !e.metadata.crossAgencyFlag
    ensures e.metadata.uniqueEntities == |e.linked.All()| && e.linked.All() == []
    ensures e.severityScore == 0 && e.confidenceScore == 0.0
    ensures e.id == id && e.title == title && e.timeline.firstSeen.None? && e.timeline.lastUpdated == now
  {
    Event(id, title, "", Active, [], NO_LINKED_ENTITIES, 0, 0.0, Timeline(None, now), [], [], DEFAULT_METADATA, now)
  }
}

=== FILE: event_routes.dfy ===
/** The event routes: listing with its sort options, the per-agency access
    rule, status and title updates, the document timeline, the summary counts
    and the debug partition. Document lookups are a parameter standing for the
    three collections. */
module EventRoutes {
  import opened Wrappers
  import opened Strings
  import opened Seqs
  import opened Sorting
  import opened EventModel
  import EventLinking

  // ---------------------------------------------------------------- listing

  /** The sort orders of `GET /`, each descending. */
  datatype SortKey = BySeverity | ByConfidence | ByDocuments | ByLastUpdated

  /** `sortBy`: three named orders; anything else, and the default, is by
      last update. */
  function ParseSortBy(sortBy: Option<string>): (k: SortKey)
    ensures sortBy == Some("severity") <==> k == BySeverity
    ensures sortBy == Some("confidence") <==> k == ByConfidence
    ensures sortBy == Some("documents") <==> k == ByDocuments
  {
    match sortBy
    case None => ByLastUpdated
    case Some(s) =>
      if s == "severity" then BySeverity
      else if s == "confidence" then ByConfidence
      else if s == "documents" then ByDocuments
      else ByLastUpdated
  }

  /** The value an order compares, largest first. */
  function SortValue(k: SortKey, e: Event): real {
    match k
    case BySeverity => e.severityScore as real
    case ByConfidence => e.confidenceScore
    case ByDocuments => e.metadata.totalDocuments as real
    case ByLastUpdated => e.timeline.lastUpdated as real
  }

  const DEFAULT_LIMIT: nat := 50

  /** The events of the agency, optionally of one status. */
  predicate Listed(e: Event, agency: string, status: Option<string>) {
    agency in e.agencies && (status.Some? && status.value != "" ==> StatusName(e.status) == status.value)
  }

  /** `GET /`: the agency's events (of the given status, if any) in descending
      order of the chosen key, at most `limit` of them (50 when not given, no
      limit when 0). */
  function ListEvents(store: seq<Event>, agency: string, status: Option<string>, sortBy: Option<string>,
                      limit: Option<nat>): (r: seq<Event>)
    ensures forall i :: 0 <= i < |r| ==> r[i] in store && Listed(r[i], agency, status)
    ensures forall i, j :: 0 <= i < j < |r| ==>
      SortValue(ParseSortBy(sortBy), r[i]) >= SortValue(ParseSortBy(sortBy), r[j])
    ensures limit.GetOr(DEFAULT_LIMIT) > 0 ==> |r| <= limit.GetOr(DEFAULT_LIMIT)
    ensures forall e :: e in store && Listed(e, agency, status) ==>
      e in r || (limit.GetOr(DEFAULT_LIMIT) > 0 && |r| == limit.GetOr(DEFAULT_LIMIT) &&
                 SortValue(ParseSortBy(sortBy), r[|r| - 1]) >= SortValue(ParseSortBy(sortBy), e))
  {
    var k := ParseSortBy(sortBy);
    var n := limit.GetOr(DEFAULT_LIMIT);
    var key := (e: Event) => -SortValue(k, e);
    Descending(store, (e: Event) => Listed(e, agency, status), key, n)
  }

  /** The filtered elements ordered by a negated key, then cut to `n` (no cut
      when `n` is 0). */
  function Descending(store: seq<Event>, p: Event -> bool, key: Event -> real, n: nat): (r: seq<Event>)
    ensures forall i :: 0 <= i < |r| ==> r[i] in store && p(r[i])
    ensures forall i, j :: 0 <= i < j < |r| ==> key(r[i]) <= key(r[j])
    ensures n > 0 ==> |r| <= n
    ensures forall e :: e in store && p(e) ==> e in r || (n > 0 && |r| == n && key(r[n - 1]) <= key(e))
  {
    var matching := Filter(store, p);
    assert forall x :: x in matching ==> x in store && p(x) by {
      forall x | x in matching ensures x in store && p(x) {
        var i :| 0 <= i < |matching| && matching[i] == x;
      }
    }
    Top(matching, key, n)
  }

  predicate IsOpen(s: EventStatus) { s == Active || s == Monitoring }

  const ACTIVE_LIMIT: nat := 20

  /** `GET /active`: the agency's active or monitored events, most severe
      first, at most 20. */
  function ActiveEvents(store: seq<Event>, agency: string): (r: seq<Event>)
    ensures |r| <= ACTIVE_LIMIT
    ensures forall i :: 0 <= i < |r| ==> r[i] in store && agency in r[i].agencies && IsOpen(r[i].status)
    ensures forall i, j :: 0 <= i < j < |r| ==> r[i].severityScore >= r[j].severityScore
    ensures forall e :: e in store && agency in e.agencies && IsOpen(e.status) ==>
      e in r || (|r| == ACTIVE_LIMIT && r[|r| - 1].severityScore >= e.severityScore)
  {
    Descending(store, (e: Event) => agency in e.agencies && IsOpen(e.status), (e: Event) => -(e.severityScore as real),
               ACTIVE_LIMIT)
  }

  // ---------------------------------------------------------------- access

  /** Which list of the event grants access: the participating agencies
      (details, status, title, title regeneration, cross-agency search) or the
      wider visibility list (timeline). */
  datatype Access = ViaAgencies | ViaVisibility

  predicate Grants(e: Event, agency: string, via: Access) {
    match via
    case ViaAgencies => agency in e.agencies
    case ViaVisibility => agency in e.visibility
  }

  /** `findOne({ _id, agencies | visibility: agency })`: the position of the
      event with that id that the agency may see. */
  function FindAccessible(store: seq<Event>, id: string, agency: string, via: Access): (r: Option<nat>)
    ensures r.Some? ==> r.value < |store| && store[r.value].id == id && Grants(store[r.value], agency, via)
    ensures r.None? <==> forall i :: 0 <= i < |store| ==> !(store[i].id == id && Grants(store[i], agency, via))
  {
    if |store| == 0 then None
    else if store[0].id == id && Grants(store[0], agency, via) then Some(0)
    else match FindAccessible(store[1..], id, agency, via)
      case None =>
        assert forall i :: 1 <= i < |store| ==> store[i] == store[1..][i - 1];
        None
      case Some(k) => Some(k + 1)
  }

  /** An agency that only shares visibility of an event can see its timeline
      but not its details. */
  lemma VisibilityAloneShowsTimelineOnly(store: seq<Event>, id: string, agency: string)
    requires forall i :: 0 <= i < |store| && store[i].id == id ==> agency !in store[i].agencies
    requires exists i :: 0 <= i < |store| && store[i].id == id && agency in store[i].visibility
    ensures FindAccessible(store, id, agency, ViaAgencies).None?
    ensures FindAccessible(store, id, agency, ViaVisibility).Some?
  {
  }

  // ---------------------------------------------------------------- updates

  datatype Outcome = BadRequest(error: string) | NotFound | Updated(event: Event, store: seq<Event>)

  const STATUS_REQUIRED: string := "Invalid status"
  const TITLE_REQUIRED: string := "Title is required"

  /** `PATCH /:eventId/status`: an unknown status is refused before the
      lookup; otherwise the agency's event takes the status and nothing else
      changes. */
  function UpdateStatus(store: seq<Event>, id: string, agency: string, status: Option<string>): (r: Outcome)
    ensures status.None? || ParseStatus(status.value).None? <==> r == BadRequest(STATUS_REQUIRED)
    ensures r.NotFound? <==>
      status.Some? && ParseStatus(status.value).Some? && FindAccessible(store, id, agency, ViaAgencies).None?
    ensures r.Updated? ==>
      var k := FindAccessible(store, id, agency, ViaAgencies).value;
      StatusName(r.event.status) == status.value &&
      r.event == store[k].(status := r.event.status) && r.store == store[k := r.event]
  {
    if status.None? || ParseStatus(status.value).None? then BadRequest(STATUS_REQUIRED)
    else match FindAccessible(store, id, agency, ViaAgencies)
      case None => NotFound
      case Some(k) =>
        var e := store[k].(status := ParseStatus(status.value).value);
        Updated(e, store[k := e])
  }

  /** `PATCH /:eventId/title`: a missing or blank title is refused; otherwise
      the agency's event takes the title trimmed. */
  function UpdateTitle(store: seq<Event>, id: string, agency: string, title: Option<string>): (r: Outcome)
    ensures title.None? || AllWs(title.value) <==> r == BadRequest(TITLE_REQUIRED)
    ensures r.NotFound? <==>
      title.Some? && !AllWs(title.value) && FindAccessible(store, id, agency, ViaAgencies).None?
    ensures r.Updated? ==>
      var k := FindAccessible(store, id, agency, ViaAgencies).value;
      r.event == store[k].(title := Trim(title.value)) && r.store == store[k := r.event]
  {
    TrimEmptyIffAllWs(title.GetOr(""));
    if title.None? || Trim(title.value) == "" then BadRequest(TITLE_REQUIRED)
    else match FindAccessible(store, id, agency, ViaAgencies)
      case None => NotFound
      case Some(k) =>
        var e := store[k].(title := Trim(title.value));
        Updated(e, store[k := e])
  }

  /** A stored title is never blank and has no surrounding whitespace, so
      saving it again stores the same text. */
  lemma StoredTitleIsClean(store: seq<Event>, id: string, agency: string, title: string)
    requires UpdateTitle(store, id, agency, Some(title)).Updated?
    ensures var t := UpdateTitle(store, id, agency, Some(title)).event.title;
      t != "" && !IsWs(t[0]) && !IsWs(t[|t| - 1]) &&
      UpdateTitle(store, id, agency, Some(t)) == UpdateTitle(store, id, agency, Some(title))
  {
    var t := Trim(title);
    TrimEmptyIffAllWs(title);
    TrimEmptyIffAllWs(t);
    TrimIdempotent(title);
    var first := UpdateTitle(store, id, agency, Some(title));
    var again := UpdateTitle(store, id, agency, Some(t));
    assert first.event.title == t;
    assert !AllWs(t) && Trim(t) == t;
    assert again.Updated?;
  }

  /** `POST /:eventId/regenerate-title`: the agency's event is retitled from
      its entities. */
  function RegenerateTitle(store: seq<Event>, id: string, agency: string): (r: Outcome)
    ensures r.NotFound? <==> FindAccessible(store, id, agency, ViaAgencies).None?
    ensures r.Updated? ==>
      var k := FindAccessible(store, id, agency, ViaAgencies).value;
      r.event == EventLinking.UpdateTitle(store[k]) && r.store == store[k := r.event] && r.event.id == id
  {
    match FindAccessible(store, id, agency, ViaAgencies)
    case None => NotFound
    case Some(k) =>
      var e := EventLinking.UpdateTitle(store[k]);
      Updated(e, store[k := e])
  }

  // ---------------------------------------------------------------- documents and timeline

  /** What the three collections hold about a document. */
  datatype DocInfo = DocInfo(id: string, createdAt: int, filename: Option<string>, originalFilename: Option<string>,
                             uploadedBy: string)

  /** The name shown: `filename || originalFilename`. */
  function DisplayName(d: DocInfo): (r: Option<string>)
    ensures d.filename.Some? && d.filename.value != "" ==> r == d.filename
    ensures !(d.filename.Some? && d.filename.value != "") ==> r == d.originalFilename
  {
    if d.filename.Some? && d.filename.value != "" then d.filename else d.originalFilename
  }

  datatype TimelineItem = TimelineItem(timestamp: int, documentId: string, documentType: DocType,
                                       filename: Option<string>, uploadedBy: string, relevanceScore: real)

  /** The timeline entry of one referenced document, or None when the
      document no longer exists. */
  function ItemOf(ref: EventDocument, lookup: (DocType, string) -> Option<DocInfo>): (r: Option<TimelineItem>)
    ensures r.Some? <==> lookup(ref.documentType, ref.documentId).Some?
    ensures r.Some? ==>
      r.value.documentType == ref.documentType && r.value.relevanceScore == ref.relevanceScore &&
      r.value.timestamp == lookup(ref.documentType, ref.documentId).value.createdAt
  {
    match lookup(ref.documentType, ref.documentId)
    case None => None
    case Some(d) => Some(TimelineItem(d.createdAt, d.id, ref.documentType, DisplayName(d), d.uploadedBy, ref.relevanceScore))
  }

  function Timestamp(t: TimelineItem): real { t.timestamp as real }

  /** The entries of the referenced documents that still exist, in the order
      the event lists them. */
  function Surviving(docs: seq<EventDocument>, lookup: (DocType, string) -> Option<DocInfo>): (r: seq<TimelineItem>)
    ensures |r| <= |docs|
    ensures |docs| > 0 ==>
      r == (match ItemOf(docs[0], lookup) case Some(t) => [t] case None => []) + Surviving(docs[1..], lookup)
    ensures forall t :: t in r ==> exists j :: 0 <= j < |docs| && ItemOf(docs[j], lookup) == Some(t)
    ensures forall j :: 0 <= j < |docs| && ItemOf(docs[j], lookup).Some? ==> ItemOf(docs[j], lookup).value in r
  {
    FilterMap(docs, (ref: EventDocument) => ItemOf(ref, lookup))
  }

  /** `GET /:eventId/timeline` for an agency that may see the event: one
      entry per referenced document that still exists, oldest first. */
  function TimelineOf(ev: Event, lookup: (DocType, string) -> Option<DocInfo>): (r: seq<TimelineItem>)
    ensures forall i, j :: 0 <= i < j < |r| ==> r[i].timestamp <= r[j].timestamp
    ensures forall t :: t in r ==> exists j :: 0 <= j < |ev.documents| && ItemOf(ev.documents[j], lookup) == Some(t)
    ensures forall j :: 0 <= j < |ev.documents| && lookup(ev.documents[j].documentType, ev.documents[j].documentId).Some? ==>
      ItemOf(ev.documents[j], lookup).value in r
    ensures multiset(r) == multiset(Surviving(ev.documents, lookup))
  {
    var items := Surviving(ev.documents, lookup);
    var r := Top(items, Timestamp, 0);
    assert forall t :: t in r ==> t in items;
    r
  }

  /** The timeline route: 404 unless the agency is on the event's visibility
      list. */
  function Timeline(store: seq<Event>, id: string, agency: string, lookup: (DocType, string) -> Option<DocInfo>)
    : (r: Option<seq<TimelineItem>>)
    ensures r.None? <==> FindAccessible(store, id, agency, ViaVisibility).None?
    ensures r.Some? ==> r.value == TimelineOf(store[FindAccessible(store, id, agency, ViaVisibility).value], lookup)
  {
    match FindAccessible(store, id, agency, ViaVisibility)
    case None => None
    case Some(k) => Some(TimelineOf(store[k], lookup))
  }

  /** `GET /:eventId`: 404 unless the agency takes part; otherwise the event
      with those of its documents that still exist. */
  function Details(store: seq<Event>, id: string, agency: string, lookup: (DocType, string) -> Option<DocInfo>)
    : (r: Option<(Event, seq<TimelineItem>)>)
    ensures r.None? <==> FindAccessible(store, id, agency, ViaAgencies).None?
    ensures r.Some? ==>
      r.value.0 == store[FindAccessible(store, id, agency, ViaAgencies).value] &&
      r.value.1 == Surviving(r.value.0.documents, lookup)
  {
    match FindAccessible(store, id, agency, ViaAgencies)
    case None => None
    case Some(k) => Some((store[k], Surviving(store[k].documents, lookup)))
  }

  // ---------------------------------------------------------------- statistics

  const CRITICAL_SEVERITY: int := 70
  const DAY_MS: int := 24 * 60 * 60 * 1000

  function CountWhere(store: seq<Event>, p: Event -> bool): (n: nat)
    ensures n <= |store|
  {
    if |store| == 0 then 0 else (if p(store[0]) then 1 else 0) + CountWhere(store[1..], p)
  }

  /** A weaker condition counts at least as many events. */
  lemma {:induction false} CountWhereMonotone(store: seq<Event>, p: Event -> bool, q: Event -> bool)
    requires forall e :: p(e) ==> q(e)
    ensures CountWhere(store, p) <= CountWhere(store, q)
  {
    if |store| > 0 {
      CountWhereMonotone(store[1..], p, q);
    }
  }

  /** Counting at the end of the list. */
  lemma {:induction false} CountWhereSnoc(store: seq<Event>, x: Event, p: Event -> bool)
    ensures CountWhere(store + [x], p) == CountWhere(store, p) + (if p(x) then 1 else 0)
    decreases |store|
  {
    if |store| > 0 {
      assert (store + [x])[1..] == store[1..] + [x];
      CountWhereSnoc(store[1..], x, p);
    }
  }

  /** The count is the number of positions whose event satisfies the
      condition. */
  lemma {:induction false} CountWhereIndices(store: seq<Event>, p: Event -> bool)
    ensures CountWhere(store, p) == |set i | 0 <= i < |store| && p(store[i])|
    decreases |store|
  {
    if |store| > 0 {
      var front := store[..|store| - 1];
      var x := store[|store| - 1];
      assert store == front + [x];
      CountWhereSnoc(front, x, p);
      CountWhereIndices(front, p);
      var before := set i | 0 <= i < |front| && p(front[i]);
      var all := set i | 0 <= i < |store| && p(store[i]);
      assert before == set i | 0 <= i < |front| && p(store[i]);
      if p(x) {
        assert all == before + {|front|};
      } else {
        assert all == before;
      }
    }
  }

  datatype Stats = Stats(activeEvents: nat, criticalEvents: nat, totalEvents: nat, recentEvents: nat)

  /** `GET /stats/summary`: the agency's open events, the open ones of
      severity 70 or more, all of them, and those created in the last day. */
  function Summary(store: seq<Event>, agency: string, now: int): (r: Stats)
    ensures r.totalEvents == |set i | 0 <= i < |store| && agency in store[i].agencies|
    ensures r.activeEvents == |set i | 0 <= i < |store| && agency in store[i].agencies && IsOpen(store[i].status)|
    ensures r.criticalEvents ==
      |set i | 0 <= i < |store| && agency in store[i].agencies && IsOpen(store[i].status) &&
               store[i].severityScore >= CRITICAL_SEVERITY|
    ensures r.recentEvents == |set i | 0 <= i < |store| && agency in store[i].agencies && store[i].createdAt >= now - DAY_MS|
    ensures r.criticalEvents <= r.activeEvents <= r.totalEvents
    ensures r.recentEvents <= r.totalEvents
  {
    MineCount(store, agency);
    OpenCount(store, agency);
    CriticalCount(store, agency);
    RecentCount(store, agency, now);
    CountWhereMonotone(store, Critical(agency), Open(agency));
    CountWhereMonotone(store, Open(agency), Mine(agency));
    CountWhereMonotone(store, Recent(agency, now), Mine(agency));
    Stats(CountWhere(store, Open(agency)), CountWhere(store, Critical(agency)),
          CountWhere(store, Mine(agency)), CountWhere(store, Recent(agency, now)))
  }

  /** The agency takes part in the event. */
  function Mine(agency: string): Event -> bool {
    (e: Event) => agency in e.agencies
  }

  /** One of the agency's events that is still open. */
  function Open(agency: string): Event -> bool {
    (e: Event) => agency in e.agencies && IsOpen(e.status)
  }

  /** One of the agency's open events of severity 70 or more. */
  function Critical(agency: string): Event -> bool {
    (e: Event) => agency in e.agencies && IsOpen(e.status) && e.severityScore >= CRITICAL_SEVERITY
  }

  /** One of the agency's events created in the last day. */
  function Recent(agency: string, now: int): Event -> bool {
    (e: Event) => agency in e.agencies && e.createdAt >= now - DAY_MS
  }

  lemma MineCount(store: seq<Event>, agency: string)
    ensures CountWhere(store, Mine(agency)) == |set i | 0 <= i < |store| && agency in store[i].agencies|
  {
    CountWhereIndices(store, Mine(agency));
    assert (set i | 0 <= i < |store| && Mine(agency)(store[i])) == (set i | 0 <= i < |store| && agency in store[i].agencies);
  }

  lemma OpenCount(store: seq<Event>, agency: string)
    ensures CountWhere(store, Open(agency)) ==
            |set i | 0 <= i < |store| && agency in store[i].agencies && IsOpen(store[i].status)|
  {
    CountWhereIndices(store, Open(agency));
    assert (set i | 0 <= i < |store| && Open(agency)(store[i])) ==
           (set i | 0 <= i < |store| && agency in store[i].agencies && IsOpen(store[i].status));
  }

  lemma CriticalCount(store: seq<Event>, agency: string)
    ensures CountWhere(store, Critical(agency)) ==
            |set i | 0 <= i < |store| && agency in store[i].agencies && IsOpen(store[i].status) &&
                     store[i].severityScore >= CRITICAL_SEVERITY|
  {
    CountWhereIndices(store, Critical(agency));
    assert (set i | 0 <= i < |store| && Critical(agency)(store[i])) ==
           (set i | 0 <= i < |store| && agency in store[i].agencies && IsOpen(store[i].status) &&
                    store[i].severityScore >= CRITICAL_SEVERITY);
  }

  lemma RecentCount(store: seq<Event>, agency: string, now: int)
    ensures CountWhere(store, Recent(agency, now)) ==
            |set i | 0 <= i < |store| && agency in store[i].agencies && store[i].createdAt >= now - DAY_MS|
  {
    CountWhereIndices(store, Recent(agency, now));
    assert (set i | 0 <= i < |store| && Recent(agency, now)(store[i])) ==
           (set i | 0 <= i < |store| && agency in store[i].agencies && store[i].createdAt >= now - DAY_MS);
  }

  // ---------------------------------------------------------------- debug view

  const DEBUG_LIMIT: nat := 50

  datatype DebugView = DebugView(mine: seq<Event>, others: seq<Event>)

  /** `GET /debug/all-events`: the 50 newest events of every agency, split
      into those the agency takes part in and the rest. */
  function DebugAll(store: seq<Event>, agency: string): (r: DebugView)
    ensures |r.mine| + |r.others| == |Descending(store, (e: Event) => true, (e: Event) => -(e.createdAt as real), DEBUG_LIMIT)|
    ensures |r.mine| + |r.others| <= DEBUG_LIMIT
    ensures multiset(r.mine) + multiset(r.others) ==
      multiset(Descending(store, (e: Event) => true, (e: Event) => -(e.createdAt as real), DEBUG_LIMIT))
    ensures forall i :: 0 <= i < |r.mine| ==> r.mine[i] in store && agency in r.mine[i].agencies
    ensures forall i :: 0 <= i < |r.others| ==> r.others[i] in store && agency !in r.others[i].agencies
  {
    var newest := Descending(store, (e: Event) => true, (e: Event) => -(e.createdAt as real), DEBUG_LIMIT);
    var p := (e: Event) => agency in e.agencies;
    var q := (e: Event) => agency !in e.agencies;
    FilterPartition(newest, p, q);
    DebugView(Filter(newest, p), Filter(newest, q))
  }
}

=== FILE: extract_entities.dfy ===
/** The language-model entity extractor for transcripts: the model choice with
    its one retry, the defaults it falls back to, and the normalisation of
    whatever JSON the model returned into lists of `{text, confidence, source}`.

    The model call and the JSON extraction are parameters. */
module EntityExtraction {
  import opened Wrappers
  import opened Json

  /** The five categories every result has. */
  const DEFAULT_KEYS: set<string> := {"persons", "places", "dates", "organizations", "phoneNumbers"}

  const FALLBACK_MODEL: string := "llama-3.1-70b-versatile"

  const DEFAULT_CONFIDENCE: real := 0.85

  /** A normalised entity. `text` is the entity's truthy `text`, or the entity
      itself when it has none. */
  datatype NlpEntity = NlpEntity(text: Json, confidence: real, source: string)

  type Entities = map<string, seq<NlpEntity>>

  /** Every default category, empty. */
  function Defaults(): (r: Entities)
    ensures r.Keys == DEFAULT_KEYS && forall k :: k in r ==> r[k] == []
  {
    map k | k in DEFAULT_KEYS :: []
  }

  /** The model asked first: the entity model setting, else the general model
      setting, else the fallback model; an empty setting counts as unset. */
  function PreferredModel(entityModel: Option<string>, aiModel: Option<string>): (m: string)
    ensures entityModel.Some? && entityModel.value != "" ==> m == entityModel.value
    ensures !(entityModel.Some? && entityModel.value != "") && aiModel.Some? && aiModel.value != "" ==> m == aiModel.value
    ensures m != ""
  {
    if entityModel.Some? && entityModel.value != "" then entityModel.value
    else if aiModel.Some? && aiModel.value != "" then aiModel.value
    else FALLBACK_MODEL
  }

  /** What one model call gives: a reply whose content may be missing, or a
      thrown error that may say the model does not exist. */
  datatype CallOutcome = Replied(content: Option<string>) | Threw(modelNotFound: bool)

  /** The call that counts: a missing preferred model other than the fallback
      is retried once with the fallback; anything else stands. */
  function Respond(preferred: string, call: string -> CallOutcome): (r: CallOutcome)
    ensures call(preferred).Threw? && call(preferred).modelNotFound && preferred != FALLBACK_MODEL ==>
      r == call(FALLBACK_MODEL)
    ensures !(call(preferred).Threw? && call(preferred).modelNotFound && preferred != FALLBACK_MODEL) ==>
      r == call(preferred)
  {
    var first := call(preferred);
    if first.Threw? && first.modelNotFound && preferred != FALLBACK_MODEL then call(FALLBACK_MODEL) else first
  }

  /** The models called, in order. */
  function Attempts(preferred: string, call: string -> CallOutcome): (a: seq<string>)
    ensures 1 <= |a| <= 2 && a[0] == preferred
    ensures |a| == 2 ==> a[1] == FALLBACK_MODEL
  {
    var first := call(preferred);
    if first.Threw? && first.modelNotFound && preferred != FALLBACK_MODEL then [preferred, FALLBACK_MODEL] else [preferred]
  }

  /** The answer is the last call's, the fallback is called at most once, and
      it is called second only after the preferred model, a different one, was
      reported missing. */
  lemma RespondRetriesOnce(preferred: string, call: string -> CallOutcome)
    ensures var a := Attempts(preferred, call);
      && Respond(preferred, call) == call(a[|a| - 1])
      && |set i | 0 <= i < |a| && a[i] == FALLBACK_MODEL| <= 1
      && (|a| == 2 <==> preferred != FALLBACK_MODEL && call(preferred).Threw? && call(preferred).modelNotFound)
  {
    var a := Attempts(preferred, call);
    if |a| == 2 {
      assert (set i | 0 <= i < |a| && a[i] == FALLBACK_MODEL) == {1};
    } else if preferred == FALLBACK_MODEL {
      assert (set i | 0 <= i < |a| && a[i] == FALLBACK_MODEL) == {0};
    } else {
      assert (set i | 0 <= i < |a| && a[i] == FALLBACK_MODEL) == {};
    }
  }

  /** One entity. Reading `.text` of null throws. */
  function NormalizeItem(e: Json): (r: Result<NlpEntity>)
    ensures r.Err? <==> e == JNull
    ensures r.Ok? ==> r.value.source == "nlp"
    ensures r.Ok? ==> (r.value.confidence == if e.JObj? && "confidence" in e.fields && e.fields["confidence"].JNum?
                                            then e.fields["confidence"].n else DEFAULT_CONFIDENCE)
    ensures r.Ok? ==> (r.value.text == if e.JObj? && "text" in e.fields && Truthy(e.fields["text"])
                                      then e.fields["text"] else e)
  {
    match e
    case JNull => Err("Cannot read properties of null (reading 'text')")
    case JObj(m) =>
      var text := if "text" in m && Truthy(m["text"]) then m["text"] else e;
      var confidence := if "confidence" in m && m["confidence"].JNum? then m["confidence"].n else DEFAULT_CONFIDENCE;
      Ok(NlpEntity(text, confidence, "nlp"))
    case _ => Ok(NlpEntity(e, DEFAULT_CONFIDENCE, "nlp"))
  }

  /** The items of one list, in order; the first null item throws. */
  function NormalizeItems(items: seq<Json>): (r: Result<seq<NlpEntity>>)
    ensures r.Ok? <==> forall i :: 0 <= i < |items| ==> items[i] != JNull
    ensures r.Ok? ==>
      |r.value| == |items| &&
      forall i :: 0 <= i < |items| ==> Ok(r.value[i]) == NormalizeItem(items[i])
  {
    if |items| == 0 then Ok([])
    else
      match NormalizeItem(items[0])
      case Err(m) => Err(m)
      case Ok(e) =>
        match NormalizeItems(items[1..])
        case Err(m) =>
          assert exists i :: 1 <= i < |items| && items[i] == JNull by {
            var i :| 0 <= i < |items[1..]| && items[1..][i] == JNull;
            assert items[i + 1] == JNull;
          }
          Err(m)
        case Ok(rest) => Ok([e] + rest)
  }

  /** One category: a value that is not an array becomes an empty list. */
  function NormalizeList(v: Json): (r: Result<seq<NlpEntity>>)
    ensures !v.JArr? ==> r == Ok([])
    ensures v.JArr? ==> r == NormalizeItems(v.items)
  {
    if v.JArr? then NormalizeItems(v.items) else Ok([])
  }

  /** `{ ...defaults, ...entities }`: the defaults overridden by the reply's own
      fields. A reply that is not an object adds none. */
  function Merged(parsed: Json): (r: map<string, Json>)
    ensures r.Keys == DEFAULT_KEYS + (if parsed.JObj? then parsed.fields.Keys else {})
    ensures forall k :: k in r && parsed.JObj? && k in parsed.fields ==> r[k] == parsed.fields[k]
    ensures forall k :: k in r && !(parsed.JObj? && k in parsed.fields) ==> r[k] == JArr([])
  {
    var base := map k | k in DEFAULT_KEYS :: JArr([]);
    if parsed.JObj? then base + parsed.fields else base
  }

  /** Every list of the merged reply normalises without throwing. */
  predicate Normalizable(m: map<string, Json>) {
    forall k :: k in m ==> NormalizeList(m[k]).Ok?
  }

  /** The normalised reply, or None when some list holds a null. */
  function Normalize(parsed: Json): (r: Option<Entities>)
    ensures r.Some? <==> Normalizable(Merged(parsed))
    ensures r.Some? ==> r.value.Keys == Merged(parsed).Keys && DEFAULT_KEYS <= r.value.Keys
    ensures r.Some? ==> forall k :: k in r.value ==> Ok(r.value[k]) == NormalizeList(Merged(parsed)[k])
  {
    var m := Merged(parsed);
    if Normalizable(m) then Some(map k | k in m :: NormalizeList(m[k]).value) else None
  }

  /** `extractEntities`. Empty text gives the defaults without asking the
      model; so do a failed call, a reply without content, JSON that does not
      parse, and a normalisation that throws. */
  function ExtractEntities(text: Option<string>, preferred: string, call: string -> CallOutcome,
                           parse: string -> Option<Json>): (r: Entities)
    ensures DEFAULT_KEYS <= r.Keys
    ensures forall k, i :: k in r && 0 <= i < |r[k]| ==> r[k][i].source == "nlp"
    ensures text.None? || text.value == "" ==> r == Defaults()
    ensures Respond(preferred, call).Threw? ==> r == Defaults()
    ensures Respond(preferred, call).Replied? && Respond(preferred, call).content.GetOr("") == "" ==> r == Defaults()
    ensures text.Some? && text.value != "" && Respond(preferred, call).Replied? &&
            Respond(preferred, call).content.GetOr("") != "" ==>
      var c := Respond(preferred, call).content.value;
      && (parse(c).None? ==> r == Defaults())
      && (parse(c).Some? && Normalize(parse(c).value).None? ==> r == Defaults())
      && (parse(c).Some? && Normalize(parse(c).value).Some? ==> r == Normalize(parse(c).value).value)
  {
    if text.None? || text.value == "" then Defaults()
    else
      match Respond(preferred, call)
      case Threw(_) => Defaults()
      case Replied(content) =>
        if content.None? || content.value == "" then Defaults()
        else
          match parse(content.value)
          case None => Defaults()
          case Some(parsed) =>
            match Normalize(parsed)
            case None => Defaults()
            case Some(entities) => entities
  }

  /** With empty text the model is never consulted: any two models give the
      same result. */
  lemma EmptyTextSkipsModel(text: Option<string>, preferred: string, call1: string -> CallOutcome,
                            call2: string -> CallOutcome, parse1: string -> Option<Json>, parse2: string -> Option<Json>)
    requires text.None? || text.value == ""
    ensures ExtractEntities(text, preferred, call1, parse1) == ExtractEntities(text, preferred, call2, parse2)
  {
  }

  /** A reply object whose lists hold no null comes back with every default
      category plus its own keys; each of its array categories keeps one entry
      per item, and each other value becomes an empty list. */
  lemma ReplyNormalized(text: string, preferred: string, call: string -> CallOutcome,
                        parse: string -> Option<Json>, fields: map<string, Json>)
    requires text != ""
    requires Respond(preferred, call).Replied? && Respond(preferred, call).content.Some?
    requires Respond(preferred, call).content.value != ""
    requires parse(Respond(preferred, call).content.value) == Some(JObj(fields))
    requires forall k :: k in fields && fields[k].JArr? ==> forall i :: 0 <= i < |fields[k].items| ==> fields[k].items[i] != JNull
    ensures var r := ExtractEntities(Some(text), preferred, call, parse);
      r.Keys == DEFAULT_KEYS + fields.Keys &&
      (forall k :: k in fields && fields[k].JArr? ==> |r[k]| == |fields[k].items|) &&
      (forall k :: k in r && !(k in fields && fields[k].JArr?) ==> r[k] == [])
  {
    var m := Merged(JObj(fields));
    assert Normalizable(m);
  }

  /** A single null item anywhere in the reply throws during normalisation,
      and the defaults come back instead. */
  lemma NullItemGivesDefaults(text: string, preferred: string, call: string -> CallOutcome,
                              parse: string -> Option<Json>, fields: map<string, Json>, k: string, i: nat)
    requires text != ""
    requires Respond(preferred, call).Replied? && Respond(preferred, call).content.Some?
    requires Respond(preferred, call).content.value != ""
    requires parse(Respond(preferred, call).content.value) == Some(JObj(fields))
    requires k in fields && fields[k].JArr? && i < |fields[k].items| && fields[k].items[i] == JNull
    ensures ExtractEntities(Some(text), preferred, call, parse) == Defaults()
  {
    var m := Merged(JObj(fields));
    assert NormalizeList(m[k]).Err?;
  }
}

=== FILE: history.dfy ===
/** The history routes: the merged, newest-first listing over the three
    document collections, the single-item lookups by type, and the name of a
    downloaded analysis report. */
module History {
  import opened Wrappers
  import opened Strings
  import opened Seqs
  import opened Sorting
  import EventModel

  /** The three collections are the three document types; `KindName` is the
      type tag the routes use for each. */
  type Kind = EventModel.DocType

  function KindName(k: Kind): string {
    if k.Document? then "document" else if k.OcrDocument? then "ocr" else "transcription"
  }

  /** The `type` query value naming exactly one collection. */
  function ParseKind(t: Option<string>): (r: Option<Kind>)
    ensures r.Some? ==> t == Some(KindName(r.value))
    ensures forall k :: t == Some(KindName(k)) ==> r == Some(k)
  {
    if t == Some("document") then Some(EventModel.Document)
    else if t == Some("ocr") then Some(EventModel.OcrDocument)
    else if t == Some("transcription") then Some(EventModel.Transcription)
    else None
  }

  /** A stored document of any collection. `original` is the stored upload's
      path: the uploaded file name for documents, the image for OCR documents,
      the audio for transcriptions. */
  datatype Record = Record(id: string, filename: Option<string>, agency: string, uploadedBy: string, createdAt: int,
                           original: Option<string>)

  datatype User = User(username: string, agency: string)

  /** A user sees what their agency holds and what they uploaded themselves. */
  predicate Owned(r: Record, u: User) { r.agency == u.agency || r.uploadedBy == u.username }

  datatype Item = Item(record: Record, kind: Kind)

  datatype Collections = Collections(documents: seq<Record>, ocr: seq<Record>, transcriptions: seq<Record>)

  function Of(c: Collections, k: Kind): seq<Record> {
    if k.Document? then c.documents else if k.OcrDocument? then c.ocr else c.transcriptions
  }

  const PER_COLLECTION: nat := 50
  const HISTORY_LIMIT: nat := 50

  function NewestRecord(r: Record): real { -(r.createdAt as real) }
  function NewestItem(i: Item): real { -(i.record.createdAt as real) }

  /** One collection's query: the user's records, newest first, at most 50,
      each tagged with the collection's type. */
  function Fetch(c: Collections, k: Kind, u: User): (r: seq<Item>)
    ensures |r| <= PER_COLLECTION
    ensures forall x :: x in r ==> x.kind == k && x.record in Of(c, k) && Owned(x.record, u)
    ensures forall rec :: rec in Of(c, k) && Owned(rec, u) ==>
      Item(rec, k) in r || (|r| == PER_COLLECTION && r[PER_COLLECTION - 1].record.createdAt >= rec.createdAt)
  {
    var matching := Filter(Of(c, k), (rec: Record) => Owned(rec, u));
    assert forall x :: x in matching ==> x in Of(c, k) && Owned(x, u) by {
      forall x | x in matching ensures x in Of(c, k) && Owned(x, u) {
        var i :| 0 <= i < |matching| && matching[i] == x;
      }
    }
    var top := Top(matching, NewestRecord, PER_COLLECTION);
    var r := seq(|top|, i requires 0 <= i < |top| => Item(top[i], k));
    assert forall rec :: rec in top ==> Item(rec, k) in r by {
      forall rec | rec in top ensures Item(rec, k) in r {
        var i :| 0 <= i < |top| && top[i] == rec;
        assert r[i] == Item(rec, k);
      }
    }
    r
  }

  /** Whether the listing takes a collection: `all` takes every one, a
      collection's own name takes that one, anything else none. */
  predicate Included(t: Option<string>, k: Kind) {
    t == Some("all") || t == Some(KindName(k))
  }

  /** The queried collections' results, in collection order. */
  function Gathered(t: Option<string>, c: Collections, u: User): seq<Item> {
    (if Included(t, EventModel.Document) then Fetch(c, EventModel.Document, u) else []) +
    (if Included(t, EventModel.OcrDocument) then Fetch(c, EventModel.OcrDocument, u) else []) +
    (if Included(t, EventModel.Transcription) then Fetch(c, EventModel.Transcription, u) else [])
  }

  lemma GatheredFacts(t: Option<string>, c: Collections, u: User)
    ensures forall x :: x in Gathered(t, c, u) ==> Included(t, x.kind) && x.record in Of(c, x.kind) && Owned(x.record, u)
    ensures forall k :: Included(t, k) ==> forall x :: x in Fetch(c, k, u) ==> x in Gathered(t, c, u)
    ensures |Gathered(t, c, u)| <= 3 * PER_COLLECTION
  {
  }

  /** `GET /`: the gathered items newest first; cut to 50 unless every
      collection was asked for. */
  function List(t: Option<string>, c: Collections, u: User): (r: seq<Item>)
    ensures forall x :: x in r ==> Included(t, x.kind) && x.record in Of(c, x.kind) && Owned(x.record, u)
    ensures forall i, j :: 0 <= i < j < |r| ==> r[i].record.createdAt >= r[j].record.createdAt
    ensures t != Some("all") ==> |r| <= HISTORY_LIMIT
    ensures t == Some("all") ==> multiset(r) == multiset(Gathered(t, c, u)) && |r| <= 3 * PER_COLLECTION
    ensures forall k, x :: Included(t, k) && x in Fetch(c, k, u) ==>
      x in r || (t != Some("all") && |r| == HISTORY_LIMIT && r[HISTORY_LIMIT - 1].record.createdAt >= x.record.createdAt)
  {
    if t == Some("all") then
      ListedAll(c, u);
      SortBy(Gathered(t, c, u), NewestItem)
    else
      ListedTop(t, c, u);
      Top(Gathered(t, c, u), NewestItem, HISTORY_LIMIT)
  }

  /** Every collection asked for: all the gathered items, newest first. */
  lemma {:induction false} ListedAll(c: Collections, u: User)
    ensures var t := Some("all"); var r := SortBy(Gathered(t, c, u), NewestItem);
      && (forall x :: x in r ==> x.record in Of(c, x.kind) && Owned(x.record, u))
      && (forall i, j :: 0 <= i < j < |r| ==> r[i].record.createdAt >= r[j].record.createdAt)
      && multiset(r) == multiset(Gathered(t, c, u)) && |r| <= 3 * PER_COLLECTION
      && (forall k, x :: x in Fetch(c, k, u) ==> x in r)
  {
    var t := Some("all");
    var items := Gathered(t, c, u);
    GatheredFacts(t, c, u);
    SortByFacts(items, NewestItem);
    var r := SortBy(items, NewestItem);
    PermutationMembers(r, items);
    assert forall k :: Included(t, k);
  }

  /** One collection asked for: its 50 newest items. */
  lemma {:induction false} ListedTop(t: Option<string>, c: Collections, u: User)
    requires t != Some("all")
    ensures var r := Top(Gathered(t, c, u), NewestItem, HISTORY_LIMIT);
      && (forall x :: x in r ==> Included(t, x.kind) && x.record in Of(c, x.kind) && Owned(x.record, u))
      && (forall i, j :: 0 <= i < j < |r| ==> r[i].record.createdAt >= r[j].record.createdAt)
      && |r| <= HISTORY_LIMIT
      && (forall k, x :: Included(t, k) && x in Fetch(c, k, u) ==>
            x in r || (|r| == HISTORY_LIMIT && r[HISTORY_LIMIT - 1].record.createdAt >= x.record.createdAt))
  {
    var items := Gathered(t, c, u);
    var r := Top(items, NewestItem, HISTORY_LIMIT);
    GatheredFacts(t, c, u);
    forall x | x in r ensures Included(t, x.kind) && x.record in Of(c, x.kind) && Owned(x.record, u) {
      var i :| 0 <= i < |r| && r[i] == x;
      assert x in items;
    }
    forall i, j | 0 <= i < j < |r| ensures r[i].record.createdAt >= r[j].record.createdAt {
      assert NewestItem(r[i]) <= NewestItem(r[j]);
    }
    forall k, x | Included(t, k) && x in Fetch(c, k, u)
      ensures x in r || (|r| == HISTORY_LIMIT && r[HISTORY_LIMIT - 1].record.createdAt >= x.record.createdAt)
    {
      assert x in items;
      assert x in r || (|r| == HISTORY_LIMIT && NewestItem(r[HISTORY_LIMIT - 1]) <= NewestItem(x));
    }
  }

  /** A type naming no collection lists nothing. */
  lemma UnknownTypeListsNothing(t: Option<string>, c: Collections, u: User)
    requires t != Some("all") && ParseKind(t).None?
    ensures List(t, c, u) == []
  {
    assert Gathered(t, c, u) == [];
  }

  /** A collection's own type lists only that collection's records. */
  lemma OneTypeListsOneCollection(k: Kind, c: Collections, u: User)
    ensures forall x :: x in List(Some(KindName(k)), c, u) ==> x.kind == k
  {
  }

  // ---------------------------------------------------------------- single items

  /** `findOne({ _id, $or: [agency, uploadedBy] })` in one collection. */
  function FindOwned(records: seq<Record>, id: string, u: User): (r: Option<Record>)
    ensures r.Some? ==> r.value in records && r.value.id == id && Owned(r.value, u)
    ensures r.None? <==> forall i :: 0 <= i < |records| ==> !(records[i].id == id && Owned(records[i], u))
  {
    if |records| == 0 then None
    else if records[0].id == id && Owned(records[0], u) then Some(records[0])
    else match FindOwned(records[1..], id, u)
      case None =>
        assert forall i :: 1 <= i < |records| ==> records[i] == records[1..][i - 1];
        None
      case Some(x) => Some(x)
  }

  /** `GET /:id` (and the lookup of both download routes): the user's record
      of that id in the collection the type names; None, a 404, for any other
      type or a record the user does not own. */
  function Lookup(t: Option<string>, id: string, c: Collections, u: User): (r: Option<Item>)
    ensures ParseKind(t).None? ==> r.None?
    ensures ParseKind(t).Some? ==> (r.None? <==> FindOwned(Of(c, ParseKind(t).value), id, u).None?)
    ensures r.Some? ==>
      r.value.kind == ParseKind(t).value && r.value.record.id == id && Owned(r.value.record, u) &&
      r.value.record in Of(c, r.value.kind)
  {
    match ParseKind(t)
    case None => None
    case Some(k) =>
      match FindOwned(Of(c, k), id, u)
      case None => None
      case Some(rec) => Some(Item(rec, k))
  }

  datatype Download = ItemNotFound | FileNotFound | File(path: string, name: Option<string>)

  /** The field naming the stored file: the upload's file name for a
      document, the stored path for the other two. */
  function StoredName(x: Item): Option<string> {
    if x.kind == EventModel.Document then x.record.filename else x.record.original
  }

  /** The stored file a download serves, when the record names one: a
      document's upload in `uploads/`, the stored path otherwise. */
  function OriginalPath(x: Item): (r: Option<string>)
    ensures r.Some? <==> StoredName(x).Some? && StoredName(x).value != ""
    ensures r.Some? ==> EndsWith(r.value, StoredName(x).value)
    ensures r.Some? && x.kind == EventModel.Document ==>
      StartsWith(r.value, "uploads/") && |r.value| == |"uploads/"| + |StoredName(x).value|
    ensures r.Some? && x.kind != EventModel.Document ==> r == StoredName(x)
  {
    if x.kind == EventModel.Document then
      if x.record.filename.Some? && x.record.filename.value != "" then Some("uploads/" + x.record.filename.value) else None
    else if x.record.original.Some? && x.record.original.value != "" then x.record.original else None
  }

  /** `GET /download/:id`: 404 for an unknown item, 404 again when it names
      no stored file or the file is gone; otherwise the file under the
      record's own file name. */
  function DownloadFile(t: Option<string>, id: string, c: Collections, u: User, exists_: string -> bool): (r: Download)
    ensures r == ItemNotFound <==> Lookup(t, id, c, u).None?
    ensures r == FileNotFound <==>
      Lookup(t, id, c, u).Some? &&
      (OriginalPath(Lookup(t, id, c, u).value).None? || !exists_(OriginalPath(Lookup(t, id, c, u).value).value))
    ensures r.File? ==>
      Some(r.path) == OriginalPath(Lookup(t, id, c, u).value) && exists_(r.path) &&
      r.name == Lookup(t, id, c, u).value.record.filename
  {
    match Lookup(t, id, c, u)
    case None => ItemNotFound
    case Some(x) =>
      match OriginalPath(x)
      case None => FileNotFound
      case Some(p) => if exists_(p) then File(p, x.record.filename) else FileNotFound
  }

  // ---------------------------------------------------------------- analysis file name

  /** Where `/\.[^/.]+$/` matches: a dot followed, up to the end, by at least
      one character that is neither a dot nor a slash. */
  predicate ExtensionAt(s: string, i: int) {
    0 <= i < |s| - 1 && s[i] == '.' && forall j :: i < j < |s| ==> s[j] != '.' && s[j] != '/'
  }

  /** At most one position can start the final extension. */
  lemma ExtensionAtUnique(s: string, i: int, j: int)
    requires ExtensionAt(s, i) && ExtensionAt(s, j)
    ensures i == j
  {
  }

  /** `s.replace(/\.[^/.]+$/, "")`. */
  function StripExtension(s: string): (r: string)
    ensures forall i :: ExtensionAt(s, i) ==> r == s[..i]
    ensures (forall i :: !ExtensionAt(s, i)) ==> r == s
  {
    match LastDot(s)
    case None => s
    case Some(i) =>
      if i + 1 < |s| && forall j :: i < j < |s| ==> s[j] != '/' then
        assert ExtensionAt(s, i);
        assert forall m :: ExtensionAt(s, m) ==> m == i by {
          forall m | ExtensionAt(s, m) ensures m == i {
            ExtensionAtUnique(s, m, i);
          }
        }
        s[..i]
      else
        assert forall m :: !ExtensionAt(s, m) by {
          forall m | 0 <= m < |s| - 1 && s[m] == '.'
            ensures exists j :: m < j < |s| && (s[j] == '.' || s[j] == '/')
          {
            if m < i {
              assert s[i] == '.';
            } else {
              assert m == i;
              if i + 1 < |s| {
                var j :| i < j < |s| && s[j] == '/';
              }
            }
          }
        }
        s
  }

  const ANALYSIS_SUFFIX: string := "_analysis.pdf"

  /** The report's download name: the stored file name without its final
      extension, then `_analysis.pdf`. */
  function AnalysisFilename(filename: string): (r: string)
    ensures EndsWith(r, ANALYSIS_SUFFIX)
    ensures r[..|r| - |ANALYSIS_SUFFIX|] == StripExtension(filename)
  {
    var stem := StripExtension(filename);
    assert (stem + ANALYSIS_SUFFIX)[|stem|..] == ANALYSIS_SUFFIX;
    assert (stem + ANALYSIS_SUFFIX)[..|stem|] == stem;
    stem + ANALYSIS_SUFFIX
  }

  datatype AnalysisReply = AnalysisNotFound | AnalysisFailed | Report(filename: string)

  /** `GET /download-analysis/:id`: 404 for an unknown item; a record without
      a file name fails (500) when its name is rewritten; otherwise the report
      is named after the record. */
  function DownloadAnalysis(t: Option<string>, id: string, c: Collections, u: User): (r: AnalysisReply)
    ensures r.AnalysisNotFound? <==> Lookup(t, id, c, u).None?
    ensures r.AnalysisFailed? <==> Lookup(t, id, c, u).Some? && Lookup(t, id, c, u).value.record.filename.None?
    ensures r.Report? ==> r.filename == AnalysisFilename(Lookup(t, id, c, u).value.record.filename.value)
  {
    match Lookup(t, id, c, u)
    case None => AnalysisNotFound
    case Some(x) =>
      match x.record.filename
      case None => AnalysisFailed
      case Some(f) => Report(AnalysisFilename(f))
  }

  /** Only the last extension goes: `a.tar.gz` gives `a.tar_analysis.pdf`,
      and a name without an extension keeps it whole. */
  lemma AnalysisFilenameExamples()
    ensures AnalysisFilename("a.tar.gz") == "a.tar_analysis.pdf"
    ensures AnalysisFilename("notes") == "notes_analysis.pdf"
  {
    StripLastExtension();
    StripNoExtension();
    assert AnalysisFilename("a.tar.gz") == "a.tar" + ANALYSIS_SUFFIX;
    assert AnalysisFilename("notes") == "notes" + ANALYSIS_SUFFIX;
  }

  /** `a.tar.gz` loses only `.gz`. */
  lemma StripLastExtension()
    ensures StripExtension("a.tar.gz") == "a.tar"
  {
    var s := "a.tar.gz";
    assert ExtensionAt(s, 5);
    assert s[..5] == "a.tar";
  }

  /** A name without a dot is kept whole. */
  lemma StripNoExtension()
    ensures StripExtension("notes") == "notes"
  {
    var n := "notes";
    assert forall i :: !ExtensionAt(n, i) by {
      forall i | 0 <= i < |n| - 1 ensures n[i] != '.' {
      }
    }
  }
}

=== FILE: json.dfy ===
/** Parsed JSON values, as the model's replies and request bodies arrive in the
    route handlers and post-processing steps. */
module Json {
  import opened Wrappers

  datatype Json =
    | JNull
    | JBool(b: bool)
    | JNum(n: real)
    | JStr(s: string)
    | JArr(items: seq<Json>)
    | JObj(fields: map<string, Json>)

  /** JavaScript truthiness of a JSON value (`NaN` cannot come out of `JSON.parse`). */
  predicate Truthy(j: Json) {
    match j
    case JNull => false
    case JBool(b) => b
    case JNum(n) => n != 0.0
    case JStr(s) => s != ""
    case JArr(_) => true
    case JObj(_) => true
  }

  /** `j.key` on a value that is not null: an own field of an object, otherwise
      `undefined` (strings, numbers, booleans and arrays carry no such field here). */
  function Field(j: Json, key: string): Option<Json>
    requires j != JNull
  {
    match j
    case JObj(m) => if key in m then Some(m[key]) else None
    case _ => None
  }

  /** `x || fallback` where `x` may be `undefined` (None). */
  function OrElse(x: Option<Json>, fallback: Json): Json {
    if x.Some? && Truthy(x.value) then x.value else fallback
  }
}

=== FILE: migrate.dfy ===
/** The one-off migration of stored transcription summaries from the old
    meeting-style shape (discussion points, decisions, action items, takeaways)
    to the intelligence shape (executive summary, key findings, entity insights,
    analyst takeaways).

    A field is None when it is absent or null. A present array is truthy even
    when empty; a present string is truthy only when non-empty. */
module Migration {
  import opened Wrappers

  datatype ActionItem = ActionItem(item: string, assignee: string, dueDate: string)

  /** The entity texts grouped the way the new shape lists them. */
  datatype EntityInsights = EntityInsights(persons: seq<string>, places: seq<string>, organizations: seq<string>)

  /** A stored summary with every field either shape may carry. `keyPoints`
      is the legacy `key_points` array. */
  datatype Summary = Summary(
    executiveSummary: Option<string>,
    summary: Option<string>,
    keyDiscussionPoints: Option<seq<string>>,
    keyPoints: Option<seq<string>>,
    decisionsMade: Option<seq<string>>,
    actionItems: Option<seq<ActionItem>>,
    takeaways: Option<seq<string>>,
    keyFindings: Option<seq<string>>,
    entityInsights: Option<EntityInsights>,
    analystTakeaways: Option<seq<string>>)

  const EMPTY_SUMMARY: Summary := Summary(None, None, None, None, None, None, None, None, None, None)

  /** An entity entry of the record; only its text is read. */
  datatype Entity = Entity(text: string, confidence: real)

  /** The record's entity lists; each may be missing. */
  datatype Entities = Entities(persons: Option<seq<Entity>>, places: Option<seq<Entity>>,
                               organizations: Option<seq<Entity>>)

  datatype Record = Record(aiSummary: Option<Summary>, entities: Option<Entities>)

  /** `a || b` on optional strings: the first non-empty one. */
  function OrString(a: Option<string>, b: string): (r: string)
    ensures a.Some? && a.value != "" ==> r == a.value
    ensures !(a.Some? && a.value != "") ==> r == b
  {
    if a.Some? && a.value != "" then a.value else b
  }

  /** `a || b` on optional arrays: any present array, even an empty one. */
  function OrArray<T>(a: Option<seq<T>>, b: seq<T>): (r: seq<T>)
    ensures a.Some? ==> r == a.value
    ensures a.None? ==> r == b
  {
    if a.Some? then a.value else b
  }

  /** Some old-shape key is present. */
  predicate IsOld(s: Summary) {
    s.keyDiscussionPoints.Some? || s.decisionsMade.Some? || s.actionItems.Some? || s.takeaways.Some?
  }

  /** Some new-shape key is present. */
  predicate IsNew(s: Summary) {
    s.keyFindings.Some? || s.entityInsights.Some? || s.analystTakeaways.Some?
  }

  /** The texts of a possibly missing entity list, in order. */
  function TextsOf(es: Option<seq<Entity>>): (r: seq<string>)
    ensures es.None? ==> r == []
    ensures es.Some? ==> |r| == |es.value| && forall i :: 0 <= i < |r| ==> r[i] == es.value[i].text
  {
    match es
    case None => []
    case Some(xs) => seq(|xs|, i requires 0 <= i < |xs| => xs[i].text)
  }

  /** The entity insights built from the record's own entities. */
  function InsightsOf(entities: Option<Entities>): (r: EntityInsights)
    ensures entities.None? ==> r == EntityInsights([], [], [])
    ensures entities.Some? ==>
      r == EntityInsights(TextsOf(entities.value.persons), TextsOf(entities.value.places),
                          TextsOf(entities.value.organizations))
  {
    match entities
    case None => EntityInsights([], [], [])
    case Some(e) => EntityInsights(TextsOf(e.persons), TextsOf(e.places), TextsOf(e.organizations))
  }

  /** The new-shape summary: the executive summary falls back to the old
      `summary` and then to empty text; findings come from the discussion
      points, then `key_points`, then nothing; the takeaways carry over. The
      old keys are not kept. */
  function Transform(prior: Summary, entities: Option<Entities>): (r: Summary)
    ensures r.executiveSummary == Some(OrString(prior.executiveSummary, OrString(prior.summary, "")))
    ensures r.keyFindings == Some(OrArray(prior.keyDiscussionPoints, OrArray(prior.keyPoints, [])))
    ensures r.entityInsights == Some(InsightsOf(entities))
    ensures r.analystTakeaways == Some(OrArray(prior.takeaways, []))
    ensures IsNew(r) && !IsOld(r)
  {
    EMPTY_SUMMARY.(
      executiveSummary := Some(OrString(prior.executiveSummary, OrString(prior.summary, ""))),
      keyFindings := Some(OrArray(prior.keyDiscussionPoints, OrArray(prior.keyPoints, []))),
      entityInsights := Some(InsightsOf(entities)),
      analystTakeaways := Some(OrArray(prior.takeaways, [])))
  }

  /** Whether the migration should rewrite a record: its stored summary (a
      null one reads as empty) is in the old shape and not already in the new
      one. This reads the stored fields as they are; the script as written
      reads them through the schema instead (see `HydratedView` below). */
  predicate Eligible(d: Record) {
    var prior := d.aiSummary.GetOr(EMPTY_SUMMARY);
    IsOld(prior) && !IsNew(prior)
  }

  /** One record of the cursor: the rewritten record, or None when skipped. */
  function MigrateOne(d: Record): (r: Option<Record>)
    ensures r.Some? <==> Eligible(d)
    ensures r.Some? ==>
      r.value.entities == d.entities && r.value.aiSummary.Some? &&
      IsNew(r.value.aiSummary.value) && !Eligible(r.value)
    ensures r.Some? ==> r.value.aiSummary == Some(Transform(d.aiSummary.value, d.entities))
  {
    if d.aiSummary.None? then None
    else
      var prior := d.aiSummary.value;
      if !IsOld(prior) || IsNew(prior) then None
      else Some(d.(aiSummary := Some(Transform(prior, d.entities))))
  }

  /** The records the query selects: those with a summary field present. */
  predicate Selected(d: Record) { d.aiSummary.Some? }

  /** `migrate`: every selected record is considered in turn; the result holds
      the records after the run and the number rewritten. */
  function MigrateAll(docs: seq<Record>): (r: (seq<Record>, nat))
    ensures |r.0| == |docs|
    ensures forall i :: 0 <= i < |docs| ==>
      r.0[i] == (if Selected(docs[i]) && MigrateOne(docs[i]).Some? then MigrateOne(docs[i]).value else docs[i])
    ensures r.1 <= |docs|
  {
    if |docs| == 0 then ([], 0)
    else
      var (rest, n) := MigrateAll(docs[1..]);
      assert docs == [docs[0]] + docs[1..];
      match (if Selected(docs[0]) then MigrateOne(docs[0]) else None)
      case Some(d) => ([d] + rest, n + 1)
      case None => ([docs[0]] + rest, n)
  }

  /** How many records are eligible. */
  function CountEligible(docs: seq<Record>): (n: nat)
    ensures n <= |docs|
  {
    if |docs| == 0 then 0 else (if Eligible(docs[0]) then 1 else 0) + CountEligible(docs[1..])
  }

  /** The count reported is exactly the number of eligible records. */
  lemma {:induction false} MigrateAllCounts(docs: seq<Record>)
    ensures MigrateAll(docs).1 == CountEligible(docs)
    decreases |docs|
  {
    if |docs| > 0 {
      MigrateAllCounts(docs[1..]);
    }
  }

  /** A second run finds nothing left: every record is now ineligible, so it
      rewrites none and returns the records unchanged. */
  lemma {:induction false} MigrateIdempotent(docs: seq<Record>)
    ensures forall i :: 0 <= i < |docs| ==> !Eligible(MigrateAll(docs).0[i])
    ensures MigrateAll(MigrateAll(docs).0) == (MigrateAll(docs).0, 0)
  {
    var once := MigrateAll(docs).0;
    forall i | 0 <= i < |docs|
      ensures !Eligible(once[i])
    {
      if !(Selected(docs[i]) && MigrateOne(docs[i]).Some?) {
        assert once[i] == docs[i];
        assert !Eligible(docs[i]);
      }
    }
    NoneEligibleFixed(once);
  }

  /** With nothing eligible, a run changes nothing and counts nothing. */
  lemma {:induction false} NoneEligibleFixed(docs: seq<Record>)
    requires forall i :: 0 <= i < |docs| ==> !Eligible(docs[i])
    ensures MigrateAll(docs) == (docs, 0)
    decreases |docs|
  {
    if |docs| > 0 {
      assert forall i :: 0 <= i < |docs[1..]| ==> !Eligible(docs[1..][i]) by {
        forall i | 0 <= i < |docs[1..]| ensures !Eligible(docs[1..][i]) {
          assert docs[1..][i] == docs[i + 1];
        }
      }
      NoneEligibleFixed(docs[1..]);
      assert !Eligible(docs[0]);
      assert [docs[0]] + docs[1..] == docs;
    }
  }

  // ---------------------------------------------------------------------------
  // The script as written: the summary is read off a hydrated document
  // ---------------------------------------------------------------------------

  /** The summary as `doc.aiSummary` shows it on a document loaded through the
      Transcription schema: the declared arrays (discussion points, decisions,
      action items, takeaways) default to empty arrays when absent, and the keys
      the schema does not declare (`summary`, `key_points` and the three
      new-shape keys) read as missing. */
  function HydratedView(s: Summary): (r: Summary)
    ensures r.executiveSummary == s.executiveSummary
    ensures s.keyDiscussionPoints.Some? ==> r.keyDiscussionPoints == s.keyDiscussionPoints
    ensures s.takeaways.Some? ==> r.takeaways == s.takeaways
    ensures r.summary.None? && r.keyPoints.None?
    ensures IsOld(r) && !IsNew(r)
  {
    EMPTY_SUMMARY.(
      executiveSummary := s.executiveSummary,
      keyDiscussionPoints := Some(s.keyDiscussionPoints.GetOr([])),
      decisionsMade := Some(s.decisionsMade.GetOr([])),
      actionItems := Some(s.actionItems.GetOr([])),
      takeaways := Some(s.takeaways.GetOr([])))
  }

  /** What `save` writes for an assigned summary in strict mode: only the keys
      the schema declares survive, and the nested object is replaced whole. */
  function StrictSaved(s: Summary): (r: Summary)
    ensures r.executiveSummary == s.executiveSummary
    ensures !IsNew(r)
    ensures r.summary.None? && r.keyPoints.None?
  {
    EMPTY_SUMMARY.(
      executiveSummary := s.executiveSummary,
      keyDiscussionPoints := s.keyDiscussionPoints,
      decisionsMade := s.decisionsMade,
      actionItems := s.actionItems,
      takeaways := s.takeaways)
  }

  /** One record of the cursor as the script runs it: the eligibility test and
      the new summary are computed on the hydrated view, and the assignment is
      saved through the schema. */
  function MigrateOneAsWritten(d: Record): (r: Option<Record>)
    requires Selected(d)
    ensures r.Some?
    ensures r.value.entities == d.entities
    ensures r.value.aiSummary.Some? && r.value.aiSummary.value.keyFindings.None?
    ensures r.value.aiSummary.value.keyDiscussionPoints.None?
  {
    var seen := HydratedView(d.aiSummary.value);
    if !IsOld(seen) || IsNew(seen) then None
    else Some(d.(aiSummary := Some(StrictSaved(Transform(seen, d.entities)))))
  }

  /** `migrate` as written: each selected record is rewritten. */
  function MigrateAllAsWritten(docs: seq<Record>): (r: (seq<Record>, nat))
    ensures |r.0| == |docs|
    ensures forall i :: 0 <= i < |docs| ==> Selected(r.0[i]) == Selected(docs[i])
  {
    if |docs| == 0 then ([], 0)
    else
      var (rest, n) := MigrateAllAsWritten(docs[1..]);
      if Selected(docs[0]) then ([MigrateOneAsWritten(docs[0]).value] + rest, n + 1)
      else ([docs[0]] + rest, n)
  }

  function CountSelected(docs: seq<Record>): (n: nat)
    ensures n <= |docs|
  {
    if |docs| == 0 then 0 else (if Selected(docs[0]) then 1 else 0) + CountSelected(docs[1..])
  }

  /** As written, a run counts every selected record, and a second run over its
      output counts every one of them again. */
  lemma {:induction false} AsWrittenRewritesAgain(docs: seq<Record>)
    ensures MigrateAllAsWritten(docs).1 == CountSelected(docs)
    ensures MigrateAllAsWritten(MigrateAllAsWritten(docs).0).1 == CountSelected(docs)
    decreases |docs|
  {
    if |docs| > 0 {
      AsWrittenRewritesAgain(docs[1..]);
      var once := MigrateAllAsWritten(docs).0;
      assert once[1..] == MigrateAllAsWritten(docs[1..]).0;
      assert Selected(once[0]) == Selected(docs[0]);
    }
  }

  /** A record stored with one discussion point: as written, the migration
      leaves it with neither the point nor any finding, while the reading of the
      stored fields carries the point over as a key finding. */
  lemma {:induction false} AsWrittenLosesFindings()
    ensures var d := Record(Some(EMPTY_SUMMARY.(keyDiscussionPoints := Some(["p"]))), None);
      var r := MigrateOneAsWritten(d).value.aiSummary.value;
      r.keyFindings.None? && r.keyDiscussionPoints.None? &&
      MigrateOne(d).Some? && MigrateOne(d).value.aiSummary.value.keyFindings == Some(["p"])
  {
    var d := Record(Some(EMPTY_SUMMARY.(keyDiscussionPoints := Some(["p"]))), None);
    assert Eligible(d);
    var t := Transform(d.aiSummary.value, d.entities);
    assert t.keyFindings == Some(OrArray(Some(["p"]), OrArray(None, [])));
  }
}

=== FILE: ocr_controller.dfy ===
/** The OCR upload controller: the document record's lifecycle and defaults,
    and the merge of the summary model's suggested names into the entities the
    OCR pass found.

    The OCR pass, the summary model and the clock are parameters; event linking
    and alert checks run after the record is complete and are modelled in their
    own modules. */
module OcrController {
  import opened Wrappers
  import opened Strings
  import opened EventModel
  import opened DualOcr

  /** One category of the model's entity insights as it arrives: absent, some
      value that is not an array, or an array whose items are strings or null. */
  datatype AiList = NoList | NotArray | Items(items: seq<Option<string>>)

  /** The model's `entityInsights`: the three categories the merge reads. */
  datatype Insights = Insights(persons: AiList, places: AiList, organizations: AiList)
  {
    function Get(c: Category): AiList {
      match c
      case Persons => persons
      case Places => places
      case Organizations => organizations
      case _ => NoList
    }
  }

  const AI_CONFIDENCE: real := 0.92

  /** The entry a suggested name becomes: confidence 0.92, source `ai`, no box. */
  function AiEntry(text: string): (f: Found)
    ensures f.text == text && f.confidence == 0.92 && f.box.None? && f.source == Some("ai")
  {
    Found(text, AI_CONFIDENCE, None, Some("ai"))
  }

  /** Some entry with non-empty text has the lower-cased text `t`: the set of
      texts the merge checks against. */
  predicate KnownIn(xs: seq<Found>, t: string) {
    exists i :: 0 <= i < |xs| && xs[i].text != "" && Lower(xs[i].text) == t
  }

  /** The suggested names appended in order: null and empty items are skipped,
      and so is a name whose lower-cased form is already known, counting the
      names appended before it. */
  function AppendAi(xs: seq<Found>, items: seq<Option<string>>): (r: seq<Found>)
    ensures |xs| <= |r| && r[..|xs|] == xs
    decreases |items|
  {
    if |items| == 0 then xs
    else
      match items[0]
      case None => AppendAi(xs, items[1..])
      case Some(t) =>
        if t == "" || KnownIn(xs, Lower(t)) then AppendAi(xs, items[1..])
        else
          var r := AppendAi(xs + [AiEntry(t)], items[1..]);
          assert r[..|xs|] == r[..|xs| + 1][..|xs|];
          r
  }

  /** Every appended entry is the entry of a non-empty suggested name. */
  lemma {:induction false} AppendAiAdded(xs: seq<Found>, items: seq<Option<string>>)
    ensures var r := AppendAi(xs, items);
      forall j :: |xs| <= j < |r| ==>
        r[j] == AiEntry(r[j].text) && r[j].text != "" && Some(r[j].text) in items
    decreases |items|
  {
    if |items| > 0 {
      var r := AppendAi(xs, items);
      var ys := xs;
      if items[0].Some? && items[0].value != "" && !KnownIn(xs, Lower(items[0].value)) {
        ys := xs + [AiEntry(items[0].value)];
        assert r[|xs|] == ys[|xs|];
      }
      assert r == AppendAi(ys, items[1..]);
      AppendAiAdded(ys, items[1..]);
      forall j | |ys| <= j < |r|
        ensures Some(r[j].text) in items
      {
        var k :| 0 <= k < |items[1..]| && items[1..][k] == Some(r[j].text);
        assert items[k + 1] == Some(r[j].text);
      }
    }
  }

  /** A known text stays known as the list grows. */
  lemma KnownInPrefix(xs: seq<Found>, ys: seq<Found>, t: string)
    requires |xs| <= |ys| && ys[..|xs|] == xs && KnownIn(xs, t)
    ensures KnownIn(ys, t)
  {
    var i :| 0 <= i < |xs| && xs[i].text != "" && Lower(xs[i].text) == t;
    assert ys[i] == xs[i];
  }

  /** No appended name repeats, up to letter case, a non-empty text before it:
      neither an existing entry nor a name appended earlier. */
  lemma {:induction false} AppendAiDistinct(xs: seq<Found>, items: seq<Option<string>>)
    ensures var r := AppendAi(xs, items);
      forall i, j :: 0 <= i < j < |r| && |xs| <= j && r[i].text != "" ==> Lower(r[i].text) != Lower(r[j].text)
    decreases |items|
  {
    if |items| > 0 {
      var r := AppendAi(xs, items);
      if items[0].Some? && items[0].value != "" && !KnownIn(xs, Lower(items[0].value)) {
        var t := items[0].value;
        var ys := xs + [AiEntry(t)];
        assert r == AppendAi(ys, items[1..]);
        AppendAiDistinct(ys, items[1..]);
        assert forall k :: 0 <= k < |xs| && xs[k].text != "" ==> Lower(xs[k].text) != Lower(t);
        forall i, j | 0 <= i < j < |r| && |xs| <= j && r[i].text != ""
          ensures Lower(r[i].text) != Lower(r[j].text)
        {
          if j == |xs| {
            assert r[j] == ys[j] && r[i] == ys[i] && ys[i] == xs[i];
          }
        }
      } else {
        assert r == AppendAi(xs, items[1..]);
        AppendAiDistinct(xs, items[1..]);
        assert forall i, j :: 0 <= i < j < |r| && |xs| <= j && r[i].text != "" ==> Lower(r[i].text) != Lower(r[j].text);
      }
    }
  }

  /** Every non-empty suggested name is known afterwards, up to letter case. */
  lemma {:induction false} AppendAiCovers(xs: seq<Found>, items: seq<Option<string>>)
    ensures var r := AppendAi(xs, items);
      forall k :: 0 <= k < |items| && items[k].Some? && items[k].value != "" ==> KnownIn(r, Lower(items[k].value))
    decreases |items|
  {
    if |items| > 0 {
      var r := AppendAi(xs, items);
      if items[0].Some? && items[0].value != "" && !KnownIn(xs, Lower(items[0].value)) {
        var t := items[0].value;
        var ys := xs + [AiEntry(t)];
        AppendAiCovers(ys, items[1..]);
        assert ys[|xs|].text == t;
        assert KnownIn(ys, Lower(t));
        KnownInPrefix(ys, r, Lower(t));
      } else {
        AppendAiCovers(xs, items[1..]);
        if items[0].Some? && items[0].value != "" {
          KnownInPrefix(xs, r, Lower(items[0].value));
        }
      }
      forall k | 1 <= k < |items| && items[k].Some? && items[k].value != ""
        ensures KnownIn(r, Lower(items[k].value))
      {
        assert items[k] == items[1..][k - 1];
      }
    }
  }

  /** One category: an absent, non-array or empty suggestion leaves it as it is;
      otherwise the suggestions are appended. */
  function MergeCategory(xs: seq<Found>, list: AiList): (r: seq<Found>)
    ensures |xs| <= |r| && r[..|xs|] == xs
    ensures !(list.Items? && |list.items| > 0) ==> r == xs
  {
    match list
    case Items(items) => if |items| == 0 then xs else AppendAi(xs, items)
    case _ => xs
  }

  /** `mergeAiEntityInsights`. Without insights the entities come back as they
      are; otherwise persons, places and organizations receive the suggested
      names and phone numbers and dates are untouched. */
  function MergeAiEntityInsights(base: Found5, insights: Option<Insights>): (r: Found5)
    ensures insights.None? ==> r == base
    ensures r.phoneNumbers == base.phoneNumbers && r.dates == base.dates
    ensures forall c :: |base.Get(c)| <= |r.Get(c)| && r.Get(c)[..|base.Get(c)|] == base.Get(c)
  {
    match insights
    case None => base
    case Some(ins) =>
      base.(persons := MergeCategory(base.persons, ins.persons),
            places := MergeCategory(base.places, ins.places),
            organizations := MergeCategory(base.organizations, ins.organizations))
  }

  /** The merge of one category, in full: the existing entries stay first and
      in order; every entry after them is the entry of a suggested name of that
      category and repeats no non-empty text before it up to letter case; and
      every non-empty suggested name of that category is present. */
  lemma {:induction false} MergeFacts(base: Found5, ins: Insights, c: Category)
    requires c == Persons || c == Places || c == Organizations
    ensures var xs := base.Get(c);
      var r := MergeAiEntityInsights(base, Some(ins)).Get(c);
      r == MergeCategory(xs, ins.Get(c)) &&
      (forall j :: |xs| <= j < |r| ==>
        r[j] == AiEntry(r[j].text) && r[j].text != "" && Some(r[j].text) in ins.Get(c).items) &&
      (forall i, j :: 0 <= i < j < |r| && |xs| <= j && r[i].text != "" ==> Lower(r[i].text) != Lower(r[j].text)) &&
      (ins.Get(c).Items? ==>
        forall k :: 0 <= k < |ins.Get(c).items| && ins.Get(c).items[k].Some? && ins.Get(c).items[k].value != "" ==>
          KnownIn(r, Lower(ins.Get(c).items[k].value)))
  {
    var xs := base.Get(c);
    match ins.Get(c)
    case Items(items) =>
      if |items| > 0 {
        AppendAiAdded(xs, items);
        AppendAiDistinct(xs, items);
        AppendAiCovers(xs, items);
      }
    case _ =>
  }

  // ---------------------------------------------------------------------------
  // The document record

  datatype OcrStatus = Processing | Completed | Failed

  /** The uploaded file: where it was stored and the name the client gave. */
  datatype UploadedFile = UploadedFile(path: string, originalName: string)

  /** `userData`: an absent or empty value counts as missing. */
  datatype UserData = UserData(userId: Option<string>, agency: Option<string>)

  datatype OcrDoc = OcrDoc(originalImage: string, filename: string, agency: string, uploadedBy: string,
                           status: OcrStatus, text: string, entities: Found5,
                           insights: Option<Insights>, processingTime: int)

  /** `value || fallback` on an optional string. */
  function OrDefault(v: Option<string>, fallback: string): (r: string)
    ensures v.Some? && v.value != "" ==> r == v.value
    ensures (v.None? || v.value == "") ==> r == fallback
  {
    if v.Some? && v.value != "" then v.value else fallback
  }

  /** `processDocument`. The record is first saved as `processing` with the
      served path of the upload, the client's file name, and the uploader and
      agency (defaulting to `unknown` and `N/A`); after recognition it is saved
      again as `completed` with the text, the merged entities, the insights and
      the elapsed time. Returns both saved states. `insights` is what the
      summary step produced, None when it failed or gave none. */
  function ProcessDocument(file: UploadedFile, user: UserData, ocr: OcrResult, isPhone: string -> bool,
                           isDate: string -> bool, insights: Option<Insights>, start: int, end: int): (r: (OcrDoc, OcrDoc))
    ensures r.0.status == Processing && r.1.status == Completed
    ensures r.0.uploadedBy == r.1.uploadedBy == OrDefault(user.userId, "unknown")
    ensures r.0.agency == r.1.agency == OrDefault(user.agency, "N/A")
    ensures r.0.originalImage == r.1.originalImage == "/uploads/" + BaseName(file.path)
    ensures r.0.filename == r.1.filename == file.originalName
    ensures r.1.text == ocr.text && r.1.processingTime == end - start && r.1.insights == insights
    ensures r.1.entities == MergeAiEntityInsights(ExtractEntities(Some(ocr.words), isPhone, isDate), insights)
    ensures r.1 == r.0.(status := Completed, text := ocr.text, entities := r.1.entities, insights := insights,
                        processingTime := end - start)
  {
    var initial := OcrDoc("/uploads/" + BaseName(file.path), file.originalName, OrDefault(user.agency, "N/A"),
                          OrDefault(user.userId, "unknown"), Processing, "", NO_FOUND, None, 0);
    var entities := ExtractEntities(Some(ocr.words), isPhone, isDate);
    var merged := MergeAiEntityInsights(entities, insights);
    (initial, initial.(status := Completed, text := ocr.text, entities := merged, insights := insights,
                       processingTime := end - start))
  }
}

=== FILE: ocr_layout.dfy ===
/** Word boxes shared by both OCR pipelines: the corner form `{x0, y0, x1, y1}`,
    the `{x, y, width, height}` form entities carry, and the synthetic word grids
    used when an engine gives text without positions (a recognised image or a
    parsed PDF). */
module OcrLayout {
  import opened Strings

  /** A corner-coordinate box. */
  datatype Box = Box(x0: int, y0: int, x1: int, y1: int)

  /** An entity's `boundingBox`. */
  datatype Rect = Rect(x: int, y: int, width: int, height: int)

  /** `{ x: x0, y: y0, width: x1 - x0, height: y1 - y0 }`: no information is lost. */
  function ToRect(b: Box): (r: Rect)
    ensures r.x == b.x0 && r.y == b.y0
  {
    Rect(b.x0, b.y0, b.x1 - b.x0, b.y1 - b.y0)
  }

  function FromRect(r: Rect): (b: Box)
    ensures b.x0 == r.x && b.y0 == r.y
  {
    Box(r.x, r.y, r.x + r.width, r.y + r.height)
  }

  /** The two box forms convert into each other without loss. */
  lemma RectRoundTrip(b: Box, r: Rect)
    ensures FromRect(ToRect(b)) == b
    ensures ToRect(FromRect(r)) == r
  {
  }

  /** A recognised word. */
  datatype Word = Word(text: string, confidence: real, bbox: Box)

  function Texts(ws: seq<Word>): (r: seq<string>)
    ensures |r| == |ws|
    ensures forall i :: 0 <= i < |ws| ==> r[i] == ws[i].text
  {
    seq(|ws|, i requires 0 <= i < |ws| => ws[i].text)
  }

  /** A synthetic layout: `perRow` words per row, cells `pitchX` apart along a
      row and rows `pitchY` apart, each box `width` by `height`, all at one
      confidence, starting at the margin (50, 50). */
  datatype Grid = Grid(perRow: nat, pitchX: nat, pitchY: nat, width: nat, height: nat, confidence: real)

  const MARGIN: int := 50

  /** The layout of recognised image text: 15 per row on a 60 by 40 pitch,
      50 by 30 boxes, confidence 0.8. */
  const IMAGE_GRID: Grid := Grid(15, 60, 40, 50, 30, 0.8)

  /** The layout of parsed PDF text: 10 per row on an 80 by 30 pitch, 50 by 20
      boxes, confidence 0.85. */
  const PDF_GRID: Grid := Grid(10, 80, 30, 50, 20, 0.85)

  /** Boxes fit inside their cells, so no two boxes touch. */
  predicate Spaced(g: Grid) {
    g.perRow > 0 && g.width < g.pitchX && g.height < g.pitchY
  }

  /** The box of the `i`-th word. */
  function Cell(g: Grid, i: nat): (b: Box)
    requires g.perRow > 0
    ensures b.x1 - b.x0 == g.width && b.y1 - b.y0 == g.height
    ensures b.y0 >= MARGIN
  {
    var x := MARGIN + (i % g.perRow) * g.pitchX;
    var y := MARGIN + (i / g.perRow) * g.pitchY;
    Box(x, y, x + g.width, y + g.height)
  }

  /** Words placed on the grid in order. */
  function Layout(tokens: seq<string>, g: Grid): (r: seq<Word>)
    requires g.perRow > 0
    ensures Texts(r) == tokens
    ensures forall i :: 0 <= i < |r| ==> r[i].confidence == g.confidence && r[i].bbox == Cell(g, i)
  {
    seq(|tokens|, i requires 0 <= i < |tokens| => Word(tokens[i], g.confidence, Cell(g, i)))
  }

  /** A multiple of a positive factor grows by at least the multiplier. */
  lemma {:induction false} MulAtLeast(d: int, p: nat)
    requires d >= 1
    ensures d * p >= p
    decreases p
  {
    if p > 0 {
      MulAtLeast(d, p - 1);
      assert d * p == d * (p - 1) + d;
    }
  }

  lemma {:induction false} ScaleMonotone(a: int, b: int, p: nat)
    requires a < b
    ensures a * p + p <= b * p
  {
    MulAtLeast(b - a, p);
    assert (b - a) * p == b * p - a * p;
  }

  lemma {:induction false} RowOrder(p: nat, i: nat, j: nat)
    requires p > 0 && i < j
    ensures i / p < j / p || (i / p == j / p && i % p < j % p)
  {
    var qi, ri := i / p, i % p;
    var qj, rj := j / p, j % p;
    assert i == qi * p + ri && 0 <= ri < p;
    assert j == qj * p + rj && 0 <= rj < p;
    if qj < qi {
      ScaleMonotone(qj, qi, p);
      assert false;
    }
  }

  /** On a spaced grid the boxes follow reading order: a later word sits on a
      lower row, or on the same row strictly to the right with a gap. No two
      boxes of the same row overlap horizontally, and boxes of different rows
      are separated vertically. */
  lemma {:induction false} ReadingOrder(g: Grid, i: nat, j: nat)
    requires Spaced(g) && i < j
    ensures Cell(g, i).y1 < Cell(g, j).y0
         || (Cell(g, i).y0 == Cell(g, j).y0 && Cell(g, i).x1 < Cell(g, j).x0)
    ensures i / g.perRow == j / g.perRow ==> Cell(g, i).x1 < Cell(g, j).x0
    ensures i / g.perRow != j / g.perRow ==> Cell(g, i).y1 < Cell(g, j).y0
  {
    RowOrder(g.perRow, i, j);
    if i / g.perRow < j / g.perRow {
      ScaleMonotone(i / g.perRow, j / g.perRow, g.pitchY);
    } else {
      ScaleMonotone(i % g.perRow, j % g.perRow, g.pitchX);
    }
  }

  /** Both synthetic layouts are spaced: 50 < 60 and 30 < 40 for images, 50 < 80
      and 20 < 30 for PDFs. */
  lemma LayoutsSpaced()
    ensures Spaced(IMAGE_GRID) && Spaced(PDF_GRID)
    ensures forall i, j :: 0 <= i < j ==> Cell(IMAGE_GRID, i).x1 < Cell(IMAGE_GRID, j).x0 || Cell(IMAGE_GRID, i).y1 < Cell(IMAGE_GRID, j).y0
  {
    forall i: nat, j: nat | i < j
      ensures Cell(IMAGE_GRID, i).x1 < Cell(IMAGE_GRID, j).x0 || Cell(IMAGE_GRID, i).y1 < Cell(IMAGE_GRID, j).y0
    {
      ReadingOrder(IMAGE_GRID, i, j);
    }
  }

  /** `generateApproximateWords`: no words for empty text; otherwise one word per
      whitespace-separated piece on the image grid. */
  function ApproximateWords(text: string): (r: seq<Word>)
    ensures |r| == 0 <==> text == ""
    ensures text != "" ==> Texts(r) == SplitWs(text)
    ensures forall i :: 0 <= i < |r| ==> r[i].confidence == 0.8 && r[i].bbox == Cell(IMAGE_GRID, i)
  {
    if text == "" then [] else Layout(SplitWs(text), IMAGE_GRID)
  }

  /** The words of parsed PDF text. There is no guard for empty text: splitting
      "" gives one empty piece, hence one word. */
  function PdfWords(text: string): (r: seq<Word>)
    ensures |r| >= 1
    ensures Texts(r) == SplitWs(text)
    ensures forall i :: 0 <= i < |r| ==> r[i].confidence == 0.85 && r[i].bbox == Cell(PDF_GRID, i)
  {
    Layout(SplitWs(text), PDF_GRID)
  }

  /** Joining the words with single spaces gives back the text with every run
      of whitespace collapsed to one space: the layout loses only spacing. */
  lemma ApproximateWordsText(text: string)
    ensures Join(Texts(ApproximateWords(text)), " ") == CollapseWs(text)
    ensures Join(Texts(PdfWords(text)), " ") == CollapseWs(text)
  {
    JoinSplitWs(text);
  }

  lemma {:induction false} CollapsePlainPrefix(s: string, i: nat)
    requires i <= |s|
    requires forall k :: 0 <= k < i ==> !IsWs(s[k])
    ensures CollapseWs(s) == s[..i] + CollapseWs(s[i..])
    decreases i
  {
    if i > 0 {
      assert !IsWs(s[0]);
      assert s[1..][i - 1..] == s[i..];
      CollapsePlainPrefix(s[1..], i - 1);
      assert s[..i] == [s[0]] + s[1..][..i - 1];
    }
  }

  lemma {:induction false} WsRunEndShift(s: string, i: nat, k: nat)
    requires i <= k <= |s|
    ensures WsRunEnd(s, k) - i == WsRunEnd(s[i..], k - i)
    decreases |s| - k
  {
    if k < |s| && IsWs(s[k]) {
      WsRunEndShift(s, i, k + 1);
    }
  }

  lemma {:induction false} JoinSplitWs(s: string)
    ensures Join(SplitWs(s), " ") == CollapseWs(s)
    decreases |s|
  {
    var i := NextWs(s, 0);
    if i < |s| {
      var j := WsRunEnd(s, i);
      FirstRunStep(s);
      JoinSplitWs(s[j..]);
      var rest := SplitWs(s[j..]);
      assert Join([s[..i]] + rest, " ") == s[..i] + " " + Join(rest, " ");
    } else {
      CollapsePlainPrefix(s, i);
      assert s[..i] == s;
      assert s[i..] == "";
    }
  }

  /** At the first whitespace run, the split takes the word before it and
      the collapse turns the run into one space. */
  lemma {:induction false} FirstRunStep(s: string)
    requires NextWs(s, 0) < |s|
    ensures var i := NextWs(s, 0); var j := WsRunEnd(s, i);
      && SplitWs(s) == [s[..i]] + SplitWs(s[j..])
      && CollapseWs(s) == s[..i] + " " + CollapseWs(s[j..])
  {
    var i := NextWs(s, 0);
    var j := WsRunEnd(s, i);
    var t := s[i..];
    assert SplitWs(s) == [s[..i]] + SplitWs(s[j..]);
    CollapsePlainPrefix(s, i);
    WsRunEndShift(s, i, i);
    assert IsWs(t[0]) && t[WsRunEnd(t, 0)..] == s[j..];
    assert CollapseWs(t) == " " + CollapseWs(s[j..]);
  }
}

=== FILE: ocr_processor.dfy ===
/** Entity extraction of the single-engine OCR pipeline: twelve categories,
    each entity placed on the page by looking its text up among the recognised
    words, and each category kept free of case-insensitive repeats.

    The regular-expression scans that propose entity texts are parameters: the
    model receives the proposals of the whole-text scans (in the order they are
    made) and the per-word pattern tests, and models what is done with them. */
module OcrProcessor {
  import opened Wrappers
  import opened Strings
  import opened Seqs
  import opened Sorting
  import opened OcrLayout
  import DualOcr

  datatype Kind = Persons | Places | Organizations | PhoneNumbers | Dates | Emails | Urls
                | Amounts | Vehicles | Suspects | Witnesses | CaseNumbers

  const KINDS: seq<Kind> := [Persons, Places, Organizations, PhoneNumbers, Dates, Emails, Urls,
                             Amounts, Vehicles, Suspects, Witnesses, CaseNumbers]

  type Found = DualOcr.Found

  /** The entity lists, one per category. */
  type Entities = map<Kind, seq<Found>>

  ghost predicate Complete(m: Entities) {
    forall k: Kind :: k in m
  }

  /** Every category, each with no entities. */
  const EMPTY: Entities := map k | k in KINDS :: []

  lemma EmptyComplete()
    ensures Complete(EMPTY) && forall k :: k in EMPTY ==> EMPTY[k] == []
  {
    forall k: Kind
      ensures k in EMPTY
    {
      match k
      case Persons => assert KINDS[0] == k;
      case Places => assert KINDS[1] == k;
      case Organizations => assert KINDS[2] == k;
      case PhoneNumbers => assert KINDS[3] == k;
      case Dates => assert KINDS[4] == k;
      case Emails => assert KINDS[5] == k;
      case Urls => assert KINDS[6] == k;
      case Amounts => assert KINDS[7] == k;
      case Vehicles => assert KINDS[8] == k;
      case Suspects => assert KINDS[9] == k;
      case Witnesses => assert KINDS[10] == k;
      case CaseNumbers => assert KINDS[11] == k;
    }
  }

  // ---------------------------------------------------------------------------
  // The word map

  /** A word's confidence and box. */
  datatype Info = Info(confidence: real, bbox: Box)

  /** A plain object from lower-cased word text to the word's details: its own
      keys in insertion order, and their values. */
  datatype WordMap = WordMap(keys: seq<string>, vals: map<string, Info>)

  ghost predicate Valid(m: WordMap) {
    NoDups(m.keys) && forall k :: k in m.vals <==> k in m.keys
  }

  function KeyOf(w: Word): string { Lower(w.text) }

  function InfoOf(w: Word): Info { Info(w.confidence, w.bbox) }

  function KeysOf(words: seq<Word>): (r: seq<string>)
    ensures |r| == |words| && forall i :: 0 <= i < |words| ==> r[i] == KeyOf(words[i])
  {
    seq(|words|, i requires 0 <= i < |words| => KeyOf(words[i]))
  }

  /** `obj[k] = v`: an existing key keeps its place, a new key goes last. */
  function Put(m: WordMap, k: string, v: Info): (r: WordMap)
    requires Valid(m)
    ensures Valid(r) && r.vals == m.vals[k := v]
  {
    if k in m.vals then WordMap(m.keys, m.vals[k := v])
    else WordMap(m.keys + [k], m.vals[k := v])
  }

  /** Some word has key `k`. */
  predicate Keyed(words: seq<Word>, k: string) {
    exists i :: 0 <= i < |words| && KeyOf(words[i]) == k
  }

  /** `v` is the details of the last word with key `k`. */
  predicate LastWith(words: seq<Word>, k: string, v: Info) {
    exists i :: 0 <= i < |words| && KeyOf(words[i]) == k && InfoOf(words[i]) == v &&
      forall j :: i < j < |words| ==> KeyOf(words[j]) != k
  }

  /** The word map built in word order: one key per distinct lower-cased text,
      in order of first appearance, holding the details of the LAST word with
      that text. */
  function BuildWordMap(words: seq<Word>): (m: WordMap)
    ensures Valid(m)
    ensures m.keys == Dedup(KeysOf(words))
    ensures forall k :: k in m.vals <==> Keyed(words, k)
    ensures forall k :: k in m.vals ==> LastWith(words, k, m.vals[k])
    decreases |words|
  {
    if |words| == 0 then WordMap([], map[])
    else
      var init := words[..|words| - 1];
      var w := words[|words| - 1];
      assert words == init + [w];
      var prev := BuildWordMap(init);
      BuildStep(init, w, prev);
      Put(prev, KeyOf(w), InfoOf(w))
  }

  lemma {:induction false} BuildStep(init: seq<Word>, w: Word, prev: WordMap)
    requires Valid(prev)
    requires prev.keys == Dedup(KeysOf(init))
    requires forall k :: k in prev.vals <==> Keyed(init, k)
    requires forall k :: k in prev.vals ==> LastWith(init, k, prev.vals[k])
    ensures var m := Put(prev, KeyOf(w), InfoOf(w));
      m.keys == Dedup(KeysOf(init + [w])) &&
      (forall k :: k in m.vals <==> Keyed(init + [w], k)) &&
      (forall k :: k in m.vals ==> LastWith(init + [w], k, m.vals[k]))
  {
    BuildStepKeys(init, w, prev);
    BuildStepKeyed(init, w, prev);
    BuildStepLast(init, w, prev);
  }

  lemma {:induction false} BuildStepKeys(init: seq<Word>, w: Word, prev: WordMap)
    requires Valid(prev)
    requires prev.keys == Dedup(KeysOf(init))
    ensures Put(prev, KeyOf(w), InfoOf(w)).keys == Dedup(KeysOf(init + [w]))
  {
    var ks := KeysOf(init + [w]);
    assert ks[..|ks| - 1] == KeysOf(init);
    assert ks[|ks| - 1] == KeyOf(w);
    assert KeyOf(w) in prev.vals <==> KeyOf(w) in Dedup(KeysOf(init));
  }

  lemma {:induction false} BuildStepKeyed(init: seq<Word>, w: Word, prev: WordMap)
    requires Valid(prev)
    requires forall k :: k in prev.vals <==> Keyed(init, k)
    ensures forall k :: k in Put(prev, KeyOf(w), InfoOf(w)).vals <==> Keyed(init + [w], k)
  {
    var words := init + [w];
    var m := Put(prev, KeyOf(w), InfoOf(w));
    forall k
      ensures k in m.vals <==> Keyed(words, k)
    {
      if Keyed(words, k) && k != KeyOf(w) {
        var i :| 0 <= i < |words| && KeyOf(words[i]) == k;
        assert i < |init| && init[i] == words[i];
        assert Keyed(init, k);
      }
      if k in prev.vals {
        var i :| 0 <= i < |init| && KeyOf(init[i]) == k;
        assert words[i] == init[i];
      }
      if k == KeyOf(w) {
        assert words[|init|] == w;
      }
    }
  }

  lemma {:induction false} BuildStepLast(init: seq<Word>, w: Word, prev: WordMap)
    requires Valid(prev)
    requires forall k :: k in prev.vals ==> LastWith(init, k, prev.vals[k])
    ensures var m := Put(prev, KeyOf(w), InfoOf(w));
      forall k :: k in m.vals ==> LastWith(init + [w], k, m.vals[k])
  {
    var words := init + [w];
    var m := Put(prev, KeyOf(w), InfoOf(w));
    forall k | k in m.vals
      ensures LastWith(words, k, m.vals[k])
    {
      if k == KeyOf(w) {
        assert words[|init|] == w;
        assert InfoOf(words[|init|]) == m.vals[k];
      } else {
        LastWithExtend(init, w, k, prev.vals[k]);
      }
    }
  }

  lemma LastWithExtend(init: seq<Word>, w: Word, k: string, v: Info)
    requires LastWith(init, k, v) && KeyOf(w) != k
    ensures LastWith(init + [w], k, v)
  {
    var words := init + [w];
    var i :| 0 <= i < |init| && KeyOf(init[i]) == k && InfoOf(init[i]) == v &&
      forall j :: i < j < |init| ==> KeyOf(init[j]) != k;
    assert words[i] == init[i];
    forall j | i < j < |words|
      ensures KeyOf(words[j]) != k
    {
      if j < |init| {
        assert words[j] == init[j];
      } else {
        assert words[j] == w;
      }
    }
  }

  // ---------------------------------------------------------------------------
  // Key enumeration order

  predicate IsDigit(c: char) { '0' <= c <= '9' }

  function DigitsValue(s: string): nat
    requires forall k :: 0 <= k < |s| ==> IsDigit(s[k])
  {
    if |s| == 0 then 0
    else
      assert IsDigit(s[|s| - 1]);
      DigitsValue(s[..|s| - 1]) * 10 + (s[|s| - 1] as int - '0' as int)
  }

  /** A canonical array index: decimal digits without a leading zero, below
      2^32 - 1. Such keys are enumerated before all others, in numeric order. */
  predicate IsIndexKey(k: string) {
    |k| >= 1 && (forall i :: 0 <= i < |k| ==> IsDigit(k[i])) && (|k| == 1 || k[0] != '0') &&
    DigitsValue(k) < 0xFFFF_FFFF
  }

  function IndexValue(k: string): real {
    if IsIndexKey(k) then DigitsValue(k) as real else 0.0
  }

  /** `Object.keys`: index keys first in ascending numeric order, then the other
      keys in insertion order. */
  function EnumOrder(keys: seq<string>): (r: seq<string>)
    ensures forall k :: k in r <==> k in keys
    ensures forall i, j :: 0 <= i < j < |r| && IsIndexKey(r[j]) ==> IsIndexKey(r[i]) && IndexValue(r[i]) <= IndexValue(r[j])
  {
    var idx := Filter(keys, IsIndexKey);
    var rest := Filter(keys, (k: string) => !IsIndexKey(k));
    var sorted := SortBy(idx, IndexValue);
    SortByFacts(idx, IndexValue);
    PermutationMembers(idx, sorted);
    assert forall i :: 0 <= i < |sorted| ==> IsIndexKey(sorted[i]) by {
      forall i | 0 <= i < |sorted|
        ensures IsIndexKey(sorted[i])
      {
        assert sorted[i] in idx;
      }
    }
    sorted + rest
  }

  /** One text contains the other. */
  predicate Related(k: string, e: string) {
    Contains(k, e) || Contains(e, k)
  }

  /** `keys.find(k => k.includes(e) || e.includes(k))`, as a position. */
  function FirstRelated(order: seq<string>, e: string): (r: Option<nat>)
    ensures r.Some? ==>
      r.value < |order| && Related(order[r.value], e) &&
      forall j :: 0 <= j < r.value ==> !Related(order[j], e)
    ensures r.None? ==> forall j :: 0 <= j < |order| ==> !Related(order[j], e)
  {
    if |order| == 0 then None
    else if Related(order[0], e) then Some(0)
    else match FirstRelated(order[1..], e)
      case None => None
      case Some(i) => Some(i + 1)
  }

  // ---------------------------------------------------------------------------
  // Placing an entity

  /** How a key is looked up: on the object as written, which also finds the
      lower-case `constructor` every object literal inherits; or on its own keys
      only. */
  datatype Lookup = AsWritten | Intended

  datatype Slot = Own(info: Info) | Inherited | Absent

  function Get(m: WordMap, k: string, lookup: Lookup): (s: Slot)
    ensures s.Own? <==> k in m.vals
    ensures s.Own? ==> s.info == m.vals[k]
    ensures s.Inherited? <==> k !in m.vals && lookup == AsWritten && k == "constructor"
  {
    if k in m.vals then Own(m.vals[k])
    else if lookup == AsWritten && k == "constructor" then Inherited
    else Absent
  }

  /** The placement found for an entity text; an inherited value has neither a
      confidence nor a box. */
  datatype BestMatch = BestMatch(text: string, confidence: Option<real>, bbox: Option<Box>)

  const UNMATCHED_CONFIDENCE: real := 0.5

  const UNMATCHED_BOX: Box := Box(50, 50, 150, 80)

  function MinR(a: real, b: real): real { if a <= b then a else b }

  function MinI(a: int, b: int): int { if a <= b then a else b }

  function MaxI(a: int, b: int): int { if a >= b then a else b }

  function Placed(e: string, info: Info): BestMatch {
    BestMatch(e, Some(info.confidence), Some(info.bbox))
  }

  /** A one-word text that is no known word: the first key (in enumeration
      order) that contains it or is contained in it, or the fixed placement. */
  function PlaceWord(m: WordMap, e: string, key: string): (r: BestMatch)
    requires Valid(m)
    ensures r.text == e && r.confidence.Some? && r.bbox.Some?
  {
    var order := EnumOrder(m.keys);
    match FirstRelated(order, key)
    case Some(i) =>
      assert order[i] in m.keys;
      Placed(e, m.vals[order[i]])
    case None => BestMatch(e, Some(UNMATCHED_CONFIDENCE), Some(UNMATCHED_BOX))
  }

  /** A text of several words: from its first word's box to its last word's when
      both are present, with the lower confidence; the fixed placement when
      either is missing. */
  function PlaceSpan(m: WordMap, e: string, parts: seq<string>, lookup: Lookup): (r: Result<BestMatch>)
    requires Valid(m) && |parts| > 1
    ensures lookup == Intended ==> r.Ok? && r.value.text == e && r.value.confidence.Some? && r.value.bbox.Some?
    ensures Lower(parts[0]) in m.vals && Lower(parts[|parts| - 1]) in m.vals ==>
      var f := m.vals[Lower(parts[0])];
      var l := m.vals[Lower(parts[|parts| - 1])];
      r.Ok? && r.value.bbox.Some? && r.value.confidence.Some? &&
      r.value.bbox.value.x0 == f.bbox.x0 && r.value.bbox.value.x1 == l.bbox.x1 &&
      r.value.bbox.value.y0 <= f.bbox.y0 && r.value.bbox.value.y0 <= l.bbox.y0 &&
      r.value.bbox.value.y1 >= f.bbox.y1 && r.value.bbox.value.y1 >= l.bbox.y1 &&
      r.value.confidence.value <= f.confidence && r.value.confidence.value <= l.confidence
    ensures !(Lower(parts[0]) in m.vals && Lower(parts[|parts| - 1]) in m.vals) && lookup == Intended ==>
      r == Ok(BestMatch(e, Some(UNMATCHED_CONFIDENCE), Some(UNMATCHED_BOX)))
  {
    var first := Get(m, Lower(parts[0]), lookup);
    var last := Get(m, Lower(parts[|parts| - 1]), lookup);
    if first.Absent? || last.Absent? then Ok(BestMatch(e, Some(UNMATCHED_CONFIDENCE), Some(UNMATCHED_BOX)))
    else if first.Inherited? || last.Inherited? then Err("TypeError")
    else
      var f := first.info;
      var l := last.info;
      Ok(BestMatch(e, Some(MinR(f.confidence, l.confidence)),
                   Some(Box(f.bbox.x0, MinI(f.bbox.y0, l.bbox.y0), l.bbox.x1, MaxI(f.bbox.y1, l.bbox.y1)))))
  }

  /** `findBestMatch`. The text is trimmed and looked up lower-cased: an exact
      hit gives that word's details, labelled with the entity text; otherwise a
      one-word text is placed by `PlaceWord` and a longer one by `PlaceSpan`.
      Reading the box of an inherited value fails. Looking up own keys only,
      every text gets a confidence and a box. */
  function FindBestMatch(m: WordMap, entityText: string, lookup: Lookup): (r: Result<BestMatch>)
    requires Valid(m)
    ensures r.Ok? ==> r.value.text == Trim(entityText)
    ensures Lower(Trim(entityText)) in m.vals ==> r == Ok(Placed(Trim(entityText), m.vals[Lower(Trim(entityText))]))
    ensures lookup == Intended ==> r.Ok? && r.value.confidence.Some? && r.value.bbox.Some?
  {
    var e := Trim(entityText);
    var key := Lower(e);
    match Get(m, key, lookup)
    case Own(info) => Ok(Placed(e, info))
    case Inherited => Ok(BestMatch(e, None, None))
    case Absent =>
      var parts := SplitWs(e);
      if |parts| == 1 then Ok(PlaceWord(m, e, key)) else PlaceSpan(m, e, parts, lookup)
  }

  /** A text of several words whose first and last words are known (and which is
      not itself a known word) spans from the left edge of its first word to the
      right edge of its last, covers both vertically, and is no more confident
      than either. */
  lemma FindBestMatchSpan(m: WordMap, entityText: string)
    requires Valid(m)
    requires var parts := SplitWs(Trim(entityText));
      Lower(Trim(entityText)) !in m.vals && |parts| > 1 &&
      Lower(parts[0]) in m.vals && Lower(parts[|parts| - 1]) in m.vals
    ensures var r := FindBestMatch(m, entityText, Intended);
      var parts := SplitWs(Trim(entityText));
      var f := m.vals[Lower(parts[0])];
      var l := m.vals[Lower(parts[|parts| - 1])];
      r.Ok? && r.value.bbox.Some? && r.value.confidence.Some? &&
      r.value.bbox.value.x0 == f.bbox.x0 && r.value.bbox.value.x1 == l.bbox.x1 &&
      r.value.bbox.value.y0 <= f.bbox.y0 && r.value.bbox.value.y0 <= l.bbox.y0 &&
      r.value.bbox.value.y1 >= f.bbox.y1 && r.value.bbox.value.y1 >= l.bbox.y1 &&
      r.value.confidence.value <= f.confidence && r.value.confidence.value <= l.confidence
  {
    var e := Trim(entityText);
    assert FindBestMatch(m, entityText, Intended) == PlaceSpan(m, e, SplitWs(e), Intended);
  }

  /** A one-word text that is no known word and relates to no key gets the fixed
      placement. */
  lemma FindBestMatchUnmatchedWord(m: WordMap, entityText: string)
    requires Valid(m)
    requires Lower(Trim(entityText)) !in m.vals && |SplitWs(Trim(entityText))| == 1
    requires forall k :: k in m.keys ==> !Related(k, Lower(Trim(entityText)))
    ensures FindBestMatch(m, entityText, Intended) ==
      Ok(BestMatch(Trim(entityText), Some(UNMATCHED_CONFIDENCE), Some(UNMATCHED_BOX)))
  {
    NoneRelated(m.keys, Lower(Trim(entityText)));
  }

  lemma NoneRelated(keys: seq<string>, e: string)
    requires forall k :: k in keys ==> !Related(k, e)
    ensures FirstRelated(EnumOrder(keys), e).None?
  {
    var order := EnumOrder(keys);
    forall j | 0 <= j < |order|
      ensures !Related(order[j], e)
    {
      assert order[j] in keys;
    }
  }

  /** A longer text whose first or last word is unknown (and which is no known
      word itself) gets the fixed placement. */
  lemma FindBestMatchUnmatchedSpan(m: WordMap, entityText: string)
    requires Valid(m)
    requires var parts := SplitWs(Trim(entityText));
      Lower(Trim(entityText)) !in m.vals && |parts| > 1 &&
      (Lower(parts[0]) !in m.vals || Lower(parts[|parts| - 1]) !in m.vals)
    ensures FindBestMatch(m, entityText, Intended) ==
      Ok(BestMatch(Trim(entityText), Some(UNMATCHED_CONFIDENCE), Some(UNMATCHED_BOX)))
  {
    var e := Trim(entityText);
    assert FindBestMatch(m, entityText, Intended) == PlaceSpan(m, e, SplitWs(e), Intended);
  }

  /** An entity text placed relative to the words: a one-word text takes the
      details of the first related key. */
  lemma FindBestMatchRelated(m: WordMap, entityText: string)
    requires Valid(m)
    requires Lower(Trim(entityText)) !in m.vals && |SplitWs(Trim(entityText))| == 1
    ensures var order := EnumOrder(m.keys);
      var fr := FirstRelated(order, Lower(Trim(entityText)));
      fr.Some? ==>
        order[fr.value] in m.vals &&
        FindBestMatch(m, entityText, Intended) == Ok(Placed(Trim(entityText), m.vals[order[fr.value]]))
  {
  }

  /** `confidence || 0.7`. */
  function DefaultConfidence(c: Option<real>): (r: real)
    ensures r != 0.0
    ensures c.Some? && c.value != 0.0 ==> r == c.value
  {
    if c.None? || c.value == 0.0 then 0.7 else c.value
  }

  /** Some entity of the list has the same text up to letter case. */
  predicate HasText(xs: seq<Found>, text: string) {
    exists i :: 0 <= i < |xs| && Lower(xs[i].text) == Lower(text)
  }

  /** No two entities of a list share their text up to letter case. */
  predicate CaseDistinct(xs: seq<Found>) {
    forall i, j :: 0 <= i < j < |xs| ==> Lower(xs[i].text) != Lower(xs[j].text)
  }

  /** `addEntity`: a text already present up to letter case leaves the lists as
      they are (the first occurrence wins); otherwise the entity is appended with
      its confidence (0.7 when missing or zero) and its box in `{x, y, width,
      height}` form. Without a box the append fails. */
  function AddEntity(m: Entities, kind: Kind, text: string, confidence: Option<real>, bbox: Option<Box>): (r: Result<Entities>)
    requires kind in m
    ensures HasText(m[kind], text) ==> r == Ok(m)
    ensures !HasText(m[kind], text) && bbox.None? ==> r.Err?
    ensures !HasText(m[kind], text) && bbox.Some? ==>
      r == Ok(m[kind := m[kind] + [DualOcr.Found(text, DefaultConfidence(confidence), Some(ToRect(bbox.value)), None)]])
  {
    if HasText(m[kind], text) then Ok(m)
    else if bbox.None? then Err("TypeError")
    else Ok(m[kind := m[kind] + [DualOcr.Found(text, DefaultConfidence(confidence), Some(ToRect(bbox.value)), None)]])
  }

  /** Adding keeps every list free of case-insensitive repeats, keeps what was
      there as a prefix, and leaves the text present. */
  lemma AddEntityKeeps(m: Entities, kind: Kind, text: string, confidence: Option<real>, bbox: Option<Box>)
    requires Complete(m) && forall k :: CaseDistinct(m[k])
    requires AddEntity(m, kind, text, confidence, bbox).Ok?
    ensures var r := AddEntity(m, kind, text, confidence, bbox).value;
      Complete(r) && (forall k :: CaseDistinct(r[k])) &&
      (forall k :: |m[k]| <= |r[k]| && r[k][..|m[k]|] == m[k]) &&
      HasText(r[kind], text)
  {
    var r := AddEntity(m, kind, text, confidence, bbox).value;
    if !HasText(m[kind], text) {
      var xs := r[kind];
      assert xs[|m[kind]|].text == text;
      forall i, j | 0 <= i < j < |xs|
        ensures Lower(xs[i].text) != Lower(xs[j].text)
      {
        if j == |m[kind]| {
          assert xs[i] == m[kind][i];
        }
      }
      assert xs[..|m[kind]|] == m[kind];
    }
  }

  // ---------------------------------------------------------------------------
  // Extraction

  /** A proposal of a whole-text scan: a category and the matched text. */
  datatype Scan = Scan(kind: Kind, text: string)

  /** What is offered to `addEntity`, in order: scan proposals (placed through
      the word map) and words that pass a per-word pattern (with their own
      details). */
  datatype Candidate = Scanned(scan: Scan) | OfWord(kind: Kind, word: Word)

  function KindOf(c: Candidate): Kind {
    match c
    case Scanned(s) => s.kind
    case OfWord(k, _) => k
  }

  function TextOf(c: Candidate): string {
    match c
    case Scanned(s) => s.text
    case OfWord(_, w) => w.text
  }

  function AddCandidate(m: Entities, wm: WordMap, c: Candidate, lookup: Lookup): (r: Result<Entities>)
    requires Complete(m) && Valid(wm)
    ensures lookup == Intended ==> r.Ok?
    ensures r.Ok? ==> Complete(r.value)
  {
    match c
    case Scanned(s) =>
      (match FindBestMatch(wm, s.text, lookup)
       case Err(msg) => Err(msg)
       case Ok(best) =>
         AddEntity(m, s.kind, s.text, best.confidence, best.bbox))
    case OfWord(k, w) => AddEntity(m, k, w.text, Some(w.confidence), Some(w.bbox))
  }

  /** The candidates offered in order; the first failure ends the extraction. */
  function AddAll(m: Entities, wm: WordMap, cs: seq<Candidate>, lookup: Lookup): (r: Result<Entities>)
    requires Complete(m) && Valid(wm)
    ensures lookup == Intended ==> r.Ok?
    decreases |cs|
  {
    if |cs| == 0 then Ok(m)
    else
      match AddCandidate(m, wm, cs[0], lookup)
      case Err(msg) => Err(msg)
      case Ok(m1) =>
        AddAll(m1, wm, cs[1..], lookup)
  }

  /** One candidate keeps the lists repeat-free and prefix-extended, and leaves
      its text present in its category. */
  lemma AddCandidateKeeps(m: Entities, wm: WordMap, c: Candidate, lookup: Lookup)
    requires Complete(m) && Valid(wm) && forall k :: CaseDistinct(m[k])
    requires AddCandidate(m, wm, c, lookup).Ok?
    ensures var r := AddCandidate(m, wm, c, lookup).value;
      Complete(r) && (forall k :: CaseDistinct(r[k])) &&
      (forall k :: |m[k]| <= |r[k]| && r[k][..|m[k]|] == m[k]) &&
      HasText(r[KindOf(c)], TextOf(c))
  {
    match c
    case Scanned(s) =>
      var best := FindBestMatch(wm, s.text, lookup).value;
      AddEntityKeeps(m, s.kind, s.text, best.confidence, best.bbox);
    case OfWord(k, w) =>
      AddEntityKeeps(m, k, w.text, Some(w.confidence), Some(w.bbox));
  }

  /** An entity list only grows: a text present stays present. */
  lemma HasTextPrefix(xs: seq<Found>, ys: seq<Found>, text: string)
    requires |xs| <= |ys| && ys[..|xs|] == xs && HasText(xs, text)
    ensures HasText(ys, text)
  {
    var i :| 0 <= i < |xs| && Lower(xs[i].text) == Lower(text);
    assert ys[i] == xs[i];
  }

  /** After all candidates: the lists stay free of case-insensitive repeats,
      what was there before is kept as a prefix (earlier entities are never
      replaced, so the first occurrence of a text wins), and every candidate's
      text is present in its category. */
  lemma {:induction false} AddAllKeeps(m: Entities, wm: WordMap, cs: seq<Candidate>, lookup: Lookup)
    requires Complete(m) && Valid(wm) && forall k :: CaseDistinct(m[k])
    requires AddAll(m, wm, cs, lookup).Ok?
    ensures var r := AddAll(m, wm, cs, lookup).value;
      Complete(r) && (forall k :: CaseDistinct(r[k])) &&
      (forall k :: |m[k]| <= |r[k]| && r[k][..|m[k]|] == m[k]) &&
      (forall i :: 0 <= i < |cs| ==> HasText(r[KindOf(cs[i])], TextOf(cs[i])))
    decreases |cs|
  {
    if |cs| > 0 {
      var m1 := AddCandidate(m, wm, cs[0], lookup).value;
      AddCandidateKeeps(m, wm, cs[0], lookup);
      AddAllKeeps(m1, wm, cs[1..], lookup);
      var r := AddAll(m, wm, cs, lookup).value;
      assert r == AddAll(m1, wm, cs[1..], lookup).value;
      forall k
        ensures |m[k]| <= |r[k]| && r[k][..|m[k]|] == m[k]
      {
        assert r[k][..|m1[k]|][..|m[k]|] == r[k][..|m[k]|];
      }
      forall i | 0 <= i < |cs|
        ensures HasText(r[KindOf(cs[i])], TextOf(cs[i]))
      {
        if i == 0 {
          HasTextPrefix(m1[KindOf(cs[0])], r[KindOf(cs[0])], TextOf(cs[0]));
        } else {
          assert cs[i] == cs[1..][i - 1];
        }
      }
    }
  }

  /** The per-word patterns, in the order they are tried on each word. */
  const WORD_KINDS: seq<Kind> := [PhoneNumbers, Dates, Emails, Urls, Amounts, Vehicles, CaseNumbers]

  /** The candidates of one word: each per-word category whose test it passes. */
  function WordHits(w: Word, test: (Kind, string) -> bool): (r: seq<Candidate>)
    ensures forall c :: c in r ==> c.OfWord? && c.word == w && c.kind in WORD_KINDS && test(c.kind, w.text)
  {
    var hits := Filter(WORD_KINDS, (k: Kind) => test(k, w.text));
    seq(|hits|, i requires 0 <= i < |hits| => OfWord(hits[i], w))
  }

  function WordCandidates(words: seq<Word>, test: (Kind, string) -> bool): (r: seq<Candidate>)
    ensures forall i :: 0 <= i < |r| ==> r[i].OfWord? && r[i].word in words && test(r[i].kind, r[i].word.text)
    decreases |words|
  {
    if |words| == 0 then [] else WordHits(words[0], test) + WordCandidates(words[1..], test)
  }

  function Scans(ss: seq<Scan>): (r: seq<Candidate>)
    ensures |r| == |ss| && forall i :: 0 <= i < |ss| ==> r[i] == Scanned(ss[i])
  {
    seq(|ss|, i requires 0 <= i < |ss| => Scanned(ss[i]))
  }

  /** Everything offered to `addEntity`, in the order the source offers it: the
      person, organisation and place scans of the whole text, then each word
      against the per-word patterns, then the suspect, alias, witness and
      line-by-line scans. */
  function Offered(words: seq<Word>, early: seq<Scan>, test: (Kind, string) -> bool, late: seq<Scan>): (r: seq<Candidate>)
    ensures |r| >= |early| + |late|
    ensures forall i :: 0 <= i < |early| ==> r[i] == Scanned(early[i])
    ensures forall i :: 0 <= i < |late| ==> r[|r| - |late| + i] == Scanned(late[i])
  {
    Scans(early) + WordCandidates(words, test) + Scans(late)
  }

  /** `extractEntities`. Without a word array every category is empty;
      otherwise the word map is built and the offered candidates are added in
      order. */
  function ExtractEntities(words: Option<seq<Word>>, early: seq<Scan>, test: (Kind, string) -> bool,
                           late: seq<Scan>, lookup: Lookup): (r: Result<Entities>)
    ensures words.None? ==> r == Ok(EMPTY)
    ensures lookup == Intended ==> r.Ok?
  {
    match words
    case None => Ok(EMPTY)
    case Some(ws) =>
      EmptyComplete();
      AddAll(EMPTY, BuildWordMap(ws), Offered(ws, early, test, late), lookup)
  }

  lemma ExtractBase(words: seq<Word>, early: seq<Scan>, test: (Kind, string) -> bool, late: seq<Scan>)
    returns (r: Entities, cs: seq<Candidate>)
    ensures ExtractEntities(Some(words), early, test, late, Intended) == Ok(r)
    ensures cs == Offered(words, early, test, late)
    ensures Complete(r) && forall k :: CaseDistinct(r[k])
    ensures forall i :: 0 <= i < |cs| ==> HasText(r[KindOf(cs[i])], TextOf(cs[i]))
  {
    EmptyComplete();
    assert forall k :: CaseDistinct(EMPTY[k]);
    cs := Offered(words, early, test, late);
    r := AddAll(EMPTY, BuildWordMap(words), cs, Intended).value;
    AddAllKeeps(EMPTY, BuildWordMap(words), cs, Intended);
  }

  /** The extracted lists have all twelve categories, none with two entities of
      the same text up to letter case. */
  lemma ExtractDistinct(words: seq<Word>, early: seq<Scan>, test: (Kind, string) -> bool, late: seq<Scan>)
    ensures var r := ExtractEntities(Some(words), early, test, late, Intended).value;
      Complete(r) && forall k :: CaseDistinct(r[k])
  {
    var r, cs := ExtractBase(words, early, test, late);
  }

  /** Every text a whole-text scan proposed is present, up to letter case, in
      its category. */
  lemma ExtractScansPresent(words: seq<Word>, early: seq<Scan>, test: (Kind, string) -> bool, late: seq<Scan>)
    ensures var r := ExtractEntities(Some(words), early, test, late, Intended).value;
      Complete(r) &&
      (forall i :: 0 <= i < |early| ==> HasText(r[early[i].kind], early[i].text)) &&
      (forall i :: 0 <= i < |late| ==> HasText(r[late[i].kind], late[i].text))
  {
    var r, cs := ExtractBase(words, early, test, late);
    ScansPresentIn(r, words, early, test, late);
  }

  lemma {:induction false} ScansPresentIn(r: Entities, words: seq<Word>, early: seq<Scan>, test: (Kind, string) -> bool,
                                          late: seq<Scan>)
    requires Complete(r)
    requires var cs := Offered(words, early, test, late);
      forall i :: 0 <= i < |cs| ==> HasText(r[KindOf(cs[i])], TextOf(cs[i]))
    ensures forall i :: 0 <= i < |early| ==> HasText(r[early[i].kind], early[i].text)
    ensures forall i :: 0 <= i < |late| ==> HasText(r[late[i].kind], late[i].text)
  {
    var cs := Offered(words, early, test, late);
    forall i | 0 <= i < |early|
      ensures HasText(r[early[i].kind], early[i].text)
    {
      assert cs[i] == Scanned(early[i]);
    }
    forall i | 0 <= i < |late|
      ensures HasText(r[late[i].kind], late[i].text)
    {
      assert cs[|cs| - |late| + i] == Scanned(late[i]);
    }
  }

  /** Every word that passes a per-word pattern is present, up to letter case,
      in that pattern's category. */
  lemma ExtractWordsPresent(words: seq<Word>, early: seq<Scan>, test: (Kind, string) -> bool, late: seq<Scan>)
    ensures var r := ExtractEntities(Some(words), early, test, late, Intended).value;
      Complete(r) &&
      forall w, k :: w in words && k in WORD_KINDS && test(k, w.text) ==> HasText(r[k], w.text)
  {
    var r, cs := ExtractBase(words, early, test, late);
    WordsPresentIn(r, words, early, test, late);
  }

  lemma {:induction false} WordsPresentIn(r: Entities, words: seq<Word>, early: seq<Scan>, test: (Kind, string) -> bool,
                                          late: seq<Scan>)
    requires Complete(r)
    requires var cs := Offered(words, early, test, late);
      forall i :: 0 <= i < |cs| ==> HasText(r[KindOf(cs[i])], TextOf(cs[i]))
    ensures forall w, k :: w in words && k in WORD_KINDS && test(k, w.text) ==> HasText(r[k], w.text)
  {
    var cs := Offered(words, early, test, late);
    forall w, k | w in words && k in WORD_KINDS && test(k, w.text)
      ensures HasText(r[k], w.text)
    {
      WordCandidatesCover(words, test, w, k);
      OfferedWord(words, early, test, late, OfWord(k, w));
      PresentOf(r, cs, OfWord(k, w));
    }
  }

  lemma {:induction false} OfferedWord(words: seq<Word>, early: seq<Scan>, test: (Kind, string) -> bool, late: seq<Scan>,
                                       c: Candidate)
    requires c in WordCandidates(words, test)
    ensures c in Offered(words, early, test, late)
  {
    var wc := WordCandidates(words, test);
    var i :| 0 <= i < |wc| && wc[i] == c;
    assert Offered(words, early, test, late)[|early| + i] == c;
  }

  lemma {:induction false} PresentOf(r: Entities, cs: seq<Candidate>, c: Candidate)
    requires Complete(r) && c in cs
    requires forall i :: 0 <= i < |cs| ==> HasText(r[KindOf(cs[i])], TextOf(cs[i]))
    ensures HasText(r[KindOf(c)], TextOf(c))
  {
    var i :| 0 <= i < |cs| && cs[i] == c;
  }

  lemma {:induction false} WordCandidatesCover(words: seq<Word>, test: (Kind, string) -> bool, w: Word, k: Kind)
    requires w in words && k in WORD_KINDS && test(k, w.text)
    ensures OfWord(k, w) in WordCandidates(words, test)
    decreases |words|
  {
    assert WordCandidates(words, test) == WordHits(words[0], test) + WordCandidates(words[1..], test);
    if words[0] == w {
      var hits := Filter(WORD_KINDS, (k: Kind) => test(k, w.text));
      assert k in hits;
      var j :| 0 <= j < |hits| && hits[j] == k;
      assert WordHits(w, test)[j] == OfWord(k, w);
    } else {
      assert w in words[1..];
      WordCandidatesCover(words[1..], test, w, k);
    }
  }

  /** As written, a text that trims and lower-cases to `constructor` and is no
      known word is found on the word map's inherited members: the value found
      has neither a confidence nor a box. */
  lemma InheritedKeyFound(m: WordMap, text: string)
    requires Valid(m) && Lower(Trim(text)) == "constructor" && "constructor" !in m.vals
    ensures FindBestMatch(m, text, AsWritten) == Ok(BestMatch(Trim(text), None, None))
  {
  }

  /** As written, a whole-text scan that proposes such a text, when no word
      spells it, ends the extraction with a failure: the inherited value has no
      box to convert. */
  lemma InheritedKeyFails(words: seq<Word>, kind: Kind, text: string, test: (Kind, string) -> bool, late: seq<Scan>)
    requires Lower(Trim(text)) == "constructor" && !Keyed(words, "constructor")
    ensures ExtractEntities(Some(words), [Scan(kind, text)], test, late, AsWritten).Err?
  {
    var wm := BuildWordMap(words);
    var cs := Offered(words, [Scan(kind, text)], test, late);
    InheritedKeyFound(wm, text);
    EmptyComplete();
    UnboxedScanFails(EMPTY, wm, Scan(kind, text));
    assert cs[0] == Scanned(Scan(kind, text));
  }

  /** A scanned text that is new to its category and is placed without a box
      makes the candidate fail. */
  lemma UnboxedScanFails(m: Entities, wm: WordMap, s: Scan)
    requires Complete(m) && Valid(wm) && !HasText(m[s.kind], s.text)
    requires FindBestMatch(wm, s.text, AsWritten).Ok? && FindBestMatch(wm, s.text, AsWritten).value.bbox.None?
    ensures AddCandidate(m, wm, Scanned(s), AsWritten).Err?
  {
  }

  /** The text `constructor` is such a text. */
  lemma ConstructorKey()
    ensures Lower(Trim("constructor")) == "constructor"
  {
    TrimUnchanged("constructor");
    ConstructorLower();
  }

  lemma ConstructorLower()
    ensures Lower("constructor") == "constructor"
  {
    assert forall i :: 0 <= i < |"constructor"| ==> !IsUpper("constructor"[i]) by {
      assert forall i :: 0 <= i < |"constructor"| ==> IsLowerLetter("constructor"[i]);
    }
    LowerUnchanged("constructor");
  }
}

=== FILE: overlap.dfy ===
/** The entity-overlap ratio shared by event linking and cross-agency matching.

    Both services compare two entity collections category by category over
    persons, places, organizations and phone numbers (dates are not compared).
    Each side's texts are lower-cased and trimmed and collected into a set; a
    category contributes the size of the intersection to the matches and the
    size of the larger set to the total. */
module Overlap {
  import opened Strings
  import opened Seqs
  import opened EventModel
  import opened DocumentModel

  /** The texts of an event's linked entities. */
  function LinkedTexts(l: LinkedEntities): (t: EntityTexts)
    ensures forall c :: |t.Get(c)| == |l.Get(c)|
  {
    EntityTexts(
      Map(l.persons, (e: LinkedEntity) => e.text),
      Map(l.places, (e: LinkedEntity) => e.text),
      Map(l.organizations, (e: LinkedEntity) => e.text),
      Map(l.phoneNumbers, (e: LinkedEntity) => e.text),
      Map(l.dates, (e: LinkedEntity) => e.text))
  }

  /** The categories the overlap looks at, in the order it visits them. */
  const COMPARED: seq<Category> := [Persons, Places, Organizations, PhoneNumbers]

  /** `text.toLowerCase().trim()`. */
  function Norm(t: string): string {
    Trim(Lower(t))
  }

  /** `new Set(xs.map(norm))`, in insertion order. */
  function NormSet(xs: seq<string>): (r: seq<string>)
    ensures NoDups(r)
  {
    Dedup(Map(xs, Norm))
  }

  /** `[...set1].filter(x => set2.has(x))`. */
  function Common(d1: seq<string>, d2: seq<string>): (r: seq<string>)
    ensures |r| <= |d1|
    ensures forall i :: 0 <= i < |r| ==> r[i] in d1 && r[i] in d2
    ensures forall x :: x in d1 && x in d2 ==> x in r
  {
    Filter(d1, (x: string) => x in d2)
  }

  datatype Match = Match(category: Category, text: string)

  /** Each text paired with its category. */
  function Tag(c: Category, xs: seq<string>): (r: seq<Match>)
    ensures |r| == |xs|
    ensures forall i :: 0 <= i < |r| ==> r[i] == Match(c, xs[i])
  {
    if |xs| == 0 then [] else [Match(c, xs[0])] + Tag(c, xs[1..])
  }

  lemma TagMember(c: Category, xs: seq<string>, d: Category, x: string)
    ensures Match(d, x) in Tag(c, xs) <==> d == c && x in xs
  {
    var r := Tag(c, xs);
    if x in xs && d == c {
      var k :| 0 <= k < |xs| && xs[k] == x;
      assert r[k] == Match(c, x);
    }
  }

  /** Running totals over a list of categories. */
  datatype Tally = Tally(matches: nat, total: nat, matched: seq<Match>)

  function Max(a: nat, b: nat): nat { if a < b then b else a }

  function Tally1(c: Category, e1: EntityTexts, e2: EntityTexts): (t: Tally)
    ensures t.matches <= t.total && |t.matched| == t.matches
    ensures forall i :: 0 <= i < |t.matched| ==> t.matched[i].category == c
  {
    var s1 := NormSet(e1.Get(c));
    var s2 := NormSet(e2.Get(c));
    var both := Common(s1, s2);
    Tally(|both|, Max(|s1|, |s2|), Tag(c, both))
  }

  function TallyOver(cats: seq<Category>, e1: EntityTexts, e2: EntityTexts): (t: Tally)
    ensures t.matches <= t.total
    ensures |t.matched| == t.matches
    ensures forall i :: 0 <= i < |t.matched| ==> t.matched[i].category in cats
  {
    if |cats| == 0 then Tally(0, 0, [])
    else
      var h := Tally1(cats[0], e1, e2);
      var rest := TallyOver(cats[1..], e1, e2);
      Tally(h.matches + rest.matches, h.total + rest.total, h.matched + rest.matched)
  }

  /** `m / t` for counts with `m <= t`. */
  function Ratio(m: nat, t: nat): (q: real)
    requires 0 < t && m <= t
    ensures 0.0 <= q <= 1.0
    ensures q > 0.0 <==> m > 0
  {
    var q := m as real / t as real;
    assert q * t as real == m as real;
    q
  }

  datatype OverlapResult = OverlapResult(score: real, matched: seq<Match>, totalMatches: nat)

  /** `calculateEntityOverlap`: the match ratio, the matched (category, text)
      pairs and their number. */
  function EntityOverlap(e1: EntityTexts, e2: EntityTexts): (r: OverlapResult)
    ensures 0.0 <= r.score <= 1.0
    ensures |r.matched| == r.totalMatches
    ensures r.score > 0.0 <==> r.totalMatches > 0
    ensures forall i :: 0 <= i < |r.matched| ==> r.matched[i].category != Dates
  {
    var t := TallyOver(COMPARED, e1, e2);
    var score := if t.total > 0 then Ratio(t.matches, t.total) else 0.0;
    OverlapResult(score, t.matched, t.matches)
  }

  /** The overlap ratio alone, as event linking uses it. */
  function OverlapScore(e1: EntityTexts, e2: EntityTexts): (s: real)
    ensures 0.0 <= s <= 1.0
  {
    EntityOverlap(e1, e2).score
  }

  /** A matched text is the normalised form of an entity on each side, and every
      normalised text the two sides share in a compared category is matched. */
  lemma MatchedIff(e1: EntityTexts, e2: EntityTexts, c: Category, x: string)
    requires c in COMPARED
    ensures Match(c, x) in EntityOverlap(e1, e2).matched <==>
      (exists i :: 0 <= i < |e1.Get(c)| && Norm(e1.Get(c)[i]) == x) &&
      (exists j :: 0 <= j < |e2.Get(c)| && Norm(e2.Get(c)[j]) == x)
  {
    TallyMatchedIff(COMPARED, e1, e2, c, x);
    NormSetMember(e1.Get(c), x);
    NormSetMember(e2.Get(c), x);
  }

  lemma Tally1MatchedIff(d: Category, e1: EntityTexts, e2: EntityTexts, c: Category, x: string)
    ensures Match(c, x) in Tally1(d, e1, e2).matched <==>
      d == c && x in NormSet(e1.Get(c)) && x in NormSet(e2.Get(c))
  {
    TagMember(d, Common(NormSet(e1.Get(d)), NormSet(e2.Get(d))), c, x);
  }

  lemma {:induction false} TallyMatchedIff(cats: seq<Category>, e1: EntityTexts, e2: EntityTexts, c: Category, x: string)
    requires c in cats
    ensures Match(c, x) in TallyOver(cats, e1, e2).matched <==>
      x in NormSet(e1.Get(c)) && x in NormSet(e2.Get(c))
  {
    var h := Tally1(cats[0], e1, e2);
    var rest := TallyOver(cats[1..], e1, e2);
    var m := Match(c, x);
    assert TallyOver(cats, e1, e2).matched == h.matched + rest.matched;
    assert m in h.matched + rest.matched <==> m in h.matched || m in rest.matched;
    Tally1MatchedIff(cats[0], e1, e2, c, x);
    if c in cats[1..] {
      TallyMatchedIff(cats[1..], e1, e2, c, x);
    } else {
      NotTallied(cats[1..], e1, e2, m);
    }
  }

  lemma NotTallied(cats: seq<Category>, e1: EntityTexts, e2: EntityTexts, m: Match)
    requires m.category !in cats
    ensures m !in TallyOver(cats, e1, e2).matched
  {
  }

  /** The normalised-set of a category, in the terms of `NormSet`'s source list. */
  lemma NormSetMember(xs: seq<string>, x: string)
    ensures x in NormSet(xs) <==> exists i :: 0 <= i < |xs| && Norm(xs[i]) == x
  {
    var m := Map(xs, Norm);
    if x in NormSet(xs) {
      var k :| 0 <= k < |NormSet(xs)| && NormSet(xs)[k] == x;
      var j :| 0 <= j < |m| && m[j] == x;
      assert Norm(xs[j]) == x;
    } else {
      forall i | 0 <= i < |xs|
        ensures Norm(xs[i]) != x
      {
        assert m[i] == Norm(xs[i]);
        assert m[i] in NormSet(xs);
      }
    }
  }

  lemma FilterNoDups(d1: seq<string>, d2: seq<string>)
    requires NoDups(d1)
    ensures NoDups(Common(d1, d2))
  {
    if |d1| > 0 {
      FilterNoDups(d1[1..], d2);
      assert NoDups(d1[1..]);
    }
  }

  /** Both orders of intersecting two duplicate-free lists have the same size. */
  lemma CommonCardSymmetric(d1: seq<string>, d2: seq<string>)
    requires NoDups(d1) && NoDups(d2)
    ensures |Common(d1, d2)| == |Common(d2, d1)|
  {
    var a := Common(d1, d2);
    var b := Common(d2, d1);
    FilterNoDups(d1, d2);
    FilterNoDups(d2, d1);
    DistinctCard(a);
    DistinctCard(b);
    assert (set x | x in a) == (set x | x in b);
  }

  lemma {:induction false} TallySymmetric(cats: seq<Category>, e1: EntityTexts, e2: EntityTexts)
    ensures TallyOver(cats, e1, e2).matches == TallyOver(cats, e2, e1).matches
    ensures TallyOver(cats, e1, e2).total == TallyOver(cats, e2, e1).total
  {
    if |cats| > 0 {
      TallySymmetric(cats[1..], e1, e2);
      Tally1Symmetric(cats[0], e1, e2);
    }
  }

  lemma Tally1Symmetric(c: Category, e1: EntityTexts, e2: EntityTexts)
    ensures Tally1(c, e1, e2).matches == Tally1(c, e2, e1).matches
    ensures Tally1(c, e1, e2).total == Tally1(c, e2, e1).total
  {
    CommonCardSymmetric(NormSet(e1.Get(c)), NormSet(e2.Get(c)));
  }

  /** Swapping the two sides changes neither the score nor the number of matches. */
  lemma OverlapSymmetric(e1: EntityTexts, e2: EntityTexts)
    ensures EntityOverlap(e1, e2).score == EntityOverlap(e2, e1).score
    ensures EntityOverlap(e1, e2).totalMatches == EntityOverlap(e2, e1).totalMatches
  {
    TallySymmetric(COMPARED, e1, e2);
  }

  lemma {:induction false} TallyIgnoresOthers(cats: seq<Category>, e1: EntityTexts, e1': EntityTexts, e2: EntityTexts, e2': EntityTexts)
    requires forall c :: c in cats ==> e1.Get(c) == e1'.Get(c) && e2.Get(c) == e2'.Get(c)
    ensures TallyOver(cats, e1, e2) == TallyOver(cats, e1', e2')
  {
    if |cats| > 0 {
      TallyIgnoresOthers(cats[1..], e1, e1', e2, e2');
    }
  }

  /** Dates take no part in the comparison, on either side. */
  lemma OverlapIgnoresDates(e1: EntityTexts, e2: EntityTexts, d1: seq<string>, d2: seq<string>)
    ensures EntityOverlap(e1.(dates := d1), e2.(dates := d2)) == EntityOverlap(e1, e2)
  {
    DatesNotCompared(e1, d1);
    DatesNotCompared(e2, d2);
    OverlapOfSameCompared(e1.(dates := d1), e1, e2.(dates := d2), e2);
  }

  lemma DatesNotCompared(e: EntityTexts, d: seq<string>)
    ensures forall c :: c in COMPARED ==> e.(dates := d).Get(c) == e.Get(c)
  {
  }

  /** Sides that agree on the compared categories have the same overlap. */
  lemma OverlapOfSameCompared(e1: EntityTexts, e1': EntityTexts, e2: EntityTexts, e2': EntityTexts)
    requires forall c :: c in COMPARED ==> e1.Get(c) == e1'.Get(c) && e2.Get(c) == e2'.Get(c)
    ensures EntityOverlap(e1, e2) == EntityOverlap(e1', e2')
  {
    TallyIgnoresOthers(COMPARED, e1, e1', e2, e2');
  }

  /** With no entity at all in the four compared categories the score is 0. */
  lemma NoEntitiesNoOverlap(e1: EntityTexts, e2: EntityTexts)
    requires forall c :: c in COMPARED ==> e1.Get(c) == [] && e2.Get(c) == []
    ensures EntityOverlap(e1, e2).score == 0.0
    ensures EntityOverlap(e1, e2).matched == []
  {
    EmptyTally(COMPARED, e1, e2);
  }

  lemma {:induction false} EmptyTally(cats: seq<Category>, e1: EntityTexts, e2: EntityTexts)
    requires forall c :: c in cats ==> e1.Get(c) == [] && e2.Get(c) == []
    ensures TallyOver(cats, e1, e2) == Tally(0, 0, [])
  {
    if |cats| > 0 {
      EmptyTally(cats[1..], e1, e2);
      assert NormSet([]) == [];
    }
  }
}

=== FILE: prompt.dfy ===
/** Choosing the instruction text for the language model: an administrator's
    override, else the agency's own template, else the default template, else
    the built-in prompt. The template store is a list in lookup order. */
module PromptResolver {
  import opened Wrappers

  datatype Template = Template(agency: string, template: string, isDefault: bool)

  const DEFAULT_PROMPT: string :=
    "\nYou are an intelligence analysis system.\n1. Extract names, phone numbers, locations\n" +
    "2. Generate a short neutral summary\n3. Return structured output\n"

  /** The first template of the agency, as a lookup returns it. */
  function FirstOfAgency(store: seq<Template>, agency: string): (r: Option<Template>)
    ensures r.Some? ==> r.value in store && r.value.agency == agency
    ensures r.None? ==> forall t :: t in store ==> t.agency != agency
  {
    if |store| == 0 then None
    else if store[0].agency == agency then Some(store[0])
    else FirstOfAgency(store[1..], agency)
  }

  /** The lookup returns the earliest template of the agency: the one at `i`
      when no template before it belongs to the agency. */
  lemma {:induction false} FirstOfAgencyIsEarliest(store: seq<Template>, agency: string, i: nat)
    requires i < |store| && store[i].agency == agency
    requires forall j :: 0 <= j < i ==> store[j].agency != agency
    ensures FirstOfAgency(store, agency) == Some(store[i])
    decreases i
  {
    if i > 0 {
      FirstOfAgencyIsEarliest(store[1..], agency, i - 1);
    }
  }

  /** The first template marked as the default. */
  function FirstDefault(store: seq<Template>): (r: Option<Template>)
    ensures r.Some? ==> r.value in store && r.value.isDefault
    ensures r.None? ==> forall t :: t in store ==> !t.isDefault
  {
    if |store| == 0 then None
    else if store[0].isDefault then Some(store[0])
    else FirstDefault(store[1..])
  }

  /** `resolvePrompt`. A non-empty override wins; then the agency's template
      verbatim; then the default template's text when non-empty; then the
      built-in prompt. */
  function ResolvePrompt(store: seq<Template>, agency: string, adminOverride: Option<string>): (r: string)
    ensures adminOverride.Some? && adminOverride.value != "" ==> r == adminOverride.value
    ensures !(adminOverride.Some? && adminOverride.value != "") && FirstOfAgency(store, agency).Some? ==>
      r == FirstOfAgency(store, agency).value.template
    ensures !(adminOverride.Some? && adminOverride.value != "") && FirstOfAgency(store, agency).None? ==>
      r != "" &&
      (r == DEFAULT_PROMPT || exists t :: t in store && t.isDefault && t.template == r)
  {
    if adminOverride.Some? && adminOverride.value != "" then adminOverride.value
    else match FirstOfAgency(store, agency)
      case Some(t) => t.template
      case None =>
        match FirstDefault(store)
        case Some(d) => if d.template != "" then d.template else DEFAULT_PROMPT
        case None => DEFAULT_PROMPT
  }

  /** The last two tiers: with no override and no template of the agency, the
      first default template's text is used when it has any, and the built-in
      prompt appears exactly when there is no such text (or the text is the
      built-in prompt itself). */
  lemma {:induction false} ResolveFallsThrough(store: seq<Template>, agency: string, adminOverride: Option<string>)
    requires !(adminOverride.Some? && adminOverride.value != "")
    requires forall t :: t in store ==> t.agency != agency
    ensures ResolvePrompt(store, agency, adminOverride) == DEFAULT_PROMPT <==>
      (FirstDefault(store).None? || FirstDefault(store).value.template == "" ||
       FirstDefault(store).value.template == DEFAULT_PROMPT)
    ensures FirstDefault(store).Some? && FirstDefault(store).value.template != "" ==>
      ResolvePrompt(store, agency, adminOverride) == FirstDefault(store).value.template
  {
    assert FirstOfAgency(store, agency).None?;
  }

  /** The override, when given, makes the store irrelevant. */
  lemma OverrideIgnoresStore(s1: seq<Template>, s2: seq<Template>, a1: string, a2: string, o: string)
    requires o != ""
    ensures ResolvePrompt(s1, a1, Some(o)) == ResolvePrompt(s2, a2, Some(o)) == o
  {
  }
}

=== FILE: report.dfy ===
/** The operational report: per-day upload timeline, totals, the newest
    uploads, the top uploaders, and the text details of the listed uploads.

    The three aggregation pipelines (uploaded documents, OCR documents,
    transcriptions) are inputs: each yields a `Facet` with its count, its
    per-day counts, its newest entries and its busiest uploaders. */
module Report {
  import opened Wrappers
  import opened Strings
  import opened Seqs
  import opened Sorting
  import opened EventModel
  import opened DocumentModel
  import OcrLayout

  const RECENT_DOC_LIMIT: nat := 10
  const TOP_UPLOADERS: nat := 5
  const SNIPPET_LENGTH: nat := 400

  // ---------------------------------------------------------------------------
  // Days and labels
  // ---------------------------------------------------------------------------

  /** A calendar day as the pipelines' `%Y-%m-%d` grouping produces it. */
  datatype Day = Day(year: nat, month: nat, day: nat)

  predicate ValidDay(d: Day) {
    d.year < 10000 && 1 <= d.month <= 12 && 1 <= d.day <= 31
  }

  function Zeros(n: nat): (r: string)
    ensures |r| == n && forall i :: 0 <= i < n ==> r[i] == '0'
  {
    if n == 0 then "" else "0" + Zeros(n - 1)
  }

  predicate AllDigits(s: string) {
    forall i :: 0 <= i < |s| ==> '0' <= s[i] <= '9'
  }

  /** `n` in decimal, left-padded with zeros to `width` digits. */
  function Pad(n: nat, width: nat): (r: string)
    ensures AllDigits(r) && |r| > 0
    ensures |r| == if |NatToString(n)| < width then width else |NatToString(n)|
    ensures r[|r| - |NatToString(n)|..] == NatToString(n)
    ensures forall i :: 0 <= i < |r| - |NatToString(n)| ==> r[i] == '0'
  {
    var digits := NatToString(n);
    if |digits| < width then Zeros(width - |digits|) + digits else digits
  }

  /** The number a string of decimal digits denotes. */
  function DigitsValue(s: string): nat
    requires AllDigits(s)
  {
    if |s| == 0 then 0 else DigitsValue(s[..|s| - 1]) * 10 + (s[|s| - 1] as int - '0' as int)
  }

  /** Decimal rendering is read back as the same number. */
  lemma {:induction false} NatToStringValue(n: nat)
    ensures DigitsValue(NatToString(n)) == n
  {
    var s := NatToString(n);
    if n >= 10 {
      NatToStringValue(n / 10);
      assert s[..|s| - 1] == NatToString(n / 10);
    }
  }

  /** Leading zeros do not change the value. */
  lemma {:induction false} ZerosValue(k: nat, d: string)
    requires AllDigits(d)
    ensures AllDigits(Zeros(k) + d) && DigitsValue(Zeros(k) + d) == DigitsValue(d)
    decreases |d|, k
  {
    var s := Zeros(k) + d;
    if |d| == 0 {
      assert s == Zeros(k);
      if k > 0 {
        assert s[..|s| - 1] == Zeros(k - 1) + "";
        ZerosValue(k - 1, "");
      }
    } else {
      assert s[..|s| - 1] == Zeros(k) + d[..|d| - 1];
      ZerosValue(k, d[..|d| - 1]);
    }
  }

  /** Padding keeps the number: the padded digits read back as `n`. */
  lemma PadValue(n: nat, width: nat)
    ensures DigitsValue(Pad(n, width)) == n
  {
    var digits := NatToString(n);
    NatToStringValue(n);
    if |digits| < width {
      assert Pad(n, width) == Zeros(width - |digits|) + digits;
      ZerosValue(width - |digits|, digits);
    } else {
      assert Pad(n, width) == digits;
    }
  }

  /** `%Y-%m-%d`. */
  function IsoDate(d: Day): string {
    Pad(d.year, 4) + "-" + Pad(d.month, 2) + "-" + Pad(d.day, 2)
  }

  /** The chronological position of a valid day. */
  function DayKey(d: Day): real {
    (d.year * 10000 + d.month * 100 + d.day) as real
  }

  /** `s.split(c)`. */
  function SplitOn(s: string, c: char): (r: seq<string>)
    ensures |r| >= 1
  {
    if |s| == 0 then [""]
    else if s[0] == c then [""] + SplitOn(s[1..], c)
    else var rest := SplitOn(s[1..], c); [[s[0]] + rest[0]] + rest[1..]
  }

  lemma {:induction false} SplitOnPlain(a: string, c: char)
    requires forall i :: 0 <= i < |a| ==> a[i] != c
    ensures SplitOn(a, c) == [a]
  {
    if |a| > 0 {
      SplitOnPlain(a[1..], c);
      assert [a[0]] + a[1..] == a;
    }
  }

  lemma {:induction false} SplitOnJoin(a: string, c: char, t: string)
    requires forall i :: 0 <= i < |a| ==> a[i] != c
    ensures SplitOn(a + [c] + t, c) == [a] + SplitOn(t, c)
  {
    if |a| == 0 {
      assert a + [c] + t == [c] + t;
      assert ([c] + t)[1..] == t;
    } else {
      SplitOnJoin(a[1..], c, t);
      assert (a + [c] + t)[1..] == a[1..] + [c] + t;
      assert [a[0]] + a[1..] == a;
    }
  }

  /** `formatTimelineLabel`: the third and second `-`-separated parts as
      "day/month"; "" for an empty date. A missing part reads "undefined". */
  function FormatTimelineLabel(iso: string): string {
    if iso == "" then ""
    else
      var parts := SplitOn(iso, '-');
      (if |parts| > 2 then parts[2] else "undefined") + "/" + (if |parts| > 1 then parts[1] else "undefined")
  }

  /** A pipeline date is labelled "DD/MM". */
  lemma LabelOfIsoDate(d: Day)
    ensures FormatTimelineLabel(IsoDate(d)) == Pad(d.day, 2) + "/" + Pad(d.month, 2)
  {
    LabelOfDigitParts(Pad(d.year, 4), Pad(d.month, 2), Pad(d.day, 2));
  }

  /** Three digit runs joined by `-` are labelled by the third and second. */
  lemma LabelOfDigitParts(y: string, m: string, dd: string)
    requires |y| > 0 && AllDigits(y) && AllDigits(m) && AllDigits(dd)
    ensures FormatTimelineLabel(y + "-" + m + "-" + dd) == dd + "/" + m
  {
    assert y + "-" + m + "-" + dd == y + "-" + (m + "-" + dd);
    SplitOnJoin(y, '-', m + "-" + dd);
    SplitOnJoin(m, '-', dd);
    SplitOnPlain(dd, '-');
    assert [y] + ([m] + [dd]) == [y, m, dd];
  }

  // ---------------------------------------------------------------------------
  // Grouping by key, in first-seen order
  // ---------------------------------------------------------------------------

  /** A key with a running total (`Map.set(k, (map.get(k) || 0) + n)`). */
  datatype Pair<K> = Pair(key: K, total: nat)

  function Keys<K>(ps: seq<Pair<K>>): (r: seq<K>)
    ensures |r| == |ps|
    ensures forall i :: 0 <= i < |ps| ==> r[i] == ps[i].key
  {
    if |ps| == 0 then [] else [ps[0].key] + Keys(ps[1..])
  }

  /** The sum of the amounts recorded under `k`. */
  function SumFor<K(==)>(rows: seq<Pair<K>>, k: K): nat {
    if |rows| == 0 then 0
    else SumFor(rows[..|rows| - 1], k) + (if rows[|rows| - 1].key == k then rows[|rows| - 1].total else 0)
  }

  function IndexOf<K(==)>(ps: seq<Pair<K>>, k: K): (r: Option<nat>)
    ensures r.Some? ==> r.value < |ps| && ps[r.value].key == k
    ensures r.None? ==> k !in Keys(ps)
  {
    if |ps| == 0 then None
    else if ps[0].key == k then Some(0)
    else match IndexOf(ps[1..], k)
      case None => None
      case Some(i) => Some(i + 1)
  }

  /** Adds one row to the map: to its key's total, or as a new last key. */
  function AddRow<K(==)>(acc: seq<Pair<K>>, row: Pair<K>): seq<Pair<K>> {
    match IndexOf(acc, row.key)
    case Some(i) => acc[i := Pair(row.key, acc[i].total + row.total)]
    case None => acc + [row]
  }

  /** The rows grouped by key, keys in first-seen order. */
  function Group<K(==)>(rows: seq<Pair<K>>): seq<Pair<K>> {
    if |rows| == 0 then [] else AddRow(Group(rows[..|rows| - 1]), rows[|rows| - 1])
  }

  /** No key occurs twice. */
  predicate DistinctKeys<K(==)>(ps: seq<Pair<K>>) {
    forall i, j :: 0 <= i < j < |ps| ==> ps[i].key != ps[j].key
  }

  /** Each key appears once, exactly the keys of the rows appear, and each
      total is the sum of its key's rows. */
  lemma {:induction false} GroupFacts<K>(rows: seq<Pair<K>>)
    ensures DistinctKeys(Group(rows))
    ensures forall k :: k in Keys(Group(rows)) <==> k in Keys(rows)
    ensures forall p :: p in Group(rows) ==> p.total == SumFor(rows, p.key)
  {
    if |rows| > 0 {
      var init := rows[..|rows| - 1];
      var row := rows[|rows| - 1];
      GroupFacts(init);
      assert rows == init + [row];
      assert Group(rows) == AddRow(Group(init), row);
      AddRowFacts(init, row, Group(init));
    }
  }

  /** Adding a row to a grouping of `init` groups `init + [row]`. */
  lemma AddRowFacts<K>(init: seq<Pair<K>>, row: Pair<K>, acc: seq<Pair<K>>)
    requires DistinctKeys(acc) && (forall k :: k in Keys(acc) <==> k in Keys(init))
    requires forall p :: p in acc ==> p.total == SumFor(init, p.key)
    ensures var r := AddRow(acc, row);
      DistinctKeys(r) && (forall k :: k in Keys(r) <==> k in Keys(init + [row])) &&
      (forall p :: p in r ==> p.total == SumFor(init + [row], p.key))
  {
    match IndexOf(acc, row.key)
    case Some(i) =>
      assert AddRow(acc, row) == acc[i := Pair(row.key, acc[i].total + row.total)];
      AddExisting(init, row, acc, i);
    case None =>
      assert AddRow(acc, row) == acc + [row];
      AddNew(init, row, acc);
  }

  lemma AddExisting<K>(init: seq<Pair<K>>, row: Pair<K>, acc: seq<Pair<K>>, i: nat)
    requires DistinctKeys(acc) && (forall k :: k in Keys(acc) <==> k in Keys(init))
    requires forall p :: p in acc ==> p.total == SumFor(init, p.key)
    requires i < |acc| && acc[i].key == row.key
    ensures var r := acc[i := Pair(row.key, acc[i].total + row.total)];
      DistinctKeys(r) && (forall k :: k in Keys(r) <==> k in Keys(init + [row])) &&
      (forall p :: p in r ==> p.total == SumFor(init + [row], p.key))
  {
    var r := acc[i := Pair(row.key, acc[i].total + row.total)];
    var rows := init + [row];
    assert rows[..|rows| - 1] == init;
    assert Keys(r) == Keys(acc);
    assert Keys(rows) == Keys(init) + [row.key];
    assert row.key in Keys(acc) by {
      assert Keys(acc)[i] == row.key;
    }
    forall p | p in r
      ensures p.total == SumFor(rows, p.key)
    {
      var j :| 0 <= j < |r| && r[j] == p;
      if j != i {
        assert acc[j] in acc;
      } else {
        assert acc[i] in acc;
      }
    }
  }

  lemma AddNew<K>(init: seq<Pair<K>>, row: Pair<K>, acc: seq<Pair<K>>)
    requires DistinctKeys(acc) && (forall k :: k in Keys(acc) <==> k in Keys(init))
    requires forall p :: p in acc ==> p.total == SumFor(init, p.key)
    requires row.key !in Keys(acc)
    ensures var r := acc + [row];
      DistinctKeys(r) && (forall k :: k in Keys(r) <==> k in Keys(init + [row])) &&
      (forall p :: p in r ==> p.total == SumFor(init + [row], p.key))
  {
    var rows := init + [row];
    assert Keys(acc + [row]) == Keys(acc) + [row.key];
    assert Keys(rows) == Keys(init) + [row.key];
    AddNewDistinct(acc, row);
    AddNewTotals(init, row, acc);
  }

  lemma AddNewDistinct<K>(acc: seq<Pair<K>>, row: Pair<K>)
    requires DistinctKeys(acc) && row.key !in Keys(acc)
    ensures DistinctKeys(acc + [row])
  {
    var r := acc + [row];
    forall i, j | 0 <= i < j < |r|
      ensures r[i].key != r[j].key
    {
      if j == |acc| {
        assert Keys(acc)[i] == r[i].key;
      }
    }
  }

  lemma AddNewTotals<K>(init: seq<Pair<K>>, row: Pair<K>, acc: seq<Pair<K>>)
    requires forall p :: p in acc ==> p.total == SumFor(init, p.key)
    requires row.key !in Keys(acc) && row.key !in Keys(init)
    ensures forall p :: p in acc + [row] ==> p.total == SumFor(init + [row], p.key)
  {
    var rows := init + [row];
    assert rows[..|rows| - 1] == init;
    forall p | p in acc + [row]
      ensures p.total == SumFor(rows, p.key)
    {
      if p == row {
        NoRowsNoSum(init, row.key);
      } else {
        var j :| 0 <= j < |acc| && acc[j] == p;
        assert Keys(acc)[j] == p.key;
      }
    }
  }

  lemma {:induction false} NoRowsNoSum<K>(rows: seq<Pair<K>>, k: K)
    requires k !in Keys(rows)
    ensures SumFor(rows, k) == 0
  {
    if |rows| > 0 {
      assert Keys(rows) == Keys(rows[..|rows| - 1]) + [rows[|rows| - 1].key];
      NoRowsNoSum(rows[..|rows| - 1], k);
    }
  }

  /** Sorted by any key, the grouping still has each key of the rows once,
      with the sum of that key's rows. */
  lemma SortedGroupFacts<K>(rows: seq<Pair<K>>, key: Pair<K> -> real)
    ensures DistinctKeys(SortBy(Group(rows), key)) && SortedBy(SortBy(Group(rows), key), key)
    ensures forall k :: k in Keys(SortBy(Group(rows), key)) <==> k in Keys(rows)
    ensures forall i :: 0 <= i < |SortBy(Group(rows), key)| ==>
      SortBy(Group(rows), key)[i].total == SumFor(rows, SortBy(Group(rows), key)[i].key)
  {
    var g := Group(rows);
    var s := SortBy(g, key);
    GroupFacts(rows);
    SortByFacts(g, key);
    PermutationMembers(g, s);
    DistinctKeysPermutation(g, s);
    PermutationKeys(g, s);
    forall i | 0 <= i < |s|
      ensures s[i].total == SumFor(rows, s[i].key)
    {
      assert s[i] in multiset(s);
      assert s[i] in g;
    }
  }

  lemma PermutationKeys<K>(g: seq<Pair<K>>, s: seq<Pair<K>>)
    requires forall p :: p in g <==> p in s
    ensures forall k :: k in Keys(g) <==> k in Keys(s)
  {
    forall k | k in Keys(g)
      ensures k in Keys(s)
    {
      var x :| 0 <= x < |g| && Keys(g)[x] == k;
      assert g[x] in s;
      var y :| 0 <= y < |s| && s[y] == g[x];
      assert Keys(s)[y] == k;
    }
    forall k | k in Keys(s)
      ensures k in Keys(g)
    {
      var y :| 0 <= y < |s| && Keys(s)[y] == k;
      assert s[y] in g;
      var x :| 0 <= x < |g| && g[x] == s[y];
      assert Keys(g)[x] == k;
    }
  }

  lemma DistinctKeysPermutation<K>(g: seq<Pair<K>>, s: seq<Pair<K>>)
    requires DistinctKeys(g) && multiset(g) == multiset(s)
    ensures DistinctKeys(s)
  {
    assert NoDups(g);
    PermutationNoDups(g, s);
    PermutationMembers(g, s);
    forall i, j | 0 <= i < j < |s|
      ensures s[i].key != s[j].key
    {
      assert s[i] in g && s[j] in g;
      var x :| 0 <= x < |g| && g[x] == s[i];
      var y :| 0 <= y < |g| && g[y] == s[j];
    }
  }

  // ---------------------------------------------------------------------------
  // Timeline
  // ---------------------------------------------------------------------------

  /** One per-day row of a pipeline: `{date, count}`, either possibly absent. */
  datatype Point = Point(date: Option<Day>, count: Option<nat>)

  /** A merged timeline entry; its label ("DD/MM") is derived from its date. */
  datatype TimelineEntry = TimelineEntry(date: Day, count: nat) {
    function Label(): string {
      FormatTimelineLabel(IsoDate(date))
    }
  }

  /** Some point carries the day. */
  predicate Names(pts: seq<Point>, d: Day) {
    exists i :: 0 <= i < |pts| && pts[i].date == Some(d)
  }

  /** Some entry is for the day. */
  predicate HasDate(r: seq<TimelineEntry>, d: Day) {
    exists i :: 0 <= i < |r| && r[i].date == d
  }

  /** The rows of the points that carry a date, a missing count read as 0. */
  function DatedRows(pts: seq<Point>): (r: seq<Pair<Day>>)
    ensures forall k :: k in Keys(r) <==> Names(pts, k)
  {
    if |pts| == 0 then []
    else
      var init := DatedRows(pts[..|pts| - 1]);
      var p := pts[|pts| - 1];
      var r := if p.date.Some? then init + [Pair(p.date.value, p.count.GetOr(0))] else init;
      assert Keys(r) == Keys(init) + (if p.date.Some? then [p.date.value] else []);
      forall k | Names(pts, k)
        ensures k in Keys(r)
      {
        var i :| 0 <= i < |pts| && pts[i].date == Some(k);
        if i < |pts| - 1 {
          assert pts[..|pts| - 1][i] == pts[i];
        }
      }
      r
  }

  /** The uploads counted for a day across the points: the sum of the counts
      of the points with that date, a missing count read as 0. */
  function DayTotal(pts: seq<Point>, d: Day): nat {
    if |pts| == 0 then 0
    else
      DayTotal(pts[..|pts| - 1], d) + (if pts[|pts| - 1].date == Some(d) then pts[|pts| - 1].count.GetOr(0) else 0)
  }

  lemma {:induction false} DatedRowsSum(pts: seq<Point>, d: Day)
    ensures SumFor(DatedRows(pts), d) == DayTotal(pts, d)
  {
    if |pts| > 0 {
      DatedRowsSum(pts[..|pts| - 1], d);
    }
  }

  function Entries(ps: seq<Pair<Day>>): (r: seq<TimelineEntry>)
    ensures |r| == |ps|
    ensures forall i :: 0 <= i < |ps| ==>
      r[i] == TimelineEntry(ps[i].key, ps[i].total)
  {
    if |ps| == 0 then [] else [TimelineEntry(ps[0].key, ps[0].total)] + Entries(ps[1..])
  }

  function PairDay(p: Pair<Day>): real { DayKey(p.key) }

  /** `mergeTimelines` of the three pipelines' per-day rows. The entries are
      labelled after sorting rather than before; the label does not take part
      in the order, so the list is the same. */
  function MergeTimelines(a: seq<Point>, b: seq<Point>, c: seq<Point>): seq<TimelineEntry> {
    Entries(SortBy(Group(DatedRows(a + b + c)), PairDay))
  }

  /** One entry per distinct day that some row names; its count is the day's
      total over all three inputs; entries run in ascending date order. */
  lemma MergeTimelinesFacts(a: seq<Point>, b: seq<Point>, c: seq<Point>)
    ensures var r := MergeTimelines(a, b, c);
      (forall i, j :: 0 <= i < j < |r| ==> r[i].date != r[j].date) &&
      (forall d :: HasDate(r, d) <==> Names(a + b + c, d)) &&
      (forall i :: 0 <= i < |r| ==> r[i].count == DayTotal(a + b + c, r[i].date)) &&
      (forall i, j :: 0 <= i < j < |r| ==> DayKey(r[i].date) <= DayKey(r[j].date))
  {
    var pts := a + b + c;
    var rows := DatedRows(pts);
    SortedGroupFacts(rows, PairDay);
    var s := SortBy(Group(rows), PairDay);
    assert MergeTimelines(a, b, c) == Entries(s);
    EntriesFacts(pts, s);
  }

  lemma {:induction false} EntriesFacts(pts: seq<Point>, s: seq<Pair<Day>>)
    requires DistinctKeys(s) && SortedBy(s, PairDay)
    requires forall k :: k in Keys(s) <==> k in Keys(DatedRows(pts))
    requires forall i :: 0 <= i < |s| ==> s[i].total == SumFor(DatedRows(pts), s[i].key)
    ensures var r := Entries(s);
      (forall i, j :: 0 <= i < j < |r| ==> r[i].date != r[j].date) &&
      (forall d :: HasDate(r, d) <==> Names(pts, d)) &&
      (forall i :: 0 <= i < |r| ==> r[i].count == DayTotal(pts, r[i].date)) &&
      (forall i, j :: 0 <= i < j < |r| ==> DayKey(r[i].date) <= DayKey(r[j].date))
  {
    EntriesDates(s);
    EntriesCounts(pts, s);
    EntriesOrdered(s);
  }

  lemma EntriesDates(s: seq<Pair<Day>>)
    ensures forall d :: HasDate(Entries(s), d) <==> d in Keys(s)
  {
    var r := Entries(s);
    forall d
      ensures HasDate(r, d) <==> d in Keys(s)
    {
      if d in Keys(s) {
        var i :| 0 <= i < |s| && Keys(s)[i] == d;
        assert r[i].date == d;
      }
      if HasDate(r, d) {
        var i :| 0 <= i < |r| && r[i].date == d;
        assert Keys(s)[i] == d;
      }
    }
  }

  lemma EntriesCounts(pts: seq<Point>, s: seq<Pair<Day>>)
    requires forall i :: 0 <= i < |s| ==> s[i].total == SumFor(DatedRows(pts), s[i].key)
    ensures forall i :: 0 <= i < |Entries(s)| ==> Entries(s)[i].count == DayTotal(pts, Entries(s)[i].date)
  {
    var r := Entries(s);
    forall i | 0 <= i < |r|
      ensures r[i].count == DayTotal(pts, r[i].date)
    {
      DatedRowsSum(pts, s[i].key);
    }
  }

  lemma EntriesOrdered(s: seq<Pair<Day>>)
    requires SortedBy(s, PairDay)
    ensures forall i, j :: 0 <= i < j < |Entries(s)| ==> DayKey(Entries(s)[i].date) <= DayKey(Entries(s)[j].date)
  {
    var r := Entries(s);
    forall i, j | 0 <= i < j < |r|
      ensures DayKey(r[i].date) <= DayKey(r[j].date)
    {
      assert PairDay(s[i]) <= PairDay(s[j]);
    }
  }

  /** The day with the most uploads: the first of the greatest, none for an
      empty timeline. */
  method BusiestDay(timeline: seq<TimelineEntry>) returns (best: Option<TimelineEntry>)
    ensures best.None? <==> |timeline| == 0
    ensures best.Some? ==> best.value in timeline
    ensures best.Some? ==> forall i :: 0 <= i < |timeline| ==> timeline[i].count <= best.value.count
    ensures best.Some? ==> forall i :: 0 <= i < |timeline| && timeline[i].count == best.value.count ==>
      exists j :: 0 <= j <= i && timeline[j] == best.value
  {
    best := None;
    var k := 0;
    var at := 0;
    while k < |timeline|
      invariant 0 <= k <= |timeline|
      invariant best.None? <==> k == 0
      invariant best.Some? ==> at < k && timeline[at] == best.value
      invariant best.Some? ==> forall i :: 0 <= i < k ==> timeline[i].count <= best.value.count
      invariant best.Some? ==> forall i :: 0 <= i < at ==> timeline[i].count < best.value.count
    {
      if best.None? || timeline[k].count > best.value.count {
        best := Some(timeline[k]);
        at := k;
      }
      k := k + 1;
    }
  }

  // ---------------------------------------------------------------------------
  // Summary, newest uploads and top uploaders
  // ---------------------------------------------------------------------------

  /** The three sources with their report labels. */
  datatype SourceKind = Pdf | Image | Audio

  function KindLabel(k: SourceKind): string {
    match k
    case Pdf => "PDF"
    case Image => "Image/OCR"
    case Audio => "Audio"
  }

  /** The collection an entry of a kind is stored in. */
  function KindCollection(k: SourceKind): DocType {
    match k
    case Pdf => Document
    case Image => OcrDocument
    case Audio => Transcription
  }

  /** One of the newest uploads of a pipeline. */
  datatype RecentEntry = RecentEntry(documentId: string, filename: string, uploadedBy: string, createdAt: int, kind: SourceKind)

  /** A pipeline's output. `count` is its total, absent when it matched nothing;
      `uploaders` has the uploader name, "Unknown" standing for a missing one. */
  datatype Facet = Facet(count: Option<nat>, timeline: seq<Point>, recent: seq<RecentEntry>, uploaders: seq<Pair<string>>)

  const EMPTY_FACET: Facet := Facet(None, [], [], [])

  datatype Summary = Summary(totalUploaded: nat, pdfCount: nat, imageCount: nat, audioCount: nat)

  function Summarize(pdf: Facet, image: Facet, audio: Facet): (s: Summary)
    ensures s.totalUploaded == s.pdfCount + s.imageCount + s.audioCount
    ensures s.pdfCount == pdf.count.GetOr(0) && s.imageCount == image.count.GetOr(0)
    ensures s.audioCount == audio.count.GetOr(0)
  {
    var p := pdf.count.GetOr(0);
    var i := image.count.GetOr(0);
    var a := audio.count.GetOr(0);
    Summary(p + i + a, p, i, a)
  }

  function NewestFirst(e: RecentEntry): real { -(e.createdAt as real) }

  /** The three lists together, newest first, cut to the limit. */
  function RecentDocuments(pdf: Facet, image: Facet, audio: Facet, limit: nat): seq<RecentEntry> {
    Take(SortBy(pdf.recent + image.recent + audio.recent, NewestFirst), limit)
  }

  /** At most `limit` entries, all from the three lists, newest first, and none
      left out that is newer than the last one kept. */
  lemma RecentDocumentsFacts(pdf: Facet, image: Facet, audio: Facet, limit: nat)
    requires limit > 0
    ensures var all := pdf.recent + image.recent + audio.recent;
      var r := RecentDocuments(pdf, image, audio, limit);
      |r| <= limit && |r| == (if limit < |all| then limit else |all|) &&
      (forall i :: 0 <= i < |r| ==> r[i] in all) &&
      (forall i, j :: 0 <= i < j < |r| ==> r[i].createdAt >= r[j].createdAt) &&
      (forall e :: e in all ==> e in r || (limit < |all| && e.createdAt <= r[limit - 1].createdAt))
  {
    var all := pdf.recent + image.recent + audio.recent;
    TopFacts(all, NewestFirst, limit);
  }

  /** The uploader rows with a non-empty name; their totals per name are
      those of all rows. */
  function NamedRows(rows: seq<Pair<string>>): (r: seq<Pair<string>>)
    ensures forall k :: k in Keys(r) <==> k != "" && k in Keys(rows)
  {
    if |rows| == 0 then []
    else
      var init := NamedRows(rows[..|rows| - 1]);
      var p := rows[|rows| - 1];
      var r := if p.key != "" then init + [p] else init;
      assert Keys(rows) == Keys(rows[..|rows| - 1]) + [p.key];
      assert Keys(r) == Keys(init) + (if p.key != "" then [p.key] else []);
      r
  }

  lemma {:induction false} NamedRowsSum(rows: seq<Pair<string>>, k: string)
    requires k != ""
    ensures SumFor(NamedRows(rows), k) == SumFor(rows, k)
  {
    if |rows| > 0 {
      NamedRowsSum(rows[..|rows| - 1], k);
      var init := NamedRows(rows[..|rows| - 1]);
      var p := rows[|rows| - 1];
      if p.key != "" {
        assert (init + [p])[..|init + [p]| - 1] == init;
      }
    }
  }

  function Busiest(p: Pair<string>): real { -(p.total as real) }

  /** The per-uploader totals across the three pipelines, highest first, five at most. */
  function TopUploaders(pdf: Facet, image: Facet, audio: Facet): seq<Pair<string>> {
    Take(SortBy(Group(NamedRows(pdf.uploaders + image.uploaders + audio.uploaders)), Busiest), TOP_UPLOADERS)
  }

  /** Each named uploader at most once, with its total over all three
      pipelines; no unnamed uploader; highest total first; five at most; and
      no named uploader left out has a higher total than the last one listed. */
  lemma TopUploadersFacts(pdf: Facet, image: Facet, audio: Facet)
    ensures var rows := pdf.uploaders + image.uploaders + audio.uploaders;
      var r := TopUploaders(pdf, image, audio);
      |r| <= TOP_UPLOADERS && DistinctKeys(r) &&
      (forall i :: 0 <= i < |r| ==> r[i].key != "" && r[i].key in Keys(rows)) &&
      (forall i :: 0 <= i < |r| ==> r[i].total == SumFor(rows, r[i].key)) &&
      (forall i, j :: 0 <= i < j < |r| ==> r[i].total >= r[j].total) &&
      (forall k :: k != "" && k in Keys(rows) ==>
         k in Keys(r) || (|r| == TOP_UPLOADERS && SumFor(rows, k) <= r[TOP_UPLOADERS - 1].total))
  {
    var rows := pdf.uploaders + image.uploaders + audio.uploaders;
    var named := NamedRows(rows);
    SortedGroupFacts(named, Busiest);
    TopOfSorted(rows, named, SortBy(Group(named), Busiest));
  }

  lemma {:induction false} TopOfSorted(rows: seq<Pair<string>>, named: seq<Pair<string>>, s: seq<Pair<string>>)
    requires named == NamedRows(rows)
    requires DistinctKeys(s) && SortedBy(s, Busiest)
    requires forall k :: k in Keys(s) <==> k in Keys(named)
    requires forall i :: 0 <= i < |s| ==> s[i].total == SumFor(named, s[i].key)
    ensures var r := Take(s, TOP_UPLOADERS);
      |r| <= TOP_UPLOADERS && DistinctKeys(r) &&
      (forall i :: 0 <= i < |r| ==> r[i].key != "" && r[i].key in Keys(rows)) &&
      (forall i :: 0 <= i < |r| ==> r[i].total == SumFor(rows, r[i].key)) &&
      (forall i, j :: 0 <= i < j < |r| ==> r[i].total >= r[j].total) &&
      (forall k :: k != "" && k in Keys(rows) ==>
         k in Keys(r) || (|r| == TOP_UPLOADERS && SumFor(rows, k) <= r[TOP_UPLOADERS - 1].total))
  {
    var r := Take(s, TOP_UPLOADERS);
    TopRows(rows, named, s);
    forall i, j | 0 <= i < j < |r|
      ensures r[i].total >= r[j].total
    {
      assert Busiest(s[i]) <= Busiest(s[j]);
    }
    TopComplete(rows, named, s);
  }

  lemma TopRows(rows: seq<Pair<string>>, named: seq<Pair<string>>, s: seq<Pair<string>>)
    requires named == NamedRows(rows)
    requires forall k :: k in Keys(s) <==> k in Keys(named)
    requires forall i :: 0 <= i < |s| ==> s[i].total == SumFor(named, s[i].key)
    ensures forall i :: 0 <= i < |s| ==> s[i].key != "" && s[i].key in Keys(rows) && s[i].total == SumFor(rows, s[i].key)
  {
    forall i | 0 <= i < |s|
      ensures s[i].key != "" && s[i].key in Keys(rows) && s[i].total == SumFor(rows, s[i].key)
    {
      assert Keys(s)[i] == s[i].key;
      assert s[i].key in Keys(named);
      NamedRowsSum(rows, s[i].key);
    }
  }

  lemma TopComplete(rows: seq<Pair<string>>, named: seq<Pair<string>>, s: seq<Pair<string>>)
    requires named == NamedRows(rows)
    requires SortedBy(s, Busiest)
    requires forall k :: k in Keys(s) <==> k in Keys(named)
    requires forall i :: 0 <= i < |s| ==> s[i].total == SumFor(named, s[i].key)
    ensures var r := Take(s, TOP_UPLOADERS);
      forall k :: k != "" && k in Keys(rows) ==>
        k in Keys(r) || (|r| == TOP_UPLOADERS && SumFor(rows, k) <= r[TOP_UPLOADERS - 1].total)
  {
    var r := Take(s, TOP_UPLOADERS);
    forall k | k != "" && k in Keys(rows)
      ensures k in Keys(r) || (|r| == TOP_UPLOADERS && SumFor(rows, k) <= r[TOP_UPLOADERS - 1].total)
    {
      assert k in Keys(named);
      var j :| 0 <= j < |s| && Keys(s)[j] == k;
      NamedRowsSum(rows, k);
      if j < TOP_UPLOADERS {
        assert Keys(r)[j] == k;
      } else {
        assert Busiest(s[TOP_UPLOADERS - 1]) <= Busiest(s[j]);
      }
    }
  }

  // ---------------------------------------------------------------------------
  // The data set and its errors
  // ---------------------------------------------------------------------------

  datatype Dataset = Dataset(from: string, to: string, summary: Summary, timeline: seq<TimelineEntry>,
                             recentDocuments: seq<RecentEntry>, topUploaders: seq<Pair<string>>)

  /** `buildOperationalDataset`: the range bounds are parsed by `parse` (the
      platform's date parser, absent for an unparsable text); an unparsable
      bound is "Invalid date range". */
  function BuildOperationalDataset(from: string, to: string, parse: string -> Option<int>,
                                   pdf: Facet, image: Facet, audio: Facet, recentLimit: nat): (r: Result<Dataset>)
    ensures r.Err? <==> parse(from).None? || parse(to).None?
    ensures r.Err? ==> r.message == "Invalid date range"
    ensures r.Ok? ==>
      r.value.summary.totalUploaded == pdf.count.GetOr(0) + image.count.GetOr(0) + audio.count.GetOr(0)
    ensures r.Ok? ==> |r.value.recentDocuments| <= recentLimit && |r.value.topUploaders| <= TOP_UPLOADERS
    ensures r.Ok? ==>
      && r.value.from == from && r.value.to == to
      && r.value.summary == Summarize(pdf, image, audio)
      && r.value.timeline == MergeTimelines(pdf.timeline, image.timeline, audio.timeline)
      && r.value.recentDocuments == RecentDocuments(pdf, image, audio, recentLimit)
      && r.value.topUploaders == TopUploaders(pdf, image, audio)
  {
    if parse(from).None? || parse(to).None? then Err("Invalid date range")
    else Ok(Dataset(from, to, Summarize(pdf, image, audio),
                    MergeTimelines(pdf.timeline, image.timeline, audio.timeline),
                    RecentDocuments(pdf, image, audio, recentLimit),
                    TopUploaders(pdf, image, audio)))
  }

  datatype Response = Response(status: nat, body: Result<Dataset>)

  /** `getOperationalReport`: any failure is a 500 carrying its message. */
  function GetOperationalReport(from: string, to: string, parse: string -> Option<int>,
                                pdf: Facet, image: Facet, audio: Facet): (r: Response)
    ensures r.status == 200 <==> parse(from).Some? && parse(to).Some?
    ensures r.status != 200 ==> r.status == 500 && r.body == Err("Invalid date range")
  {
    var d := BuildOperationalDataset(from, to, parse, pdf, image, audio, RECENT_DOC_LIMIT);
    if d.Ok? then Response(200, d) else Response(500, d)
  }

  /** The export's guard: both bounds must be given (non-empty) before anything
      else happens. */
  function ExportStatus(from: string, to: string, parse: string -> Option<int>): (status: nat)
    ensures status == 400 <==> from == "" || to == ""
    ensures status == 500 <==> from != "" && to != "" && (parse(from).None? || parse(to).None?)
    ensures status == 200 <==> from != "" && to != "" && parse(from).Some? && parse(to).Some?
  {
    if from == "" || to == "" then 400
    else if parse(from).None? || parse(to).None? then 500
    else 200
  }

  // ---------------------------------------------------------------------------
  // Details of the listed uploads
  // ---------------------------------------------------------------------------

  /** A listed upload with the record it was found in. The detail fields are
      derived from the two: the record's text (or transcript), its snippet, its
      entities, and uploader, file name and creation time taken from the
      record unless empty there. */
  datatype Hydrated = Hydrated(entry: RecentEntry, source: StoredDoc) {
    function Text(): string { SourceText(source) }
    function SnippetText(): string { Snippet(SourceText(source)) }
    function Entities(): EntityTexts { source.entities }
    function UploadedBy(): string { if source.uploadedBy != "" then source.uploadedBy else entry.uploadedBy }
    function Filename(): string { if source.filename != "" then source.filename else entry.filename }
    function CreatedAt(): int { if source.createdAt != 0 then source.createdAt else entry.createdAt }
  }

  /** `text || transcript || ""`. */
  function SourceText(d: StoredDoc): string {
    if d.text != "" then d.text else d.transcript
  }

  /** Text in the shape the cleanup leaves: no whitespace but plain spaces,
      never two spaces in a row, and none at the start. */
  predicate Tidy(s: string) {
    (|s| > 0 ==> !IsWs(s[0])) &&
    (forall k :: 0 <= k < |s| && IsWs(s[k]) ==> s[k] == ' ') &&
    (forall k :: 0 <= k < |s| - 1 ==> !(s[k] == ' ' && s[k + 1] == ' '))
  }

  lemma TrimKeepsSpacing(c: string)
    requires forall k :: 0 <= k < |c| ==> (IsWs(c[k]) ==> c[k] == ' ')
    requires forall k :: 0 <= k < |c| - 1 ==> !(c[k] == ' ' && c[k + 1] == ' ')
    ensures Tidy(Trim(c))
  {
    var s := TrimStart(c);
    var t := TrimEnd(s);
    var off := |c| - |s|;
    assert forall k :: 0 <= k < |t| ==> t[k] == s[k] == c[off + k];
  }

  /** `text.replace(/\s+/g, " ").trim()`. */
  function Cleaned(text: string): (r: string)
    ensures Tidy(r) && (|r| > 0 ==> !IsWs(r[|r| - 1]))
    ensures |r| <= |text|
  {
    TrimKeepsSpacing(CollapseWs(text));
    Trim(CollapseWs(text))
  }

  /** The words of a text: the non-empty pieces between whitespace runs. */
  function Words(s: string): (r: seq<string>)
    ensures forall i :: 0 <= i < |r| ==> r[i] != "" && forall k :: 0 <= k < |r[i]| ==> !IsWs(r[i][k])
  {
    Filter(SplitWs(s), (w: string) => w != "")
  }

  /** The cleanup is the text's words joined by single spaces. */
  lemma {:induction false} CleanedIsWords(s: string)
    ensures Cleaned(s) == Join(Words(s), " ")
    decreases |s|
  {
    var i := NextWs(s, 0);
    if i == |s| {
      assert SplitWs(s) == [s];
      CleanedPlain(s);
    } else {
      var j := WsRunEnd(s, i);
      var a, rest := s[..i], s[j..];
      SplitAtFirstRun(s);
      var c := CollapseWs(rest);
      CleanedIsWords(rest);
      var w := Words(rest);
      assert Words(s) == (if a != "" then [a] else []) + w;
      TrimNoLead(c);
      JoinNonEmpty(w);
      assert Cleaned(s) == Trim(a + " " + c);
      if a == "" {
        assert a + " " + c == " " + c;
        TrimSpaceLead(c);
      } else {
        assert !IsWs(a[0]) && !IsWs(a[|a| - 1]);
        TrimNoLead(a + " " + c);
        TrimEndAfterWord(a, c);
      }
    }
  }

  /** At the first whitespace run, the split takes the word before it and
      the collapse turns the run into one space. */
  lemma SplitAtFirstRun(s: string)
    requires NextWs(s, 0) < |s|
    ensures var i := NextWs(s, 0); var j := WsRunEnd(s, i);
      && SplitWs(s) == [s[..i]] + SplitWs(s[j..])
      && CollapseWs(s) == s[..i] + " " + CollapseWs(s[j..])
      && (|CollapseWs(s[j..])| > 0 ==> !IsWs(CollapseWs(s[j..])[0]))
  {
    var j := WsRunEnd(s, NextWs(s, 0));
    OcrLayout.FirstRunStep(s);
    assert j < |s| ==> s[j..][0] == s[j];
  }

  /** Text that does not start with whitespace loses only its tail. */
  lemma TrimNoLead(c: string)
    requires |c| > 0 ==> !IsWs(c[0])
    ensures Trim(c) == TrimEnd(c)
  {
    assert TrimStart(c) == c;
  }

  /** A leading space goes with the trim. */
  lemma TrimSpaceLead(c: string)
    requires |c| > 0 ==> !IsWs(c[0])
    ensures Trim(" " + c) == Trim(c)
  {
    assert (" " + c)[1..] == c;
    assert TrimStart(" " + c) == TrimStart(c);
  }

  /** Trimming a word, a space and more text keeps the word, and the space
      only when something is left of the rest. */
  lemma TrimEndAfterWord(a: string, c: string)
    requires |a| > 0 && !IsWs(a[|a| - 1])
    ensures TrimEnd(c) == "" ==> TrimEnd(a + " " + c) == a
    ensures TrimEnd(c) != "" ==> TrimEnd(a + " " + c) == a + " " + TrimEnd(c)
  {
    var x := a + " " + c;
    var t := TrimEnd(c);
    var n := if t == "" then |a| else |a| + 1 + |t|;
    assert x[..n] == if t == "" then a else a + " " + t;
    forall k | n <= k < |x| ensures IsWs(x[k]) {
      if t == "" && k == |a| {
        assert x[k] == ' ';
      } else {
        assert x[k] == c[k - |a| - 1];
      }
    }
    assert !IsWs(x[n - 1]);
    TrimEndUnique(x, n);
  }

  /** `TrimEnd` keeps exactly the prefix up to the last non-whitespace. */
  lemma TrimEndUnique(x: string, n: nat)
    requires 0 < n <= |x| && !IsWs(x[n - 1])
    requires forall k :: n <= k < |x| ==> IsWs(x[k])
    ensures TrimEnd(x) == x[..n]
  {
  }

  /** Joining non-empty pieces is empty exactly when there are none. */
  lemma {:induction false} JoinNonEmpty(w: seq<string>)
    requires forall i :: 0 <= i < |w| ==> w[i] != ""
    ensures Join(w, " ") == "" <==> |w| == 0
  {
    if |w| > 0 {
      assert |Join(w, " ")| >= |w[0]| by {
        if |w| > 1 {
          assert Join(w, " ") == w[0] + " " + Join(w[1..], " ");
        }
      }
    }
  }

  lemma {:induction false} CollapsePlain(s: string)
    requires forall k :: 0 <= k < |s| ==> !IsWs(s[k])
    ensures CollapseWs(s) == s
  {
    if |s| > 0 {
      CollapsePlain(s[1..]);
      assert [s[0]] + s[1..] == s;
    }
  }

  /** A text without whitespace is left as it is. */
  lemma CleanedPlain(text: string)
    requires forall k :: 0 <= k < |text| ==> !IsWs(text[k])
    ensures Cleaned(text) == text
  {
    CollapsePlain(text);
  }

  lemma TidyPrefix(s: string, n: nat)
    requires Tidy(s) && n <= |s|
    ensures Tidy(s[..n])
  {
  }

  /** The cleaned text cut to 400 characters. */
  function Snippet(text: string): (r: string)
    ensures |r| <= SNIPPET_LENGTH && |r| <= |Cleaned(text)| && r == Cleaned(text)[..|r|]
    ensures |Cleaned(text)| <= SNIPPET_LENGTH ==> r == Cleaned(text)
    ensures |Cleaned(text)| > SNIPPET_LENGTH ==> |r| == SNIPPET_LENGTH
    ensures Tidy(r)
  {
    var c := Cleaned(text);
    TidyPrefix(c, if |c| < SNIPPET_LENGTH then |c| else SNIPPET_LENGTH);
    Prefix(c, SNIPPET_LENGTH)
  }

  /** The record of an entry: PDFs among the uploaded documents, audio among
      the transcriptions, anything else among the OCR documents. */
  function Lookup(e: RecentEntry, lib: Library): Option<StoredDoc> {
    FindDoc(lib.Get(KindCollection(e.kind)), e.documentId)
  }

  function EntryList(r: seq<Hydrated>): (es: seq<RecentEntry>)
    ensures |es| == |r| && forall i :: 0 <= i < |r| ==> es[i] == r[i].entry
  {
    if |r| == 0 then [] else [r[0].entry] + EntryList(r[1..])
  }

  /** `hydrateDocumentDetails`: each entry with the record it names; entries
      without a record are dropped. */
  function HydrateDocumentDetails(entries: seq<RecentEntry>, lib: Library): (r: seq<Hydrated>)
    ensures |r| <= |entries|
    ensures forall i {:trigger Lookup(r[i].entry, lib)} :: 0 <= i < |r| ==> Lookup(r[i].entry, lib) == Some(r[i].source)
  {
    if |entries| == 0 then []
    else
      var rest := HydrateDocumentDetails(entries[1..], lib);
      match Lookup(entries[0], lib)
      case None => rest
      case Some(src) => [Hydrated(entries[0], src)] + rest
  }

  /** Whether an entry's record exists. */
  function Found(lib: Library): RecentEntry -> bool {
    (e: RecentEntry) => Lookup(e, lib).Some?
  }

  /** The kept entries are those whose record exists, in the input's order. */
  lemma {:induction false} HydrateInOrder(entries: seq<RecentEntry>, lib: Library)
    ensures EntryList(HydrateDocumentDetails(entries, lib)) == Filter(entries, Found(lib))
  {
    if |entries| > 0 {
      HydrateInOrder(entries[1..], lib);
      var rest := HydrateDocumentDetails(entries[1..], lib);
      if Lookup(entries[0], lib).Some? {
        assert EntryList([Hydrated(entries[0], Lookup(entries[0], lib).value)] + rest) == [entries[0]] + EntryList(rest);
      }
    }
  }

  /** An entry is kept exactly when its record exists. */
  lemma HydrateKeepsFound(entries: seq<RecentEntry>, lib: Library)
    ensures forall e :: e in EntryList(HydrateDocumentDetails(entries, lib)) <==> e in entries && Lookup(e, lib).Some?
  {
    HydrateInOrder(entries, lib);
    assert forall e :: e in entries && Lookup(e, lib).Some? ==> Found(lib)(e);
  }
}

=== FILE: transcription.dfy ===
/** The audio transcription route: the upload check, the normalisation of the
    model's entity lists, the summary fallback, the record that is saved, and
    the agency check when a transcription is read back.

    Transcription, entity extraction and summarisation are parameters; event
    linking and alert checks run after the record is saved, are caught, and do
    not change the reply, so they are left to their own modules. */
module TranscriptionRoute {
  import opened Wrappers
  import opened Json

  const GROQ_CONFIDENCE: real := 0.85

  /** A normalised entity as the route stores it. */
  datatype GroqEntity = GroqEntity(text: Json, confidence: Json, source: Json)

  /** The five stored categories. */
  datatype GroqEntities = GroqEntities(persons: seq<GroqEntity>, places: seq<GroqEntity>,
                                       organizations: seq<GroqEntity>, dates: seq<GroqEntity>,
                                       phoneNumbers: seq<GroqEntity>)

  /** A field of a value that is not null: objects have their own fields,
      nothing else has these names. */
  function Prop(e: Json, key: string): (r: Option<Json>)
    ensures r.Some? <==> e.JObj? && key in e.fields
  {
    if e.JObj? && key in e.fields then Some(e.fields[key]) else None
  }

  /** One entity: a string becomes `{text, 0.85, "groq"}`; anything else keeps
      its truthy text, confidence and source, defaulting to empty text, 0.85
      and `groq`. Reading a property of null throws. */
  function NormalizeEntity(e: Json): (r: Result<GroqEntity>)
    ensures r.Err? <==> e == JNull
    ensures e.JStr? ==> r == Ok(GroqEntity(e, JNum(GROQ_CONFIDENCE), JStr("groq")))
    ensures r.Ok? && !e.JStr? ==>
      r.value.text == OrElse(Prop(e, "text"), JStr("")) &&
      r.value.confidence == OrElse(Prop(e, "confidence"), JNum(GROQ_CONFIDENCE)) &&
      r.value.source == OrElse(Prop(e, "source"), JStr("groq"))
    ensures r.Ok? ==> Truthy(r.value.confidence) && Truthy(r.value.source)
  {
    match e
    case JNull => Err("Cannot read properties of null (reading 'text')")
    case JStr(_) => Ok(GroqEntity(e, JNum(GROQ_CONFIDENCE), JStr("groq")))
    case _ =>
      Ok(GroqEntity(OrElse(Prop(e, "text"), JStr("")), OrElse(Prop(e, "confidence"), JNum(GROQ_CONFIDENCE)),
                    OrElse(Prop(e, "source"), JStr("groq"))))
  }

  /** `ensureArray(v).map(normalise)`: a missing or non-array value gives an
      empty list; an array gives one entry per item unless an item is null. */
  function NormalizeCategory(v: Option<Json>): (r: Result<seq<GroqEntity>>)
    ensures !(v.Some? && v.value.JArr?) ==> r == Ok([])
    ensures v.Some? && v.value.JArr? ==>
      (r.Ok? <==> forall i :: 0 <= i < |v.value.items| ==> v.value.items[i] != JNull)
    ensures r.Ok? && v.Some? && v.value.JArr? ==>
      |r.value| == |v.value.items| &&
      forall i :: 0 <= i < |r.value| ==> Ok(r.value[i]) == NormalizeEntity(v.value.items[i])
  {
    if v.Some? && v.value.JArr? then NormalizeAll(v.value.items) else Ok([])
  }

  function NormalizeAll(items: seq<Json>): (r: Result<seq<GroqEntity>>)
    ensures r.Ok? <==> forall i :: 0 <= i < |items| ==> items[i] != JNull
    ensures r.Ok? ==>
      |r.value| == |items| &&
      forall i :: 0 <= i < |items| ==> Ok(r.value[i]) == NormalizeEntity(items[i])
  {
    if |items| == 0 then Ok([])
    else
      match NormalizeEntity(items[0])
      case Err(m) => Err(m)
      case Ok(e) =>
        match NormalizeAll(items[1..])
        case Err(m) =>
          assert exists i :: 1 <= i < |items| && items[i] == JNull by {
            var i :| 0 <= i < |items[1..]| && items[1..][i] == JNull;
            assert items[i + 1] == JNull;
          }
          Err(m)
        case Ok(rest) => Ok([e] + rest)
  }

  /** The field of the extractor's object, if it returned one. */
  function EntityField(entities: Option<map<string, Json>>, key: string): (r: Option<Json>)
    ensures entities.None? ==> r.None? || r == Some(JArr([]))
  {
    match entities
    case None => if key == "persons" || key == "places" || key == "organizations" then Some(JArr([])) else None
    case Some(m) => if key in m then Some(m[key]) else None
  }

  /** What the extractor gave: a thrown error, or its parsed reply (None for
      null or undefined). */
  type EntityReply = Result<Option<Json>>

  /** The object the route normalises. A falsy reply stands for the default
      lists (None); an object is used as it is, and an array has no such
      fields. Setting `persons` on any other truthy value throws in strict
      mode, as does the extractor's own error. */
  function EntitiesObject(reply: EntityReply): (r: Result<Option<map<string, Json>>>)
    ensures reply.Err? ==> r == Err(reply.message)
    ensures reply.Ok? && (reply.value.None? || !Truthy(reply.value.value)) ==> r == Ok(None)
    ensures reply.Ok? && reply.value.Some? && reply.value.value.JObj? ==> r == Ok(Some(reply.value.value.fields))
    ensures r.Err? <==> reply.Err? || (reply.value.Some? && Truthy(reply.value.value) &&
                                        !reply.value.value.JObj? && !reply.value.value.JArr?)
  {
    match reply
    case Err(m) => Err(m)
    case Ok(None) => Ok(None)
    case Ok(Some(v)) =>
      if !Truthy(v) then Ok(None)
      else match v
        case JObj(m) => Ok(Some(m))
        case JArr(_) => Ok(Some(map[]))
        case _ => Err(CREATE_PROPERTY_ERROR)
  }

  /** The strict-mode error of assigning a property to a primitive. */
  const CREATE_PROPERTY_ERROR: string := "Cannot create property 'persons' on a primitive value"

  /** All five categories normalised; a falsy extractor result stands for
      empty persons, places and organizations. */
  function NormalizeEntities(entities: Option<map<string, Json>>): (r: Result<GroqEntities>)
    ensures entities.None? ==> r == Ok(GroqEntities([], [], [], [], []))
    ensures r.Ok? <==>
      NormalizeCategory(EntityField(entities, "persons")).Ok? && NormalizeCategory(EntityField(entities, "places")).Ok? &&
      NormalizeCategory(EntityField(entities, "organizations")).Ok? && NormalizeCategory(EntityField(entities, "dates")).Ok? &&
      NormalizeCategory(EntityField(entities, "phoneNumbers")).Ok?
    ensures r.Ok? ==>
      Ok(r.value.persons) == NormalizeCategory(EntityField(entities, "persons")) &&
      Ok(r.value.places) == NormalizeCategory(EntityField(entities, "places")) &&
      Ok(r.value.organizations) == NormalizeCategory(EntityField(entities, "organizations")) &&
      Ok(r.value.dates) == NormalizeCategory(EntityField(entities, "dates")) &&
      Ok(r.value.phoneNumbers) == NormalizeCategory(EntityField(entities, "phoneNumbers"))
  {
    match NormalizeCategory(EntityField(entities, "persons"))
    case Err(m) => Err(m)
    case Ok(persons) =>
      match NormalizeCategory(EntityField(entities, "places"))
      case Err(m) => Err(m)
      case Ok(places) =>
        match NormalizeCategory(EntityField(entities, "organizations"))
        case Err(m) => Err(m)
        case Ok(organizations) =>
          match NormalizeCategory(EntityField(entities, "dates"))
          case Err(m) => Err(m)
          case Ok(dates) =>
            match NormalizeCategory(EntityField(entities, "phoneNumbers"))
            case Err(m) => Err(m)
            case Ok(phoneNumbers) => Ok(GroqEntities(persons, places, organizations, dates, phoneNumbers))
  }

  /** The summary record used when the summary step fails or gives nothing. */
  const EMPTY_SUMMARY: Json :=
    JObj(map["executiveSummary" := JStr(""), "keyFindings" := JArr([]), "entityInsights" := JObj(map[]),
             "analystTakeaways" := JArr([])])

  /** What the summary step did: threw, or returned a value (None for
      null or undefined). */
  datatype SummaryOutcome = SummaryThrew | SummaryReturned(value: Option<Json>)

  /** The summary that is saved: a truthy result as it is, otherwise the empty
      summary record. */
  function SavedSummary(o: SummaryOutcome): (r: Json)
    ensures o.SummaryReturned? && o.value.Some? && Truthy(o.value.value) ==> r == o.value.value
    ensures !(o.SummaryReturned? && o.value.Some? && Truthy(o.value.value)) ==> r == EMPTY_SUMMARY
    ensures Truthy(r)
  {
    match o
    case SummaryReturned(Some(v)) => if Truthy(v) then v else EMPTY_SUMMARY
    case _ => EMPTY_SUMMARY
  }

  /** The stored upload: its client name and the name it was saved under. */
  datatype StoredFile = StoredFile(originalName: string, filename: string)

  /** The authenticated user. */
  datatype AuthUser = AuthUser(username: string, agency: Option<string>)

  datatype TranscriptionRec = TranscriptionRec(
    filename: string,
    originalAudio: string,
    transcript: string,
    entities: GroqEntities,
    agency: Option<string>,
    uploadedBy: string,
    aiSummary: Json,
    visibility: seq<Option<string>>,
    processingTime: int,
    status: string)

  datatype Reply = Failure(status: nat, error: string) | Saved(rec: TranscriptionRec)

  /** `a || b` on optional strings. */
  function Either(a: Option<string>, b: Option<string>): (r: Option<string>)
    ensures a.Some? && a.value != "" ==> r == a
    ensures !(a.Some? && a.value != "") ==> r == b
  {
    if a.Some? && a.value != "" then a else b
  }

  /** The reply of the outer handler for an error: its message, or a
      generic one. */
  function ServerError(m: string): (r: Reply)
    ensures r.Failure? && r.status == 500 && r.error != ""
  {
    Failure(500, if m != "" then m else "Failed to process audio file")
  }

  /** `POST /process`. Without a file the reply is 400. A failed transcription,
      a thrown or unusable extractor reply, or an entity list holding null is
      a 500 carrying the error's message (or a generic one). Otherwise the
      saved record is visible to the uploading agency only and is
      `completed`. */
  function Process(file: Option<StoredFile>, bodyUser: Option<string>, bodyAgency: Option<string>, user: AuthUser,
                   transcribe: Result<string>, aiEntities: EntityReply, summary: SummaryOutcome,
                   start: int, end: int): (r: Reply)
    ensures file.None? ==> r == Failure(400, "No audio file provided")
    ensures file.Some? && transcribe.Err? ==> r == ServerError(transcribe.message)
    ensures file.Some? && transcribe.Ok? && EntitiesObject(aiEntities).Err? ==>
      r == ServerError(EntitiesObject(aiEntities).message)
    ensures r.Saved? ==>
      file.Some? && transcribe.Ok? && EntitiesObject(aiEntities).Ok? &&
      r.rec.visibility == [r.rec.agency] && r.rec.status == "completed" &&
      r.rec.agency == Either(bodyAgency, user.agency) &&
      r.rec.uploadedBy == Either(bodyUser, Some(user.username)).GetOr("") &&
      r.rec.filename == file.value.originalName &&
      r.rec.originalAudio == "/uploads/" + file.value.filename &&
      r.rec.transcript == transcribe.value &&
      Ok(r.rec.entities) == NormalizeEntities(EntitiesObject(aiEntities).value) &&
      r.rec.aiSummary == SavedSummary(summary) &&
      r.rec.processingTime == end - start
    ensures file.Some? && transcribe.Ok? ==>
      (r.Saved? <==> EntitiesObject(aiEntities).Ok? && NormalizeEntities(EntitiesObject(aiEntities).value).Ok?)
    ensures r.Failure? ==> r.status in {400, 500}
  {
    match file
    case None => Failure(400, "No audio file provided")
    case Some(f) =>
      var userId := Either(bodyUser, Some(user.username)).GetOr("");
      var agency := Either(bodyAgency, user.agency);
      match transcribe
      case Err(m) => ServerError(m)
      case Ok(transcript) =>
        match EntitiesObject(aiEntities)
        case Err(m) => ServerError(m)
        case Ok(obj) =>
          match NormalizeEntities(obj)
          case Err(m) => ServerError(m)
          case Ok(entities) =>
            Saved(TranscriptionRec(f.originalName, "/uploads/" + f.filename, transcript, entities, agency, userId,
                                   SavedSummary(summary), [agency], end - start, "completed"))
  }

  /** `GET /:id`: 404 when there is no such record, 403 unless the reader's
      agency is among the record's visibility, otherwise 200. */
  function ViewStatus(store: map<string, TranscriptionRec>, id: string, agency: Option<string>): (status: nat)
    ensures id !in store ==> status == 404
    ensures id in store ==> (status == 200 <==> agency in store[id].visibility)
    ensures status in {200, 403, 404}
  {
    if id !in store then 404
    else if agency in store[id].visibility then 200
    else 403
  }

  /** What is saved can be read back by the agency that saved it, and by no
      other agency. */
  lemma SavedReadableByOwnAgency(store: map<string, TranscriptionRec>, id: string, file: Option<StoredFile>,
                                 bodyUser: Option<string>, bodyAgency: Option<string>, user: AuthUser,
                                 transcribe: Result<string>, aiEntities: EntityReply,
                                 summary: SummaryOutcome, start: int, end: int, reader: Option<string>)
    requires Process(file, bodyUser, bodyAgency, user, transcribe, aiEntities, summary, start, end).Saved?
    ensures var rec := Process(file, bodyUser, bodyAgency, user, transcribe, aiEntities, summary, start, end).rec;
      ViewStatus(store[id := rec], id, reader) == (if reader == Either(bodyAgency, user.agency) then 200 else 403)
  {
  }

  /** With no entity object from the extractor (null, or any falsy reply)
      the record holds five empty categories. */
  lemma NoEntitiesEmpty(file: StoredFile, bodyUser: Option<string>, bodyAgency: Option<string>, user: AuthUser,
                        transcript: string, reply: Option<Json>, summary: SummaryOutcome, start: int, end: int)
    requires reply.None? || !Truthy(reply.value)
    ensures var r := Process(Some(file), bodyUser, bodyAgency, user, Ok(transcript), Ok(reply), summary, start, end);
      r.Saved? && r.rec.entities == GroqEntities([], [], [], [], [])
  {
  }

  /** A thrown extractor error fails the upload with its message: nothing is
      saved. */
  lemma ExtractorErrorFails(file: StoredFile, bodyUser: Option<string>, bodyAgency: Option<string>, user: AuthUser,
                            transcript: string, m: string, summary: SummaryOutcome, start: int, end: int)
    ensures Process(Some(file), bodyUser, bodyAgency, user, Ok(transcript), Err(m), summary, start, end) ==
      Failure(500, if m != "" then m else "Failed to process audio file")
  {
  }
}

=== FILE: upload.dfy ===
/** The audio upload filter and the name an accepted upload is stored under. */
module Upload {
  import opened Wrappers
  import opened Strings

  /** The extensions the filter's pattern lists, without their dot. */
  const AUDIO_EXTENSIONS: seq<string> := ["mp3", "wav", "m4a", "mp4"]

  /** The eight accepted MIME types. */
  const AUDIO_MIME_TYPES: seq<string> :=
    ["audio/mpeg", "audio/mp3", "audio/wav", "audio/x-wav", "audio/wave", "audio/m4a", "audio/mp4", "video/mp4"]

  /** `/\.(mp3|wav|m4a|mp4)$/i.test(s)`: some dot in `s` is followed, up to the
      end, by a listed extension in any letter case. */
  predicate PatternMatches(s: string) {
    exists i :: 0 <= i < |s| && s[i] == '.' && Lower(s[i + 1..]) in AUDIO_EXTENSIONS
  }

  /** On an extension as `path.extname` gives it, the pattern matches exactly
      when the part after the leading dot is a listed extension. */
  lemma ExtensionMatches(name: string)
    ensures PatternMatches(ExtName(name)) <==>
      ExtName(name) != "" && Lower(ExtName(name)[1..]) in AUDIO_EXTENSIONS
  {
    var e := ExtName(name);
    if PatternMatches(e) {
      var i :| 0 <= i < |e| && e[i] == '.' && Lower(e[i + 1..]) in AUDIO_EXTENSIONS;
      assert i == 0;
    }
  }

  /** The file as the multipart parser describes it. */
  datatype FileInfo = FileInfo(originalName: string, mimeType: string)

  /** `fileFilter`: accepted when the extension and the MIME type both pass;
      otherwise refused with an error naming the MIME type. */
  function FileFilter(f: FileInfo): (r: Result<bool>)
    ensures r.Ok? ==> r.value
    ensures r.Ok? <==> PatternMatches(ExtName(f.originalName)) && f.mimeType in AUDIO_MIME_TYPES
    ensures r.Err? ==> r.message == "Only audio files are allowed. Got: " + f.mimeType
  {
    if PatternMatches(ExtName(f.originalName)) && f.mimeType in AUDIO_MIME_TYPES then Ok(true)
    else Err("Only audio files are allowed. Got: " + f.mimeType)
  }

  /** Only the final extension counts: an audio extension followed by another
      one is refused, whatever the MIME type. */
  lemma DoubleExtensionRefused()
    ensures FileFilter(FileInfo("x.mp3.exe", "audio/mpeg")).Err?
  {
    var e := ExtName("x.mp3.exe");
    ExtensionMatches("x.mp3.exe");
    LastExtensionOnly();
    ExeNotListed();
    if e != "" {
      assert Lower(e[1..]) == "exe";
    }
  }

  /** `exe` is not an audio extension, in any letter case. */
  lemma ExeNotListed()
    ensures Lower("exe") == "exe" && "exe" !in AUDIO_EXTENSIONS
  {
    LowerUnchanged("exe");
    forall i | 0 <= i < |AUDIO_EXTENSIONS| ensures AUDIO_EXTENSIONS[i] != "exe" {
      assert AUDIO_EXTENSIONS[i][0] != 'e';
    }
  }

  /** The extension of `x.mp3.exe` is `.exe`: the last dot is the one kept. */
  lemma LastExtensionOnly()
    ensures ExtName("x.mp3.exe") == "" || ExtName("x.mp3.exe")[1..] == "exe"
  {
    var n := "x.mp3.exe";
    assert n[5] == '.' && n[6] != '.' && n[7] != '.' && n[8] != '.';
    ExtensionFromLastDot(n, 5);
    assert n[6..] == "exe";
  }

  /** A name's extension, when it has one, runs from its last dot. */
  lemma ExtensionFromLastDot(n: string, d: nat)
    requires d < |n| && n[d] == '.' && forall k :: d < k < |n| ==> n[k] != '.'
    ensures ExtName(n) == "" || ExtName(n) == n[d..]
  {
    var e := ExtName(n);
    if e != "" {
      SuffixFromLastDot(n, e, d);
    }
  }

  /** A dot-led, dot-free suffix of a name starts at the name's last dot. */
  lemma SuffixFromLastDot(n: string, e: string, d: nat)
    requires d < |n| && n[d] == '.' && forall k :: d < k < |n| ==> n[k] != '.'
    requires e != "" && e[0] == '.' && forall k :: 1 <= k < |e| ==> e[k] != '.'
    requires EndsWith(n, e)
    ensures e == n[d..]
  {
    var start := |n| - |e|;
    assert n[start] == e[0];
  }

  /** The name an accepted upload is stored under: the time in milliseconds,
      a hyphen, and the client's file name. */
  function StoredName(now: nat, originalName: string): (r: string)
    ensures |r| > |originalName| && EndsWith(r, originalName)
  {
    NatToString(now) + "-" + originalName
  }

  /** The part of a stored name after its first hyphen. */
  function AfterFirstHyphen(s: string): (r: string)
    ensures |r| <= |s| && EndsWith(s, r)
  {
    if |s| == 0 then ""
    else if s[0] == '-' then s[1..]
    else AfterFirstHyphen(s[1..])
  }

  /** The time stamp holds no hyphen, so the client's name is recovered from a
      stored name by dropping everything up to the first hyphen. */
  lemma StoredNameRecovers(now: nat, originalName: string)
    ensures AfterFirstHyphen(StoredName(now, originalName)) == originalName
  {
    var d := NatToString(now);
    DigitsThenHyphen(d, originalName);
  }

  lemma {:induction false} DigitsThenHyphen(d: string, rest: string)
    requires forall i :: 0 <= i < |d| ==> '0' <= d[i] <= '9'
    ensures AfterFirstHyphen(d + "-" + rest) == rest
    decreases |d|
  {
    if |d| > 0 {
      assert (d + "-" + rest)[1..] == d[1..] + "-" + rest;
      DigitsThenHyphen(d[1..], rest);
    } else {
      assert d + "-" + rest == "-" + rest;
    }
  }
}
